=== FILE: README.md ===
# A verified model of the Android Wi-Fi framework's decision logic

This project models, in Dafny, the small deterministic pieces of logic in
the Android Wi-Fi service and its legacy vendor HAL. Each piece is an
immutable state record with pure transition functions: an event and the
answers of the framework, vendor or supplicant go in, and a new state and
the effects it emits come out. Encoders and decoders are pure functions
with round-trip lemmas. Where a later call's answer decides what happens,
that answer is a parameter. It is never specified.

One module per component:

- `HalService`, `ChipService`, `FailureReason`: the legacy vendor HAL
  (`wifi_hal_legacy/`). This is the STOPPED / STARTED / STOPPING service
  with its two stop barriers, the invalidatable chip proxy with its debug
  info, and the mapping of vendor error codes to failure reasons.
- `NetworkSelector`, `RecommendedEvaluator`, `PasspointEvaluator`: the
  BSSID blacklist, the evaluator registry, scan filtering, the selection
  gate and loop, and two evaluators.
- `AnqpRequestManager`, `AnqpNetworkKey`: the ANQP exponential hold-off
  and the ANQP cache key with its Java `hashCode`.
- `NaiRealmData`: the NAI Realm Data parser and matcher of IEEE
  802.11-2012 section 8.4.4.10.
- `TelephonyUtil`: the permanent EAP-SIM/AKA identity (the WLAN root NAI
  of 3GPP TS 23.003 clause 14.2), the hex codec, and the decoding of the
  SIM's GSM and 3G authentication answers.
- `Permissions`: `canAccessScanResults` and its helper predicates.
- `WakeupController`, `NotificationController`: the Wi-Fi Wakeup SSID
  sets, and the open-network notification counter with its repeat timer.
- `StateMachinePrime`, `SoftApManager`, `ModeManagers`: the mode switch
  with its queue of soft-AP configurations, and the Idle/Started machines
  of the soft-AP, scan-only and client mode managers.
- `AwareNativeManager`, `NanNative`, `NativeNew`:
  - the layered Wi-Fi Aware bring-up over HIDL;
  - the NAN init flag, operation wrappers and status translation tables;
  - the STA chip-mode search and the scan-capability query of `WifiNativeNew`.
- `MeshParsing`, `MeshStateMachine`: the mesh service's scan-result and
  network-list parsers, `connect`, and its hierarchical state machine.
- `Parcels`: the wificond parcelables. A parcel is a sequence of
  `Int | Bytes` tokens.
- `Wrappers`, `WifiTypes`, `JavaStrings`: shared support.
  - `Wrappers` holds `Option` and `Result`.
  - `WifiTypes` holds the framework's scan-result and configuration
    records, reduced to the fields read.
  - `JavaStrings` holds the Java library string helpers the code calls:
    `String.split` on one character, `startsWith`, `contains`,
    `Integer.parseInt` and `Long.parseLong`. These model the Java library,
    not this repository, so they have no rows below.

Exceptions that the source lets escape are modelled as an error result
(`None` or `Failure`). Java's fixed-width integer arithmetic is written
out wherever the width matters: the `long`/`int` wrap-around of the ANQP
hash, the `int` successor in mesh paging, and signed bytes in the SIM
answers.

## Model

| member | source | states |
|---|---|---|
| FailureReason.CreateFailureReason | wifi_hal_legacy/failure_reason_util.cpp:25-31 | the record carries exactly the given reason and description |
| FailureReason.CreateFailureReasonLegacyError | wifi_hal_legacy/failure_reason_util.cpp:33-64 | each reason is produced by exactly its legacy error codes (both directions); the three resource errors keep the caller's text plus their own suffix, and every unrecognised code yields UNKNOWN with the text "unknown" |
| HalService.Init | wifi_hal_legacy/wifi_hal_service.cpp:47-51 | a new service is STOPPED with no callbacks and is in the reachable set |
| HalService.RegisterEventCallback | wifi_hal_legacy/wifi_hal_service.cpp:53-57 | the callback set grows by exactly the new callback and nothing else in the service changes |
| HalService.IsStarted | wifi_hal_legacy/wifi_hal_service.cpp:59-61 | reports started for STARTED and STOPPING, i.e. exactly when the service is not STOPPED |
| HalService.Start | wifi_hal_legacy/wifi_hal_service.cpp:63-94 | STARTED re-announces onStart without a vendor call; STOPPING refuses with NOT_AVAILABLE; from STOPPED a failed vendor initialisation reports the translated error and stays STOPPED, a successful one spawns the event loop, becomes STARTED and announces onStart; reachability is preserved |
| HalService.FinishHalCleanup | wifi_hal_legacy/wifi_hal_service.cpp:134-142 | the stop completes (STOPPED, onStop with the recorded command id) exactly when both barriers are down, otherwise nothing happens |
| HalService.Stop | wifi_hal_legacy/wifi_hal_service.cpp:98-118 | STOPPED re-announces onStop; STOPPING ignores the call; STARTED runs the vendor cleanup and, while the event loop still runs, waits in STOPPING; reachability is preserved |
| HalService.EventLoopExited | wifi_hal_legacy/wifi_hal_service.cpp:120-132 | an event-loop exit outside STOPPING is the fatal abort; inside STOPPING it marks the loop ended and posts exactly one cleanup task to the looper |
| HalService.RunPostedTask | wifi_hal_legacy/wifi_hal_service.cpp:128-131 | running the oldest posted task consumes it, clears the event-loop barrier and finishes the stop once the cleanup barrier is also clear |
| HalService.GetChip | wifi_hal_legacy/wifi_hal_service.cpp:145-149 | getChip always answers with a null chip and changes nothing |
| HalService.Step | wifi_hal_legacy/wifi_hal_service.cpp:53-156 | every step keeps the service in its reachable set, and the only fatal step is an event-loop exit while STARTED |
| HalService.StopAnnouncedExactlyOnce | wifi_hal_legacy/wifi_hal_service.cpp:98-142 | while a stop is pending no input fails and only the looper task announces onStop, exactly once and with the pending command id, reaching STOPPED |
| HalService.StopSequence | wifi_hal_legacy/wifi_hal_service.cpp:98-142 | stop, event-loop exit and looper task from STARTED produce exactly the cleanup call and one onStop(cmd_id) to the same callbacks, ending STOPPED |
| HalService.RegisterIdempotent | wifi_hal_legacy/wifi_hal_service.cpp:53-57 | registering the same callback twice equals registering it once (the callbacks form a set) |
| ChipService.NewChip | wifi_hal_legacy/wifi_chip_service.cpp:27-29 | a new chip holds a live HAL reference and no callbacks |
| ChipService.Invalidate | wifi_hal_legacy/wifi_chip_service.cpp:31-34 | invalidation drops the HAL reference and every callback |
| ChipService.RegisterEventCallback | wifi_hal_legacy/wifi_chip_service.cpp:36-42 | a valid chip adds the callback; an invalidated chip ignores the call |
| ChipService.GetAvailableModes | wifi_hal_legacy/wifi_chip_service.cpp:44-52 | the chip answers with an empty mode list if and only if it is invalidated, and a valid chip never answers |
| ChipService.ConfigureChip | wifi_hal_legacy/wifi_chip_service.cpp:54-58 | configureChip has no effect whether or not the chip is valid |
| ChipService.GetMode | wifi_hal_legacy/wifi_chip_service.cpp:60-64 | the reported mode is 0 whether or not the chip is valid |
| ChipService.FillZeroedBuffer | wifi_hal_legacy/wifi_chip_service.cpp:72-77 | the 256-byte buffer holds the vendor's characters at its start and zero bytes everywhere after them |
| ChipService.CString | wifi_hal_legacy/wifi_chip_service.cpp:78-79 | the string read from a buffer is its longest NUL-free prefix, stopped by the first NUL or the buffer's end |
| ChipService.QueryDescription | wifi_hal_legacy/wifi_chip_service.cpp:74-94 | a successful query yields the buffer's C string; a failed one keeps the previous description |
| ChipService.RequestChipDebugInfo | wifi_hal_legacy/wifi_chip_service.cpp:66-101 | an invalidated chip does nothing; a valid one queries driver then firmware and sends one record to every callback, each field being "<unknown>" exactly when its own query failed |
| ChipService.QueryYieldsWrittenText | wifi_hal_legacy/wifi_chip_service.cpp:74-79 | a NUL-free answer shorter than the buffer is read back exactly, so nothing from an earlier query survives |
| ChipService.InvalidatedChipIsInert | wifi_hal_legacy/wifi_chip_service.cpp:31-64 | after invalidation registration and debug-info requests have no effect, the modes answer is empty and the mode is 0 |
| WifiTypes.Quote | service/java/com/android/server/wifi/WifiNetworkSelector.java:327 | the quoted SSID is the SSID with one double quote before and one after, and nothing else |
| WifiTypes.QuoteInjective | service/java/com/android/server/wifi/RecommendedNetworkEvaluator.java:90-97 | distinct SSIDs stay distinct once quoted, so the quoted-SSID comparisons decide the same as comparing raw SSIDs |
| WifiTypes.UnscoredKeys | service/java/com/android/server/wifi/WifiNetworkSelector.java:316-335 | the requested keys are exactly the (quoted SSID, BSSID) keys of the results the cache has no score for and whose key construction does not throw, never more keys than results |
| WifiTypes.UnscoredKeysAppend | service/java/com/android/server/wifi/RecommendedNetworkEvaluator.java:59-83 | the keys of a concatenated scan list are the keys of each part in order, i.e. the request follows scan order |
| NetworkSelector.NewSelector | service/java/com/android/server/wifi/WifiNetworkSelector.java:74-79 | a new selector has six empty evaluator slots and an empty blacklist |
| NetworkSelector.RegisterNetworkEvaluator | service/java/com/android/server/wifi/WifiNetworkSelector.java:592-607 | registration succeeds exactly for a priority in [0, 6) whose slot is free, and then fills exactly that slot; on failure the slots are unchanged |
| NetworkSelector.UnregisterNetworkEvaluator | service/java/com/android/server/wifi/WifiNetworkSelector.java:617-627 | reports true exactly when the evaluator is registered, and never frees a slot |
| NetworkSelector.EnableBssidForNetworkSelection | service/java/com/android/server/wifi/WifiNetworkSelector.java:469-491 | enabling removes the BSSID and reports whether it was present; disabling counts a fresh BSSID as 1, counts up an unblacklisted one and blacklists it (reporting true, with the time) when the counter reaches 3; a null or blacklisted BSSID is unchanged; entry shape is preserved |
| NetworkSelector.ThirdFailureBlacklists | service/java/com/android/server/wifi/WifiNetworkSelector.java:473-490 | three disable reports for a fresh BSSID answer false, false, true and leave it blacklisted with counter 3 and the third report's time |
| NetworkSelector.UpdateBssidBlacklist | service/java/com/android/server/wifi/WifiNetworkSelector.java:499-510 | exactly the entries blacklisted for at least 300000 ms are dropped; every other entry keeps its status |
| NetworkSelector.UpdateKeepsCounters | service/java/com/android/server/wifi/WifiNetworkSelector.java:499-510 | an entry that is not blacklisted survives an update unchanged |
| NetworkSelector.IsBssidDisabled | service/java/com/android/server/wifi/WifiNetworkSelector.java:516-519 | a BSSID is disabled exactly when it has an entry marked blacklisted |
| NetworkSelector.FilterScanResults | service/java/com/android/server/wifi/WifiNetworkSelector.java:265-314 | a result is kept if and only if it has an SSID, its BSSID is not blacklisted and its RSSI reaches its band's minimum |
| NetworkSelector.FilterPreservesOrder | service/java/com/android/server/wifi/WifiNetworkSelector.java:265-314 | filtering distributes over concatenation, so kept results stay in scan order |
| NetworkSelector.IsCurrentNetworkSufficient | service/java/com/android/server/wifi/WifiNetworkSelector.java:159-197 | the current network is sufficient exactly when it exists, is neither ephemeral nor open, is not on 2.4 GHz and its RSSI reaches the 5 GHz qualified threshold |
| NetworkSelector.IsNetworkSelectionNeeded | service/java/com/android/server/wifi/WifiNetworkSelector.java:199-244 | no selection for an empty scan or when neither connected nor disconnected; when connected, selection is needed iff auto-join is on, 10 s have passed since the last selection and the current network is insufficient; when disconnected it is needed and the current network and BSSID are cleared |
| NetworkSelector.ConsultEvaluators | service/java/com/android/server/wifi/WifiNetworkSelector.java:561-572 | the winner is the first registered evaluator, in slot order, that selects a network, and every registered evaluator before it selected nothing; no winner means no registered evaluator selected anything |
| NetworkSelector.ScoreRequest | service/java/com/android/server/wifi/WifiNetworkSelector.java:316-343 | a score request is sent exactly when the cache and score manager exist and some result is unscored, and it asks for exactly the unscored keys |
| NetworkSelector.PrepareSelection | service/java/com/android/server/wifi/WifiNetworkSelector.java:525-555 | selection clears the connectable list, gives up on an empty scan, and otherwise hands on the non-empty filtered list computed against the updated blacklist |
| NetworkSelector.FinishSelection | service/java/com/android/server/wifi/WifiNetworkSelector.java:557-580 | the chosen network is the one picked by the first registered evaluator, in priority order, that selects anything from the handed list. Every consulted evaluator's pairs are appended to the connectable list. A chosen network whose selection status has no candidate raises the null dereference of :576. Otherwise only a selection updates the current network, its BSSID and the selection time, and the registry and blacklist are untouched |
| NetworkSelector.SelectNetworkAsWritten | service/java/com/android/server/wifi/WifiNetworkSelector.java:525-581 | as written, the evaluators run only when the filtered list is non-empty, yet they are handed the original unfiltered scan list; the first evaluator that selects decides |
| NetworkSelector.BlacklistedResultReachesEvaluators | service/java/com/android/server/wifi/WifiNetworkSelector.java:562-572 | with one good and one blacklisted result and evaluators that select nothing, the as-written selection hands the blacklisted result to the evaluators |
| NetworkSelector.SelectNetwork | service/java/com/android/server/wifi/WifiNetworkSelector.java:525-581 | without a non-empty filtered list nothing is evaluated or chosen. Otherwise the evaluators run on the filtered list with the refreshed current network and BSSID, and the first registered one that selects decides. The connectable list holds every consulted evaluator's pairs, and a chosen network without a candidate raises. Every result an evaluator sees passes the filter. No selection leaves the selection time unchanged; a selection records the network and the time |
| NetworkSelector.HigherPriorityWins | service/java/com/android/server/wifi/WifiNetworkSelector.java:561-572 | if the evaluator in slot k selects a network, the winner sits in slot k or higher priority |
| RecommendedEvaluator.Update | service/java/com/android/server/wifi/RecommendedNetworkEvaluator.java:55-83 | scores are requested exactly when some key is unscored, and exactly for those keys |
| RecommendedEvaluator.NotDeleted | service/java/com/android/server/wifi/RecommendedNetworkEvaluator.java:90-97 | a result survives if and only if its quoted SSID was not deleted as an ephemeral network |
| RecommendedEvaluator.EvaluateNetworks | service/java/com/android/server/wifi/RecommendedNetworkEvaluator.java:86-122 | a recommendation is requested iff some result survives the deletion filter, with exactly those results and the trusted capability dropped iff untrusted networks are allowed; the provider's answer is returned, and a candidate with score 0 is recorded iff a network is returned |
| RecommendedEvaluator.NothingDeletedKeepsAll | service/java/com/android/server/wifi/RecommendedNetworkEvaluator.java:90-97 | when no scanned SSID was deleted, the provider sees the whole scan list |
| PasspointEvaluator.BestIndex | service/java/com/android/server/wifi/hotspot2/PasspointNetworkEvaluator.java:84-89 | the "replace only when strictly better" scan ends on a maximal score and every earlier position scores strictly less, so the first maximum wins |
| PasspointEvaluator.GetBestMatch | service/java/com/android/server/wifi/hotspot2/PasspointNetworkEvaluator.java:138-154 | no match exactly for an empty provider list. Otherwise the result is one of the listed providers, scoring at least as high as every other and strictly higher than every provider listed before it, so the first of equal scores wins |
| PasspointEvaluator.MatchDetails | service/java/com/android/server/wifi/hotspot2/PasspointNetworkEvaluator.java:66-81 | non-interworking results are skipped; every interworking result with a matching provider is kept, paired with its best provider |
| PasspointEvaluator.CreateWifiConfigForProvider | service/java/com/android/server/wifi/hotspot2/PasspointNetworkEvaluator.java:110-126 | the stored config is the provider's template made ephemeral with the quoted scan SSID; a failed add yields null and no candidate update, a successful one yields the configured network and a candidate with score 0 |
| PasspointEvaluator.EvaluateNetworks | service/java/com/android/server/wifi/hotspot2/PasspointNetworkEvaluator.java:58-100 | with no matching interworking result nothing happens. Otherwise exactly one pair is appended, with a null config if storing failed. It is built from a provider that scores at least as high as every provider matched by every interworking result, and among the matched results it is the first with the best score |
| PasspointEvaluator.TiesKeepFirst | service/java/com/android/server/wifi/hotspot2/PasspointNetworkEvaluator.java:142-149 | between equally scored providers the first listed is chosen |
| AnqpNetworkKey.WrapLong | service/java/com/android/server/wifi/hotspot2/ANQPNetworkKey.java:63-65 | narrowing to a Java long yields the in-range value congruent modulo 2^64 |
| AnqpNetworkKey.WrapInt | service/java/com/android/server/wifi/hotspot2/ANQPNetworkKey.java:63-65 | the (int) cast yields the in-range value congruent modulo 2^32 |
| AnqpNetworkKey.UnsignedHigh | service/java/com/android/server/wifi/hotspot2/ANQPNetworkKey.java:63 | the unsigned shift by 32 yields the high word as a value in [0, 2^32) |
| AnqpNetworkKey.StringHash | service/java/com/android/server/wifi/hotspot2/ANQPNetworkKey.java:65-67 | the SSID's `String.hashCode` is an int, and equals the exact hash polynomial over the SSID's UTF-16 units narrowed once to an int |
| AnqpNetworkKey.Utf16 | service/java/com/android/server/wifi/hotspot2/ANQPNetworkKey.java:65-67 | a Java string's UTF-16 units are 16-bit values, at least one per character |
| AnqpNetworkKey.Utf16OfBmp | service/java/com/android/server/wifi/hotspot2/ANQPNetworkKey.java:65-67 | for a string of Basic Multilingual Plane characters, the UTF-16 units are the characters themselves |
| AnqpNetworkKey.SupplementaryHashesSurrogates | service/java/com/android/server/wifi/hotspot2/ANQPNetworkKey.java:65-67 | a character outside the Basic Multilingual Plane hashes as its two surrogate units: U+1F600 gives 31·0xD83D + 0xDE00 |
| AnqpNetworkKey.WrapIntCongruent | service/java/com/android/server/wifi/hotspot2/ANQPNetworkKey.java:63-67 | values congruent modulo 2^32 narrow to the same int |
| AnqpNetworkKey.HashStepCongruent | service/java/com/android/server/wifi/hotspot2/ANQPNetworkKey.java:65-67 | one multiply-by-31-and-add step keeps congruent accumulators congruent |
| AnqpNetworkKey.UnitsHashIsPolynomial | service/java/com/android/server/wifi/hotspot2/ANQPNetworkKey.java:65-67 | the step-by-step overflowing hash equals the exact polynomial narrowed once, so the per-step overflow loses nothing |
| AnqpNetworkKey.BuildKey | service/java/com/android/server/wifi/hotspot2/ANQPNetworkKey.java:51-58 | domain id 0 gives (ssid, bssid, 0); a domain id with an HESSID gives (null, 0, hessid); a domain id without HESSID gives (ssid, 0, 0); a built key never has both BSSID and HESSID set |
| AnqpNetworkKey.HashCode | service/java/com/android/server/wifi/hotspot2/ANQPNetworkKey.java:60-69 | the hash branches on HESSID, then BSSID, then SSID. Despite the int and long overflows on the way, each value is its exact polynomial narrowed once to an int: 31·high word + HESSID; 961·SSID hash + 31·high word + BSSID; the SSID hash. It fails (null dereference) exactly when there is no HESSID and no SSID |
| AnqpNetworkKey.KeyEquals | service/java/com/android/server/wifi/hotspot2/ANQPNetworkKey.java:71-83 | two keys are equal exactly when all three fields are, two null SSIDs counting as equal |
| AnqpNetworkKey.SameHessidSameKey | service/java/com/android/server/wifi/hotspot2/ANQPNetworkKey.java:54-55 | APs that advertise a domain id and the same HESSID share one key whatever their SSID and BSSID |
| AnqpNetworkKey.NoDomainIdSeparatesAps | service/java/com/android/server/wifi/hotspot2/ANQPNetworkKey.java:52-53 | without a domain id, APs with different BSSIDs never share a key |
| AnqpNetworkKey.EqualKeysEqualHashes | service/java/com/android/server/wifi/hotspot2/ANQPNetworkKey.java:60-83 | equal keys have equal hash codes, and a key with an HESSID always hashes |
| AnqpRequestManager.Pow2 | service/java/com/android/server/wifi/hotspot2/ANQPRequestManager.java:177-178 | the shifted multiplier is at least 1 |
| AnqpRequestManager.NewManager | service/java/com/android/server/wifi/hotspot2/ANQPRequestManager.java:97-102 | a new manager has no pending queries and no hold-off entries |
| AnqpRequestManager.GetRequestElementIDs | service/java/com/android/server/wifi/hotspot2/ANQPRequestManager.java:192-204 | the list starts with the five release-1 elements, contains the roaming consortium iff requested and the release-2 elements iff release 2, with those three at the end |
| AnqpRequestManager.CanSendRequestNow | service/java/com/android/server/wifi/hotspot2/ANQPRequestManager.java:154-164 | a request is refused exactly when the BSSID has a hold-off entry expiring after now |
| AnqpRequestManager.UpdateHoldOffInfo | service/java/com/android/server/wifi/hotspot2/ANQPRequestManager.java:171-182 | the BSSID's expiration becomes now + 10000·2^count and its count grows by one up to 6; no other entry and no pending query changes |
| AnqpRequestManager.RequestANQPElements | service/java/com/android/server/wifi/hotspot2/ANQPRequestManager.java:115-131 | during hold-off nothing is sent or changed; otherwise the hold-off is extended whatever the handler answers and the query is pending exactly when the handler accepted it |
| AnqpRequestManager.OnRequestCompleted | service/java/com/android/server/wifi/hotspot2/ANQPRequestManager.java:140-146 | the pending key (or null) is returned and forgotten; only success lifts the hold-off |
| AnqpRequestManager.HoldOffBounded | service/java/com/android/server/wifi/hotspot2/ANQPRequestManager.java:58-68 | however many requests went unanswered, the hold-off never exceeds 640 s |
| AnqpRequestManager.Pow2Fits | service/java/com/android/server/wifi/hotspot2/ANQPRequestManager.java:177-181 | the `int` shift `1 << holdOffCount` cannot overflow for any count below 31, and the multiplier is at most 64 while the count stays within its cap of 6 |
| AnqpRequestManager.Pow2Add | service/java/com/android/server/wifi/hotspot2/ANQPRequestManager.java:177-178 | shifting by a sum of counts multiplies the two shifted values |
| AnqpRequestManager.Pow2Monotone | service/java/com/android/server/wifi/hotspot2/ANQPRequestManager.java:177-181 | a larger hold-off count never gives a shorter wait |
| AnqpRequestManager.BackOffDoubles | service/java/com/android/server/wifi/hotspot2/ANQPRequestManager.java:115-131 | two unanswered requests wait 10 s then 20 s, and a request made during the first wait is refused |
| AnqpRequestManager.SuccessAllowsImmediateRequest | service/java/com/android/server/wifi/hotspot2/ANQPRequestManager.java:140-146 | after a successful completion the next request to that BSSID may go out immediately |
| NaiRealmData.NonEmpty | service/java/com/android/server/wifi/hotspot2/anqp/NAIRealmData.java:37-42 | the kept realms are exactly the non-empty pieces |
| NaiRealmData.SplitRealms | service/java/com/android/server/wifi/hotspot2/anqp/NAIRealmData.java:36-42 | every realm kept after splitting on ';' is non-empty and free of ';' |
| NaiRealmData.SplitJoinRoundTrip | service/java/com/android/server/wifi/hotspot2/anqp/NAIRealmData.java:36-42 | splitting a ';'-joined list of non-empty realms gives back exactly that list, in order |
| NaiRealmData.ParseEapMethods | service/java/com/android/server/wifi/hotspot2/anqp/NAIRealmData.java:44-49 | a successful read yields exactly the announced number of EAP methods |
| NaiRealmData.Parse | service/java/com/android/server/wifi/hotspot2/anqp/NAIRealmData.java:23-50 | fewer than 5 bytes, or a 16-bit length beyond the remaining bytes, is a ProtocolException, and a realm string running past the end fails; on success the realms are the non-empty ';'-pieces of the realm text decoded as UTF-8 iff bit 0 of the encoding byte is set, and the method count byte gives the number of methods |
| NaiRealmData.ParseNoMethods | service/java/com/android/server/wifi/hotspot2/anqp/NAIRealmData.java:23-50 | a well-formed element with method count 0 parses to its realms and no methods |
| NaiRealmData.EncodeRealmsOnly | service/java/com/android/server/wifi/hotspot2/anqp/NAIRealmData.java:23-50 | the element an AP sends for a realm string and no methods has a consistent length field, the encoding bit, the realm bytes and a zero method count |
| NaiRealmData.ParseRealmsOnly | service/java/com/android/server/wifi/hotspot2/anqp/NAIRealmData.java:23-50 | parsing the encoded element of a realm list with no methods gives back exactly that realm list (round trip) |
| NaiRealmData.Or | service/java/com/android/server/wifi/hotspot2/anqp/NAIRealmData.java:82 | Java's bitwise or on match codes: None (-1) absorbs everything, and on non-negative codes each of the three bits is set iff it is set in either argument |
| NaiRealmData.BestMethodMatch | service/java/com/android/server/wifi/hotspot2/anqp/NAIRealmData.java:80-90 | the method loop returns the starting value or some method's combined match, never less than the start, and unless it stopped early on Exact it is at least every method's combined match |
| NaiRealmData.MatchAsWritten | service/java/com/android/server/wifi/hotspot2/anqp/NAIRealmData.java:62-91 | as written: Indeterminate with no realms and no methods; None when realms exist and none matches; Realm on a realm match with no methods; otherwise the best combined method match, where with no realms the realm result stays None |
| NaiRealmData.NoRealmsNeverMatchesAsWritten | service/java/com/android/server/wifi/hotspot2/anqp/NAIRealmData.java:76-90 | as written, an element with EAP methods but no realms matches None whatever the credential, because None absorbs every method result |
| NaiRealmData.Match | service/java/com/android/server/wifi/hotspot2/anqp/NAIRealmData.java:62-91 | agrees with the as-written match whenever realms are listed; with no realms the methods alone decide, so an exactly matching method gives Exact |
| TelephonyUtil.MccMnc | service/java/com/android/server/wifi/util/TelephonyUtil.java:73-86 | with a non-empty SIM operator the country code is its first three characters and the network code the rest, a two-digit network code padded with "0"; otherwise both come from IMSI characters 0-3 and 3-6; a string too short for substring raises |
| TelephonyUtil.BuildIdentity | service/java/com/android/server/wifi/util/TelephonyUtil.java:57-89 | no identity for a missing or empty IMSI or a method other than SIM, AKA, AKA'; otherwise the prefix ("1", "0", "6") and the IMSI, then "@wlan.mnc", the network code, ".mcc", the country code and ".3gppnetwork.org" (the root NAI of section 14.2 of 3GPP TS 23.003) |
| TelephonyUtil.IsSimEapMethod | service/java/com/android/server/wifi/util/TelephonyUtil.java:111-115 | a method is a SIM method exactly when it is EAP-SIM, EAP-AKA or EAP-AKA' (4, 5 or 6) |
| TelephonyUtil.IdentityPrefix | service/java/com/android/server/wifi/util/TelephonyUtil.java:62-68 | a SIM method's identity prefix is a single character: "1" exactly for EAP-SIM, "0" exactly for EAP-AKA and "6" exactly for EAP-AKA' |
| TelephonyUtil.SimIdentity | service/java/com/android/server/wifi/util/TelephonyUtil.java:34-47 | no identity without a telephony manager; the SIM operator is consulted only when the SIM is ready, otherwise the codes come from the IMSI |
| TelephonyUtil.Before | service/java/com/android/server/wifi/util/TelephonyUtil.java:88 | the text before the first separator is a separator-free prefix that ends at the separator or at the end |
| TelephonyUtil.BeforeAppend | service/java/com/android/server/wifi/util/TelephonyUtil.java:88 | the text before the first '@' of an '@'-free name followed by '@…' is exactly that name |
| TelephonyUtil.IdentityNamesImsi | service/java/com/android/server/wifi/util/TelephonyUtil.java:57-89 | the IMSI can be read back from the identity between its one-character prefix and the '@', so distinct IMSIs give distinct identities |
| TelephonyUtil.SplitIdentity | service/java/com/android/server/wifi/util/TelephonyUtil.java:88 | the prefix, the IMSI and the realm can be read back from the assembled identity |
| TelephonyUtil.ParseHexDigit | service/java/com/android/server/wifi/util/TelephonyUtil.java:118-128 | a character succeeds exactly when it is a hexadecimal digit of either case, and yields its value; anything else raises |
| TelephonyUtil.DecodePairs | service/java/com/android/server/wifi/util/TelephonyUtil.java:152-160 | a digit string decodes exactly when it is an even-length hex string, to half as many bytes |
| TelephonyUtil.ParseHex | service/java/com/android/server/wifi/util/TelephonyUtil.java:130-163 | null gives no bytes; otherwise decoding succeeds exactly for even-length hex strings, giving the pairs' bytes, preceded by the byte count when a length is needed |
| TelephonyUtil.HexByte | service/java/com/android/server/wifi/util/TelephonyUtil.java:168 | one byte is written as exactly two digits |
| TelephonyUtil.MakeHex | service/java/com/android/server/wifi/util/TelephonyUtil.java:165-171 | the text has exactly two digits per byte |
| TelephonyUtil.MakeHexRange | service/java/com/android/server/wifi/util/TelephonyUtil.java:173-179 | a non-positive length gives the empty string; a positive one succeeds exactly when the range lies inside the array and gives the range's hex, otherwise raises |
| TelephonyUtil.HexDigitValue | service/java/com/android/server/wifi/util/TelephonyUtil.java:118-128 | each of the sixteen lower-case digits is a hex digit whose value is its position |
| TelephonyUtil.DecodePairsCons | service/java/com/android/server/wifi/util/TelephonyUtil.java:152-160 | two digits in front of a digit string decode to their byte in front of the string's bytes |
| TelephonyUtil.DecodeHexByte | service/java/com/android/server/wifi/util/TelephonyUtil.java:152-168 | a written byte in front of decodable digits decodes back to that byte in front |
| TelephonyUtil.ParseMakeHex | service/java/com/android/server/wifi/util/TelephonyUtil.java:134-171 | decoding what makeHex wrote gives back the bytes (round trip) |
| TelephonyUtil.Lower | service/java/com/android/server/wifi/util/TelephonyUtil.java:168 | lower-casing keeps the length |
| TelephonyUtil.LowerDigitIsCanonical | service/java/com/android/server/wifi/util/TelephonyUtil.java:118-128 | the digit written for a digit's value is that digit in lower case |
| TelephonyUtil.SplitByte | service/java/com/android/server/wifi/util/TelephonyUtil.java:153 | a byte built as 16·hi + lo splits back into hi and lo |
| TelephonyUtil.HexByteOfPair | service/java/com/android/server/wifi/util/TelephonyUtil.java:153-168 | a decoded digit pair written again comes back as the pair in lower case |
| TelephonyUtil.LowerPair | service/java/com/android/server/wifi/util/TelephonyUtil.java:168 | lower-casing works digit by digit |
| TelephonyUtil.MakeHexCons | service/java/com/android/server/wifi/util/TelephonyUtil.java:165-171 | makeHex writes the first byte, then the rest |
| TelephonyUtil.WriteHexPair | service/java/com/android/server/wifi/util/TelephonyUtil.java:152-171 | one decoded pair written back in front of a decodable tail gives the lower-cased digits |
| TelephonyUtil.MakeParseHex | service/java/com/android/server/wifi/util/TelephonyUtil.java:134-171 | makeHex of parseHex of a valid even-length string is that string in lower case (the other round trip) |
| TelephonyUtil.ConcatHex | service/java/com/android/server/wifi/util/TelephonyUtil.java:181-203 | the result is as long as both inputs together and holds the first one's bytes followed by the second's |
| TelephonyUtil.Signed | service/java/com/android/server/wifi/util/TelephonyUtil.java:369-376 | a byte read as a Java byte lies in [-128, 128) and is the byte or the byte minus 256 |
| TelephonyUtil.TmResponse | service/java/com/android/server/wifi/util/TelephonyUtil.java:342-363 | the card answer is "" when the request does not hold exactly two parseable challenges or there is no telephony manager |
| TelephonyUtil.DecodeUmtsAuth | service/java/com/android/server/wifi/util/TelephonyUtil.java:370-380 | a decoded success answer has the type UMTS-AUTH and needed at least two bytes |
| TelephonyUtil.MakeHexRangeInside | service/java/com/android/server/wifi/util/TelephonyUtil.java:173-179 | a range inside the array converts without raising |
| TelephonyUtil.ReadFieldAt | service/java/com/android/server/wifi/util/TelephonyUtil.java:372-377 | a length byte followed by that many bytes reads as that field's hex and moves to the byte after it |
| TelephonyUtil.AuthFromFields | service/java/com/android/server/wifi/util/TelephonyUtil.java:370-380 | the success decoder assembles ":ik:ck:res" from the three fields it reads in turn |
| TelephonyUtil.DecodeUmtsAuts | service/java/com/android/server/wifi/util/TelephonyUtil.java:381-388 | a decoded synchronisation failure has the type UMTS-AUTS and needed at least two bytes |
| TelephonyUtil.Decode3GAuthResult | service/java/com/android/server/wifi/util/TelephonyUtil.java:366-395 | an empty answer raises; a tag other than 0xdb and 0xdc gives no response; a response carries UMTS-AUTH for 0xdb and UMTS-AUTS for 0xdc |
| TelephonyUtil.Get3GAuthResponse | service/java/com/android/server/wifi/util/TelephonyUtil.java:335-403 | a missing answer or one of 4 characters or fewer gives no response; a longer one is Base64-decoded and then decoded by tag |
| TelephonyUtil.EncodeAuthSuccess | service/java/com/android/server/wifi/util/TelephonyUtil.java:370-378 | the successful answer of 3GPP TS 31.102 is tag 0xdb then RES, CK and IK, each after its length byte |
| TelephonyUtil.AuthSuccessLayout | service/java/com/android/server/wifi/util/TelephonyUtil.java:372-377 | in an encoded success answer each length byte sits where the decoder looks for it |
| TelephonyUtil.SyncFailureLayout | service/java/com/android/server/wifi/util/TelephonyUtil.java:383-384 | an encoded synchronisation failure is tag 0xdc, the AUTS length, then AUTS |
| TelephonyUtil.DecodeSyncLayout | service/java/com/android/server/wifi/util/TelephonyUtil.java:381-388 | an answer laid out as tag 0xdc, length and AUTS decodes to UMTS-AUTS ":auts" |
| TelephonyUtil.DecodeAuthLayout | service/java/com/android/server/wifi/util/TelephonyUtil.java:370-380 | an answer laid out as tag, RES, CK and IK decodes to UMTS-AUTH ":ik:ck:res" |
| TelephonyUtil.DecodeAuthSuccess | service/java/com/android/server/wifi/util/TelephonyUtil.java:366-380 | encoding RES, CK and IK and decoding gives back UMTS-AUTH ":ik:ck:res" in hex (round trip) |
| TelephonyUtil.DecodeSyncFailure | service/java/com/android/server/wifi/util/TelephonyUtil.java:381-388 | encoding AUTS and decoding gives back UMTS-AUTS ":auts" in hex (round trip) |
| TelephonyUtil.DecodeGsmPrefixed | service/java/com/android/server/wifi/util/TelephonyUtil.java:276-296 | with Kc's length byte counted, the length-prefixed decoder raises only for an SRES length below -1 |
| TelephonyUtil.DecodeGsmPlain | service/java/com/android/server/wifi/util/TelephonyUtil.java:271-275 | a plain SIM answer decodes exactly when it has 12 bytes or more, to ":kc:sres" from bytes 4-12 and 0-4 |
| TelephonyUtil.DecodeGsmResultAsWritten | service/java/com/android/server/wifi/util/TelephonyUtil.java:271-296 | as written, a plain answer uses the fixed layout and an empty length-prefixed answer raises |
| TelephonyUtil.DecodeGsmResult | service/java/com/android/server/wifi/util/TelephonyUtil.java:271-296 | as intended, a length-prefixed answer whose SRES length is not below -1 never raises: a Kc that does not fit ends the answer |
| TelephonyUtil.GsmKcOverrun | service/java/com/android/server/wifi/util/TelephonyUtil.java:288-293 | the answer [1, 0xaa, 1] passes the as-written Kc check and the read then overruns, while the corrected check ends the answer |
| TelephonyUtil.EncodeGsmPrefixed | service/java/com/android/server/wifi/util/TelephonyUtil.java:277-293 | a length-prefixed GSM answer holds SRES and Kc, each after its length byte |
| TelephonyUtil.GsmPrefixedLayout | service/java/com/android/server/wifi/util/TelephonyUtil.java:277-293 | in an encoded GSM answer the two length bytes and fields sit where the decoder reads them |
| TelephonyUtil.DecodeGsmLayout | service/java/com/android/server/wifi/util/TelephonyUtil.java:277-296 | an answer filled exactly by two length-prefixed fields decodes to ":kc:sres" |
| TelephonyUtil.DecodeGsmRoundTrip | service/java/com/android/server/wifi/util/TelephonyUtil.java:277-296 | encoding SRES and Kc and decoding gives back ":kc:sres" in hex (round trip) |
| TelephonyUtil.GsmCardAnswer | service/java/com/android/server/wifi/util/TelephonyUtil.java:227-261 | a well-formed challenge always gets an answer attempt: USIM, then SIM, then SIM with the challenge re-read without its length byte; a length-prefixed answer is only claimed when the card answered |
| TelephonyUtil.GsmChallenge | service/java/com/android/server/wifi/util/TelephonyUtil.java:211-223 | a missing, empty or malformed challenge is skipped |
| TelephonyUtil.GsmChallenges | service/java/com/android/server/wifi/util/TelephonyUtil.java:210-299 | with no challenges left the answer is what was collected, and every answer extends what was collected before |
| TelephonyUtil.GsmSimAuthResponse | service/java/com/android/server/wifi/util/TelephonyUtil.java:205-300 | no answer without a telephony manager; otherwise the challenges' fragments in order |
| TelephonyUtil.GsmChallengesAppend | service/java/com/android/server/wifi/util/TelephonyUtil.java:211-297 | the challenges can be answered in two runs, the second continuing from the first's answer |
| Permissions.IsMAppAsWritten | service/java/com/android/server/wifi/util/WifiPermissionsUtil.java:150-162 | as written, a package is an M app exactly when its target SDK is known and at least M; an unknown package counts as legacy |
| Permissions.IsMApp | service/java/com/android/server/wifi/util/WifiPermissionsUtil.java:150-162 | as the comment intends, an unknown package counts as an M app (the stricter reading), a known one by its target SDK |
| Permissions.LegacyForeground | service/java/com/android/server/wifi/util/WifiPermissionsUtil.java:169-185 | a caller is legacy-foreground exactly when it is the top package and not an M app |
| Permissions.LocationModeEnabled | service/java/com/android/server/wifi/util/WifiPermissionsUtil.java:214-222 | location counts as enabled exactly when the caller is legacy-foreground or the location mode is not OFF |
| Permissions.CallersLocationPermission | service/java/com/android/server/wifi/util/WifiPermissionsUtil.java:190-213 | granted exactly for fine location with its app-op allowed, or coarse location with its app-op allowed, or a legacy-foreground caller; each location app-op is noted exactly when its permission is held |
| Permissions.IsCurrentProfile | service/java/com/android/server/wifi/util/WifiPermissionsUtil.java:129-149 | true exactly when the caller's user is the current user or one of the current user's profiles |
| Permissions.CanAccessScanResults | service/java/com/android/server/wifi/util/WifiPermissionsUtil.java:59-78 | access is granted exactly when (peers-MAC, or active scorer, or legacy-foreground, or location on with an allowed fine or coarse permission) and the scan app-op is allowed and the caller is in the current profile and holds INTERACT_ACROSS_USERS_FULL; the scan app-op is noted exactly when a route to access is open |
| Permissions.UnknownPackageIsLegacyAsWritten | service/java/com/android/server/wifi/util/WifiPermissionsUtil.java:150-162 | as written, an unknown package in the foreground passes the location checks without any location permission, even with location off |
| Permissions.UnknownPackageNeedsLocation | service/java/com/android/server/wifi/util/WifiPermissionsUtil.java:150-162 | as intended, an unknown package is never legacy, so it needs location on and an allowed fine or coarse permission |
| Permissions.KnownPackagesAgree | service/java/com/android/server/wifi/util/WifiPermissionsUtil.java:150-162 | the two readings of isMapp agree on every known package |
| WakeupController.Initial | service/java/com/android/server/wifi/WifiWakeupController.java:73-104 | a new controller tracks no saved network and satisfies the subset invariant; its Wi-Fi and AP states start at neither DISABLED value |
| WakeupController.SavedSsidsOf | service/java/com/android/server/wifi/WifiWakeupController.java:137-150 | an SSID is tracked exactly when some configuration with platform scoring has it as a non-empty SSID |
| WakeupController.SavedInScan | service/java/com/android/server/wifi/WifiWakeupController.java:167-177 | an SSID is in the last-scan set exactly when it is saved and some scan result's quoted SSID equals it |
| WakeupController.OnConfiguredNetworksChanged | service/java/com/android/server/wifi/WifiWakeupController.java:130-153 | a null list changes nothing; otherwise the saved set is rebuilt and both in-range sets keep only still-saved SSIDs, nothing else changes |
| WakeupController.OnWifiStateChanged | service/java/com/android/server/wifi/WifiWakeupController.java:155-165 | ENABLED empties the on-disable set, DISABLED adds the last scan's saved SSIDs to it, any other value (absent reads as -1) keeps it; the other fields stay |
| WakeupController.OnScanResults | service/java/com/android/server/wifi/WifiWakeupController.java:167-211 | the selector runs exactly when airplane mode is off, Wi-Fi and the AP are both DISABLED and no on-disable network is still in range; Wi-Fi is enabled exactly when the selector then picks a network; the on-disable set only shrinks |
| WakeupController.Step | service/java/com/android/server/wifi/WifiWakeupController.java:86-123 | a settings change replaces the three settings only; any broadcast is ignored unless wake-up and recommendations are both on; only a scan with Wi-Fi DISABLED can enable Wi-Fi |
| WakeupController.StepPreservesValid | service/java/com/android/server/wifi/WifiWakeupController.java:106-211 | every step keeps both in-range sets inside the saved set |
| WakeupController.Run | service/java/com/android/server/wifi/WifiWakeupController.java:106-211 | any sequence of events keeps the subset invariant |
| WakeupController.NoWakeWhileDisabledNetworkInRange | service/java/com/android/server/wifi/WifiWakeupController.java:167-200 | while a network seen at disable time is still in the scan, the selector is not consulted and Wi-Fi is not enabled |
| NotificationController.Initial | service/java/com/android/server/wifi/WifiNotificationController.java:113-197 | a new controller shows nothing, has counted no scan, and its repeat delay is the setting in seconds times 1000 |
| NotificationController.Remove | service/java/com/android/server/wifi/WifiNotificationController.java:344-349 | removing cancels the notification and marks it hidden, leaving every other field |
| NotificationController.Reset | service/java/com/android/server/wifi/WifiNotificationController.java:336-342 | after a reset nothing is shown and both the repeat time and the scan count are back at zero; a cancel is issued exactly when something was shown |
| NotificationController.Display | service/java/com/android/server/wifi/WifiNotificationController.java:265-282 | before the repeat time nothing happens; from then on the notification names the recommended network and the next repeat is one delay later |
| NotificationController.OpenNetworks | service/java/com/android/server/wifi/WifiNotificationController.java:243-257 | a scan result is kept exactly when its capabilities are exactly "[ESS]"; the open list is no longer than the scan |
| NotificationController.CheckGoodOpenNetwork | service/java/com/android/server/wifi/WifiNotificationController.java:243-262 | a missing or empty scan asks nothing and yields nothing; otherwise exactly the open networks go to the score manager and its answer is the result |
| NotificationController.CheckAndSetNotification | service/java/com/android/server/wifi/WifiNotificationController.java:200-237 | nothing happens unless the setting is on and Wi-Fi is enabled; a disconnected or unknown link with a recommendation counts the scan and shows the notification only from the third counted scan and after the repeat time, never cancelling; otherwise the notification is removed |
| NotificationController.ConnectToRecommended | service/java/com/android/server/wifi/WifiNotificationController.java:289-305 | without a recommended network nothing happens; with one, the controller connects to exactly that network, shows "connecting" and schedules a reset 3000 ms later |
| NotificationController.OnConnect | service/java/com/android/server/wifi/WifiNotificationController.java:311-323 | a hidden notification is reset at once; a shown one turns into "connected" for its network with a reset 3000 ms later |
| NotificationController.OnNetworkState | service/java/com/android/server/wifi/WifiNotificationController.java:147-176 | the network info is always recorded; SCANNING or an unchanged detailed state does nothing else; DISCONNECTED and CAPTIVE_PORTAL_CHECK reset; states other than CONNECTED are only recorded |
| NotificationController.Step | service/java/com/android/server/wifi/WifiNotificationController.java:140-186 | the only failure is a network-state broadcast without network info; every other event keeps the invariant that a shown notification has a network to name, and only a scan can show "networks available" |
| NotificationController.ThirdScanShows | service/java/com/android/server/wifi/WifiNotificationController.java:200-237 | after a reset, with Wi-Fi on, the setting on and no connection, the first two scans with a recommended open network show nothing and the third shows it |
| StateMachinePrime.Initial | service/java/com/android/server/wifi/WifiStateMachinePrime.java:82-101 | before any mode command there is no machine and no queued message or soft-AP configuration |
| StateMachinePrime.CurrentMode | service/java/com/android/server/wifi/WifiStateMachinePrime.java:150-155 | without a machine the mode reads "WifiDisabledState"; with one, it is the current state's class name |
| StateMachinePrime.CurrentModeIdentifiesState | service/java/com/android/server/wifi/WifiStateMachinePrime.java:184-208 | once the machine runs, two owners report the same mode name exactly when they are in the same state; the active soft-AP state reports "SoftAPModeActiveState" |
| StateMachinePrime.ModeChange | service/java/com/android/server/wifi/WifiStateMachinePrime.java:210-232 | exactly the four mode commands are handled as mode changes, and each leads to a base mode (one without a parent) |
| StateMachinePrime.ProcessIn | service/java/com/android/server/wifi/WifiStateMachinePrime.java:256-590 | an unhandled message changes nothing; base states take every mode command, active states never do; no handler asks for the active client mode or grows the configuration queue |
| StateMachinePrime.Dispatch | service/java/com/android/server/wifi/WifiStateMachinePrime.java:441-448 | a mode command is always handled by a transition to its base mode; an unhandled message falls through to the parent; no transition is asked for without handling |
| StateMachinePrime.StatesToEnter | service/java/com/android/server/wifi/WifiStateMachinePrime.java:188-204 | the states entered end with the destination; a common ancestor kept is the destination's parent and is the current state or its parent |
| StateMachinePrime.StatesToExit | service/java/com/android/server/wifi/WifiStateMachinePrime.java:188-204 | without a common ancestor the current state and its parent are exited; with the current state as ancestor nothing is |
| StateMachinePrime.Exit | service/java/com/android/server/wifi/WifiStateMachinePrime.java:264-461 | leaving the base scan-only or soft-AP mode always drops wificond; no exit touches the mode, the message queue or the configuration queue |
| StateMachinePrime.Enter | service/java/com/android/server/wifi/WifiStateMachinePrime.java:251-561 | base scan-only and soft-AP modes set up only on their own start command; an active mode always gets its manager and asks for no further transition; the active soft-AP mode consumes one queued configuration and hands it on only when its SSID is set |
| StateMachinePrime.ExitAll | service/java/com/android/server/wifi/WifiStateMachinePrime.java:264-461 | exiting a run of states leaves the mode and both queues as they were |
| StateMachinePrime.EnterAll | service/java/com/android/server/wifi/WifiStateMachinePrime.java:251-561 | entering a run of states keeps the mode; ending on an active mode means a manager and no further transition; a further transition goes to a child of the last state entered |
| StateMachinePrime.TransitionOnce | service/java/com/android/server/wifi/WifiStateMachinePrime.java:188-232 | one transition makes the destination current; an active destination has its manager; a follow-up transition goes to a child of the destination |
| StateMachinePrime.PerformTransitions | service/java/com/android/server/wifi/WifiStateMachinePrime.java:278-371 | after all transitions the machine is at the destination or its active child, an active mode has its manager, and the active client mode is never reached unless asked for |
| StateMachinePrime.HandleMessage | service/java/com/android/server/wifi/WifiStateMachinePrime.java:256-590 | a mode command ends in its base mode or that mode's active child; the invariant that an active mode has a manager is kept; the configuration queue never grows |
| StateMachinePrime.ChangeMode | service/java/com/android/server/wifi/WifiStateMachinePrime.java:157-168 | a disable before the machine exists changes nothing; otherwise the machine exists afterwards, starting in the disabled state if new, and the command is queued last |
| StateMachinePrime.ListenerPosts | service/java/com/android/server/wifi/WifiStateMachinePrime.java:465-545 | a manager's state report posts at most one message to the machine |
| StateMachinePrime.Step | service/java/com/android/server/wifi/WifiStateMachinePrime.java:108-168 | a soft-AP request queues its configuration, or a fresh one for null; the next message is handled with the rest of the queue left; every step keeps the validity invariant and adds at most one configuration |
| StateMachinePrime.Run | service/java/com/android/server/wifi/WifiStateMachinePrime.java:108-168 | any run of events from a valid owner ends valid, and the configuration queue grows by at most one per event |
| StateMachinePrime.ScanOnlyStart | service/java/com/android/server/wifi/WifiStateMachinePrime.java:278-306 | from any mode a scan-only start ends in the active scan-only mode exactly when wificond answered and created the interface, otherwise in the inactive mode with a start failure queued |
| StateMachinePrime.ScanOnlyActiveFailureReturns | service/java/com/android/server/wifi/WifiStateMachinePrime.java:505-522 | a failure or stop in the active scan-only mode returns to the inactive mode, stopping the manager and tearing the interfaces down and nothing else |
| StateMachinePrime.ScanOnlyActiveLeaves | service/java/com/android/server/wifi/WifiStateMachinePrime.java:330-461 | leaving the active scan-only state for its parent stops the manager and tears the interfaces down, with no further transition |
| StateMachinePrime.SoftApActiveFailureReturns | service/java/com/android/server/wifi/WifiStateMachinePrime.java:563-590 | a start failure in the active soft-AP mode returns to the inactive mode, stopping the manager and tearing the interfaces down; a stop report does the same without stopping the manager it has already dropped; nothing else is requested |
| StateMachinePrime.SoftApActiveReturns | service/java/com/android/server/wifi/WifiStateMachinePrime.java:563-590 | either report is handled by the active soft-AP state, which moves to its parent and requests exactly the manager stop (if a manager remains) and the teardown |
| StateMachinePrime.SoftApActiveLeaves | service/java/com/android/server/wifi/WifiStateMachinePrime.java:330-461 | leaving the active soft-AP state for its parent stops the manager if one remains and tears the interfaces down, with no further transition |
| StateMachinePrime.SoftApStartConsumesOneConfig | service/java/com/android/server/wifi/WifiStateMachinePrime.java:343-561 | a soft-AP start from disabled ends in the active soft-AP mode with the queue emptied, and the manager receives the configuration only when its SSID is set |
| StateMachinePrime.StartApFailureInactive | service/java/com/android/server/wifi/WifiStateMachinePrime.java:386-404 | a start failure in the inactive soft-AP mode consumes one configuration, saves it exactly when its SSID is set, and ends with the failure broadcast |
| SoftApManager.EncryptionType | service/java/com/android/server/wifi/SoftApManager.java:212-231 | WPA_PSK maps to WPA, WPA2_PSK to WPA2, and every other key management (NONE included) to no encryption, each in both directions |
| SoftApManager.StartSoftAp | service/java/com/android/server/wifi/SoftApManager.java:149-210 | a missing configuration or SSID is a generic error; a failed channel update returns its own code; hostapd gets a configuration exactly when the SSID is set, the channel is found and the country code is not refused on 5 GHz; that configuration carries the SSID, the channel, the mapped encryption and the key (empty if none); success requires it, and a thrown hostapd call falls through to success |
| SoftApManager.ApStateName | service/java/com/android/server/wifi/SoftApManager.java:341-356 | a state gets a real name exactly when it lies between DISABLING and FAILED |
| SoftApManager.ApStateNamesDistinct | service/java/com/android/server/wifi/SoftApManager.java:341-356 | the five AP states have five different names |
| SoftApManager.Initial | service/java/com/android/server/wifi/SoftApManager.java:83-102 | a new manager is idle, unlinked and reports DISABLED as its current state |
| SoftApManager.UpdateApState | service/java/com/android/server/wifi/SoftApManager.java:124-142 | a state report names the new state, the previous one and the listener's reason, updates only the current state, and carries a broadcast failure reason exactly for FAILED |
| SoftApManager.States | service/java/com/android/server/wifi/SoftApManager.java:124-142 | the reported states, one per report, in order |
| SoftApManager.Update | service/java/com/android/server/wifi/SoftApManager.java:124-142 | a run of updates reports every requested state with its reason, in order, each naming the one before it as previous, and leaves the last one current |
| SoftApManager.Handle | service/java/com/android/server/wifi/SoftApManager.java:268-332 | a start from idle reports ENABLING then ENABLED (and is started) or FAILED (and stays idle), started exactly when the death link holds and startSoftAp succeeds, failing with NO_CHANNEL exactly when the channel was missing; other messages when idle and a start when started are ignored; stop and binder death report DISABLING then DISABLED or FAILED and return to idle; reports chain and the phase/state/link invariant is kept |
| SoftApManager.StartThenStop | service/java/com/android/server/wifi/SoftApManager.java:268-332 | a fresh manager started and stopped reports ENABLING, ENABLED, DISABLING, DISABLED, each naming the previous one, and ends as new |
| SoftApManager.ChainedAppend | service/java/com/android/server/wifi/SoftApManager.java:124-142 | two chained report runs, the second starting at the first's last state, form one chain |
| ModeManagers.Initial | service/java/com/android/server/wifi/ClientModeManager.java:451-500 | a new manager is idle, with no start pending, the interface down, no observer and no death link |
| ModeManagers.ParseOui | service/java/com/android/server/wifi/ClientModeManager.java:859-872 | an OUI yields bytes exactly when its first three '-'-separated groups exist and parse as hex, and then the bytes are those groups' low bytes |
| ModeManagers.SplitThreeGroups | service/java/com/android/server/wifi/ClientModeManager.java:864-868 | three dash-free groups joined by '-' split back into exactly those groups |
| ModeManagers.OuiOfParts | service/java/com/android/server/wifi/ClientModeManager.java:864-868 | three two-digit hex groups parse to the bytes the digits spell |
| ModeManagers.OuiOfGroups | service/java/com/android/server/wifi/ClientModeManager.java:864-868 | an OUI written as XX-XX-XX in hex parses to the three bytes it spells |
| ModeManagers.RandomMacOui | service/java/com/android/server/wifi/ClientModeManager.java:859-872 | with nothing configured the supplicant gets DA:A1:19 (the Google OUI); otherwise the configured OUI as parsed |
| ModeManagers.UnregisterObserverOf | service/java/com/android/server/wifi/ClientModeManager.java:441-449 | afterwards there is no observer, and the old one, if any, is unregistered exactly once |
| ModeManagers.EnterIdle | service/java/com/android/server/wifi/ClientModeManager.java:475-500 | entering Idle leaves the machine idle, unlinked and without an observer |
| ModeManagers.EnterStarted | service/java/com/android/server/wifi/ClientModeManager.java:601-640 | entering Started announces scanning exactly when the interface is already up, and ENABLED exactly when it is up and the manager is the client one; the last report is scanning if up, the supplicant connection otherwise |
| ModeManagers.ExitStarted | service/java/com/android/server/wifi/ClientModeManager.java:676-694 | leaving Started unlinks and drops the observer, withdraws scanning (after DISABLING for the client manager only), stops the supplicant and ends by announcing the disconnection |
| ModeManagers.IdleStart | service/java/com/android/server/wifi/ClientModeManager.java:505-549 | a start succeeds exactly when the death link, the observer registration and the supplicant start all succeed, and then a fresh observer is current and no UNKNOWN is reported; any failure unlinks, drops the observer it made and reports UNKNOWN last; the client manager reports ENABLING first |
| ModeManagers.OnUpChanged | service/java/com/android/server/wifi/ClientModeManager.java:585-599 | an unchanged link state does nothing; link down posts a stop and nothing else; link up ends by announcing scanning |
| ModeManagers.Handle | service/java/com/android/server/wifi/ClientModeManager.java:503-674 | the supplicant connection moves Idle to Started exactly when a start is pending; a stop when idle and a start when started are ignored; link reports from any observer but the current one are ignored; stop and binder death report UNKNOWN and return to Idle; the only observer that can become current is a newly numbered one |
| ModeManagers.Leave | service/java/com/android/server/wifi/ClientModeManager.java:656-694 | a stop or binder death reports UNKNOWN first (then DISABLING for the client manager) and ends idle, unlinked and without an observer |
| ModeManagers.Stop | service/java/com/android/server/wifi/ScanOnlyModeManager.java:81-85 | stop runs the current state's exit without a transition: idle it does nothing; started it stops the supplicant and drops the link and the observer, staying Started |
| ModeManagers.HandlePreservesValid | service/java/com/android/server/wifi/ScanOnlyModeManager.java:169-336 | every message keeps the invariant: observers are freshly numbered, and when idle a death link or an observer is held only while a start is pending |
| ModeManagers.HalFailureNotFatal | service/java/com/android/server/wifi/ClientModeManager.java:524-527 | whether the HAL starts makes no difference to a start |
| ModeManagers.Run | service/java/com/android/server/wifi/ScanOnlyModeManager.java:169-336 | any run of messages keeps the invariant and never reuses an observer number |
| ModeManagers.OldObserverNeverCurrent | service/java/com/android/server/wifi/ScanOnlyModeManager.java:225-231 | an observer once replaced never becomes current again, whatever the run |
| ModeManagers.OldObserversIgnored | service/java/com/android/server/wifi/ScanOnlyModeManager.java:225-231 | after any run, link reports from a replaced observer change nothing |
| ModeManagers.ClientCycle | service/java/com/android/server/wifi/ClientModeManager.java:470-695 | a fresh client manager with the interface up reports ENABLING on start, ENABLED and scanning once the supplicant connects, and UNKNOWN then DISABLING on stop, ending idle |
| AwareNativeManager.Initial | service/java/com/android/server/wifi/aware/WifiAwareNativeManager.java:47-52 | a new manager holds no service, no chip and no interface, and the service is not started |
| AwareNativeManager.UsageAfterAppend | service/java/com/android/server/wifi/aware/WifiAwareNativeManager.java:139-149 | the usage state after two runs of reports is the second run applied to the state after the first, and a mismatched report anywhere spoils the whole |
| AwareNativeManager.InvalidateNanIface | service/java/com/android/server/wifi/aware/WifiAwareNativeManager.java:139-149 | afterwards no interface or name is held, and usage is disabled exactly once if an interface was held |
| AwareNativeManager.InvalidateChip | service/java/com/android/server/wifi/aware/WifiAwareNativeManager.java:128-134 | afterwards neither chip nor interface is held, and usage ends disabled with every report paired |
| AwareNativeManager.Start | service/java/com/android/server/wifi/aware/WifiAwareNativeManager.java:77-110 | true exactly when every layer is held afterwards; a held but unstarted service or a complete stack is left untouched; only the missing layers consume answers; the invariant is kept and enable/disable reports alternate unless getName throws |
| AwareNativeManager.StartChipAndIface | service/java/com/android/server/wifi/aware/WifiAwareNativeManager.java:92-109 | with the service held and started: a complete stack is kept; a held chip with a ready interface answer ends complete with that interface's name; true exactly when the stack is complete |
| AwareNativeManager.Then | service/java/com/android/server/wifi/aware/WifiAwareNativeManager.java:77-110 | two steps run one after the other keep enable/disable reports alternating when each step does |
| AwareNativeManager.InitWifi | service/java/com/android/server/wifi/aware/WifiAwareNativeManager.java:155-178 | a registered service is held with its started flag and consumes one answer; no service or a refused registration leaves none and reports nothing; an exception runs the service-death path |
| AwareNativeManager.InitChip | service/java/com/android/server/wifi/aware/WifiAwareNativeManager.java:191-274 | nothing happens before the service is started; a ready chip is held and consumes one answer; without exceptions the other answer streams are left alone |
| AwareNativeManager.InitIface | service/java/com/android/server/wifi/aware/WifiAwareNativeManager.java:279-315 | a created and named interface is held with its name and enables usage once; a failed creation or name leaves none and reports nothing |
| AwareNativeManager.ServiceDied | service/java/com/android/server/wifi/aware/WifiAwareNativeManager.java:115-123 | after the service dies and the start that follows, the manager is consistent and enable/disable reports stay paired unless getName throws |
| AwareNativeManager.Handle | service/java/com/android/server/wifi/aware/WifiAwareNativeManager.java:317-394 | stop and failure drop chip and interface; a failed reconfiguration drops only the interface; a reconfiguration re-acquires the interface on a held chip; removal of our own NAN interface drops it; any removal while none is held retries the start; other removals and additions change nothing |
| AwareNativeManager.RegistrationFailureRetried | service/java/com/android/server/wifi/aware/WifiAwareNativeManager.java:155-178 | a refused registration leaves nothing behind, and the next start brings all three layers up with one usage enable |
| AwareNativeManager.GetNameExceptionDisablesUnpaired | service/java/com/android/server/wifi/aware/WifiAwareNativeManager.java:279-315 | an exception from getName after the interface was stored reports a disable that no enable preceded |
| AwareNativeManager.ServiceDeathRestarts | service/java/com/android/server/wifi/aware/WifiAwareNativeManager.java:115-123 | after the service dies mid-initialisation, the restart brings every layer up from the next answers with one usage enable |
| NanNative.EventCallbackReason | service/java/com/android/server/wifi/nan/WifiNanNative.java:710-747 | a status maps to INVALID_ARGS exactly when it is one of the configuration errors (4096 to 4121), and success maps to OTHER |
| NanNative.SessionTerminateReason | service/java/com/android/server/wifi/nan/WifiNanNative.java:749-767 | a termination counts as DONE exactly for the timeout, user-request and count-reached codes; every other code, known or not, is FAIL |
| NanNative.SessionCallbackReason | service/java/com/android/server/wifi/nan/WifiNanNative.java:769-803 | NO_RESOURCES exactly for no-space, INVALID_ARGS exactly for the three invalid publish/transmit/match codes, TX_FAIL exactly for no-OTA-ack and transmit failure, OTHER for all else |
| NanNative.IsNanInit | service/java/com/android/server/wifi/nan/WifiNanNative.java:109-128 | a stopped HAL clears the flag and answers false without initialising; an initialised shim answers true untouched; otherwise the handlers are initialised once and the answer is whether that succeeded; the answer always equals the new flag |
| NanNative.DeInitNan | service/java/com/android/server/wifi/nan/WifiNanNative.java:133-138 | afterwards the handlers count as uninitialised |
| NanNative.NativeOf | service/java/com/android/server/wifi/nan/WifiNanNative.java:186-213 | an initial configuration calls the enable primitive and a later one the update primitive, and no other operation calls either |
| NanNative.Operation | service/java/com/android/server/wifi/nan/WifiNanNative.java:153-601 | every operation first runs the initialisation check; the primitive is called exactly when it passes, and the answer is true exactly when the primitive was called and returned success |
| NanNative.InitialisedOperation | service/java/com/android/server/wifi/nan/WifiNanNative.java:153-601 | on a started HAL with initialised handlers, an operation leaves the state alone and answers with its primitive's result |
| NanNative.DeInitForcesReinit | service/java/com/android/server/wifi/nan/WifiNanNative.java:109-138 | after deInitNan the next check on a started HAL initialises the handlers again |
| NanNative.OnNotifyResponse | service/java/com/android/server/wifi/nan/WifiNanNative.java:806-885 | enable and config responses report success or a translated failure; the four data-path responses carry the transaction, the raw status and whether it is success; cancellations and unknown types notify nothing |
| NanNative.OnNotifyResponsePublishSubscribe | service/java/com/android/server/wifi/nan/WifiNanNative.java:887-920 | exactly publish and subscribe responses notify, as a session config success exactly when the status is success, marked publish exactly for a publish response |
| NanNative.OnNotifyResponseCapabilities | service/java/com/android/server/wifi/nan/WifiNanNative.java:922-936 | capabilities are reported exactly on success |
| NanNative.OnNotifyResponseDataPathInitiate | service/java/com/android/server/wifi/nan/WifiNanNative.java:938-951 | success exactly when the status is success; a failure carries the raw, untranslated status |
| NanNative.OnDiscoveryEngineEvent | service/java/com/android/server/wifi/nan/WifiNanNative.java:958-975 | exactly event types 0 to 2 notify; started-cluster and joined-cluster report a cluster change with the matching flag |
| NanNative.OnSessionTerminated | service/java/com/android/server/wifi/nan/WifiNanNative.java:992-1007 | the termination names its session and its kind, and is DONE exactly for codes 8193, 8194 and 8196 |
| NanNative.OnDisabledEvent | service/java/com/android/server/wifi/nan/WifiNanNative.java:1022-1027 | NAN down is reported with INVALID_ARGS exactly for statuses 4096 to 4121 |
| NanNative.OnTransmitFollowupEvent | service/java/com/android/server/wifi/nan/WifiNanNative.java:1030-1042 | a follow-up is reported sent exactly on success; a failure is a transmit failure exactly for codes 23 and 24 |
| NativeNew.TypeHits | service/java/com/android/server/wifi/WifiNativeNew.java:131-135 | a type list contributes no hit exactly when STA is not in it, and never more hits than entries |
| NativeNew.LimitHitsZero | service/java/com/android/server/wifi/WifiNativeNew.java:130-137 | a combination's limits give no hit exactly when no limit admits STA |
| NativeNew.CombinationHitsZero | service/java/com/android/server/wifi/WifiNativeNew.java:129-138 | a mode's combinations give no hit exactly when each of them gives none |
| NativeNew.ModeHitsZero | service/java/com/android/server/wifi/WifiNativeNew.java:128-143 | the search finds no hit exactly when no mode offers STA in any combination |
| NativeNew.PickedIsLastStaMode | service/java/com/android/server/wifi/WifiNativeNew.java:125-139 | with no hit the picked mode id stays -1; otherwise it is the id of the last mode that offers STA |
| NativeNew.TypeHitsCountsSta | service/java/com/android/server/wifi/WifiNativeNew.java:131-135 | the hits in a type list are the number of STA entries in it |
| NativeNew.CountTypes | service/java/com/android/server/wifi/WifiNativeNew.java:131-136 | the innermost loop counts the STA entries of one limit |
| NativeNew.CountLimits | service/java/com/android/server/wifi/WifiNativeNew.java:130-137 | the limit loop sums the STA entries over a combination's limits |
| NativeNew.CountCombinations | service/java/com/android/server/wifi/WifiNativeNew.java:129-138 | the combination loop sums the hits over a mode's combinations |
| NativeNew.FindStaMode | service/java/com/android/server/wifi/WifiNativeNew.java:125-139 | the four nested loops count every STA entry over all modes and leave the id of the last mode with one (-1 if none) |
| NativeNew.StartHidlHal | service/java/com/android/server/wifi/WifiNativeNew.java:61-171 | an unregistered service keeps the old service object while null clears it, and without one nothing else is called; anything but exactly one chip id stops before the modes are read; success needs a started service and one chip and runs the whole call sequence, configuring the last STA mode found; success exactly when a STA interface is held and was asked for |
| NativeNew.NoStaModeNoConfigure | service/java/com/android/server/wifi/WifiNativeNew.java:140-143 | when no mode offers STA, bring-up fails and the chip is never configured |
| NativeNew.ConfigureFailureOnlyLogged | service/java/com/android/server/wifi/WifiNativeNew.java:147-150 | a failing configureChip changes nothing: interface creation goes ahead with the same result |
| NativeNew.StartedIffBroughtUp | service/java/com/android/server/wifi/WifiNativeNew.java:182-184 | from a fresh object the HAL counts as started exactly when bring-up succeeded |
| NativeNew.IsHalStarted | service/java/com/android/server/wifi/WifiNativeNew.java:182-184 | the HAL counts as started exactly when an STA interface object is held, whatever the last bring-up returned |
| NativeNew.FailedRestartKeepsOldIface | service/java/com/android/server/wifi/WifiNativeNew.java:73-77 | on an object brought up before, a failed restart returns false while isHalStarted stays true, because the old STA interface is kept |
| NativeNew.GetScanCapabilities | service/java/com/android/server/wifi/WifiNativeNew.java:225-253 | true exactly when the HAL is started and the interface answers; on failure the caller's object is untouched; on success the four reported limits are copied and every other field is zero |
| NativeNew.CapabilitiesOverwriteAll | service/java/com/android/server/wifi/WifiNativeNew.java:225-253 | a successful query's result does not depend on what the caller passed in |
| Parcels.DecodeChannel | service/java/com/android/server/wifi/wificond/ChannelSettings.java:51-58 | reading a channel succeeds exactly when the parcel starts with an int |
| Parcels.ChannelRoundTrip | service/java/com/android/server/wifi/wificond/ChannelSettings.java:45-58 | a written channel reads back with the same frequency and leaves the rest of the parcel untouched |
| Parcels.EncodeChannel | service/java/com/android/server/wifi/wificond/ChannelSettings.java:46-48 | a channel is written as a single integer token holding its frequency |
| Parcels.EncodeNetwork | service/java/com/android/server/wifi/wificond/HiddenNetwork.java:46-49 | a network is written as two tokens: the SSID's length, then a byte array of exactly the SSID |
| Parcels.DecodeNetwork | service/java/com/android/server/wifi/wificond/HiddenNetwork.java:52-60 | a read network consumed a length followed by a byte array of exactly that length; a negative length throws |
| Parcels.NetworkRoundTrip | service/java/com/android/server/wifi/wificond/HiddenNetwork.java:45-60 | a written hidden or PNO network reads back with a byte-equal SSID and leaves the rest of the parcel |
| Parcels.Count | service/java/com/android/server/wifi/wificond/SingleScanSettings.java:54-57 | the count written for a list is 0 exactly when the list is null or empty |
| Parcels.DecodeChannels | service/java/com/android/server/wifi/wificond/SingleScanSettings.java:79-86 | the channel loop yields as many channels as the count, and none for a negative count |
| Parcels.DecodeNetworks | service/java/com/android/server/wifi/wificond/SingleScanSettings.java:88-95 | the hidden-network loop yields as many networks as the count, and none for a negative count |
| Parcels.ChannelsRoundTrip | service/java/com/android/server/wifi/wificond/SingleScanSettings.java:52-86 | reading back a written channel list with its own count returns the list element by element |
| Parcels.NetworksRoundTrip | service/java/com/android/server/wifi/wificond/SingleScanSettings.java:62-95 | reading back a written network list with its own count returns the list element by element |
| Parcels.Decoded | service/java/com/android/server/wifi/wificond/SingleScanSettings.java:79-91 | a list survives a round trip unchanged unless it is empty, which comes back null |
| Parcels.EncodeSingleScan | service/java/com/android/server/wifi/wificond/SingleScanSettings.java:51-70 | the flag, the channel count and the hidden-network count sit at fixed positions; the length accounts for one token per channel and two per network |
| Parcels.DecodeSingleScan | service/java/com/android/server/wifi/wificond/SingleScanSettings.java:76-98 | any non-zero flag is a full scan, and the channel list is null exactly when its count is 0 |
| Parcels.SingleScanRoundTrip | service/java/com/android/server/wifi/wificond/SingleScanSettings.java:51-98 | reading back written scan settings returns the flag and both lists, except that an empty list comes back null |
| Parcels.NegativeCountGivesEmptyList | service/java/com/android/server/wifi/wificond/SingleScanSettings.java:79-86 | a negative channel count creates the list but reads nothing into it |
| Parcels.EmptyAndNullListsEncodeAlike | service/java/com/android/server/wifi/wificond/SingleScanSettings.java:54-69 | an empty list and a null list are written identically |
| Parcels.CopySingleScan | service/java/com/android/server/wifi/wificond/SingleScanSettings.java:38-42 | the copy exists exactly when neither list is null, and it is written exactly like the original |
| Parcels.EncodePno | service/java/com/android/server/wifi/wificond/PnoSettings.java:50-63 | the interval, both thresholds and the network count lead the parcel, followed by two tokens per network |
| Parcels.DecodePno | service/java/com/android/server/wifi/wificond/PnoSettings.java:66-85 | the decoder yields the interval and both thresholds found at the head of the parcel, and the network list is null exactly when the count that follows them is 0 |
| Parcels.PnoNetworksRoundTrip | service/java/com/android/server/wifi/wificond/PnoSettings.java:50-85 | a written network list reads back, with an empty list coming back null, and the decoder stops exactly after it |
| Parcels.PnoRoundTrip | service/java/com/android/server/wifi/wificond/PnoSettings.java:50-85 | decoding reads back written PNO settings in full, except that an empty network list comes back null |
| Parcels.CopyPno | service/java/com/android/server/wifi/wificond/PnoSettings.java:39-41 | the copy exists exactly when the network list is not null; it keeps that list and leaves the interval and thresholds 0 |
| MeshParsing.AdjustLevel | service/java/com/android/server/wifi/mesh/WifiMeshServiceImpl.java:724-733 | a positive level is taken as offset by 256 and shifted back, so every level up to 256 ends up non-positive; other levels are kept |
| MeshParsing.ScanLine | service/java/com/android/server/wifi/mesh/WifiMeshServiceImpl.java:715-751 | a field line records only its own field (unparseable numbers as 0), a delimiter commits an entry exactly when both BSSID and mesh id were seen and then resets every field, any other line changes nothing |
| MeshParsing.ParseScanResults | service/java/com/android/server/wifi/mesh/WifiMeshServiceImpl.java:702-752 | empty text gives an empty list, and no more entries than the text has delimiter lines |
| MeshParsing.CommitsNeedDelimiters | service/java/com/android/server/wifi/mesh/WifiMeshServiceImpl.java:742-751 | every entry is committed by a delimiter line of its own |
| MeshParsing.ParseLinesAppend | service/java/com/android/server/wifi/mesh/WifiMeshServiceImpl.java:715-752 | reading the lines is a left fold: the entries of two runs of lines are those of the first followed by those of the second read from where the first left off |
| MeshParsing.CursorAfterDelimiter | service/java/com/android/server/wifi/mesh/WifiMeshServiceImpl.java:742-751 | after a delimiter line every field is back at its reset value |
| MeshParsing.BlocksAreIndependent | service/java/com/android/server/wifi/mesh/WifiMeshServiceImpl.java:742-751 | once a block is closed by a delimiter, what follows parses the same whatever came before |
| MeshParsing.NoMeshIdNoEntries | service/java/com/android/server/wifi/mesh/WifiMeshServiceImpl.java:740-747 | without a mesh id line no entry is ever committed |
| MeshParsing.CompleteBlock | service/java/com/android/server/wifi/mesh/WifiMeshServiceImpl.java:708-751 | a complete block commits exactly one entry carrying the fields it names, with the level adjusted and unparseable numbers read as 0 |
| MeshParsing.IntSucc | service/java/com/android/server/wifi/mesh/WifiMeshServiceImpl.java:692-692 | the successor of a Java int stays in range and is the plain successor below the maximum |
| MeshParsing.NextSid | service/java/com/android/server/wifi/mesh/WifiMeshServiceImpl.java:685-699 | paging stops when a page ends with an end marker or has no id line; any id asked for next comes from a well-formed id line of the page |
| MeshParsing.NextSidReadsLastMarker | service/java/com/android/server/wifi/mesh/WifiMeshServiceImpl.java:685-699 | the backward search reads the last marker line of the page: the id asked for next is the successor of the id it names, or -1 when it is an end marker or its id does not parse |
| MeshParsing.NextSidWithoutMarker | service/java/com/android/server/wifi/mesh/WifiMeshServiceImpl.java:685-699 | a page with no end marker and no id line stops paging |
| MeshParsing.NextSidNamedByLastMarker | service/java/com/android/server/wifi/mesh/WifiMeshServiceImpl.java:685-699 | conversely, an id asked for next is the successor of the id named by the last marker line, which is a well-formed id line |
| MeshParsing.Fetch | service/java/com/android/server/wifi/mesh/WifiMeshServiceImpl.java:680-700 | the first request asks for the starting id, each later request asks for the id the previous page names, paging stops on an empty answer, and the text is empty exactly when the first answer is |
| MeshParsing.FetchAnswered | service/java/com/android/server/wifi/mesh/WifiMeshServiceImpl.java:680-683 | every request but the last got a non-empty page |
| MeshParsing.FetchCollectsPages | service/java/com/android/server/wifi/mesh/WifiMeshServiceImpl.java:680-700 | the collected text is the answered pages in request order, each followed by a newline: all of them when the last request was answered and its page named no next id, all but the last request's otherwise |
| MeshParsing.SetScanResults | service/java/com/android/server/wifi/mesh/WifiMeshServiceImpl.java:674-706 | no answer or an empty first page leaves the list empty |
| MeshParsing.ReadRow | service/java/com/android/server/wifi/mesh/WifiMeshServiceImpl.java:769-799 | a row with fewer than three fields, a non-numeric id or a known id is skipped; an added group has the row's id and name, an id not yet known, is secure exactly when its key management names SAE and has a frequency exactly when the network sets one; a skipped row names no id or a known one |
| MeshParsing.MergeRows | service/java/com/android/server/wifi/mesh/WifiMeshServiceImpl.java:769-801 | the merge only appends, keeps network ids unique, adds at most one group per row, and reports an addition exactly when the list grew |
| MeshParsing.MergeRowsProvenance | service/java/com/android/server/wifi/mesh/WifiMeshServiceImpl.java:769-800 | every group the merge appends has an id named by a row with at least three fields |
| MeshParsing.AppendedIsNamed | service/java/com/android/server/wifi/mesh/WifiMeshServiceImpl.java:769-800 | the group at any one appended position has an id named by a row with at least three fields |
| MeshParsing.MergeRowsComplete | service/java/com/android/server/wifi/mesh/WifiMeshServiceImpl.java:769-800 | unless a row raised, every id a row names is known after the merge |
| MeshParsing.UpdateConfigurations | service/java/com/android/server/wifi/mesh/WifiMeshServiceImpl.java:759-807 | no table leaves the list alone; without reload the old groups stay in front; ids stay unique; the configuration is saved exactly when reloading or a group was added, and never after a row raised |
| MeshParsing.Synchronises | service/java/com/android/server/wifi/mesh/WifiMeshServiceImpl.java:753-807 | the list is synchronised with the supplicant's table: added groups come from rows of the table, unless a row raised every id the table names is known, and after a reload exactly those ids are known |
| MeshParsing.ReloadKnows | service/java/com/android/server/wifi/mesh/WifiMeshServiceImpl.java:759-807 | after a reload that does not raise, an id is known exactly when the table names it; without a table the list is left alone, so an unknown id stays unknown |
| MeshParsing.HeaderIgnored | service/java/com/android/server/wifi/mesh/WifiMeshServiceImpl.java:768-769 | two tables that differ only in their first line merge the same way |
| MeshParsing.NetworkVariables | service/java/com/android/server/wifi/mesh/WifiMeshServiceImpl.java:626-639 | every variable is set on the new network: the quoted mesh id, SAE or NONE key management, a passphrase exactly when secure and a frequency exactly when one is given |
| MeshParsing.Connect | service/java/com/android/server/wifi/mesh/WifiMeshServiceImpl.java:611-651 | without a group the saved network is started; a group without a mesh id, or secure without a passphrase, fails before any command; otherwise a network is added, configured and started, removed again exactly when the start fails, and only a successful start merges the supplicant's list |
| MeshStateMachine.Chain | service/java/com/android/server/wifi/mesh/WifiMeshServiceImpl.java:195-205 | every state's ancestry ends at the default state; Joined is in it only for Joined itself, and Enabled exactly for Enabled, Inactive and Joined |
| MeshStateMachine.ReplyTo | service/java/com/android/server/wifi/mesh/WifiMeshServiceImpl.java:809-840 | a reply goes out only when the message names a recipient, and it carries the message's arg2 back |
| MeshStateMachine.AsEffects | service/java/com/android/server/wifi/mesh/WifiMeshServiceImpl.java:611-651 | the supplicant commands are issued one for one, in order |
| MeshStateMachine.SaveEffects | service/java/com/android/server/wifi/mesh/WifiMeshServiceImpl.java:803-806 | the configuration is saved and the change broadcast exactly when the merge asks for it, and no client is answered |
| MeshStateMachine.WithoutId | service/java/com/android/server/wifi/mesh/WifiMeshServiceImpl.java:462-462 | removing a network id leaves no group with that id, only groups that were there, and ids still unique |
| MeshStateMachine.ToWifi | service/java/com/android/server/wifi/mesh/WifiMeshServiceImpl.java:278-283 | a message to the Wi-Fi state machine raises exactly when the channel to it is gone |
| MeshStateMachine.DefaultProcess | service/java/com/android/server/wifi/mesh/WifiMeshServiceImpl.java:217-300 | the root state answers every client request as busy (or with the stored results and groups), never transitions or defers, and leaves the groups alone |
| MeshStateMachine.NotSupportedProcess | service/java/com/android/server/wifi/mesh/WifiMeshServiceImpl.java:303-329 | without mesh support a scan, connect or forget is refused as unsupported and everything else goes to the root state |
| MeshStateMachine.DisablingProcess | service/java/com/android/server/wifi/mesh/WifiMeshServiceImpl.java:332-363 | while disabling, enable and disable requests are deferred, and the only transition is to Disabled |
| MeshStateMachine.DisabledProcess | service/java/com/android/server/wifi/mesh/WifiMeshServiceImpl.java:366-390 | an enable request starts the supplicant and moves to Enabling, or on failure re-enters Disabled and reports -1 |
| MeshStateMachine.EnablingProcess | service/java/com/android/server/wifi/mesh/WifiMeshServiceImpl.java:393-423 | while enabling, enable and disable requests are deferred, and the supplicant's connection moves to Inactive reporting success |
| MeshStateMachine.EnabledForget | service/java/com/android/server/wifi/mesh/WifiMeshServiceImpl.java:459-467 | a forget request changes only the stored groups and keeps ids unique; after a successful removal the forgotten id is known again exactly when the reloaded table names it |
| MeshStateMachine.EnabledProcess | service/java/com/android/server/wifi/mesh/WifiMeshServiceImpl.java:426-483 | the enabled state keeps group ids unique, never touches the joined group, transitions only to Disabled or Disabling, and after a successful forget knows the id exactly when the reloaded table names it |
| MeshStateMachine.InactiveConnect | service/java/com/android/server/wifi/mesh/WifiMeshServiceImpl.java:495-502 | a connect request changes only the stored groups, keeps ids unique and answers the message it serves |
| MeshStateMachine.InactiveProcess | service/java/com/android/server/wifi/mesh/WifiMeshServiceImpl.java:485-520 | the inactive state transitions only to Joined, on a started group that becomes the current group |
| MeshStateMachine.JoinedProcess | service/java/com/android/server/wifi/mesh/WifiMeshServiceImpl.java:522-587 | the joined state only moves to Inactive or defers a connect; as written it raises on a forget or disable without a group, and the corrected one never raises |
| MeshStateMachine.ProcessIn | service/java/com/android/server/wifi/mesh/WifiMeshServiceImpl.java:217-608 | every handler answers only the message it serves and leaves the state and queues to the machine; only Enabled and Inactive change the stored groups and only Joined or a move into Joined changes the current group |
| MeshStateMachine.Dispatch | service/java/com/android/server/wifi/mesh/WifiMeshServiceImpl.java:217-608 | offering a message to a state and then its ancestors always ends handled or raised, with the same guarantees as a single handler |
| MeshStateMachine.ToEnter | service/java/com/android/server/wifi/mesh/WifiMeshServiceImpl.java:195-205 | a transition enters its target last, and only the target when it hangs off the root |
| MeshStateMachine.Common | service/java/com/android/server/wifi/mesh/WifiMeshServiceImpl.java:195-205 | a transition stops at an active ancestor, which is the root or Enabled |
| MeshStateMachine.ToExit | service/java/com/android/server/wifi/mesh/WifiMeshServiceImpl.java:195-205 | a transition leaves Joined exactly when it was current, and Enabled exactly when it was active, when going through the root |
| MeshStateMachine.Exit | service/java/com/android/server/wifi/mesh/WifiMeshServiceImpl.java:589-608 | leaving Joined forgets the group, leaving Enabled forgets the stored groups, and nothing else changes |
| MeshStateMachine.Enter | service/java/com/android/server/wifi/mesh/WifiMeshServiceImpl.java:303-530 | entering a state broadcasts its mesh state; only Enabled reloads the groups and can raise, and only Disabling queues its own disconnection event |
| MeshStateMachine.ExitAll | service/java/com/android/server/wifi/mesh/WifiMeshServiceImpl.java:589-608 | a run of exits forgets the group exactly when it leaves Joined and the stored groups exactly when it leaves Enabled |
| MeshStateMachine.EnterAll | service/java/com/android/server/wifi/mesh/WifiMeshServiceImpl.java:426-432 | a run of enters keeps the group, keeps ids unique, only appends to the queue, and cannot raise unless it enters Enabled |
| MeshStateMachine.Transition | service/java/com/android/server/wifi/mesh/WifiMeshServiceImpl.java:195-608 | after a transition the target is current, the group is gone if Joined was left, the stored groups are gone if Enabled was left, and no client is answered |
| MeshStateMachine.StepAsWritten | service/java/com/android/server/wifi/mesh/WifiMeshServiceImpl.java:217-608 | one message as written answers only that message and keeps the machine valid: a current leaf state, a group only in Joined, stored groups only while enabled, unique ids and only waitable requests deferred |
| MeshStateMachine.DispatchGuardIrrelevant | service/java/com/android/server/wifi/mesh/WifiMeshServiceImpl.java:541-559 | offering a message to a state and its ancestors gives the same verdict with and without the guard, unless Joined holds no group and the message is a forget or disable request |
| MeshStateMachine.StepAgreesAsWritten | service/java/com/android/server/wifi/mesh/WifiMeshServiceImpl.java:541-559 | the corrected machine processes every message exactly as written, except a forget or disable request in Joined without a group, where the code as written dereferences the null group |
| MeshStateMachine.Step | service/java/com/android/server/wifi/mesh/WifiMeshServiceImpl.java:217-608 | one message with the corrected Joined state keeps the same guarantees |
| MeshStateMachine.Start | service/java/com/android/server/wifi/mesh/WifiMeshServiceImpl.java:195-211 | the machine starts valid, in Disabled when mesh is supported and in NotSupported otherwise, broadcasting that state |
| MeshStateMachine.Next | service/java/com/android/server/wifi/mesh/WifiMeshServiceImpl.java:217-608 | the message at the head of the queue is processed with the same guarantees |
| MeshStateMachine.NotSupportedRefuses | service/java/com/android/server/wifi/mesh/WifiMeshServiceImpl.java:303-329 | without mesh support a scan, connect or forget is refused as unsupported and nothing else changes |
| MeshStateMachine.RequestsDeferredWhileChanging | service/java/com/android/server/wifi/mesh/WifiMeshServiceImpl.java:346-348 | while the supplicant starts or stops, enable and disable requests are set aside unchanged |
| MeshStateMachine.ForgetJoinedGroup | service/java/com/android/server/wifi/mesh/WifiMeshServiceImpl.java:541-548 | forgetting the joined group's network leaves the machine in Joined without a group, with or without the check on the group |
| MeshStateMachine.MissingGroupCrashesAsWritten | service/java/com/android/server/wifi/mesh/WifiMeshServiceImpl.java:541-559 | as written, a forget or disable request in Joined without a group raises |
| MeshStateMachine.ForgottenGroupCrashesAsWritten | service/java/com/android/server/wifi/mesh/WifiMeshServiceImpl.java:541-559 | as written, forgetting the joined group and then asking to forget or disable anything raises |
| MeshStateMachine.ForgetWithoutGroupHandled | service/java/com/android/server/wifi/mesh/WifiMeshServiceImpl.java:541-548 | with the check, a later forget request reaches Enabled and the machine stays in Joined |
| MeshStateMachine.DisableWithoutGroupHandled | service/java/com/android/server/wifi/mesh/WifiMeshServiceImpl.java:553-559 | with the check, a later disable request still leaves for Disabling |
| MeshStateMachine.AlreadyEnabled | service/java/com/android/server/wifi/mesh/WifiMeshServiceImpl.java:443-446 | once enabled, an enable request is answered as already enabled and changes nothing |
| MeshStateMachine.EnablingCompletes | service/java/com/android/server/wifi/mesh/WifiMeshServiceImpl.java:404-408 | the supplicant's connection enters Enabled and Inactive, reports success, reloads the groups and puts the deferred requests back at the head of the queue |
| MeshStateMachine.EnableDeferredUntilEnabled | service/java/com/android/server/wifi/mesh/WifiMeshServiceImpl.java:415-446 | an enable request that arrives while enabling waits, and is the first message handled once enabled, where it is answered as already enabled |
| MeshStateMachine.DisableWhileJoined | service/java/com/android/server/wifi/mesh/WifiMeshServiceImpl.java:553-559 | a disable request while joined removes and disables the group, stops the supplicant, leaves Joined and Enabled and enters Disabling, which queues its own disconnection event |
| MeshStateMachine.DisablingCompletes | service/java/com/android/server/wifi/mesh/WifiMeshServiceImpl.java:353-358 | Disabling ends at its queued disconnection event: the supplicant connection is closed, the Wi-Fi state machine told, and Disabled entered |

## Left out

- Threads, the looper, binder, locks and logging. The vendor event-loop thread is an external "loop exited" event. Posting to the looper appends to a FIFO of tasks. Locked sections run sequentially.
- `wifi_hal_legacy/main.cpp` (process bootstrap) and the declaration-only headers. The headers declare members such as `FindInterfaceHandle` and `chip_` that the `.cpp` files do not implement. `getChip` is modelled as the `.cpp` has it: it always answers null.
- The two stop barriers are not initialised in the HAL service's constructor. The model starts them false.
- UI and framework wrappers with no decision logic: WifiNotificationHelper, WifiWakeupHelper, WifiAsyncChannel, WifiHandler, WifiPermissionsWrapper, PasspointObjectFactory, ClientModeUtil, WifiAwareService, WifiMeshService, WifiP2pNativeNew, and the WifiAwareNativeNew stub.
- Foreign libraries are parameters and are not specified. These include:
  - Base64 and the SIM card's ICC authentication;
  - character decoding (UTF-8 or US-ASCII) of NAI realms;
  - the EAP-method sub-parser, `DomainMatcher` and `EAPMethod.match`;
  - `NetworkScoreManager` and `WifiConfigManager`;
  - the package, user, app-op and settings services;
  - HIDL, wificond and supplicant calls.
- `String.split` is modelled for a one-character separator, which is the only kind the modelled code passes. Regex semantics are not modelled.
- Intents, sticky broadcasts and notifications are emitted effect records. Their contents beyond state, reason and the fields the logic reads are not modelled.
- Clocks are integer parameters. There is no floating point in the modelled code.
- PasspointEvaluator.GetBestMatch: a `PasspointMatchInfo` is reduced to an integer score, so `compareTo` is integer order. The real comparison is not part of this model.
- PasspointNetworkEvaluator `update` is an empty method and is not modelled.
- WifiNetworkSelector's `updateSavedNetworkSelectionStatus`, `setUserConnectChoice`, `getFilteredScanDetails`, `toScanId` and `dump` are bookkeeping and logging around the selection, and are not modelled.
- WifiNativeNew's `stopHal`, `queryInterfaceIndex`, `getInterfaceName` and `startSupplicantHal` are placeholders with constant bodies (empty, -1, "notyet0", true) and are not modelled.
- `describeContents` of the parcelables always returns 0 and is not modelled. The copy constructors of `HiddenNetwork` and `PnoNetwork` clone the SSID array, which is a value in this model. The one of `ChannelSettings` copies the frequency. Neither is modelled separately.
- ModeManagers.RandomMacOui: a malformed configured OUI makes `Integer.parseInt` or the array index throw in the source. The model yields `None` and passes no OUI on to the supplicant, instead of ending the handler with an exception.
- ChipService.CString: a 256-byte vendor answer with no terminating NUL is undefined behaviour in C. The model reads the whole buffer as the string.
- AwareNativeManager: each HIDL answer comes from a finite stream. An exhausted stream gives the quiet failure (no service, no chip, no interface). This bounds the retries that a vendor failing forever would cause.
- ClientModeManagerTest expects DISABLED where the source reports UNKNOWN (`service/java/com/android/server/wifi/ClientModeManager.java:509`). The model follows the source.
- Parcels.DecodePno: `PnoSettings.java:71-73` assign the three ints to simple names inside the anonymous class of the static `CREATOR`. Those names are instance fields, so the file as written does not compile. The model stores the values on `result`, matching the layout `writeToParcel` produces.
- Parcels.ReadInt: Android's `Parcel.readInt` past the end of the data returns 0 and does not throw. The token model instead treats a missing or mistyped token as a malformed parcel (`None`).
- NetworkSelector.SelectNetwork: a candidate scan result is assumed to carry a BSSID. A missing candidate BSSID stands for a missing candidate, which raises at `WifiNetworkSelector.java:576`. A candidate whose BSSID is null is not represented.
- MeshParsing: `WifiMeshScanResults`, `WifiMeshGroup` and `WifiMeshGroupList` are not part of this model. The model assumes that `update` appends a scan result, that `contains` and `remove` go by network id, and that the mesh id is quoted as `"id"`.
- MeshParsing.Fetch: each answer to `BSS RANGE` comes from a finite sequence. Paging therefore also ends when the answers run out, whereas the loop at `WifiMeshServiceImpl.java:680-700` has no bound of its own and relies on the supplicant eventually sending an end marker or an empty page.
- MeshParsing.ScanLine: `new String(line.getBytes(), n, line.length() - n)` at `WifiMeshServiceImpl.java:717` mixes a byte offset with a character count. The model takes the substring after the prefix, which agrees for ASCII supplicant output only.
- NaiRealmData.Parse: `payload.getShort()` at `NAIRealmData.java:28` reads in whatever byte order the caller set on the buffer, and Java's default is big-endian. The ANQP caller is not part of this model. The model assumes it sets little-endian order, as IEEE 802.11u fields are encoded, and reads the length as `p[0] + 256 * p[1]`.
- JavaStrings.ParseNumber: `Integer.parseInt` and `Long.parseLong` accept any Unicode decimal digit, through `Character.digit`. The model accepts only the ASCII digits and letters of the radix. The Unicode digit tables are not part of this model.

## Findings

| source | as written | input that shows it | evidently intended | confidence | as-written member | corrected member |
|---|---|---|---|---|---|---|
| service/java/com/android/server/wifi/WifiNetworkSelector.java:562-572 | the evaluators are handed the unfiltered scan details, so the blacklist, empty-SSID and RSSI filters only decide whether evaluation runs at all | two 5 GHz results, the second from a blacklisted BSSID: the blacklisted one reaches the evaluators | the evaluators see only the filtered results | not executed | NetworkSelector.SelectNetworkAsWritten, NetworkSelector.BlacklistedResultReachesEvaluators | NetworkSelector.SelectNetwork |
| service/java/com/android/server/wifi/hotspot2/anqp/NAIRealmData.java:62-91 | with no realms listed the realm result stays `None` (-1), and `None` OR any method result is `None` | a realm datum with no realms and one EAP method that matches exactly | with no realms, the methods alone decide | not executed | NaiRealmData.MatchAsWritten, NaiRealmData.NoRealmsNeverMatchesAsWritten | NaiRealmData.Match |
| service/java/com/android/server/wifi/util/TelephonyUtil.java:288-293 | the Kc bounds check forgets Kc's own length byte, so a Kc length one past the end passes and the read runs off the array | the GSM answer bytes [1, 0xaa, 1] | a Kc that does not fit ends the answer as malformed | not executed | TelephonyUtil.DecodeGsmResultAsWritten, TelephonyUtil.GsmKcOverrun | TelephonyUtil.DecodeGsmResult |
| service/java/com/android/server/wifi/util/WifiPermissionsUtil.java:150-162 | an unknown package leaves `isMapp` false, so it counts as a legacy app, contrary to the comment's "assume M app" | a foreground caller whose package the package manager does not know | an unknown package is treated as an M app and needs location on and a location permission | not executed | Permissions.IsMAppAsWritten, Permissions.UnknownPackageIsLegacyAsWritten | Permissions.IsMApp, Permissions.UnknownPackageNeedsLocation |
| service/java/com/android/server/wifi/mesh/WifiMeshServiceImpl.java:541-559 | a forget request for the joined group's network clears the group but stays in Joined, and the next forget or disable request dereferences the null group | FORGET_NETWORK with the joined group's id, then DISABLE_MESH_REQ | a missing group is treated as no match | not executed | MeshStateMachine.StepAsWritten, MeshStateMachine.ForgottenGroupCrashesAsWritten | MeshStateMachine.Step, MeshStateMachine.ForgetWithoutGroupHandled |

=== FILE: anqp_network_key.dfy ===
/** `ANQPNetworkKey`: the key under which ANQP answers are cached, at the
    granularity an AP's ANQP domain ID and HESSID allow
    (service/java/com/android/server/wifi/hotspot2/ANQPNetworkKey.java).
    Java `long` and `int` arithmetic is written out as explicit two's
    complement wrap-around. */
module AnqpNetworkKey {
  import opened Wrappers

  const TWO_32: int := 0x1_0000_0000
  const TWO_64: int := 0x1_0000_0000_0000_0000

  /** A Java `long` and a Java `int`. */
  predicate IsLong(x: int) { -TWO_64 / 2 <= x < TWO_64 / 2 }
  predicate IsInt(x: int) { -TWO_32 / 2 <= x < TWO_32 / 2 }

  /** Narrowing to 64 and 32 bits, keeping the low bits as a signed value. */
  function WrapLong(x: int): (r: int)
    ensures IsLong(r) && (r - x) % TWO_64 == 0
  {
    var m := x % TWO_64;
    if m >= TWO_64 / 2 then m - TWO_64 else m
  }

  function WrapInt(x: int): (r: int)
    ensures IsInt(r) && (r - x) % TWO_32 == 0
  {
    var m := x % TWO_32;
    if m >= TWO_32 / 2 then m - TWO_32 else m
  }

  /** `x >>> 32` on a long: the high word, read unsigned. */
  function UnsignedHigh(x: int): (r: int)
    requires IsLong(x)
    ensures 0 <= r < TWO_32
  {
    (if x < 0 then x + TWO_64 else x) / TWO_32
  }

  /** A Java string is a sequence of UTF-16 code units: a character
      outside the Basic Multilingual Plane becomes a high and a low
      surrogate. */
  function Utf16(s: string): (u: seq<int>)
    ensures forall i :: 0 <= i < |u| ==> 0 <= u[i] < 0x1_0000
    ensures |u| >= |s|
  {
    if s == [] then []
    else
      var c := s[|s| - 1] as int;
      Utf16(s[..|s| - 1]) +
        (if c < 0x1_0000 then [c] else [0xD800 + (c - 0x1_0000) / 0x400, 0xDC00 + (c - 0x1_0000) % 0x400])
  }

  /** A string of Basic Multilingual Plane characters is its own unit
      sequence. */
  lemma {:induction false} Utf16OfBmp(s: string)
    requires forall i :: 0 <= i < |s| ==> (s[i] as int) < 0x1_0000
    ensures |Utf16(s)| == |s| && forall i :: 0 <= i < |s| ==> Utf16(s)[i] == s[i] as int
  {
    if s != [] {
      Utf16OfBmp(s[..|s| - 1]);
    }
  }

  /** `h = 31 * h + u` over the units, in `int` arithmetic. */
  function UnitsHash(u: seq<int>): (h: int)
    ensures IsInt(h)
  {
    if u == [] then 0 else WrapInt(31 * UnitsHash(u[..|u| - 1]) + u[|u| - 1])
  }

  /** `String.hashCode`: the unit hash of the string's UTF-16 encoding. */
  function StringHash(s: string): (h: int)
    ensures IsInt(h)
    ensures h == WrapInt(HashPolynomial(Utf16(s)))
  {
    UnitsHashIsPolynomial(Utf16(s));
    UnitsHash(Utf16(s))
  }

  /** The hash polynomial without overflow: the sum of each unit times 31
      raised to the number of units after it. */
  function HashPolynomial(u: seq<int>): int {
    if u == [] then 0 else 31 * HashPolynomial(u[..|u| - 1]) + u[|u| - 1]
  }

  /** A supplementary character hashes as its two surrogates: U+1F600 is
      0xD83D then 0xDE00. */
  lemma SupplementaryHashesSurrogates()
    ensures Utf16("\U{1F600}") == [0xD83D, 0xDE00]
    ensures StringHash("\U{1F600}") == 31 * 0xD83D + 0xDE00
  {
    var s := "\U{1F600}";
    assert s[..0] == [];
    assert Utf16(s) == [0xD83D, 0xDE00];
    var u := Utf16(s);
    assert u[..1] == [0xD83D] && [0xD83D][..0] == [];
    assert UnitsHash(u) == WrapInt(31 * WrapInt(0xD83D) + 0xDE00);
  }

  /** Numbers congruent modulo 2^32 narrow to the same `int`. */
  lemma WrapIntCongruent(x: int, y: int)
    requires (x - y) % TWO_32 == 0
    ensures WrapInt(x) == WrapInt(y)
  {
    var q := (x - y) / TWO_32;
    assert x == y + q * TWO_32;
    assert x % TWO_32 == y % TWO_32;
  }

  /** One hash step keeps two congruent values congruent. */
  lemma HashStepCongruent(w: int, p: int, c: int)
    requires (w - p) % TWO_32 == 0
    ensures ((31 * w + c) - (31 * p + c)) % TWO_32 == 0
  {
    var q := (w - p) / TWO_32;
    assert w - p == q * TWO_32;
    assert (31 * w + c) - (31 * p + c) == (31 * q) * TWO_32;
  }

  /** The `int` overflow at every step loses nothing the final narrowing
      would keep: the hash is the exact polynomial reduced to 32 bits. */
  lemma {:induction false} UnitsHashIsPolynomial(u: seq<int>)
    ensures UnitsHash(u) == WrapInt(HashPolynomial(u))
  {
    if u != [] {
      var init := u[..|u| - 1];
      var c := u[|u| - 1];
      UnitsHashIsPolynomial(init);
      var w := UnitsHash(init);
      var p := HashPolynomial(init);
      assert (w - p) % TWO_32 == 0;
      assert UnitsHash(u) == WrapInt(31 * w + c);
      assert HashPolynomial(u) == 31 * p + c;
      HashStepCongruent(w, p, c);
      WrapIntCongruent(31 * w + c, 31 * p + c);
    }
  }

  /** Narrowing to a `long` keeps the low 32 bits. */
  lemma WrapLongKeepsLowWord(x: int)
    ensures (WrapLong(x) - x) % TWO_32 == 0
  {
    var d := WrapLong(x) - x;
    var m := (d / TWO_64) * TWO_32;
    assert d == m * TWO_32;
  }

  lemma CongruentTrans(a: int, b: int, c: int)
    requires (a - b) % TWO_32 == 0 && (b - c) % TWO_32 == 0
    ensures (a - c) % TWO_32 == 0
  {
    var q1, q2 := (a - b) / TWO_32, (b - c) / TWO_32;
    assert a - c == (q1 + q2) * TWO_32;
  }

  /** A key; `ssid` is `None` where the Java field is null. */
  datatype Key = Key(ssid: Option<string>, bssid: int, hessid: int)

  /** `buildKey`. */
  function BuildKey(ssid: Option<string>, bssid: int, hessid: int, anqpDomainId: int): (k: Key)
    // no domain ID: the AP itself is the unit
    ensures anqpDomainId == 0 ==> k == Key(ssid, bssid, 0)
    // a domain ID with an HESSID: the HESSID alone names the ESS
    ensures anqpDomainId != 0 && hessid != 0 ==> k == Key(None, 0, hessid)
    // a domain ID without an HESSID: the SSID names the ESS
    ensures anqpDomainId != 0 && hessid == 0 ==> k == Key(ssid, 0, 0)
  {
    if anqpDomainId == 0 then Key(ssid, bssid, 0)
    else if hessid != 0 then Key(None, 0, hessid)
    else Key(ssid, 0, 0)
  }

  /** `hashCode`; `None` where the Java code dereferences a null SSID. */
  function HashCode(k: Key): (h: Option<int>)
    requires IsLong(k.bssid) && IsLong(k.hessid)
    ensures h.Some? ==> IsInt(h.value)
    ensures h.None? <==> k.hessid == 0 && k.ssid.None?
    // the intermediate int and long overflows keep the low word, so each
    // hash is its exact polynomial narrowed once to an int
    ensures k.hessid != 0 ==> h == Some(WrapInt(31 * UnsignedHigh(k.hessid) + k.hessid))
    ensures k.hessid == 0 && k.bssid != 0 && k.ssid.Some? ==>
      h == Some(WrapInt(961 * StringHash(k.ssid.value) + 31 * UnsignedHigh(k.bssid) + k.bssid))
    ensures k.hessid == 0 && k.bssid == 0 && k.ssid.Some? ==> h == Some(StringHash(k.ssid.value))
  {
    if k.hessid != 0 then
      var x := UnsignedHigh(k.hessid) * 31 + k.hessid;
      WrapLongKeepsLowWord(x);
      WrapIntCongruent(WrapLong(x), x);
      Some(WrapInt(WrapLong(x)))
    else if k.ssid.None? then None
    else if k.bssid != 0 then
      var sh := StringHash(k.ssid.value);
      var ub := UnsignedHigh(k.bssid);
      var i1 := WrapInt(sh * 31) + ub;
      var inner := WrapLong(i1);
      var x := inner * 31 + k.bssid;
      assert (i1 - (sh * 31 + ub)) % TWO_32 == 0;
      WrapLongKeepsLowWord(i1);
      CongruentTrans(inner, i1, sh * 31 + ub);
      HashStepCongruent(inner, sh * 31 + ub, k.bssid);
      WrapLongKeepsLowWord(x);
      CongruentTrans(WrapLong(x), x, 31 * (sh * 31 + ub) + k.bssid);
      WrapIntCongruent(WrapLong(x), 961 * sh + 31 * ub + k.bssid);
      Some(WrapInt(WrapLong(x)))
    else Some(StringHash(k.ssid.value))
  }

  /** `equals`: field-wise, two null SSIDs being equal. */
  function KeyEquals(a: Key, b: Key): (e: bool)
    ensures e <==> a == b
  {
    a.ssid == b.ssid && a.bssid == b.bssid && a.hessid == b.hessid
  }

  /** APs of one ESS advertising a domain ID and an HESSID share one cache
      entry whatever their SSID and BSSID. */
  lemma SameHessidSameKey(s1: Option<string>, b1: int, s2: Option<string>, b2: int, hessid: int, d1: int, d2: int)
    requires hessid != 0 && d1 != 0 && d2 != 0
    ensures BuildKey(s1, b1, hessid, d1) == BuildKey(s2, b2, hessid, d2)
  {
  }

  /** Without a domain ID two distinct APs never share a key. */
  lemma NoDomainIdSeparatesAps(ssid: Option<string>, b1: int, b2: int, h1: int, h2: int)
    requires b1 != b2
    ensures !KeyEquals(BuildKey(ssid, b1, h1, 0), BuildKey(ssid, b2, h2, 0))
  {
  }

  /** Keys that are equal have equal hash codes, and keys `buildKey` makes
      from an HESSID always have one. */
  lemma EqualKeysEqualHashes(a: Key, b: Key)
    requires IsLong(a.bssid) && IsLong(a.hessid) && IsLong(b.bssid) && IsLong(b.hessid)
    requires KeyEquals(a, b)
    ensures HashCode(a) == HashCode(b)
    ensures a.hessid != 0 ==> HashCode(a).Some?
  {
  }
}

=== FILE: anqp_request_manager.dfy ===
/** `ANQPRequestManager`: per-AP exponential hold-off for ANQP queries and
    the table of outstanding queries
    (service/java/com/android/server/wifi/hotspot2/ANQPRequestManager.java).
    The clock and the event handler's send result are parameters. */
module AnqpRequestManager {
  import opened Wrappers
  import opened AnqpNetworkKey

  const BASE_HOLDOFF_TIME_MILLISECONDS: int := 10000
  const MAX_HOLDOFF_COUNT: nat := 6

  /** The ANQP and Hotspot 2.0 elements this manager ever asks for. */
  datatype ElementType =
    | ANQPVenueName | ANQPIPAddrAvailability | ANQPNAIRealm | ANQP3GPPNetwork | ANQPDomName
    | ANQPRoamingConsortium
    | HSFriendlyName | HSWANMetrics | HSConnCapability

  const R1_ANQP_BASE_SET: seq<ElementType> :=
    [ANQPVenueName, ANQPIPAddrAvailability, ANQPNAIRealm, ANQP3GPPNetwork, ANQPDomName]
  const R2_ANQP_BASE_SET: seq<ElementType> := [HSFriendlyName, HSWANMetrics, HSConnCapability]

  datatype HoldOffInfo = HoldOffInfo(holdOffCount: nat, holdOffExpirationTime: int)

  type Bssid = int

  datatype Manager = Manager(pendingQueries: map<Bssid, Key>, holdOffInfo: map<Bssid, HoldOffInfo>)

  /** `1 << n`, written as repeated doubling; `Pow2Fits` shows that the
      shift counts that can occur do not overflow. */
  function Pow2(n: nat): (r: nat)
    ensures r >= 1
  {
    if n == 0 then 1 else 2 * Pow2(n - 1)
  }

  /** The hold-off count never exceeds its cap. */
  predicate Valid(m: Manager) {
    forall b :: b in m.holdOffInfo ==> m.holdOffInfo[b].holdOffCount <= MAX_HOLDOFF_COUNT
  }

  function NewManager(): (m: Manager)
    ensures Valid(m) && m.pendingQueries == map[] && m.holdOffInfo == map[]
  {
    Manager(map[], map[])
  }

  /** `getRequestElementIDs`: the release 1 base set, then the roaming
      consortium element when the AP advertises OIs, then the release 2 set. */
  function GetRequestElementIDs(rcOIs: bool, hsReleaseR2: bool): (ids: seq<ElementType>)
    ensures |ids| >= 5 && ids[..5] == R1_ANQP_BASE_SET
    ensures ANQPRoamingConsortium in ids <==> rcOIs
    ensures HSFriendlyName in ids <==> hsReleaseR2
    ensures |ids| == 5 + (if rcOIs then 1 else 0) + (if hsReleaseR2 then 3 else 0)
    ensures hsReleaseR2 ==> ids[|ids| - 3..] == R2_ANQP_BASE_SET
  {
    R1_ANQP_BASE_SET + (if rcOIs then [ANQPRoamingConsortium] else [])
                     + (if hsReleaseR2 then R2_ANQP_BASE_SET else [])
  }

  /** `canSendRequestNow`. */
  function CanSendRequestNow(m: Manager, bssid: Bssid, now: int): (ok: bool)
    ensures !ok <==> bssid in m.holdOffInfo && m.holdOffInfo[bssid].holdOffExpirationTime > now
  {
    !(bssid in m.holdOffInfo && m.holdOffInfo[bssid].holdOffExpirationTime > now)
  }

  /** `updateHoldOffInfo`: the wait doubles with each unanswered request, up
      to 2^6 times the base. */
  function UpdateHoldOffInfo(m: Manager, bssid: Bssid, now: int): (r: Manager)
    requires Valid(m)
    ensures Valid(r) && r.pendingQueries == m.pendingQueries
    ensures bssid in r.holdOffInfo
    ensures forall b :: b != bssid ==> (b in r.holdOffInfo <==> b in m.holdOffInfo)
    ensures forall b :: b != bssid && b in m.holdOffInfo ==> r.holdOffInfo[b] == m.holdOffInfo[b]
    ensures var count := if bssid in m.holdOffInfo then m.holdOffInfo[bssid].holdOffCount else 0;
      r.holdOffInfo[bssid] ==
        HoldOffInfo(if count < MAX_HOLDOFF_COUNT then count + 1 else count,
                    now + BASE_HOLDOFF_TIME_MILLISECONDS * Pow2(count))
  {
    var info := if bssid in m.holdOffInfo then m.holdOffInfo[bssid] else HoldOffInfo(0, 0);
    var expiration := now + BASE_HOLDOFF_TIME_MILLISECONDS * Pow2(info.holdOffCount);
    var count := if info.holdOffCount < MAX_HOLDOFF_COUNT then info.holdOffCount + 1 else info.holdOffCount;
    m.(holdOffInfo := m.holdOffInfo[bssid := HoldOffInfo(count, expiration)])
  }

  /** `requestANQPElements`. `handlerAccepts` is the event handler's answer
      to the send. Returns the manager, the elements sent (if a send was
      attempted) and the result. */
  function RequestANQPElements(m: Manager, bssid: Bssid, key: Key, rcOIs: bool, hsReleaseR2: bool,
                               now: int, handlerAccepts: bool): (r: (Manager, Option<seq<ElementType>>, bool))
    requires Valid(m)
    ensures Valid(r.0)
    // held off: nothing is sent and nothing changes
    ensures !CanSendRequestNow(m, bssid, now) ==> r == (m, None, false)
    // otherwise the hold-off is extended whatever the handler says
    ensures CanSendRequestNow(m, bssid, now) ==>
      r.1 == Some(GetRequestElementIDs(rcOIs, hsReleaseR2)) &&
      r.0.holdOffInfo == UpdateHoldOffInfo(m, bssid, now).holdOffInfo
    // and the query is pending exactly when the handler accepted it
    ensures CanSendRequestNow(m, bssid, now) ==>
      (r.2 <==> handlerAccepts) &&
      r.0.pendingQueries == (if handlerAccepts then m.pendingQueries[bssid := key] else m.pendingQueries)
  {
    if !CanSendRequestNow(m, bssid, now) then (m, None, false)
    else
      var m1 := UpdateHoldOffInfo(m, bssid, now);
      var ids := GetRequestElementIDs(rcOIs, hsReleaseR2);
      if !handlerAccepts then (m1, Some(ids), false)
      else (m1.(pendingQueries := m1.pendingQueries[bssid := key]), Some(ids), true)
  }

  /** `onRequestCompleted`: hands back and forgets the pending key; success
      also lifts the hold-off. */
  function OnRequestCompleted(m: Manager, bssid: Bssid, success: bool): (r: (Manager, Option<Key>))
    requires Valid(m)
    ensures Valid(r.0)
    ensures r.1 == (if bssid in m.pendingQueries then Some(m.pendingQueries[bssid]) else None)
    ensures r.0.pendingQueries == m.pendingQueries - {bssid}
    ensures r.0.holdOffInfo == (if success then m.holdOffInfo - {bssid} else m.holdOffInfo)
  {
    var holdOff := if success then m.holdOffInfo - {bssid} else m.holdOffInfo;
    var key := if bssid in m.pendingQueries then Some(m.pendingQueries[bssid]) else None;
    (Manager(m.pendingQueries - {bssid}, holdOff), key)
  }

  /** However many requests went unanswered, the next one is never held off
      for more than 640 seconds. */
  lemma HoldOffBounded(m: Manager, bssid: Bssid, now: int)
    requires Valid(m)
    ensures UpdateHoldOffInfo(m, bssid, now).holdOffInfo[bssid].holdOffExpirationTime
            <= now + BASE_HOLDOFF_TIME_MILLISECONDS * Pow2(MAX_HOLDOFF_COUNT)
    ensures BASE_HOLDOFF_TIME_MILLISECONDS * Pow2(MAX_HOLDOFF_COUNT) == 640000
  {
    var count := if bssid in m.holdOffInfo then m.holdOffInfo[bssid].holdOffCount else 0;
    Pow2Monotone(count, MAX_HOLDOFF_COUNT);
  }

  /** Below 31 the Java `int` shift `1 << n` does not overflow, and at
      the capped hold-off count the multiplier is at most 64. */
  lemma Pow2Fits(n: nat)
    ensures n < 31 ==> Pow2(n) <= 0x4000_0000
    ensures n <= MAX_HOLDOFF_COUNT ==> Pow2(n) <= 64
  {
    assert Pow2(6) == 64;
    Pow2Add(6, 6);
    Pow2Add(12, 12);
    Pow2Add(24, 6);
    if n < 31 {
      Pow2Monotone(n, 30);
    }
    if n <= MAX_HOLDOFF_COUNT {
      Pow2Monotone(n, MAX_HOLDOFF_COUNT);
    }
  }

  /** Shifting by `a + b` is shifting by `a`, then by `b`. */
  lemma {:induction false} Pow2Add(a: nat, b: nat)
    ensures Pow2(a + b) == Pow2(a) * Pow2(b)
  {
    if b > 0 {
      Pow2Add(a, b - 1);
      assert Pow2(a + b) == 2 * Pow2(a + b - 1);
    }
  }

  lemma {:induction false} Pow2Monotone(a: nat, b: nat)
    requires a <= b
    ensures Pow2(a) <= Pow2(b)
  {
    if a < b {
      Pow2Monotone(a, b - 1);
    }
  }

  /** Two unanswered requests in a row: the first waits the base time, the
      second twice that, and a request in between is refused. */
  lemma BackOffDoubles(m: Manager, bssid: Bssid, key: Key, t1: int, t2: int, t3: int)
    requires Valid(m) && bssid !in m.holdOffInfo
    requires t1 <= t2 < t1 + BASE_HOLDOFF_TIME_MILLISECONDS <= t3
    ensures var (m1, _, _) := RequestANQPElements(m, bssid, key, false, false, t1, false);
            var (m2, sent2, ok2) := RequestANQPElements(m1, bssid, key, false, false, t2, false);
            var (m3, sent3, _) := RequestANQPElements(m2, bssid, key, false, false, t3, false);
            m1.holdOffInfo[bssid] == HoldOffInfo(1, t1 + BASE_HOLDOFF_TIME_MILLISECONDS) &&
            sent2.None? && !ok2 && sent3.Some? &&
            m3.holdOffInfo[bssid] == HoldOffInfo(2, t3 + 2 * BASE_HOLDOFF_TIME_MILLISECONDS)
  {
  }

  /** An answered query lifts the hold-off: the next request goes out
      immediately. */
  lemma SuccessAllowsImmediateRequest(m: Manager, bssid: Bssid, now: int)
    requires Valid(m)
    ensures CanSendRequestNow(OnRequestCompleted(m, bssid, true).0, bssid, now)
  {
  }
}

=== FILE: aware_native_manager.dfy ===
/** The layered bring-up of Wi-Fi Aware over the HIDL Wi-Fi service
    (service/java/com/android/server/wifi/aware/WifiAwareNativeManager.java).

    Three layers are held: the `IWifi` service (with whether it is
    started), the chip, and the NAN interface with its name. `start`
    initialises the missing layers in order; HIDL callbacks invalidate
    them. A `RuntimeException` from any HIDL call counts as the service
    dying: everything is dropped and `start` runs again, so the calls are
    mutually recursive here. Each initialisation call takes its answer
    from the next entry of its own stream in `Env`; an exhausted stream
    answers with the quiet failure (no service, no chip id, no interface).
    The usage reports to the Aware state manager are the emitted effects. */
module AwareNativeManager {
  import opened Wrappers

  /** `IfaceType.NAN` in android.hardware.wifi@1.0. */
  const IFACE_TYPE_NAN: int := 3

  /** The held layers. */
  datatype Aware = Aware(wifi: bool, started: bool, chip: bool, iface: bool, ifaceName: Option<string>)

  datatype Effect = EnableUsage | DisableUsage

  /** What `initWifiHidl` hears: no service, a refused callback
      registration, a registration with the service's started flag, or
      an exception. */
  datatype ServiceAnswer = NoService | RegisterFails | Registered(isStarted: bool) | ServiceThrows

  /** What `initWifiChipHidl` hears: no usable chip id, a failed
      `getChip`, a refused callback registration, success, or an
      exception. */
  datatype ChipAnswer = NoChipId | GetChipFails | ChipRegisterFails | ChipReady | ChipThrows

  /** What `initWifiNanIface` hears: a failed `createNanIface`, a failed
      `getName`, success with the name, or an exception before or after
      the interface was stored. */
  datatype IfaceAnswer = CreateFails | GetNameFails | IfaceReady(name: string) | CreateThrows | GetNameThrows

  datatype Env = Env(services: seq<ServiceAnswer>, chips: seq<ChipAnswer>, ifaces: seq<IfaceAnswer>)

  /** The manager after a call: its layers, the usage reports, and the
      answers not yet used. */
  datatype Outcome = Outcome(m: Aware, effects: seq<Effect>, env: Env)

  datatype Event =
    | CallStart
    | OnStart
    | OnStop
    | OnFailure
    | ChipReconfigured
    | ChipReconfigureFailure
    | IfaceAdded(ifaceType: int, name: string)
    | IfaceRemoved(ifaceType: int, name: string)

  function Initial(): (m: Aware)
    ensures !m.wifi && !m.started && !m.chip && !m.iface && m.ifaceName.None?
  {
    Aware(false, false, false, false, None)
  }

  function Total(env: Env): nat {
    |env.services| + |env.chips| + |env.ifaces|
  }

  /** Every layer is held. */
  predicate Ready(m: Aware) {
    m.wifi && m.started && m.chip && m.iface
  }

  /** The layers' dependencies: an interface has a name, and each layer
      rests on the one below. */
  ghost predicate Valid(m: Aware) {
    (m.iface <==> m.ifaceName.Some?) && (m.iface ==> m.chip) && (m.chip ==> m.wifi && m.started)
  }

  // ---------------------------------------------------------------------
  // Usage reports

  /** Whether usage is enabled after `effects`, starting from `from`;
      `None` if an enable arrives while enabled or a disable while
      disabled. */
  function UsageAfter(from: bool, effects: seq<Effect>): Option<bool>
    decreases |effects|
  {
    if effects == [] then Some(from)
    else if (effects[0] == EnableUsage) == from then None
    else UsageAfter(!from, effects[1..])
  }

  lemma {:induction false} UsageAfterAppend(from: bool, a: seq<Effect>, b: seq<Effect>)
    ensures UsageAfter(from, a + b) ==
      (if UsageAfter(from, a).None? then None else UsageAfter(UsageAfter(from, a).value, b))
    decreases |a|
  {
    if a != [] {
      assert (a + b)[0] == a[0];
      assert (a + b)[1..] == a[1..] + b;
      UsageAfterAppend(!from, a[1..], b);
    } else {
      assert a + b == b;
    }
  }

  /** The answers contain no exception from `getName`, the one path that
      reports a disable without a matching enable. */
  predicate NoGetNameThrows(env: Env) {
    GetNameThrows !in env.ifaces
  }

  /** No HIDL call among the answers throws. */
  predicate NoThrows(env: Env) {
    ServiceThrows !in env.services && ChipThrows !in env.chips &&
    CreateThrows !in env.ifaces && GetNameThrows !in env.ifaces
  }

  // ---------------------------------------------------------------------
  // Invalidation

  /** `invalidateNanIface`: report disabled usage if an interface is held,
      then drop it and its name. */
  function InvalidateNanIface(m: Aware): (r: (Aware, seq<Effect>))
    ensures r.0 == m.(iface := false, ifaceName := None)
    ensures r.1 == (if m.iface then [DisableUsage] else [])
    ensures UsageAfter(m.iface, r.1) == Some(false)
  {
    (m.(iface := false, ifaceName := None), if m.iface then [DisableUsage] else [])
  }

  /** `invalidateChip`: drop the chip, then the interface. */
  function InvalidateChip(m: Aware): (r: (Aware, seq<Effect>))
    ensures r.0 == m.(chip := false, iface := false, ifaceName := None)
    ensures UsageAfter(m.iface, r.1) == Some(false)
  {
    InvalidateNanIface(m.(chip := false))
  }

  // ---------------------------------------------------------------------
  // Start and the initialisation chain

  /** `start`: initialise each missing layer in order, giving up at the
      first that stays missing; true exactly when every layer is held. */
  function Start(m: Aware, env: Env): (r: (Outcome, bool))
    ensures Total(r.0.env) <= Total(env)
    ensures r.1 <==> Ready(r.0.m)
    // with the service held but not started, nothing is touched
    ensures m.wifi && !m.started ==> r == (Outcome(m, [], env), false)
    // with every layer held, nothing is touched
    ensures Ready(m) ==> r == (Outcome(m, [], env), true)
    ensures Valid(m) ==> Valid(r.0.m)
    ensures NoGetNameThrows(env) ==> NoGetNameThrows(r.0.env) && UsageAfter(m.iface, r.0.effects) == Some(r.0.m.iface)
    // only the missing layers are initialised
    ensures NoThrows(env) && m.wifi ==> r.0.env.services == env.services
    ensures NoThrows(env) && m.wifi && m.chip ==> r.0.env.chips == env.chips
    decreases Total(env), 3
  {
    var o1 := if m.wifi then Outcome(m, [], env) else InitWifi(m, env);
    if !o1.m.wifi || !o1.m.started then (o1, false)
    else StartChipAndIface(m.iface, o1)
  }

  /** The rest of `start` once the service is held and started: the chip,
      then the interface. `from` is whether an interface was held when
      `start` began. */
  function StartChipAndIface(from: bool, o1: Outcome): (r: (Outcome, bool))
    requires o1.m.wifi && o1.m.started
    ensures Total(r.0.env) <= Total(o1.env)
    ensures r.1 <==> Ready(r.0.m)
    ensures o1.m.chip && o1.m.iface ==> r == (o1, true)
    ensures o1.m.chip && !o1.m.iface && o1.env.ifaces != [] && o1.env.ifaces[0].IfaceReady? ==>
      r.1 && r.0.m.ifaceName == Some(o1.env.ifaces[0].name)
    ensures Valid(o1.m) ==> Valid(r.0.m)
    ensures NoGetNameThrows(o1.env) && UsageAfter(from, o1.effects) == Some(o1.m.iface) ==>
      NoGetNameThrows(r.0.env) && UsageAfter(from, r.0.effects) == Some(r.0.m.iface)
    ensures NoThrows(o1.env) ==> r.0.env.services == o1.env.services
    ensures NoThrows(o1.env) && o1.m.chip ==> r.0.env.chips == o1.env.chips
    decreases Total(o1.env), 2
  {
    var o2 := if o1.m.chip then o1 else Then(from, o1, InitChip(o1.m, o1.env));
    if !o2.m.chip then (o2, false)
    else
      var o3 := if o2.m.iface then o2 else Then(from, o2, InitIface(o2.m, o2.env));
      (o3, o3.m.iface)
  }

  /** `first` followed by `next`, which started from `first`'s state. */
  function Then(from: bool, first: Outcome, next: Outcome): (r: Outcome)
    ensures r.m == next.m && r.env == next.env
    ensures UsageAfter(from, first.effects) == Some(first.m.iface) && UsageAfter(first.m.iface, next.effects) == Some(next.m.iface) ==>
      UsageAfter(from, r.effects) == Some(next.m.iface)
  {
    UsageAfterAppend(from, first.effects, next.effects);
    Outcome(next.m, first.effects + next.effects, next.env)
  }

  /** `initWifiHidl`: fetch the service and register for its events,
      taking its started flag; a refused registration drops the service
      again. */
  function InitWifi(m: Aware, env: Env): (r: Outcome)
    ensures Total(r.env) <= Total(env)
    ensures !m.wifi && Valid(m) ==> Valid(r.m)
    ensures env.services != [] && env.services[0].Registered? ==>
      r == Outcome(m.(wifi := true, started := env.services[0].isStarted), [], env.(services := env.services[1..]))
    ensures env.services == [] || env.services[0] in {NoService, RegisterFails} ==> !r.m.wifi && r.effects == []
    ensures NoGetNameThrows(env) ==> NoGetNameThrows(r.env) && UsageAfter(m.iface, r.effects) == Some(r.m.iface)
    decreases Total(env), 1
  {
    if env.services == [] then Outcome(m.(wifi := false), [], env)
    else
      var rest := env.(services := env.services[1..]);
      match env.services[0]
      case NoService => Outcome(m.(wifi := false), [], rest)
      case RegisterFails => Outcome(m.(wifi := false), [], rest)
      case Registered(isStarted) => Outcome(m.(wifi := true, started := isStarted), [], rest)
      case ServiceThrows => ServiceDied(m, rest)
  }

  /** `initWifiChipHidl`: only once the service is started; take the
      first chip and register for its events. */
  function InitChip(m: Aware, env: Env): (r: Outcome)
    requires m.wifi
    ensures Total(r.env) <= Total(env)
    ensures !m.chip && Valid(m) ==> Valid(r.m)
    ensures !m.started ==> r == Outcome(m, [], env)
    ensures m.started && env.chips != [] && env.chips[0] == ChipReady ==>
      r == Outcome(m.(chip := true), [], env.(chips := env.chips[1..]))
    ensures NoGetNameThrows(env) ==> NoGetNameThrows(r.env) && UsageAfter(m.iface, r.effects) == Some(r.m.iface)
    ensures NoThrows(env) ==> NoThrows(r.env) && r.env.services == env.services && r.env.ifaces == env.ifaces
    decreases Total(env), 1
  {
    if !m.started || env.chips == [] then Outcome(m, [], env)
    else
      var rest := env.(chips := env.chips[1..]);
      match env.chips[0]
      case NoChipId => Outcome(m, [], rest)
      case GetChipFails => Outcome(m, [], rest)
      case ChipRegisterFails => Outcome(m.(chip := false), [], rest)
      case ChipReady => Outcome(m.(chip := true), [], rest)
      case ChipThrows => ServiceDied(m, rest)
  }

  /** `initWifiNanIface`: create the interface and read its name; usage
      is enabled only once both succeed. */
  function InitIface(m: Aware, env: Env): (r: Outcome)
    requires m.chip
    ensures Total(r.env) <= Total(env)
    ensures !m.iface && Valid(m) ==> Valid(r.m)
    ensures env.ifaces != [] && env.ifaces[0].IfaceReady? ==>
      r == Outcome(m.(iface := true, ifaceName := Some(env.ifaces[0].name)), [EnableUsage], env.(ifaces := env.ifaces[1..]))
    ensures !m.iface && (env.ifaces == [] || env.ifaces[0] in {CreateFails, GetNameFails}) ==> !r.m.iface && r.effects == []
    ensures NoGetNameThrows(env) && !m.iface ==> NoGetNameThrows(r.env) && UsageAfter(m.iface, r.effects) == Some(r.m.iface)
    ensures NoThrows(env) ==> NoThrows(r.env) && r.env.services == env.services && r.env.chips == env.chips
    decreases Total(env), 1
  {
    if env.ifaces == [] then Outcome(m, [], env)
    else
      var rest := env.(ifaces := env.ifaces[1..]);
      match env.ifaces[0]
      case CreateFails => Outcome(m, [], rest)
      case GetNameFails => Outcome(m.(iface := false), [], rest)
      case IfaceReady(name) => Outcome(m.(iface := true, ifaceName := Some(name)), [EnableUsage], rest)
      case CreateThrows => ServiceDied(m, rest)
      case GetNameThrows => ServiceDied(m.(iface := true), rest)
  }

  /** `serviceDiedHandler`: drop the service, its started flag and the
      chip, then start again. */
  function ServiceDied(m: Aware, env: Env): (r: Outcome)
    ensures Total(r.env) <= Total(env)
    ensures Valid(r.m)
    ensures NoGetNameThrows(env) ==> NoGetNameThrows(r.env) && UsageAfter(m.iface, r.effects) == Some(r.m.iface)
    decreases Total(env), 4
  {
    var dropped := InvalidateChip(m.(wifi := false, started := false));
    var s := Start(dropped.0, env).0;
    UsageAfterAppend(m.iface, dropped.1, s.effects);
    Outcome(s.m, dropped.1 + s.effects, s.env)
  }

  // ---------------------------------------------------------------------
  // Callbacks

  /** One event: an external `start`, or a callback from the service or
      the chip. */
  function Handle(m: Aware, e: Event, env: Env): (r: Outcome)
    requires Valid(m)
    ensures Valid(r.m)
    ensures NoGetNameThrows(env) ==> UsageAfter(m.iface, r.effects) == Some(r.m.iface)
    // the service stopping or failing drops the chip and the interface
    ensures e.OnStop? || e.OnFailure? ==>
      r.m == m.(chip := false, iface := false, ifaceName := None) && r.env == env
    // a failed reconfiguration drops only the interface
    ensures e.ChipReconfigureFailure? ==> r.m == m.(iface := false, ifaceName := None) && r.env == env
    // a reconfiguration drops the interface and acquires a new one on a held chip
    ensures e.ChipReconfigured? && m.chip && env.ifaces != [] && env.ifaces[0].IfaceReady? ==>
      Ready(r.m) && r.m.ifaceName == Some(env.ifaces[0].name)
    // removal of our own NAN interface drops it
    ensures e.IfaceRemoved? && e.ifaceType == IFACE_TYPE_NAN && m.iface && m.ifaceName == Some(e.name) ==>
      r == Outcome(m.(iface := false, ifaceName := None), [DisableUsage], env)
    // any removal while no interface is held retries the start
    ensures e.IfaceRemoved? && !m.iface ==> r == Start(m, env).0
    // any other removal changes nothing
    ensures e.IfaceRemoved? && m.iface && !(e.ifaceType == IFACE_TYPE_NAN && m.ifaceName == Some(e.name)) ==>
      r == Outcome(m, [], env)
    ensures e.IfaceAdded? ==> r == Outcome(m, [], env)
  {
    match e
    case CallStart => Start(m, env).0
    case OnStart => Start(m.(started := true), env).0
    case OnStop =>
      var d := InvalidateChip(m);
      Outcome(d.0, d.1, env)
    case OnFailure =>
      var d := InvalidateChip(m);
      Outcome(d.0, d.1, env)
    case ChipReconfigured =>
      var d := InvalidateNanIface(m);
      var s := Start(d.0, env).0;
      UsageAfterAppend(m.iface, d.1, s.effects);
      Outcome(s.m, d.1 + s.effects, s.env)
    case ChipReconfigureFailure =>
      var d := InvalidateNanIface(m);
      Outcome(d.0, d.1, env)
    case IfaceAdded(_, _) => Outcome(m, [], env)
    case IfaceRemoved(ifaceType, name) =>
      if ifaceType == IFACE_TYPE_NAN && m.iface && m.ifaceName == Some(name) then
        var d := InvalidateNanIface(m);
        Outcome(d.0, d.1, env)
      else if !m.iface then Start(m, env).0
      else Outcome(m, [], env)
  }

  // ---------------------------------------------------------------------
  // Scenarios

  /** A refused callback registration leaves no service behind, so the
      next start begins again from the service and can then bring every
      layer up. */
  lemma {:induction false} RegistrationFailureRetried(name: string)
    ensures var env := Env([RegisterFails, Registered(true)], [ChipReady], [IfaceReady(name)]);
            var first := Start(Initial(), env);
            var second := Start(first.0.m, first.0.env);
            !first.1 && first.0.m == Initial() && first.0.effects == [] &&
            second.1 && second.0.m.ifaceName == Some(name) && second.0.effects == [EnableUsage]
  {
    var env := Env([RegisterFails, Registered(true)], [ChipReady], [IfaceReady(name)]);
    var rest := Env([Registered(true)], [ChipReady], [IfaceReady(name)]);
    assert env.services[0] == RegisterFails && env.services[1..] == rest.services;
    var o0 := InitWifi(Initial(), env);
    assert o0 == Outcome(Initial().(wifi := false), [], env.(services := env.services[1..]));
    assert Initial().(wifi := false) == Initial() && env.(services := env.services[1..]) == rest;
    var first := Start(Initial(), env);
    assert first == (o0, false);
    assert first.0.env == rest;
    var o1 := InitWifi(first.0.m, first.0.env);
    assert o1.m == Aware(true, true, false, false, None);
    var o2 := InitChip(o1.m, o1.env);
    assert o2.m == Aware(true, true, true, false, None);
    var o3 := InitIface(o2.m, o2.env);
    assert o3.effects == [EnableUsage];
    assert StartChipAndIface(false, o1) == (Then(false, Then(false, o1, o2), o3), true);
  }

  /** An exception from `getName` after the interface was stored reports
      disabled usage although enabled usage was never reported. */
  lemma GetNameExceptionDisablesUnpaired()
    ensures var m := Aware(true, true, true, false, None);
            var r := Start(m, Env([], [], [GetNameThrows]));
            !r.1 && r.0.effects == [DisableUsage] && UsageAfter(false, r.0.effects).None?
  {
    var m := Aware(true, true, true, false, None);
    var died := ServiceDied(m.(iface := true), Env([], [], []));
    assert died.effects == [DisableUsage];
  }

  /** After the service dies mid-initialisation, the start that follows
      brings the layers up again from the next answers. */
  lemma {:induction false} ServiceDeathRestarts(name: string)
    ensures var env := Env([ServiceThrows, Registered(true)], [ChipReady], [IfaceReady(name)]);
            var r := Start(Initial(), env);
            r.1 && r.0.m == Aware(true, true, true, true, Some(name)) && r.0.effects == [EnableUsage]
  {
    var env := Env([ServiceThrows, Registered(true)], [ChipReady], [IfaceReady(name)]);
    var rest := Env([Registered(true)], [ChipReady], [IfaceReady(name)]);
    var inner := Start(Initial(), rest);
    var o1 := InitWifi(Initial(), rest);
    assert o1.m == Aware(true, true, false, false, None);
    var o2 := InitChip(o1.m, o1.env);
    assert o2.m == Aware(true, true, true, false, None);
    var o3 := InitIface(o2.m, o2.env);
    assert StartChipAndIface(false, o1) == (Then(false, Then(false, o1, o2), o3), true);
    assert inner.0.m == Aware(true, true, true, true, Some(name)) && inner.0.effects == [EnableUsage];
    assert InitWifi(Initial(), env) == ServiceDied(Initial(), rest);
  }
}

=== FILE: chip_service.dfy ===
/** The legacy chip proxy (wifi_hal_legacy/wifi_chip_service.cpp). A chip
    holds a back-reference to the HAL state; `Invalidate` drops it and the
    chip's callbacks, after which every entry point is inert. */
module ChipService {
  import opened FailureReason

  type CallbackId = nat

  /** A chip mode as reported by `getAvailableModes`; the legacy chip never
      reports one, so its contents are irrelevant here. */
  datatype ChipMode = ChipMode(id: nat)

  datatype ChipDebugInfo = ChipDebugInfo(driverDescription: string, firmwareDescription: string)

  datatype Chip = Chip(halValid: bool, callbacks: set<CallbackId>)

  /** What an entry point makes observable. */
  datatype Output =
    | ModesReply(modes: seq<ChipMode>)
    | DriverVersionQuery
    | FirmwareVersionQuery
    | DebugInfoDelivered(recipients: set<CallbackId>, info: ChipDebugInfo)

  /** The vendor's answer to a version query: its status and the characters
      it wrote at the start of the caller's buffer. */
  datatype VersionAnswer = VersionAnswer(status: int, written: string)

  const BUFFER_SIZE: nat := 256
  const UNKNOWN_DESCRIPTION: string := "<unknown>"

  /** A chip created with a live HAL back-reference. */
  function NewChip(): (c: Chip)
    ensures c.halValid && c.callbacks == {}
  {
    Chip(true, {})
  }

  function Invalidate(c: Chip): (r: Chip)
    ensures !r.halValid && r.callbacks == {}
  {
    Chip(false, {})
  }

  function RegisterEventCallback(c: Chip, cb: CallbackId): (r: Chip)
    ensures c.halValid ==> r == c.(callbacks := c.callbacks + {cb})
    ensures !c.halValid ==> r == c
  {
    if !c.halValid then c else c.(callbacks := c.callbacks + {cb})
  }

  /** An invalidated chip answers with no modes; a valid one never answers. */
  function GetAvailableModes(c: Chip): (out: seq<Output>)
    ensures !c.halValid <==> out == [ModesReply([])]
    ensures c.halValid <==> out == []
  {
    if !c.halValid then [ModesReply([])] else []
  }

  /** `configureChip` is not implemented: no effect in either case. */
  function ConfigureChip(c: Chip, modeId: nat): (r: (Chip, seq<Output>))
    ensures r == (c, [])
  {
    (c, [])
  }

  function GetMode(c: Chip): (m: nat)
    ensures m == 0
  {
    0
  }

  /** The zero-filled 256-byte buffer after the vendor wrote `written` at its
      start (at most the buffer size). */
  function FillZeroedBuffer(written: string): (buf: string)
    ensures |buf| == BUFFER_SIZE
    ensures forall i :: 0 <= i < |buf| ==> buf[i] == (if i < |written| then written[i] else '\0')
  {
    var w := if |written| <= BUFFER_SIZE then written else written[..BUFFER_SIZE];
    w + seq(BUFFER_SIZE - |w|, _ => '\0')
  }

  /** The C string held in a buffer: the characters before the first NUL
      (the whole buffer when it holds none). */
  function CString(buf: string): (s: string)
    ensures |s| <= |buf| && s == buf[..|s|]
    ensures forall i :: 0 <= i < |s| ==> s[i] != '\0'
    ensures |s| < |buf| ==> buf[|s|] == '\0'
  {
    if buf == [] || buf[0] == '\0' then [] else [buf[0]] + CString(buf[1..])
  }

  /** The description one version query yields: the buffer's string on
      success, otherwise the previous value. */
  function QueryDescription(previous: string, answer: VersionAnswer): (d: string)
    ensures answer.status == WIFI_SUCCESS ==> d == CString(FillZeroedBuffer(answer.written))
    ensures answer.status != WIFI_SUCCESS ==> d == previous
  {
    if answer.status == WIFI_SUCCESS then CString(FillZeroedBuffer(answer.written)) else previous
  }

  /** `requestChipDebugInfo`: both queries run in order, each into a freshly
      zeroed buffer, and the same record goes to every chip callback. */
  function RequestChipDebugInfo(c: Chip, driver: VersionAnswer, firmware: VersionAnswer): (out: seq<Output>)
    ensures !c.halValid ==> out == []
    ensures c.halValid ==>
      |out| == 3 && out[0] == DriverVersionQuery && out[1] == FirmwareVersionQuery &&
      out[2].DebugInfoDelivered? && out[2].recipients == c.callbacks
    // each field is "<unknown>" exactly when its own query failed, whatever the other query did
    ensures c.halValid ==>
      (driver.status != WIFI_SUCCESS ==> out[2].info.driverDescription == UNKNOWN_DESCRIPTION) &&
      (firmware.status != WIFI_SUCCESS ==> out[2].info.firmwareDescription == UNKNOWN_DESCRIPTION) &&
      (driver.status == WIFI_SUCCESS ==>
         out[2].info.driverDescription == CString(FillZeroedBuffer(driver.written))) &&
      (firmware.status == WIFI_SUCCESS ==>
         out[2].info.firmwareDescription == CString(FillZeroedBuffer(firmware.written)))
  {
    if !c.halValid then []
    else
      var info0 := ChipDebugInfo(UNKNOWN_DESCRIPTION, UNKNOWN_DESCRIPTION);
      var info1 := info0.(driverDescription := QueryDescription(info0.driverDescription, driver));
      var info2 := info1.(firmwareDescription := QueryDescription(info1.firmwareDescription, firmware));
      [DriverVersionQuery, FirmwareVersionQuery, DebugInfoDelivered(c.callbacks, info2)]
  }

  /** A successful query yields exactly the vendor's text when it is shorter
      than the buffer and free of NUL characters, so nothing from an earlier
      query can survive in the zeroed buffer. */
  lemma {:induction false} QueryYieldsWrittenText(written: string)
    requires |written| < BUFFER_SIZE
    requires forall i :: 0 <= i < |written| ==> written[i] != '\0'
    ensures CString(FillZeroedBuffer(written)) == written
  {
    var buf := FillZeroedBuffer(written);
    assert buf[|written|] == '\0';
  }

  /** After invalidation no entry point has any effect except the empty
      answer of `getAvailableModes`. */
  lemma InvalidatedChipIsInert(c: Chip, cb: CallbackId, d: VersionAnswer, f: VersionAnswer)
    ensures var i := Invalidate(c);
      RegisterEventCallback(i, cb) == i && RequestChipDebugInfo(i, d, f) == [] &&
      GetAvailableModes(i) == [ModesReply([])] && GetMode(i) == 0
  {
  }
}

=== FILE: failure_reason.dfy ===
/** Translation of legacy vendor-HAL `wifi_error` codes into the HIDL
    `FailureReason` record reported to framework callbacks
    (wifi_hal_legacy/failure_reason_util.cpp). */
module FailureReason {

  /** The four `CommandFailureReason` values the HIDL interface defines. */
  datatype CommandFailureReason = NotAvailable | NotSupported | InvalidArgs | Unknown

  /** A reason plus a free-text description. */
  datatype FailureReason = FailureReason(reason: CommandFailureReason, description: string)

  // Legacy vendor HAL `wifi_error` codes.
  const WIFI_SUCCESS: int := 0
  const WIFI_ERROR_NONE: int := 0
  const WIFI_ERROR_UNKNOWN: int := -1
  const WIFI_ERROR_UNINITIALIZED: int := -2
  const WIFI_ERROR_NOT_SUPPORTED: int := -3
  const WIFI_ERROR_NOT_AVAILABLE: int := -4
  const WIFI_ERROR_INVALID_ARGS: int := -5
  const WIFI_ERROR_INVALID_REQUEST_ID: int := -6
  const WIFI_ERROR_TIMED_OUT: int := -7
  const WIFI_ERROR_TOO_MANY_REQUESTS: int := -8
  const WIFI_ERROR_OUT_OF_MEMORY: int := -9
  const WIFI_ERROR_BUSY: int := -10

  /** The codes the translation recognises individually; any other code
      (including NONE, UNKNOWN and BUSY) falls into the default branch. */
  predicate IsSpecificError(error: int) {
    error in {WIFI_ERROR_UNINITIALIZED, WIFI_ERROR_NOT_AVAILABLE, WIFI_ERROR_NOT_SUPPORTED,
              WIFI_ERROR_INVALID_ARGS, WIFI_ERROR_INVALID_REQUEST_ID, WIFI_ERROR_TIMED_OUT,
              WIFI_ERROR_TOO_MANY_REQUESTS, WIFI_ERROR_OUT_OF_MEMORY}
  }

  /** Builds a failure record carrying exactly the given reason and text. */
  function CreateFailureReason(reason: CommandFailureReason, description: string): (r: FailureReason)
    ensures r.reason == reason && r.description == description
  {
    FailureReason(reason, description)
  }

  /** The suffix a resource-type error appends to the caller's text. */
  function ErrorSuffix(error: int): string {
    if error == WIFI_ERROR_TIMED_OUT then ", timed out"
    else if error == WIFI_ERROR_TOO_MANY_REQUESTS then ", too many requests"
    else if error == WIFI_ERROR_OUT_OF_MEMORY then ", out of memory"
    else ""
  }

  /** Maps a legacy error code and a caller description to a failure record. */
  function CreateFailureReasonLegacyError(error: int, desc: string): (r: FailureReason)
    // each reason is produced by exactly its group of codes
    ensures r.reason == NotAvailable <==> error in {WIFI_ERROR_UNINITIALIZED, WIFI_ERROR_NOT_AVAILABLE}
    ensures r.reason == NotSupported <==> error == WIFI_ERROR_NOT_SUPPORTED
    ensures r.reason == InvalidArgs <==> error in {WIFI_ERROR_INVALID_ARGS, WIFI_ERROR_INVALID_REQUEST_ID}
    ensures r.reason == Unknown <==> !(error in {WIFI_ERROR_UNINITIALIZED, WIFI_ERROR_NOT_AVAILABLE,
                                                WIFI_ERROR_NOT_SUPPORTED, WIFI_ERROR_INVALID_ARGS,
                                                WIFI_ERROR_INVALID_REQUEST_ID})
    // a recognised code keeps the caller's text as a prefix; any other code discards it
    ensures IsSpecificError(error) ==> r.description == desc + ErrorSuffix(error)
    ensures !IsSpecificError(error) ==> r.description == "unknown"
  {
    if error == WIFI_ERROR_UNINITIALIZED || error == WIFI_ERROR_NOT_AVAILABLE then
      CreateFailureReason(NotAvailable, desc)
    else if error == WIFI_ERROR_NOT_SUPPORTED then
      CreateFailureReason(NotSupported, desc)
    else if error == WIFI_ERROR_INVALID_ARGS || error == WIFI_ERROR_INVALID_REQUEST_ID then
      CreateFailureReason(InvalidArgs, desc)
    else if error == WIFI_ERROR_TIMED_OUT then
      CreateFailureReason(Unknown, desc + ", timed out")
    else if error == WIFI_ERROR_TOO_MANY_REQUESTS then
      CreateFailureReason(Unknown, desc + ", too many requests")
    else if error == WIFI_ERROR_OUT_OF_MEMORY then
      CreateFailureReason(Unknown, desc + ", out of memory")
    else
      CreateFailureReason(Unknown, "unknown")
  }
}

=== FILE: hal_service.dfy ===
/** The legacy vendor-HAL service lifecycle (wifi_hal_legacy/wifi_hal_service.cpp).

    The service is a STOPPED / STARTED / STOPPING machine. Stopping completes
    only when two barriers have cleared: the synchronous vendor cleanup command
    and the termination of the vendor event-loop thread. The worker thread and
    the looper are modelled as external inputs consumed one at a time by a
    single actor: `EventLoopExited` is the moment the vendor event loop returns
    on its thread, and `RunPostedTask` is the looper running the oldest task
    posted to it. */
module HalService {
  import opened Wrappers
  import opened FailureReason

  /** Callbacks are identified by an opaque id; the service keeps a set. */
  type CallbackId = nat

  newtype uint32 = x: int | 0 <= x < 0x1_0000_0000

  datatype State = Stopped | Started | Stopping

  /** The one kind of task the service ever posts to its looper. */
  datatype Task = ClearEventLoopBarrierAndFinish

  /** A message delivered to callbacks. */
  datatype HalMessage =
    | OnStart(cmdId: uint32)
    | OnStartFailure(cmdId: uint32, failure: FailureReason)
    | OnStop(cmdId: uint32)

  /** What one step makes observable: a delivery to a set of callbacks (each
      member receives it exactly once), a vendor call, a thread spawn, or a
      reply to the caller of `getChip`. */
  datatype Output =
    | Deliver(recipients: set<CallbackId>, message: HalMessage)
    | VendorInitialize
    | VendorCleanup
    | SpawnEventLoop
    | ChipReply(chip: Option<nat>)

  datatype Hal = Hal(
    state: State,
    callbacks: set<CallbackId>,
    pendingStopCmdId: uint32,
    awaitingCleanupCommand: bool,
    awaitingEventLoopTermination: bool,
    eventLoopRunning: bool,
    tasks: seq<Task>)

  /** The freshly constructed service: STOPPED, no callbacks, both barrier
      flags false (the constructor leaves them uninitialised). */
  function Init(): (h: Hal)
    ensures h.state == Stopped && h.callbacks == {} && Valid(h)
  {
    Hal(Stopped, {}, 0, false, false, false, [])
  }

  /** The reachable configurations of the single-actor model. */
  ghost predicate Valid(h: Hal) {
    !h.awaitingCleanupCommand &&
    match h.state
    case Stopped => !h.awaitingEventLoopTermination && !h.eventLoopRunning && h.tasks == []
    case Started => !h.awaitingEventLoopTermination && h.eventLoopRunning && h.tasks == []
    case Stopping =>
      h.awaitingEventLoopTermination &&
      ((h.eventLoopRunning && h.tasks == []) ||
       (!h.eventLoopRunning && h.tasks == [ClearEventLoopBarrierAndFinish]))
  }

  /** Adds a callback; registering an already present callback changes nothing. */
  function RegisterEventCallback(h: Hal, cb: CallbackId): (r: Hal)
    ensures r.callbacks == h.callbacks + {cb}
    ensures r.(callbacks := h.callbacks) == h
  {
    h.(callbacks := h.callbacks + {cb})
  }

  /** True iff the service is not STOPPED. */
  function IsStarted(h: Hal): (b: bool)
    ensures b <==> h.state in {Started, Stopping}
  {
    h.state != Stopped
  }

  /** `start(cmd_id)`; `initStatus` is what the vendor `wifi_initialize`
      returns if it is called. */
  function Start(h: Hal, cmdId: uint32, initStatus: int): (r: (Hal, seq<Output>))
    // already started: re-announce, no vendor call
    ensures h.state == Started ==> r == (h, [Deliver(h.callbacks, OnStart(cmdId))])
    // stopping: refuse with NOT_AVAILABLE, nothing changes
    ensures h.state == Stopping ==>
      r == (h, [Deliver(h.callbacks, OnStartFailure(cmdId, FailureReason(NotAvailable, "HAL is stopping")))])
    // stopped: initialise the vendor HAL
    ensures h.state == Stopped && initStatus != WIFI_SUCCESS ==>
      r.0 == h && r.1 == [VendorInitialize, Deliver(h.callbacks,
        OnStartFailure(cmdId, CreateFailureReasonLegacyError(initStatus, "Failed to initialize HAL")))]
    ensures h.state == Stopped && initStatus == WIFI_SUCCESS ==>
      r.0.state == Started && r.0.eventLoopRunning && r.0.callbacks == h.callbacks &&
      r.1 == [VendorInitialize, SpawnEventLoop, Deliver(h.callbacks, OnStart(cmdId))]
    ensures Valid(h) ==> Valid(r.0)
  {
    match h.state
    case Started => (h, [Deliver(h.callbacks, OnStart(cmdId))])
    case Stopping =>
      (h, [Deliver(h.callbacks, OnStartFailure(cmdId, CreateFailureReason(NotAvailable, "HAL is stopping")))])
    case Stopped =>
      if initStatus != WIFI_SUCCESS then
        (h, [VendorInitialize, Deliver(h.callbacks,
              OnStartFailure(cmdId, CreateFailureReasonLegacyError(initStatus, "Failed to initialize HAL")))])
      else
        (h.(state := Started, eventLoopRunning := true),
         [VendorInitialize, SpawnEventLoop, Deliver(h.callbacks, OnStart(cmdId))])
  }

  /** `FinishHalCleanup`: completes a stop once both barriers are down. */
  function FinishHalCleanup(h: Hal): (r: (Hal, seq<Output>))
    ensures !h.awaitingCleanupCommand && !h.awaitingEventLoopTermination ==>
      r == (h.(state := Stopped), [Deliver(h.callbacks, OnStop(h.pendingStopCmdId))])
    ensures h.awaitingCleanupCommand || h.awaitingEventLoopTermination ==> r == (h, [])
  {
    if !h.awaitingCleanupCommand && !h.awaitingEventLoopTermination then
      (h.(state := Stopped), [Deliver(h.callbacks, OnStop(h.pendingStopCmdId))])
    else
      (h, [])
  }

  /** `stop(cmd_id)`. The vendor cleanup command runs synchronously; only the
      event-loop barrier can still be up afterwards. */
  function Stop(h: Hal, cmdId: uint32): (r: (Hal, seq<Output>))
    ensures h.state == Stopped ==> r == (h, [Deliver(h.callbacks, OnStop(cmdId))])
    ensures h.state == Stopping ==> r == (h, [])
    ensures h.state == Started ==>
      r.0.pendingStopCmdId == cmdId && !r.0.awaitingCleanupCommand && r.0.callbacks == h.callbacks &&
      |r.1| >= 1 && r.1[0] == VendorCleanup
    // with the event loop still running, the stop is left pending
    ensures h.state == Started && h.eventLoopRunning ==> r.0.state == Stopping && r.1 == [VendorCleanup]
    ensures Valid(h) ==> Valid(r.0)
  {
    match h.state
    case Stopped => (h, [Deliver(h.callbacks, OnStop(cmdId))])
    case Stopping => (h, [])
    case Started =>
      var h1 := h.(pendingStopCmdId := cmdId, awaitingCleanupCommand := true,
                   awaitingEventLoopTermination := true, state := Stopping);
      // the vendor `wifi_cleanup` call returns here
      var h2 := h1.(awaitingCleanupCommand := false);
      var (h3, out) := FinishHalCleanup(h2);
      (h3, [VendorCleanup] + out)
  }

  /** The vendor event loop returned on its thread. Outside STOPPING this is a
      fatal error (the process aborts, modelled as `Failure`); otherwise the
      thread detaches and posts the task that lowers the second barrier. */
  function EventLoopExited(h: Hal): (r: Result<Hal, string>)
    requires h.eventLoopRunning
    ensures r.Failure? <==> h.state != Stopping
    ensures r.Success? ==> r.value == h.(eventLoopRunning := false, tasks := h.tasks + [ClearEventLoopBarrierAndFinish])
    ensures Valid(h) && r.Success? ==> Valid(r.value)
  {
    if h.state != Stopping then Failure("HAL event loop terminated, but HAL was not stopping")
    else Success(h.(eventLoopRunning := false, tasks := h.tasks + [ClearEventLoopBarrierAndFinish]))
  }

  /** The looper runs the oldest posted task. */
  function RunPostedTask(h: Hal): (r: (Hal, seq<Output>))
    requires h.tasks != []
    ensures |r.0.tasks| == |h.tasks| - 1 && !r.0.awaitingEventLoopTermination
    ensures !h.awaitingCleanupCommand ==>
      r.0.state == Stopped && r.1 == [Deliver(h.callbacks, OnStop(h.pendingStopCmdId))]
    ensures Valid(h) ==> Valid(r.0)
  {
    match h.tasks[0]
    case ClearEventLoopBarrierAndFinish =>
      FinishHalCleanup(h.(tasks := h.tasks[1..], awaitingEventLoopTermination := false))
  }

  /** `getChip` always answers with a null chip. */
  function GetChip(h: Hal): (r: (Hal, seq<Output>))
    ensures r.0 == h && r.1 == [ChipReply(None)]
  {
    (h, [ChipReply(None)])
  }

  /** Every input the single actor can consume. */
  datatype Input =
    | Register(cb: CallbackId)
    | StartCmd(cmdId: uint32, initStatus: int)
    | StopCmd(cmdId: uint32)
    | GetChipCmd
    | LoopExited
    | LooperTask

  /** Whether an input can occur in a configuration: the loop can only exit
      while its thread exists, and the looper only runs posted tasks. */
  predicate Enabled(h: Hal, i: Input) {
    match i
    case LoopExited => h.eventLoopRunning
    case LooperTask => h.tasks != []
    case _ => true
  }

  /** One step of the service; `Failure` is the fatal abort. */
  function Step(h: Hal, i: Input): (r: Result<(Hal, seq<Output>), string>)
    requires Enabled(h, i)
    ensures Valid(h) && r.Success? ==> Valid(r.value.0)
    ensures Valid(h) ==> (r.Failure? <==> i.LoopExited? && h.state == Started)
  {
    match i
    case Register(cb) => Success((RegisterEventCallback(h, cb), []))
    case StartCmd(c, s) => Success(Start(h, c, s))
    case StopCmd(c) => Success(Stop(h, c))
    case GetChipCmd => Success(GetChip(h))
    case LoopExited =>
      var e := EventLoopExited(h);
      if e.Failure? then Failure(e.error) else Success((e.value, []))
    case LooperTask => Success(RunPostedTask(h))
  }

  /** The outputs of a step that announce a completed stop. */
  function StopDeliveries(out: seq<Output>): (r: nat)
    ensures r <= |out|
  {
    if out == [] then 0
    else (if out[0].Deliver? && out[0].message.OnStop? then 1 else 0) + StopDeliveries(out[1..])
  }

  /** While a stop is pending, every step other than the looper task
      announces nothing about stopping; the looper task announces the stop
      exactly once, with the recorded command id, and reaches STOPPED. So
      `onStop` is delivered exactly once per stop, after both barriers clear. */
  lemma {:induction false} StopAnnouncedExactlyOnce(h: Hal, i: Input)
    requires Valid(h) && h.state == Stopping && Enabled(h, i)
    ensures Step(h, i).Success?
    ensures i.LooperTask? ==>
      Step(h, i).value.0.state == Stopped &&
      Step(h, i).value.1 == [Deliver(h.callbacks, OnStop(h.pendingStopCmdId))]
    ensures !i.LooperTask? ==> Step(h, i).value.0.state == Stopping && StopDeliveries(Step(h, i).value.1) == 0
  {
    match i
    case Register(cb) =>
    case StartCmd(c, s) =>
    case StopCmd(c) =>
    case GetChipCmd =>
    case LoopExited =>
    case LooperTask =>
  }

  /** The complete stop path from STARTED: stop, event-loop exit, looper task.
      Exactly the cleanup call and one `onStop(cmd_id)` to the registered
      callbacks are observed, and the service ends STOPPED and valid. */
  lemma StopSequence(h: Hal, cmdId: uint32)
    requires Valid(h) && h.state == Started
    ensures var (h1, o1) := Stop(h, cmdId);
            var h2 := EventLoopExited(h1).value;
            var (h3, o3) := RunPostedTask(h2);
            o1 == [VendorCleanup] && o3 == [Deliver(h.callbacks, OnStop(cmdId))] &&
            h3.state == Stopped && Valid(h3) && h3.callbacks == h.callbacks
  {
  }

  /** Registering a callback twice is the same as registering it once. */
  lemma RegisterIdempotent(h: Hal, cb: CallbackId)
    ensures RegisterEventCallback(RegisterEventCallback(h, cb), cb) == RegisterEventCallback(h, cb)
  {
  }
}

=== FILE: java_strings.dfy ===
/** The pieces of the Java library the modelled code leans on for text and
    bytes: the byte range, decimal and hex digits, `String.split` on a
    one-character separator, `startsWith`, `contains`, and
    `Integer.parseInt` / `Long.parseLong` in base 10 and 16. Only ASCII
    digits are modelled. */
module JavaStrings {
  import opened Wrappers

  /** A byte, written unsigned. */
  type byte = x: int | 0 <= x < 256

  /** `Integer.MIN_VALUE` and `Integer.MAX_VALUE`. */
  const INT_MIN: int := -0x8000_0000
  const INT_MAX: int := 0x7fff_ffff

  /** `Long.MIN_VALUE` and `Long.MAX_VALUE`. */
  const LONG_MIN: int := -0x8000_0000_0000_0000
  const LONG_MAX: int := 0x7fff_ffff_ffff_ffff

  /** The two bases the modelled code parses in. */
  type Radix = r: int | r == 10 || r == 16 witness 10

  predicate IsHexDigit(c: char) {
    ('0' <= c <= '9') || ('a' <= c <= 'f') || ('A' <= c <= 'F')
  }

  /** The value of hex digit `c`. */
  function DigitValue(c: char): (v: nat)
    requires IsHexDigit(c)
    ensures v < 16
  {
    if '0' <= c <= '9' then c as int - '0' as int
    else if 'a' <= c <= 'f' then c as int - 'a' as int + 10
    else c as int - 'A' as int + 10
  }

  // ---------------------------------------------------------------------
  // Splitting

  /** The pieces of `s` between `sep` characters, empty ones included. */
  function Pieces(s: string, sep: char): (r: seq<string>)
    ensures |r| >= 1
    ensures forall i :: 0 <= i < |r| ==> sep !in r[i]
  {
    if s == [] then [""]
    else
      var rest := Pieces(s[1..], sep);
      if s[0] == sep then [""] + rest
      else [[s[0]] + rest[0]] + rest[1..]
  }

  /** `r` without its trailing empty strings. */
  function DropTrailingEmpty(r: seq<string>): (d: seq<string>)
    ensures |d| <= |r| && d == r[..|d|]
    ensures d != [] ==> d[|d| - 1] != ""
    ensures forall i :: |d| <= i < |r| ==> r[i] == ""
  {
    if r == [] then []
    else if r[|r| - 1] == "" then DropTrailingEmpty(r[..|r| - 1])
    else r
  }

  /** `s.split(sep)` for a separator that is not a regex metacharacter:
      the pieces, with trailing empty ones removed. */
  function Split(s: string, sep: char): (r: seq<string>)
    ensures forall i :: 0 <= i < |r| ==> sep !in r[i]
    ensures sep !in s ==> r == [s]
  {
    if sep !in s then [s] else DropTrailingEmpty(Pieces(s, sep))
  }

  lemma {:induction false} PiecesOfPlain(a: string, sep: char)
    requires sep !in a
    ensures Pieces(a, sep) == [a]
  {
    if a != [] {
      PiecesOfPlain(a[1..], sep);
      assert [a[0]] + a[1..] == a;
    }
  }

  lemma {:induction false} PiecesOfJoin(a: string, b: string, sep: char)
    requires sep !in a
    ensures Pieces(a + [sep] + b, sep) == [a] + Pieces(b, sep)
  {
    if a == [] {
      assert a + [sep] + b == [sep] + b;
      assert (a + [sep] + b)[1..] == b;
    } else {
      assert (a + [sep] + b)[1..] == a[1..] + [sep] + b;
      PiecesOfJoin(a[1..], b, sep);
      assert [a[0]] + a[1..] == a;
    }
  }

  // ---------------------------------------------------------------------
  // Prefixes and substrings

  /** `s.startsWith(p)`. */
  predicate StartsWith(s: string, p: string) {
    |p| <= |s| && s[..|p|] == p
  }

  /** `s.contains(t)`. */
  predicate Contains(s: string, t: string) {
    StartsWith(s, t) || (s != [] && Contains(s[1..], t))
  }

  // ---------------------------------------------------------------------
  // Integer.parseInt and Long.parseLong

  predicate IsDigitIn(c: char, radix: Radix) {
    if radix == 16 then IsHexDigit(c) else '0' <= c <= '9'
  }

  predicate AllDigits(s: string, radix: Radix) {
    forall i :: 0 <= i < |s| ==> IsDigitIn(s[i], radix)
  }

  /** The value of a string of digits, most significant first. */
  function Value(s: string, radix: Radix): (v: nat)
    requires AllDigits(s, radix)
  {
    if s == [] then 0 else Value(s[..|s| - 1], radix) * radix + DigitValue(s[|s| - 1])
  }

  /** The Java parse of `s` in `radix` into a type whose range is
      `lo..hi`: an optional sign, then at least one digit, with the value
      inside the range; anything else raises `NumberFormatException`, here
      `None`. */
  function ParseNumber(s: string, radix: Radix, lo: int, hi: int): (r: Option<int>)
    ensures r.Some? ==> lo <= r.value <= hi
    // plain digits: their value, if it fits
    ensures s != [] && AllDigits(s, radix) ==>
      (r.Some? <==> lo <= Value(s, radix) <= hi) && (r.Some? ==> r.value == Value(s, radix))
    // a minus sign and digits: the negated value, if it fits
    ensures |s| > 1 && s[0] == '-' && AllDigits(s[1..], radix) ==>
      (r.Some? <==> lo <= 0 - Value(s[1..], radix) <= hi) && (r.Some? ==> r.value == 0 - Value(s[1..], radix))
    // no digits, or a non-digit after the sign, raises
    ensures s == [] || s == "-" || s == "+" ==> r.None?
    ensures !AllDigits(if |s| > 0 && (s[0] == '-' || s[0] == '+') then s[1..] else s, radix) ==> r.None?
  {
    var negative := |s| > 0 && s[0] == '-';
    var digits := if |s| > 0 && (s[0] == '-' || s[0] == '+') then s[1..] else s;
    if digits == [] || !AllDigits(digits, radix) then None
    else
      var v: int := if negative then 0 - Value(digits, radix) else Value(digits, radix);
      if lo <= v <= hi then Some(v) else None
  }

  /** `Integer.parseInt(s, 16)`. */
  function ParseInt16(s: string): Option<int> {
    ParseNumber(s, 16, INT_MIN, INT_MAX)
  }

  /** `Integer.parseInt(s)`. */
  function ParseInt(s: string): Option<int> {
    ParseNumber(s, 10, INT_MIN, INT_MAX)
  }

  /** `Long.parseLong(s)`. */
  function ParseLong(s: string): Option<int> {
    ParseNumber(s, 10, LONG_MIN, LONG_MAX)
  }

  /** `Integer.toString(n)` for a non-negative `n`. */
  function NatToString(n: nat): (s: string)
    ensures s != [] && AllDigits(s, 10) && Value(s, 10) == n
  {
    var last := ['0' + (n % 10) as char];
    assert Value(last, 10) == n % 10 by { assert last[..0] == []; }
    if n < 10 then last
    else
      var s := NatToString(n / 10) + last;
      assert s[..|s| - 1] == NatToString(n / 10);
      s
  }

  /** `x & 0xFF` on a Java `int`: the low byte of its two's-complement
      form. */
  function LowByte(x: int): (b: byte)
    requires INT_MIN <= x <= INT_MAX
    ensures 0 <= x < 256 ==> b == x
    ensures 0 <= x ==> b == x % 256
    ensures x < 0 ==> b == (x + 0x1_0000_0000) % 256
  {
    x % 256
  }

  /** Two hex digits parse to the byte they spell. */
  lemma ParseTwoDigits(a: char, b: char)
    requires IsHexDigit(a) && IsHexDigit(b)
    ensures ParseInt16([a, b]) == Some(16 * DigitValue(a) + DigitValue(b))
  {
    assert [a, b][..1] == [a];
    assert [a][..0] == [];
    assert Value([a], 16) == DigitValue(a);
    assert Value([a, b], 16) == 16 * DigitValue(a) + DigitValue(b);
  }
}

=== FILE: mesh_parsing.dfy ===
/** The text handling of the Wi-Fi mesh service
    (`WifiMeshServiceImpl.MeshStateMachine`): the paged scan-result text
    wpa_supplicant returns and its parse into entries, the `LIST_NETWORKS`
    table and its merge into the known mesh groups, and `connect`, which
    turns a group request into the sequence of supplicant commands.
    Supplicant answers are parameters; the commands issued are returned. */
module MeshParsing {
  import opened Wrappers
  import opened JavaStrings

  const ID_STR := "id="
  const BSSID_STR := "bssid="
  const FREQ_STR := "freq="
  const LEVEL_STR := "level="
  const TSF_STR := "tsf="
  const MESH_STR := "mesh_id="
  const DELIMITER_STR := "===="
  const END_STR := "####"

  // ---------------------------------------------------------------------
  // Scan results

  /** One mesh scan result as handed to the result list. */
  datatype ScanEntry = ScanEntry(meshId: string, bssid: string, level: int, freq: int, tsf: int)

  /** The fields gathered since the last delimiter line. */
  datatype Cursor = Cursor(bssid: Option<string>, meshId: Option<string>, level: int, freq: int, tsf: int)

  /** The values before the first line. */
  const Start := Cursor(None, None, -100, -1, 0)

  /** The values after every delimiter line. */
  const Reset := Cursor(None, None, 0, 0, 0)

  predicate IsDelimiter(line: string) {
    StartsWith(line, DELIMITER_STR) || StartsWith(line, END_STR)
  }

  /** A Java `int` parse whose failure is caught and replaced by 0. */
  function IntOrZero(s: string): int {
    match ParseInt(s)
    case Some(v) => v
    case None => 0
  }

  /** A Java `long` parse whose failure is caught and replaced by 0. */
  function LongOrZero(s: string): int {
    match ParseLong(s)
    case Some(v) => v
    case None => 0
  }

  /** Some drivers report the signal level plus 256; a positive level is
      shifted back down. */
  function AdjustLevel(v: int): (r: int)
    ensures v <= 256 ==> r <= 0
    ensures v > 0 ==> r == v - 256
    ensures v <= 0 ==> r == v
  {
    if v > 0 then v - 256 else v
  }

  lemma FirstChars(s: string, p: string, q: string)
    requires StartsWith(s, p) && StartsWith(s, q) && p != [] && q != []
    ensures p[0] == q[0]
  {
    assert s[..|p|][0] == s[0] == s[..|q|][0];
  }

  /** One line of scan-result text: a field line records its field, a
      delimiter line commits an entry when both the BSSID and the mesh id
      were seen and then resets every field, any other line is skipped. */
  function ScanLine(c: Cursor, line: string): (r: (Cursor, Option<ScanEntry>))
    ensures IsDelimiter(line) ==> r.0 == Reset
    ensures IsDelimiter(line) ==>
      (r.1.Some? <==> c.bssid.Some? && c.meshId.Some?) &&
      (r.1.Some? ==> r.1.value == ScanEntry(c.meshId.value, c.bssid.value, c.level, c.freq, c.tsf))
    ensures !IsDelimiter(line) ==> r.1.None?
    ensures StartsWith(line, BSSID_STR) ==> r == (c.(bssid := Some(line[|BSSID_STR|..])), None)
    ensures StartsWith(line, MESH_STR) ==> r == (c.(meshId := Some(line[|MESH_STR|..])), None)
    ensures StartsWith(line, FREQ_STR) ==>
      r == (c.(freq := if ParseInt(line[|FREQ_STR|..]).Some? then ParseInt(line[|FREQ_STR|..]).value else 0), None)
    ensures StartsWith(line, LEVEL_STR) ==>
      r == (c.(level := if ParseInt(line[|LEVEL_STR|..]).Some? then AdjustLevel(ParseInt(line[|LEVEL_STR|..]).value) else 0), None)
    ensures StartsWith(line, TSF_STR) ==>
      r == (c.(tsf := if ParseLong(line[|TSF_STR|..]).Some? then ParseLong(line[|TSF_STR|..]).value else 0), None)
    ensures (!IsDelimiter(line) && !StartsWith(line, BSSID_STR) && !StartsWith(line, MESH_STR) &&
      !StartsWith(line, FREQ_STR) && !StartsWith(line, LEVEL_STR) && !StartsWith(line, TSF_STR)) ==> r == (c, None)
  {
    if StartsWith(line, BSSID_STR) then
      assert !StartsWith(line, MESH_STR) && !IsDelimiter(line) by {
        if StartsWith(line, MESH_STR) { FirstChars(line, BSSID_STR, MESH_STR); }
        if StartsWith(line, DELIMITER_STR) { FirstChars(line, BSSID_STR, DELIMITER_STR); }
        if StartsWith(line, END_STR) { FirstChars(line, BSSID_STR, END_STR); }
      }
      (c.(bssid := Some(line[|BSSID_STR|..])), None)
    else if StartsWith(line, FREQ_STR) then
      assert !StartsWith(line, MESH_STR) && !IsDelimiter(line) by {
        if StartsWith(line, MESH_STR) { FirstChars(line, FREQ_STR, MESH_STR); }
        if StartsWith(line, DELIMITER_STR) { FirstChars(line, FREQ_STR, DELIMITER_STR); }
        if StartsWith(line, END_STR) { FirstChars(line, FREQ_STR, END_STR); }
      }
      (c.(freq := IntOrZero(line[|FREQ_STR|..])), None)
    else if StartsWith(line, LEVEL_STR) then
      assert !StartsWith(line, MESH_STR) && !IsDelimiter(line) by {
        if StartsWith(line, MESH_STR) { FirstChars(line, LEVEL_STR, MESH_STR); }
        if StartsWith(line, DELIMITER_STR) { FirstChars(line, LEVEL_STR, DELIMITER_STR); }
        if StartsWith(line, END_STR) { FirstChars(line, LEVEL_STR, END_STR); }
      }
      var level := match ParseInt(line[|LEVEL_STR|..]) case Some(v) => AdjustLevel(v) case None => 0;
      (c.(level := level), None)
    else if StartsWith(line, TSF_STR) then
      assert !StartsWith(line, MESH_STR) && !IsDelimiter(line) by {
        if StartsWith(line, MESH_STR) { FirstChars(line, TSF_STR, MESH_STR); }
        if StartsWith(line, DELIMITER_STR) { FirstChars(line, TSF_STR, DELIMITER_STR); }
        if StartsWith(line, END_STR) { FirstChars(line, TSF_STR, END_STR); }
      }
      (c.(tsf := LongOrZero(line[|TSF_STR|..])), None)
    else if StartsWith(line, MESH_STR) then
      assert !IsDelimiter(line) by {
        if StartsWith(line, DELIMITER_STR) { FirstChars(line, MESH_STR, DELIMITER_STR); }
        if StartsWith(line, END_STR) { FirstChars(line, MESH_STR, END_STR); }
      }
      (c.(meshId := Some(line[|MESH_STR|..])), None)
    else if IsDelimiter(line) then
      var entry := if c.bssid.Some? && c.meshId.Some?
        then Some(ScanEntry(c.meshId.value, c.bssid.value, c.level, c.freq, c.tsf)) else None;
      (Reset, entry)
    else (c, None)
  }

  /** The entries committed by `lines`, read from cursor `c`. */
  function ParseLines(c: Cursor, lines: seq<string>): seq<ScanEntry>
    decreases |lines|
  {
    if lines == [] then []
    else
      var step := ScanLine(c, lines[0]);
      (if step.1.Some? then [step.1.value] else []) + ParseLines(step.0, lines[1..])
  }

  /** The cursor after reading `lines` from `c`. */
  function CursorAfter(c: Cursor, lines: seq<string>): Cursor
    decreases |lines|
  {
    if lines == [] then c else CursorAfter(ScanLine(c, lines[0]).0, lines[1..])
  }

  /** The number of delimiter lines in `lines`. */
  function Delimiters(lines: seq<string>): nat
  {
    if lines == [] then 0 else (if IsDelimiter(lines[0]) then 1 else 0) + Delimiters(lines[1..])
  }

  /** `setScanResults`' parse: empty text clears the list; otherwise every
      line is read in order, starting from the initial field values. */
  function ParseScanResults(text: string): (r: seq<ScanEntry>)
    ensures text == [] ==> r == []
    ensures |r| <= Delimiters(Split(text, '\n'))
  {
    if text == [] then []
    else
      CommitsNeedDelimiters(Start, Split(text, '\n'));
      ParseLines(Start, Split(text, '\n'))
  }

  /** Every entry is committed by a delimiter line of its own. */
  lemma {:induction false} CommitsNeedDelimiters(c: Cursor, lines: seq<string>)
    ensures |ParseLines(c, lines)| <= Delimiters(lines)
    decreases |lines|
  {
    if lines != [] {
      CommitsNeedDelimiters(ScanLine(c, lines[0]).0, lines[1..]);
    }
  }

  /** Reading is a left fold: the entries of `a + b` are those of `a`
      followed by those of `b` read from where `a` left off. */
  lemma {:induction false} ParseLinesAppend(c: Cursor, a: seq<string>, b: seq<string>)
    ensures ParseLines(c, a + b) == ParseLines(c, a) + ParseLines(CursorAfter(c, a), b)
    decreases |a|
  {
    if a == [] {
      assert a + b == b;
    } else {
      assert (a + b)[0] == a[0];
      assert (a + b)[1..] == a[1..] + b;
      ParseLinesAppend(ScanLine(c, a[0]).0, a[1..], b);
    }
  }

  lemma {:induction false} CursorAfterDelimiter(c: Cursor, a: seq<string>)
    requires a != [] && IsDelimiter(a[|a| - 1])
    ensures CursorAfter(c, a) == Reset
    decreases |a|
  {
    if |a| > 1 {
      CursorAfterDelimiter(ScanLine(c, a[0]).0, a[1..]);
    }
  }

  /** Fields never leak across a delimiter: once a block has closed, what
      follows parses the same whatever came before. */
  lemma BlocksAreIndependent(c: Cursor, a: seq<string>, b: seq<string>)
    requires a != [] && IsDelimiter(a[|a| - 1])
    ensures ParseLines(c, a + b) == ParseLines(c, a) + ParseLines(Reset, b)
  {
    ParseLinesAppend(c, a, b);
    CursorAfterDelimiter(c, a);
  }

  /** Without a mesh id line, nothing is committed. */
  lemma {:induction false} NoMeshIdNoEntries(c: Cursor, lines: seq<string>)
    requires c.meshId.None?
    requires forall i :: 0 <= i < |lines| ==> !StartsWith(lines[i], MESH_STR)
    ensures ParseLines(c, lines) == []
    decreases |lines|
  {
    if lines != [] {
      var step := ScanLine(c, lines[0]);
      if !IsDelimiter(lines[0]) && !StartsWith(lines[0], BSSID_STR) && !StartsWith(lines[0], FREQ_STR)
        && !StartsWith(lines[0], LEVEL_STR) && !StartsWith(lines[0], TSF_STR) {
        assert step.0 == c;
      }
      assert step.0.meshId.None?;
      NoMeshIdNoEntries(step.0, lines[1..]);
    }
  }

  /** A complete block commits exactly one entry with the fields it names,
      the level adjusted and unparseable numbers read as 0. */
  lemma CompleteBlock(c: Cursor, bssid: string, freq: string, level: string, tsf: string, meshId: string)
    ensures ParseLines(c, [BSSID_STR + bssid, FREQ_STR + freq, LEVEL_STR + level, TSF_STR + tsf,
      MESH_STR + meshId, DELIMITER_STR]) ==
      [ScanEntry(meshId, bssid, (match ParseInt(level) case Some(v) => AdjustLevel(v) case None => 0),
        IntOrZero(freq), LongOrZero(tsf))]
  {
    var c1 := c.(bssid := Some(bssid));
    var c2 := c1.(freq := IntOrZero(freq));
    var c3 := c2.(level := match ParseInt(level) case Some(v) => AdjustLevel(v) case None => 0);
    var c4 := c3.(tsf := LongOrZero(tsf));
    var c5 := c4.(meshId := Some(meshId));
    var r5: seq<string> := [DELIMITER_STR];
    var r4 := [MESH_STR + meshId] + r5;
    var r3 := [TSF_STR + tsf] + r4;
    var r2 := [LEVEL_STR + level] + r3;
    var r1 := [FREQ_STR + freq] + r2;
    Commits(c5);
    MeshIdLine(c4, meshId, r5);
    TsfLine(c3, tsf, r4);
    LevelLine(c2, level, r3);
    FreqLine(c1, freq, r2);
    BssidLine(c, bssid, r1);
    SixLines(BSSID_STR + bssid, FREQ_STR + freq, LEVEL_STR + level, TSF_STR + tsf, MESH_STR + meshId, DELIMITER_STR);
  }

  lemma SixLines(a: string, b: string, c: string, d: string, e: string, f: string)
    ensures [a, b, c, d, e, f] == [a] + ([b] + ([c] + ([d] + ([e] + [f]))))
  {
  }

  lemma BssidLine(c: Cursor, bssid: string, rest: seq<string>)
    ensures ParseLines(c, [BSSID_STR + bssid] + rest) == ParseLines(c.(bssid := Some(bssid)), rest)
  {
    Prefixed(BSSID_STR, bssid);
    FieldLine(c, BSSID_STR + bssid, rest, c.(bssid := Some(bssid)));
  }

  lemma FreqLine(c: Cursor, freq: string, rest: seq<string>)
    ensures ParseLines(c, [FREQ_STR + freq] + rest) == ParseLines(c.(freq := IntOrZero(freq)), rest)
  {
    Prefixed(FREQ_STR, freq);
    FieldLine(c, FREQ_STR + freq, rest, c.(freq := IntOrZero(freq)));
  }

  lemma LevelLine(c: Cursor, level: string, rest: seq<string>)
    ensures ParseLines(c, [LEVEL_STR + level] + rest) ==
      ParseLines(c.(level := match ParseInt(level) case Some(v) => AdjustLevel(v) case None => 0), rest)
  {
    Prefixed(LEVEL_STR, level);
    FieldLine(c, LEVEL_STR + level, rest, c.(level := match ParseInt(level) case Some(v) => AdjustLevel(v) case None => 0));
  }

  lemma TsfLine(c: Cursor, tsf: string, rest: seq<string>)
    ensures ParseLines(c, [TSF_STR + tsf] + rest) == ParseLines(c.(tsf := LongOrZero(tsf)), rest)
  {
    Prefixed(TSF_STR, tsf);
    FieldLine(c, TSF_STR + tsf, rest, c.(tsf := LongOrZero(tsf)));
  }

  lemma MeshIdLine(c: Cursor, meshId: string, rest: seq<string>)
    ensures ParseLines(c, [MESH_STR + meshId] + rest) == ParseLines(c.(meshId := Some(meshId)), rest)
  {
    Prefixed(MESH_STR, meshId);
    FieldLine(c, MESH_STR + meshId, rest, c.(meshId := Some(meshId)));
  }

  /** A field line only moves the cursor. */
  lemma FieldLine(c: Cursor, line: string, rest: seq<string>, next: Cursor)
    requires ScanLine(c, line) == (next, None)
    ensures ParseLines(c, [line] + rest) == ParseLines(next, rest)
  {
    ParseCons(c, line, rest);
  }

  /** The delimiter commits the entry under construction. */
  lemma Commits(c: Cursor)
    requires c.bssid.Some? && c.meshId.Some?
    ensures ParseLines(c, [DELIMITER_STR]) == [ScanEntry(c.meshId.value, c.bssid.value, c.level, c.freq, c.tsf)]
  {
    assert IsDelimiter(DELIMITER_STR) by { assert DELIMITER_STR[..|DELIMITER_STR|] == DELIMITER_STR; }
    ParseCons(c, DELIMITER_STR, []);
    assert [DELIMITER_STR] == [DELIMITER_STR] + [];
  }

  /** One step of `ParseLines`. */
  lemma ParseCons(c: Cursor, line: string, rest: seq<string>)
    ensures ParseLines(c, [line] + rest) ==
      (if ScanLine(c, line).1.Some? then [ScanLine(c, line).1.value] else []) + ParseLines(ScanLine(c, line).0, rest)
  {
    assert ([line] + rest)[0] == line;
    assert ([line] + rest)[1..] == rest;
  }

  lemma Prefixed(p: string, s: string)
    ensures StartsWith(p + s, p) && (p + s)[|p|..] == s
  {
    assert (p + s)[..|p|] == p;
  }

  // ---------------------------------------------------------------------
  // Paging

  /** Java `int` addition of one, wrapping at the top of the range. */
  function IntSucc(v: int): (r: int)
    requires INT_MIN <= v <= INT_MAX
    ensures INT_MIN <= r <= INT_MAX
    ensures v < INT_MAX ==> r == v + 1
  {
    if v == INT_MAX then INT_MIN else v + 1
  }

  /** A line the backward search over a page stops at: an end marker or an
      id line. */
  predicate Marker(line: string) {
    StartsWith(line, END_STR) || StartsWith(line, ID_STR)
  }

  /** `lines[i]` is the marker the backward search meets first: no later
      line is one. */
  predicate LastMarker(lines: seq<string>, i: int) {
    0 <= i < |lines| && Marker(lines[i]) && forall j :: i < j < |lines| ==> !Marker(lines[j])
  }

  /** The id an id line names, when it is an id line (and not an end
      marker) whose rest parses as an `int`. */
  function IdValue(line: string): Option<int> {
    if StartsWith(line, END_STR) || !StartsWith(line, ID_STR) then None
    else ParseInt(line[|ID_STR|..])
  }

  /** The id to ask for next, read from the lines of one page searched
      backwards: an end marker or a malformed id stops paging (-1), the
      last id line gives its successor, and no id line stops paging. */
  function NextSid(lines: seq<string>): (r: int)
    ensures lines != [] && StartsWith(lines[|lines| - 1], END_STR) ==> r == -1
    ensures (forall i :: 0 <= i < |lines| ==> !StartsWith(lines[i], ID_STR)) ==> r == -1
    ensures r != -1 ==> exists i :: 0 <= i < |lines| && StartsWith(lines[i], ID_STR) && ParseInt(lines[i][|ID_STR|..]).Some?
  {
    if lines == [] then -1
    else
      var last := lines[|lines| - 1];
      if StartsWith(last, END_STR) then -1
      else if StartsWith(last, ID_STR) then
        match ParseInt(last[|ID_STR|..])
        case Some(v) => IntSucc(v)
        case None => -1
      else
        var r := NextSid(lines[..|lines| - 1]);
        assert forall i :: 0 <= i < |lines| - 1 ==> lines[..|lines| - 1][i] == lines[i];
        r
  }

  /** The id asked for next is read from the last marker of the page: the
      successor of the id it names, or -1 when it is an end marker or a
      malformed id line. */
  lemma {:induction false} NextSidReadsLastMarker(lines: seq<string>, i: int)
    requires LastMarker(lines, i)
    ensures NextSid(lines) == (if IdValue(lines[i]).Some? then IntSucc(IdValue(lines[i]).value) else -1)
  {
    var front := lines[..|lines| - 1];
    if i < |lines| - 1 {
      assert !Marker(lines[|lines| - 1]);
      assert NextSid(lines) == NextSid(front);
      assert front[i] == lines[i];
      assert forall j :: i < j < |front| ==> front[j] == lines[j];
      NextSidReadsLastMarker(front, i);
    }
  }

  /** A page without any marker stops paging. */
  lemma {:induction false} NextSidWithoutMarker(lines: seq<string>)
    requires forall i :: 0 <= i < |lines| ==> !Marker(lines[i])
    ensures NextSid(lines) == -1
  {
    if lines != [] {
      var front := lines[..|lines| - 1];
      assert NextSid(lines) == NextSid(front);
      assert forall i :: 0 <= i < |front| ==> front[i] == lines[i];
      NextSidWithoutMarker(front);
    }
  }

  /** An id asked for next comes from the last marker of the page, a
      well-formed id line. */
  lemma {:induction false} NextSidNamedByLastMarker(lines: seq<string>)
    requires NextSid(lines) != -1
    ensures exists i :: LastMarker(lines, i) && IdValue(lines[i]).Some? && NextSid(lines) == IntSucc(IdValue(lines[i]).value)
  {
    assert lines != [];
    var front := lines[..|lines| - 1];
    if Marker(lines[|lines| - 1]) {
      var i := |lines| - 1;
      assert LastMarker(lines, i);
      NextSidReadsLastMarker(lines, i);
      assert IdValue(lines[i]).Some?;
    } else {
      assert NextSid(lines) == NextSid(front);
      NextSidNamedByLastMarker(front);
      var i :| LastMarker(front, i) && IdValue(front[i]).Some? && NextSid(front) == IntSucc(IdValue(front[i]).value);
      LastMarkerExtends(lines, i);
    }
  }

  /** A last marker of all lines but the final one stays the last marker
      when the final line is not a marker. */
  lemma LastMarkerExtends(lines: seq<string>, i: int)
    requires lines != [] && !Marker(lines[|lines| - 1])
    requires LastMarker(lines[..|lines| - 1], i)
    ensures LastMarker(lines, i) && lines[i] == lines[..|lines| - 1][i]
  {
    var front := lines[..|lines| - 1];
    assert forall j :: i < j < |front| ==> front[j] == lines[j];
  }

  /** Pages as `setScanResults` collects them: each followed by a
      newline, in order. */
  function Paged(pages: seq<string>): string {
    if pages == [] then "" else pages[0] + "\n" + Paged(pages[1..])
  }

  /** The paging loop of `setScanResults`. `answers` are the supplicant's
      answers to successive `BSS RANGE` requests; the first request asks for
      `sid`. Returns the collected text, each page followed by a newline,
      and the ids requested. */
  function Fetch(answers: seq<string>, sid: int): (r: (string, seq<int>))
    ensures |r.1| >= 1 && r.1[0] == sid
    ensures |r.1| <= |answers| + 1
    ensures r.0 == [] <==> answers == [] || answers[0] == []
    ensures answers != [] && answers[0] != [] ==> answers[0] + "\n" <= r.0
    ensures forall k :: 1 <= k < |r.1| ==> r.1[k] == NextSid(Split(answers[k - 1], '\n')) && r.1[k] != -1
    decreases |answers|
  {
    if answers == [] || answers[0] == [] then ("", [sid])
    else
      var page := answers[0] + "\n";
      var next := NextSid(Split(answers[0], '\n'));
      if next == -1 then (page, [sid])
      else
        var rest := Fetch(answers[1..], next);
        FetchedIds(answers, page => NextSid(Split(page, '\n')), sid, rest.1);
        (page + rest.0, [sid] + rest.1)
  }

  /** Every request but the last got a page. */
  lemma {:induction false} FetchAnswered(answers: seq<string>, sid: int)
    ensures var r := Fetch(answers, sid);
      forall k :: 0 <= k < |r.1| - 1 ==> answers[k] != []
    decreases |answers|
  {
    if answers != [] && answers[0] != [] && NextSid(Split(answers[0], '\n')) != -1 {
      var next := NextSid(Split(answers[0], '\n'));
      var ids := Fetch(answers[1..], next).1;
      FetchAnswered(answers[1..], next);
      assert Fetch(answers, sid).1 == [sid] + ids;
      forall k | 1 <= k < |ids|
        ensures answers[k] != []
      {
        assert answers[k] == answers[1..][k - 1];
      }
    }
  }

  /** The collected text is exactly the answered pages, each followed by
      a newline, in request order: every request's page but the last
      one's, which is included when it had one and named no next id. */
  lemma {:induction false} FetchCollectsPages(answers: seq<string>, sid: int)
    ensures var r := Fetch(answers, sid);
      Collected(answers, r.0, |r.1|)
    decreases |answers|
  {
    var r := Fetch(answers, sid);
    FetchUnfolds(answers, sid);
    if answers == [] || answers[0] == [] {
      assert answers[..0] == [];
    } else if NextSid(Split(answers[0], '\n')) == -1 {
      assert answers[..1] == [answers[0]] && answers[..1][1..] == [];
    } else {
      var next := NextSid(Split(answers[0], '\n'));
      var rest := Fetch(answers[1..], next);
      FetchCollectsPages(answers[1..], next);
      CollectedStep(answers, rest.0, |rest.1|);
    }
  }

  /** One step of the paging loop, component by component. */
  lemma FetchUnfolds(answers: seq<string>, sid: int)
    ensures answers == [] || answers[0] == [] ==>
      Fetch(answers, sid).0 == "" && |Fetch(answers, sid).1| == 1
    ensures answers != [] && answers[0] != [] && NextSid(Split(answers[0], '\n')) == -1 ==>
      Fetch(answers, sid).0 == answers[0] + "\n" && |Fetch(answers, sid).1| == 1
    ensures answers != [] && answers[0] != [] && NextSid(Split(answers[0], '\n')) != -1 ==>
      var rest := Fetch(answers[1..], NextSid(Split(answers[0], '\n')));
      Fetch(answers, sid).0 == answers[0] + "\n" + rest.0 && |Fetch(answers, sid).1| == |rest.1| + 1
  {
  }

  /** `text` holds the pages of the first `n` requests: all of them when
      the last one was answered and named no next id, all but the last
      otherwise. */
  predicate Collected(answers: seq<string>, text: string, n: nat) {
    1 <= n <= |answers| + 1 &&
    if n <= |answers| && answers[n - 1] != [] then
      text == Paged(answers[..n]) && NextSid(Split(answers[n - 1], '\n')) == -1
    else text == Paged(answers[..n - 1])
  }

  /** Prefixing the first page to what the later requests collected. */
  lemma CollectedStep(answers: seq<string>, text: string, m: nat)
    requires answers != [] && Collected(answers[1..], text, m)
    ensures Collected(answers, answers[0] + "\n" + text, m + 1)
  {
    var n := m + 1;
    if n <= |answers| && answers[n - 1] != [] {
      assert answers[1..][n - 2] == answers[n - 1];
      FetchedPages(answers, n);
    } else {
      if n - 1 <= |answers[1..]| {
        assert answers[1..][n - 2] == answers[n - 1];
      }
      FetchedPages(answers, n - 1);
    }
  }

  /** The first `n` pages are the first page followed by the next
      `n - 1`. */
  lemma FetchedPages(answers: seq<string>, n: nat)
    requires 1 <= n <= |answers|
    ensures Paged(answers[..n]) == answers[0] + "\n" + Paged(answers[1..][..n - 1])
  {
    assert answers[..n][1..] == answers[1..][..n - 1];
  }

  /** The ids requested after the first page are those the later pages
      name, whatever `next` reads from a page. */
  lemma FetchedIds(answers: seq<string>, next: string -> int, sid: int, ids: seq<int>)
    requires answers != [] && 1 <= |ids| <= |answers|
    requires ids[0] == next(answers[0]) && ids[0] != -1
    requires forall k :: 1 <= k < |ids| ==> ids[k] == next(answers[1..][k - 1]) && ids[k] != -1
    ensures forall k :: 1 <= k < |[sid] + ids| ==> ([sid] + ids)[k] == next(answers[k - 1]) && ([sid] + ids)[k] != -1
  {
    forall k | 1 <= k < |[sid] + ids|
      ensures ([sid] + ids)[k] == next(answers[k - 1]) && ([sid] + ids)[k] != -1
    {
      assert ([sid] + ids)[k] == ids[k - 1];
      if k > 1 {
        assert answers[1..][k - 2] == answers[k - 1];
      }
    }
  }

  /** The list `setScanResults` leaves behind, starting from id 0. */
  function SetScanResults(answers: seq<string>): (r: seq<ScanEntry>)
    ensures answers == [] || answers[0] == [] ==> r == []
  {
    ParseScanResults(Fetch(answers, 0).0)
  }

  // ---------------------------------------------------------------------
  // Network list

  /** A saved mesh group. The frequency is absent when the network does not
      set one. */
  datatype Group = Group(netId: int, meshId: string, secure: bool, frequency: Option<int>)

  /** The supplicant's network variables, by network id and name. */
  type Variables = (int, string) -> Option<string>

  predicate Known(configs: seq<Group>, id: int) {
    exists i :: 0 <= i < |configs| && configs[i].netId == id
  }

  predicate UniqueIds(configs: seq<Group>) {
    forall i, j :: 0 <= i < j < |configs| ==> configs[i].netId != configs[j].netId
  }

  /** The network id a `LIST_NETWORKS` row names: its first tab-separated
      field, when the row has at least three fields and that field parses. */
  function RowId(line: string): Option<int> {
    var fields := Split(line, '\t');
    if |fields| < 3 then None else ParseInt(fields[0])
  }

  /** Some row of the table names network `id`. */
  predicate NamesId(rows: seq<string>, id: int) {
    exists k :: 0 <= k < |rows| && RowId(rows[k]) == Some(id)
  }

  /** The rows of a `LIST_NETWORKS` answer: its lines after the header. */
  function TableRows(table: string): seq<string> {
    var lines := Split(table, '\n');
    if |lines| <= 1 then [] else lines[1..]
  }

  lemma KnownGrows(a: seq<Group>, b: seq<Group>, id: int)
    requires a <= b && Known(a, id)
    ensures Known(b, id)
  {
    var i :| 0 <= i < |a| && a[i].netId == id;
    assert b[i] == a[i];
  }

  lemma NamesIdTail(rows: seq<string>, id: int)
    requires rows != []
    ensures NamesId(rows, id) <==> RowId(rows[0]) == Some(id) || NamesId(rows[1..], id)
  {
    if NamesId(rows[1..], id) {
      var k :| 0 <= k < |rows[1..]| && RowId(rows[1..][k]) == Some(id);
      assert rows[k + 1] == rows[1..][k];
    }
    if NamesId(rows, id) && RowId(rows[0]) != Some(id) {
      var k :| 0 <= k < |rows| && RowId(rows[k]) == Some(id);
      assert rows[1..][k - 1] == rows[k];
    }
  }

  /** What one table row does. */
  datatype Row = Skip | Add(g: Group) | Throws

  /** One row of `LIST_NETWORKS` (id, ssid, bssid, flags separated by
      tabs): rows with fewer than three fields, a non-numeric id or an id
      already known are skipped; otherwise the group is read, secure iff
      its key management names SAE. A frequency that is not a number raises
      an uncaught `NumberFormatException`. */
  function ReadRow(configs: seq<Group>, line: string, vars: Variables): (r: Row)
    ensures r.Add? ==> !Known(configs, r.g.netId)
    ensures r.Add? ==> (var fields := Split(line, '\t');
      |fields| >= 3 && ParseInt(fields[0]) == Some(r.g.netId) && r.g.meshId == fields[1])
    ensures r.Add? ==> (r.g.secure <==> vars(r.g.netId, "key_mgmt").Some? && Contains(vars(r.g.netId, "key_mgmt").value, "SAE"))
    ensures r.Add? ==> (r.g.frequency.Some? <==> vars(r.g.netId, "frequency").Some?)
    ensures |Split(line, '\t')| < 3 ==> r.Skip?
    ensures |Split(line, '\t')| >= 3 && ParseInt(Split(line, '\t')[0]).None? ==> r.Skip?
    ensures |Split(line, '\t')| >= 3 && ParseInt(Split(line, '\t')[0]).Some? && Known(configs, ParseInt(Split(line, '\t')[0]).value) ==> r.Skip?
    ensures r.Add? ==> RowId(line) == Some(r.g.netId)
    ensures r.Skip? ==> RowId(line).None? || Known(configs, RowId(line).value)
  {
    var fields := Split(line, '\t');
    if |fields| < 3 then Skip
    else match ParseInt(fields[0])
      case None => Skip
      case Some(id) =>
        if Known(configs, id) then Skip
        else
          var key := vars(id, "key_mgmt");
          var secure := key.Some? && Contains(key.value, "SAE");
          match vars(id, "frequency")
          case None => Add(Group(id, fields[1], secure, None))
          case Some(f) =>
            match ParseInt(f)
            case None => Throws
            case Some(freq) => Add(Group(id, fields[1], secure, Some(freq)))
  }

  /** The list after a merge, whether a group was added, and whether the
      merge was cut short by an exception. */
  datatype Merge = Merge(configs: seq<Group>, added: bool, thrown: bool)

  /** Rows read in order, each against the list as it stands. */
  function MergeRows(configs: seq<Group>, rows: seq<string>, vars: Variables): (r: Merge)
    ensures configs <= r.configs
    ensures r.added <==> |r.configs| > |configs|
    ensures UniqueIds(configs) ==> UniqueIds(r.configs)
    ensures |r.configs| <= |configs| + |rows|
    decreases |rows|
  {
    if rows == [] then Merge(configs, false, false)
    else match ReadRow(configs, rows[0], vars)
      case Skip => MergeRows(configs, rows[1..], vars)
      case Throws => Merge(configs, false, true)
      case Add(g) =>
        var rest := MergeRows(configs + [g], rows[1..], vars);
        Merge(rest.configs, true, rest.thrown)
  }

  /** Every group a merge appends comes from a row naming its id. */
  lemma MergeRowsProvenance(configs: seq<Group>, rows: seq<string>, vars: Variables)
    ensures var r := MergeRows(configs, rows, vars);
      forall i :: |configs| <= i < |r.configs| ==> NamesId(rows, r.configs[i].netId)
  {
    var r := MergeRows(configs, rows, vars);
    forall i | |configs| <= i < |r.configs|
      ensures NamesId(rows, r.configs[i].netId)
    {
      AppendedIsNamed(configs, rows, vars, i);
    }
  }

  /** The group at one appended position comes from a row naming its id. */
  lemma {:induction false} AppendedIsNamed(configs: seq<Group>, rows: seq<string>, vars: Variables, i: int)
    requires |configs| <= i < |MergeRows(configs, rows, vars).configs|
    ensures NamesId(rows, MergeRows(configs, rows, vars).configs[i].netId)
    decreases |rows|
  {
    var cs := MergeRows(configs, rows, vars).configs;
    var rr := ReadRow(configs, rows[0], vars);
    if rr.Skip? {
      assert cs == MergeRows(configs, rows[1..], vars).configs;
      AppendedIsNamed(configs, rows[1..], vars, i);
      NamesIdTail(rows, cs[i].netId);
    } else {
      var g := rr.g;
      assert cs == MergeRows(configs + [g], rows[1..], vars).configs;
      if i == |configs| {
        assert cs[i] == (configs + [g])[i];
        NamesIdTail(rows, g.netId);
      } else {
        AppendedIsNamed(configs + [g], rows[1..], vars, i);
        NamesIdTail(rows, cs[i].netId);
      }
    }
  }

  /** A merge that does not raise leaves every id the rows name known. */
  lemma {:induction false} MergeRowsComplete(configs: seq<Group>, rows: seq<string>, vars: Variables)
    ensures var r := MergeRows(configs, rows, vars);
      !r.thrown ==> forall id :: NamesId(rows, id) ==> Known(r.configs, id)
    decreases |rows|
  {
    if rows != [] {
      var r := MergeRows(configs, rows, vars);
      match ReadRow(configs, rows[0], vars)
      case Skip =>
        MergeRowsComplete(configs, rows[1..], vars);
        forall id | !r.thrown && NamesId(rows, id)
          ensures Known(r.configs, id)
        {
          NamesIdTail(rows, id);
          if RowId(rows[0]) == Some(id) {
            KnownGrows(configs, r.configs, id);
          }
        }
      case Throws =>
      case Add(g) =>
        MergeRowsComplete(configs + [g], rows[1..], vars);
        var rest := MergeRows(configs + [g], rows[1..], vars);
        assert r.configs == rest.configs && r.thrown == rest.thrown;
        forall id | !r.thrown && NamesId(rows, id)
          ensures Known(r.configs, id)
        {
          NamesIdTail(rows, id);
          if RowId(rows[0]) == Some(id) {
            assert (configs + [g])[|configs|].netId == id;
            KnownGrows(configs + [g], r.configs, id);
          }
        }
    }
  }

  /** The result of `updateConfigurations`: the list, and whether the
      configuration was saved and the change broadcast. */
  datatype Update = Update(configs: seq<Group>, saved: bool, thrown: bool)

  /** `updateConfigurations(reload)`: no table leaves the list alone; a
      reload starts from an empty list; the header line is skipped; the
      configuration is saved and broadcast iff reloading or a group was
      added, unless a row raised first. */
  function UpdateConfigurations(configs: seq<Group>, table: Option<string>, reload: bool, vars: Variables): (r: Update)
    ensures table.None? ==> r == Update(configs, false, false)
    ensures table.Some? && !reload ==> configs <= r.configs
    ensures UniqueIds(configs) ==> UniqueIds(r.configs)
    ensures table.Some? && !r.thrown ==> (r.saved <==> reload || |r.configs| > |configs|)
    ensures r.thrown ==> !r.saved
  {
    if table.None? then Update(configs, false, false)
    else
      var lines := Split(table.value, '\n');
      var start := if reload then [] else configs;
      var m := MergeRows(start, if |lines| <= 1 then [] else lines[1..], vars);
      if m.thrown then Update(m.configs, false, true)
      else Update(m.configs, reload || m.added, false)
  }

  /** `updateConfigurations` synchronises the list with the supplicant's
      table: every group it adds is named by a row of the table, and unless
      a row raised every id the table names is known afterwards. A reload
      therefore leaves exactly the ids the table names. */
  lemma Synchronises(configs: seq<Group>, table: string, reload: bool, vars: Variables)
    ensures var r := UpdateConfigurations(configs, Some(table), reload, vars);
      forall i :: (if reload then 0 else |configs|) <= i < |r.configs| ==> NamesId(TableRows(table), r.configs[i].netId)
    ensures var r := UpdateConfigurations(configs, Some(table), reload, vars);
      !r.thrown ==> forall id :: NamesId(TableRows(table), id) ==> Known(r.configs, id)
    ensures var r := UpdateConfigurations(configs, Some(table), reload, vars);
      reload && !r.thrown ==> forall id :: Known(r.configs, id) <==> NamesId(TableRows(table), id)
  {
    var start := if reload then [] else configs;
    MergeRowsProvenance(start, TableRows(table), vars);
    MergeRowsComplete(start, TableRows(table), vars);
  }

  /** After a reload that does not raise, an id is known exactly when the
      table names it; without a table an id that was not known stays so. */
  lemma ReloadKnows(configs: seq<Group>, table: Option<string>, vars: Variables, id: int)
    requires table.None? ==> !Known(configs, id)
    ensures var r := UpdateConfigurations(configs, table, true, vars);
      !r.thrown ==> (Known(r.configs, id) <==> table.Some? && NamesId(TableRows(table.value), id))
  {
    if table.Some? {
      Synchronises(configs, table.value, true, vars);
    }
  }

  /** `"".split` and friends aside, dropping trailing empty strings after a
      first element keeps the first element unless everything is empty. */
  lemma {:induction false} DropTrailingEmptyCons(h: string, p: seq<string>)
    ensures DropTrailingEmpty([h] + p) ==
      (if DropTrailingEmpty(p) == [] then (if h == [] then [] else [h]) else [h] + DropTrailingEmpty(p))
  {
    if p != [] {
      if p[|p| - 1] == [] {
        assert ([h] + p)[..|[h] + p| - 1] == [h] + p[..|p| - 1];
        DropTrailingEmptyCons(h, p[..|p| - 1]);
      }
    } else {
      assert [h] + p == [h];
      assert [h][..0] == [];
    }
  }

  /** The rows after the header of a table, whatever the header says. */
  lemma RowsAfterHeader(header: string, body: string)
    requires '\n' !in header
    ensures var lines := Split(header + "\n" + body, '\n');
      (if |lines| <= 1 then [] else lines[1..]) ==
      (var rest := DropTrailingEmpty(Pieces(body, '\n')); rest)
  {
    var s := header + "\n" + body;
    assert s[|header|] == '\n';
    PiecesOfJoin(header, body, '\n');
    DropTrailingEmptyCons(header, Pieces(body, '\n'));
  }

  /** The header line never becomes a group: two tables that differ only
      in their first line merge the same way. */
  lemma HeaderIgnored(configs: seq<Group>, h1: string, h2: string, body: string, reload: bool, vars: Variables)
    requires '\n' !in h1 && '\n' !in h2
    ensures UpdateConfigurations(configs, Some(h1 + "\n" + body), reload, vars) ==
      UpdateConfigurations(configs, Some(h2 + "\n" + body), reload, vars)
  {
    RowsAfterHeader(h1, body);
    RowsAfterHeader(h2, body);
  }

  // ---------------------------------------------------------------------
  // connect

  /** The group a connect request names, as far as `connect` reads it. */
  datatype Request = Request(meshId: Option<string>, secure: bool, passphrase: Option<string>, frequency: int)

  /** The commands the mesh service sends to the supplicant, or issues to
      start and stop it. */
  datatype Command =
    | AddNetwork
    | SetVariable(netId: int, name: string, value: string)
    | MeshGroupAdd(netId: int)
    | RemoveNetwork(netId: int)
    | ListNetworks
    | SaveConfig
    | Scan
    | MeshGroupRemove
    | DisableNetwork(netId: int)
    | StartSupplicant
    | StartMonitoring
    | KillSupplicant
    | CloseSupplicantConnection

  /** A mesh id in double quotes, as the supplicant expects an SSID. */
  function Quoted(meshId: string): string {
    "\"" + meshId + "\""
  }

  /** The variables set on a freshly added network for request `q`. */
  function NetworkVariables(id: int, q: Request): (r: seq<Command>)
    requires q.meshId.Some? && (q.secure ==> q.passphrase.Some?)
    ensures forall k :: 0 <= k < |r| ==> r[k].SetVariable? && r[k].netId == id
    ensures SetVariable(id, "ssid", Quoted(q.meshId.value)) in r
    ensures SetVariable(id, "key_mgmt", if q.secure then "SAE" else "NONE") in r
    ensures (exists k :: 0 <= k < |r| && r[k].name == "psk") <==> q.secure
    ensures q.secure ==> SetVariable(id, "psk", q.passphrase.value) in r
    ensures (exists k :: 0 <= k < |r| && r[k].name == "frequency") <==> q.frequency > 0
    ensures q.frequency > 0 ==> SetVariable(id, "frequency", NatToString(q.frequency)) in r
  {
    var r := [SetVariable(id, "ssid", Quoted(q.meshId.value)),
     SetVariable(id, "mode", "5"),
     SetVariable(id, "key_mgmt", if q.secure then "SAE" else "NONE")]
    + (if q.secure then [SetVariable(id, "psk", q.passphrase.value)] else [])
    + [SetVariable(id, "mode", "5")]
    + (if q.frequency > 0 then [SetVariable(id, "frequency", NatToString(q.frequency))] else [])
    + [SetVariable(id, "dtim_period", "2")];
    assert q.secure ==> r[3] == SetVariable(id, "psk", q.passphrase.value);
    assert !q.secure ==> forall k :: 0 <= k < |r| ==> r[k].name != "psk";
    assert q.frequency <= 0 ==> forall k :: 0 <= k < |r| ==> r[k].name != "frequency";
    assert q.frequency > 0 ==> r[|r| - 2] == SetVariable(id, "frequency", NatToString(q.frequency));
    r
  }

  /** What `connect` returns and leaves behind. */
  datatype Connected = Connected(ok: bool, commands: seq<Command>, update: Update)

  /** The commands `connect` issues for a group: add a network, set its
      variables, join it, then `last`. */
  lemma SetupThen(vars: seq<Command>, newId: int, last: Command)
    requires forall k :: 0 <= k < |vars| ==> vars[k].SetVariable? && vars[k].netId == newId
    requires !last.SetVariable?
    ensures var c := [AddNetwork] + vars + [MeshGroupAdd(newId)] + [last];
      && c[0] == AddNetwork && MeshGroupAdd(newId) in c && c[|c| - 1] == last
      && forall k :: 0 <= k < |c| && c[k].SetVariable? ==> c[k].netId == newId
  {
    var c := [AddNetwork] + vars + [MeshGroupAdd(newId)] + [last];
    assert c[|vars| + 1] == MeshGroupAdd(newId);
    forall k | 0 <= k < |c| && c[k].SetVariable?
      ensures c[k].netId == newId
    {
      assert 1 <= k <= |vars| && c[k] == vars[k - 1];
    }
  }

  /** `connect(netId, group)`. Without a group the saved network `netId` is
      started. Otherwise a request without a mesh id, or secure without a
      passphrase, fails before any command; else a new network is added
      (the supplicant answers `newId`), configured and started; if the
      start fails (`started` false) the new network is removed, and if it
      succeeds the group list is merged with `table`. */
  function Connect(netId: int, group: Option<Request>, newId: int, started: bool,
                   configs: seq<Group>, table: Option<string>, vars: Variables): (r: Connected)
    ensures group.None? ==> r == Connected(started, [MeshGroupAdd(netId)], Update(configs, false, false))
    ensures group.Some? && (group.value.meshId.None? || (group.value.secure && group.value.passphrase.None?)) ==>
      r == Connected(false, [], Update(configs, false, false))
    ensures r.ok ==> started
    ensures group.Some? && r.commands != [] ==>
      r.commands[0] == AddNetwork && MeshGroupAdd(newId) in r.commands &&
      (r.ok <==> started) &&
      (!started <==> r.commands[|r.commands| - 1] == RemoveNetwork(newId)) &&
      (r.ok ==> r.commands[|r.commands| - 1] == ListNetworks && r.update == UpdateConfigurations(configs, table, false, vars)) &&
      (!r.ok ==> r.update == Update(configs, false, false))
    ensures forall k :: 0 <= k < |r.commands| && r.commands[k].SetVariable? ==> r.commands[k].netId == newId
  {
    match group
    case None => Connected(started, [MeshGroupAdd(netId)], Update(configs, false, false))
    case Some(q) =>
      if q.meshId.None? || (q.secure && q.passphrase.None?) then Connected(false, [], Update(configs, false, false))
      else
        var setup := [AddNetwork] + NetworkVariables(newId, q) + [MeshGroupAdd(newId)];
        SetupThen(NetworkVariables(newId, q), newId, if started then ListNetworks else RemoveNetwork(newId));
        if !started then Connected(false, setup + [RemoveNetwork(newId)], Update(configs, false, false))
        else Connected(true, setup + [ListNetworks], UpdateConfigurations(configs, table, false, vars))
  }
}

=== FILE: mesh_state_machine.dfy ===
/** The Wi-Fi mesh service's state machine (`WifiMeshServiceImpl.
    MeshStateMachine`): the hierarchical states, message handling with the
    parent-state fallback, deferral, the exit and enter actions a transition
    runs, and the replies sent back to clients.

    Messages are processed one at a time. The supplicant's answers for the
    message at hand are an `Env`. A `NullPointerException` or an uncaught
    `NumberFormatException` ends processing, modelled as `None`. */
module MeshStateMachine {
  import opened Wrappers
  import opened MeshParsing

  /** The states, `Default` at the root and `Enabled` the parent of
      `Inactive` and `Joined`. */
  datatype StateName = Default | NotSupported | Disabling | Disabled | Enabling | Enabled | Inactive | Joined

  function Parent(s: StateName): StateName {
    if s == Inactive || s == Joined then Enabled else Default
  }

  function Depth(s: StateName): nat {
    if s == Default then 0 else if s == Inactive || s == Joined then 2 else 1
  }

  /** `s` and its ancestors, innermost first. */
  function Chain(s: StateName): (r: seq<StateName>)
    ensures r != [] && r[0] == s && r[|r| - 1] == Default
    ensures Joined in r <==> s == Joined
    ensures Enabled in r <==> s == Enabled || Parent(s) == Enabled
    decreases Depth(s)
  {
    if s == Default then [Default] else [s] + Chain(Parent(s))
  }

  /** A state that can be current: every transition names one of these. */
  predicate IsLeaf(s: StateName) {
    s != Default && s != Enabled
  }

  /** The `WIFI_MESH_STATE_*` values broadcast on entry. */
  datatype MeshState = StateFailed | StateDisabling | StateDisabled | StateEnabling | StateEnabled

  /** What a client or the Wi-Fi state machine asks for, and what the
      supplicant monitor and DHCP report. */
  datatype What =
    | ChannelHalfConnected(success: bool)
    | ChannelDisconnected
    | ChannelFullConnection
    | BlockDiscovery
    | ScanRequest
    | ConnectNetwork(netId: int, request: Option<Request>)
    | ForgetNetwork(netId: int)
    | DisconnectNetwork
    | RequestScanResults
    | RequestGroupConfigs
    | DisableMeshReq
    | EnableMeshReq
    | ScanResultsEvent
    | SupConnectionEvent
    | SupDisconnectionEvent
    | NetworkConnectionEvent
    | NetworkDisconnectionEvent
    | SupplicantStateChangeEvent
    | PreDhcpAction
    | PostDhcpAction(success: bool)
    | DhcpOnQuit
    | MeshGroupStarted(group: Option<Group>)
    | MeshGroupStopped
    | MeshPeerConnected(addr: string)
    | MeshPeerDisconnected(addr: string)
    | Unknown(code: int)

  /** A message: what it is, whether it names a `replyTo`, and the `arg2`
      a reply must carry back. */
  datatype Message = Message(what: What, replyTo: bool, arg2: int)

  /** A message the machine sends itself. */
  function Internal(w: What): Message {
    Message(w, false, 0)
  }

  datatype ReplyWhat =
    | ScanFailed | ScanSucceeded
    | ConnectNetworkFailed | ConnectNetworkSucceeded
    | ForgetNetworkFailed | ForgetNetworkSucceeded
    | ResponseScanResults | ResponseGroupConfigs

  datatype Reason = Busy | MeshUnsupported | Error

  datatype Payload = NoPayload | Because(reason: Reason) | Results(entries: seq<ScanEntry>) | Groups(groups: seq<Group>)

  datatype Reply = Reply(what: ReplyWhat, payload: Payload, arg2: int)

  datatype Effect =
    | Replied(reply: Reply)
    | Broadcast(state: MeshState)
    | EnableRsp(arg: Option<int>)
    | DisableRsp
    | Supplicant(command: Command)
    | AcceptChannel
    | ScanResultsAvailable
    | GroupConfigChanged
    | ConnectionChanged(group: Option<Group>)
    | PeerConnected(addr: string)
    | PeerDisconnected(addr: string)
    | StartDhcp
    | StopDhcp
    | ClearAddresses
    | StartService(name: string)

  /** The supplicant's answers while one message is processed. */
  datatype Env = Env(startSupplicant: bool, scanOk: bool, removeOk: bool, newId: int, groupAdded: bool,
                     table: Option<string>, vars: Variables, scanPages: seq<string>)

  /** The machine: the current state, whether the channel to the Wi-Fi
      state machine is up, the joined group, the saved groups, the last
      scan results, the message queue and the deferred messages. */
  datatype Mesh = Mesh(state: StateName, channel: bool, group: Option<Group>, configs: seq<Group>,
                       results: seq<ScanEntry>, queue: seq<Message>, deferred: seq<Message>)

  /** The requests the states that wait on the supplicant put off. */
  predicate Deferrable(w: What) {
    w.EnableMeshReq? || w.DisableMeshReq? || w.ConnectNetwork?
  }

  predicate Valid(m: Mesh) {
    && IsLeaf(m.state)
    && (m.state != Joined ==> m.group.None?)
    && (Parent(m.state) != Enabled ==> m.configs == [])
    && UniqueIds(m.configs)
    && (forall i :: 0 <= i < |m.deferred| ==> Deferrable(m.deferred[i].what))
  }

  /** Every reply among `effects` answers `msg`: the message had a
      `replyTo`, and the reply carries its `arg2`. */
  predicate RepliesTo(msg: Message, effects: seq<Effect>) {
    forall i :: 0 <= i < |effects| && effects[i].Replied? ==> msg.replyTo && effects[i].reply.arg2 == msg.arg2
  }

  predicate NoReplies(effects: seq<Effect>) {
    forall i :: 0 <= i < |effects| ==> !effects[i].Replied?
  }

  lemma NoRepliesAppend(a: seq<Effect>, b: seq<Effect>)
    requires NoReplies(a) && NoReplies(b)
    ensures NoReplies(a + b)
  {
    forall i | 0 <= i < |a + b| ensures !(a + b)[i].Replied? {
      if i >= |a| { assert (a + b)[i] == b[i - |a|]; }
    }
  }

  lemma NoRepliesAnswer(msg: Message, a: seq<Effect>)
    requires NoReplies(a)
    ensures RepliesTo(msg, a)
  {
  }

  lemma RepliesToAppend(msg: Message, a: seq<Effect>, b: seq<Effect>)
    requires RepliesTo(msg, a) && RepliesTo(msg, b)
    ensures RepliesTo(msg, a + b)
  {
    forall i | 0 <= i < |a + b| && (a + b)[i].Replied?
      ensures msg.replyTo && (a + b)[i].reply.arg2 == msg.arg2
    {
      if i >= |a| { assert (a + b)[i] == b[i - |a|]; }
    }
  }

  // ---------------------------------------------------------------------
  // Replies and side effects

  /** `replyToMessage`: nothing when the message has no `replyTo`,
      otherwise one reply carrying the message's `arg2`. */
  function ReplyTo(msg: Message, what: ReplyWhat, payload: Payload): (r: seq<Effect>)
    ensures RepliesTo(msg, r)
    ensures !msg.replyTo ==> r == []
    ensures msg.replyTo ==> r == [Replied(Reply(what, payload, msg.arg2))]
  {
    if msg.replyTo then [Replied(Reply(what, payload, msg.arg2))] else []
  }

  function AsEffects(cs: seq<Command>): (r: seq<Effect>)
    ensures |r| == |cs| && forall i :: 0 <= i < |cs| ==> r[i] == Supplicant(cs[i])
  {
    if cs == [] then [] else [Supplicant(cs[0])] + AsEffects(cs[1..])
  }

  /** The save and broadcast `updateConfigurations` ends with. */
  function SaveEffects(u: Update): (r: seq<Effect>)
    ensures NoReplies(r)
    ensures r != [] <==> u.saved
  {
    if u.saved then [Supplicant(SaveConfig), GroupConfigChanged] else []
  }

  /** `mConfigs.remove(netId)`. */
  function WithoutId(configs: seq<Group>, id: int): (r: seq<Group>)
    ensures !Known(r, id)
    ensures forall i :: 0 <= i < |r| ==> r[i] in configs
    ensures UniqueIds(configs) ==> UniqueIds(r)
  {
    if configs == [] then []
    else
      var rest := WithoutId(configs[1..], id);
      if configs[0].netId == id then rest
      else
        assert forall i :: 0 <= i < |rest| ==> rest[i] in configs[1..];
        [configs[0]] + rest
  }

  // ---------------------------------------------------------------------
  // The states' handlers

  /** What a state's handler decided: handled, with an optional transition
      and whether the message is deferred; not handled, to be offered to the
      parent; or the handler raised. */
  datatype Verdict =
    | Done(m: Mesh, effects: seq<Effect>, target: Option<StateName>, defer: bool)
    | Pass(m: Mesh, effects: seq<Effect>)
    | Crash

  predicate VerdictReplies(msg: Message, v: Verdict) {
    (v.Done? ==> RepliesTo(msg, v.effects)) && (v.Pass? ==> RepliesTo(msg, v.effects))
  }

  /** What every handler guarantees: replies answer `msg`, the state,
      queue and deferred messages are left to the machine, a transition
      names a state that can be current, and only requests that may wait
      are deferred. */
  predicate Sound(m: Mesh, msg: Message, v: Verdict) {
    && VerdictReplies(msg, v)
    && ((v.Done? || v.Pass?) ==> v.m.state == m.state && v.m.deferred == m.deferred && v.m.queue == m.queue)
    && (v.Done? && v.target.Some? ==> IsLeaf(v.target.value))
    && (v.Done? && v.defer ==> Deferrable(msg.what))
  }

  /** `Done` without a transition, deferral or change of state. */
  function Handled(m: Mesh, effects: seq<Effect>): Verdict {
    Done(m, effects, None, false)
  }

  /** A message to the Wi-Fi state machine: a null channel raises. */
  function ToWifi(m: Mesh, prefix: seq<Effect>, e: Effect, target: Option<StateName>): (v: Verdict)
    ensures m.channel ==> v == Done(m, prefix + [e], target, false)
    ensures !m.channel ==> v.Crash?
  {
    if m.channel then Done(m, prefix + [e], target, false) else Crash
  }

  function DefaultProcess(m: Mesh, msg: Message): (v: Verdict)
    ensures Sound(m, msg, v)
    ensures (v.Done? || v.Pass?) ==> v.m.configs == m.configs && v.m.group == m.group
    ensures v.Done? ==> v.target.None? && !v.defer
  {
    match msg.what
    case ChannelHalfConnected(ok) => Handled(m.(channel := ok), [])
    case ChannelDisconnected => Handled(m.(channel := false), [])
    case ChannelFullConnection => Handled(m, [AcceptChannel])
    case BlockDiscovery => Handled(m, [])
    case ScanRequest => Handled(m, ReplyTo(msg, ScanFailed, Because(Busy)))
    case ConnectNetwork(_, _) => Handled(m, ReplyTo(msg, ConnectNetworkFailed, Because(Busy)))
    case ForgetNetwork(_) => Handled(m, ReplyTo(msg, ForgetNetworkFailed, Because(Busy)))
    case RequestScanResults => Handled(m, ReplyTo(msg, ResponseScanResults, Results(m.results)))
    case RequestGroupConfigs => Handled(m, ReplyTo(msg, ResponseGroupConfigs, Groups(m.configs)))
    case DisableMeshReq => ToWifi(m, [], DisableRsp, None)
    case EnableMeshReq => ToWifi(m, [], EnableRsp(Some(-1)), None)
    case ScanResultsEvent => Handled(m, [])
    case SupConnectionEvent => Handled(m, [])
    case SupDisconnectionEvent => Handled(m, [])
    case NetworkConnectionEvent => Handled(m, [])
    case NetworkDisconnectionEvent => Handled(m, [])
    case SupplicantStateChangeEvent => Handled(m, [])
    case PreDhcpAction => Handled(m, [])
    case PostDhcpAction(_) => Handled(m, [])
    case DhcpOnQuit => Handled(m, [])
    case _ => Pass(m, [])
  }

  function NotSupportedProcess(m: Mesh, msg: Message): (v: Verdict)
    ensures Sound(m, msg, v)
    ensures (v.Done? || v.Pass?) ==> v.m.configs == m.configs && v.m.group == m.group
    ensures msg.what.ScanRequest? ==> v == Handled(m, ReplyTo(msg, ScanFailed, Because(MeshUnsupported)))
    ensures msg.what.ConnectNetwork? ==> v == Handled(m, ReplyTo(msg, ConnectNetworkFailed, Because(MeshUnsupported)))
    ensures msg.what.ForgetNetwork? ==> v == Handled(m, ReplyTo(msg, ForgetNetworkFailed, Because(MeshUnsupported)))
    ensures !msg.what.ScanRequest? && !msg.what.ConnectNetwork? && !msg.what.ForgetNetwork? ==> v == Pass(m, [])
  {
    match msg.what
    case ScanRequest => Handled(m, ReplyTo(msg, ScanFailed, Because(MeshUnsupported)))
    case ConnectNetwork(_, _) => Handled(m, ReplyTo(msg, ConnectNetworkFailed, Because(MeshUnsupported)))
    case ForgetNetwork(_) => Handled(m, ReplyTo(msg, ForgetNetworkFailed, Because(MeshUnsupported)))
    case _ => Pass(m, [])
  }

  function DisablingProcess(m: Mesh, msg: Message): (v: Verdict)
    ensures Sound(m, msg, v)
    ensures (v.Done? || v.Pass?) ==> v.m.configs == m.configs && v.m.group == m.group
    ensures msg.what.EnableMeshReq? || msg.what.DisableMeshReq? ==> v == Done(m, [], None, true)
    ensures v.Done? && v.target.Some? ==> v.target.value == Disabled && v.m == m
    ensures v.Done? && v.defer ==> Deferrable(msg.what)
  {
    match msg.what
    case EnableMeshReq => Done(m, [], None, true)
    case DisableMeshReq => Done(m, [], None, true)
    case SupConnectionEvent => Handled(m, [])
    case SupDisconnectionEvent => ToWifi(m, [Supplicant(CloseSupplicantConnection)], DisableRsp, Some(Disabled))
    case _ => Pass(m, [])
  }

  function DisabledProcess(m: Mesh, msg: Message, env: Env): (v: Verdict)
    ensures Sound(m, msg, v)
    ensures (v.Done? || v.Pass?) ==> v.m.configs == m.configs && v.m.group == m.group
    ensures v.Done? ==> !v.defer && v.m == m
    ensures msg.what.EnableMeshReq? && env.startSupplicant ==>
      v == Done(m, [Supplicant(StartSupplicant), Supplicant(StartMonitoring)], Some(Enabling), false)
    ensures msg.what.EnableMeshReq? && !env.startSupplicant && m.channel ==>
      v == Done(m, [Supplicant(StartSupplicant), EnableRsp(Some(-1))], Some(Disabled), false)
  {
    match msg.what
    case EnableMeshReq =>
      if !env.startSupplicant then ToWifi(m, [Supplicant(StartSupplicant)], EnableRsp(Some(-1)), Some(Disabled))
      else Done(m, [Supplicant(StartSupplicant), Supplicant(StartMonitoring)], Some(Enabling), false)
    case _ => Pass(m, [])
  }

  function EnablingProcess(m: Mesh, msg: Message): (v: Verdict)
    ensures Sound(m, msg, v)
    ensures (v.Done? || v.Pass?) ==> v.m.configs == m.configs && v.m.group == m.group
    ensures msg.what.EnableMeshReq? || msg.what.DisableMeshReq? ==> v == Done(m, [], None, true)
    ensures msg.what.SupConnectionEvent? && m.channel ==> v == Done(m, [EnableRsp(Some(0))], Some(Inactive), false)
    ensures v.Done? ==> v.m == m && (v.defer ==> Deferrable(msg.what))
  {
    match msg.what
    case SupConnectionEvent => ToWifi(m, [], EnableRsp(Some(0)), Some(Inactive))
    case SupDisconnectionEvent => ToWifi(m, [Supplicant(CloseSupplicantConnection)], EnableRsp(Some(-1)), Some(Disabled))
    case EnableMeshReq => Done(m, [], None, true)
    case DisableMeshReq => Done(m, [], None, true)
    case _ => Pass(m, [])
  }

  /** A forget request while enabled: remove the network and reload the
      stored configurations, or report the failure. Only the stored
      configurations change, and a forgotten network stays forgotten
      unless the reloaded table names it again. */
  function EnabledForget(m: Mesh, msg: Message, env: Env): (v: Verdict)
    requires UniqueIds(m.configs) && msg.what.ForgetNetwork?
    ensures v.Crash? || (v.Done? && v.target.None? && !v.defer)
    ensures v.Done? ==> v.m == m.(configs := v.m.configs) && UniqueIds(v.m.configs) && RepliesTo(msg, v.effects)
    ensures v.Done? && env.removeOk ==> !Known(v.m.configs, msg.what.netId) || env.table.Some?
    ensures v.Done? && env.removeOk ==>
      (Known(v.m.configs, msg.what.netId) <==> env.table.Some? && NamesId(TableRows(env.table.value), msg.what.netId))
  {
    var id := msg.what.netId;
    if env.removeOk then
      var u := UpdateConfigurations(WithoutId(m.configs, id), env.table, true, env.vars);
      if u.thrown then Crash
      else
        ReloadKnows(WithoutId(m.configs, id), env.table, env.vars, id);
        var effects := [Supplicant(RemoveNetwork(id))] + ReplyTo(msg, ForgetNetworkSucceeded, NoPayload)
          + [Supplicant(ListNetworks)] + SaveEffects(u);
        RepliesToAppend(msg, [Supplicant(RemoveNetwork(id))] + ReplyTo(msg, ForgetNetworkSucceeded, NoPayload),
          [Supplicant(ListNetworks)] + SaveEffects(u));
        Handled(m.(configs := u.configs), effects)
    else Handled(m, [Supplicant(RemoveNetwork(id))] + ReplyTo(msg, ForgetNetworkFailed, NoPayload))
  }

  function EnabledProcess(m: Mesh, msg: Message, env: Env): (v: Verdict)
    requires UniqueIds(m.configs)
    ensures Sound(m, msg, v)
    ensures (v.Done? || v.Pass?) ==> UniqueIds(v.m.configs)
    ensures (v.Done? || v.Pass?) ==> v.m.group == m.group
    ensures v.Pass? ==> v.m == m
    ensures v.Done? && v.target.Some? ==> v.target.value in {Disabled, Disabling}
    ensures msg.what.ForgetNetwork? && v.Done? && env.removeOk ==> !Known(v.m.configs, msg.what.netId) || env.table.Some?
    ensures msg.what.ForgetNetwork? && v.Done? && env.removeOk ==>
      (Known(v.m.configs, msg.what.netId) <==> env.table.Some? && NamesId(TableRows(env.table.value), msg.what.netId))
  {
    match msg.what
    case EnableMeshReq => ToWifi(m, [], EnableRsp(None), None)
    case DisableMeshReq => Done(m, [Supplicant(KillSupplicant)], Some(Disabling), false)
    case ScanRequest =>
      Handled(m, [Supplicant(Scan)] +
        (if env.scanOk then ReplyTo(msg, ScanSucceeded, NoPayload) else ReplyTo(msg, ScanFailed, Because(Busy))))
    case ForgetNetwork(_) => EnabledForget(m, msg, env)
    case SupDisconnectionEvent => Done(m, [Supplicant(CloseSupplicantConnection)], Some(Disabled), false)
    case ScanResultsEvent => Handled(m.(results := SetScanResults(env.scanPages)), [ScanResultsAvailable])
    case _ => Pass(m, [])
  }

  /** A connect request while inactive: the supplicant commands of
      `connect`, the save they lead to, then the reply. Only the stored
      configurations change. */
  function InactiveConnect(m: Mesh, msg: Message, env: Env): (v: Verdict)
    requires UniqueIds(m.configs) && msg.what.ConnectNetwork?
    ensures v.Crash? || (v.Done? && v.target.None? && !v.defer)
    ensures v.Done? ==> v.m == m.(configs := v.m.configs) && UniqueIds(v.m.configs) && RepliesTo(msg, v.effects)
  {
    var c := Connect(msg.what.netId, msg.what.request, env.newId, env.groupAdded, m.configs, env.table, env.vars);
    if c.update.thrown then Crash
    else
      var reply := if c.ok then ReplyTo(msg, ConnectNetworkSucceeded, NoPayload)
        else ReplyTo(msg, ConnectNetworkFailed, Because(Error));
      var effects := AsEffects(c.commands) + SaveEffects(c.update) + reply;
      RepliesToAppend(msg, AsEffects(c.commands) + SaveEffects(c.update), reply);
      Handled(m.(configs := c.update.configs), effects)
  }

  function InactiveProcess(m: Mesh, msg: Message, env: Env): (v: Verdict)
    requires UniqueIds(m.configs)
    ensures Sound(m, msg, v)
    ensures (v.Done? || v.Pass?) ==> UniqueIds(v.m.configs)
    ensures v.Done? ==> !v.defer && UniqueIds(v.m.configs) && v.m.deferred == m.deferred
    ensures v.Done? && v.target.None? ==> v.m.group == m.group
    ensures v.Done? && v.target.Some? ==> v.target.value == Joined && msg.what.MeshGroupStarted? && v.m.group == msg.what.group
    ensures v.Pass? ==> v.m == m
  {
    match msg.what
    case ConnectNetwork(_, _) => InactiveConnect(m, msg, env)
    case DisconnectNetwork => Handled(m, ReplyTo(msg, ConnectNetworkFailed, Because(Busy)))
    case MeshGroupStarted(g) => Done(m.(group := g), [ConnectionChanged(g), StartService("join_mesh")], Some(Joined), false)
    case _ => Pass(m, [])
  }

  /** The Joined state's handler. With `guarded` false it is the code as
      written, which reads the group's network id even after the group has
      been forgotten; with `guarded` true a missing group is treated as no
      match. */
  function JoinedProcess(m: Mesh, msg: Message, guarded: bool): (v: Verdict)
    ensures Sound(m, msg, v)
    ensures (v.Done? || v.Pass?) ==> v.m.configs == m.configs
    ensures v.Done? ==> v.m == m && (v.defer ==> Deferrable(msg.what))
    ensures v.Done? && v.target.Some? ==> v.target.value == Inactive
    ensures v.Pass? ==> v.m == m.(group := v.m.group) && (v.m.group.Some? ==> v.m.group == m.group)
    ensures guarded ==> !v.Crash?
    ensures m.group.None? && (msg.what.ForgetNetwork? || msg.what.DisableMeshReq?) ==> (v.Crash? <==> !guarded)
  {
    match msg.what
    case ConnectNetwork(_, _) => Done(m, [Supplicant(MeshGroupRemove)], None, true)
    case ForgetNetwork(id) =>
      (match m.group
       case None => if guarded then Pass(m, []) else Crash
       case Some(g) =>
         if id == g.netId then Pass(m.(group := None), [Supplicant(MeshGroupRemove)]) else Pass(m, []))
    case DisconnectNetwork => Handled(m, [Supplicant(MeshGroupRemove)])
    case DisableMeshReq =>
      (match m.group
       case None => if guarded then Pass(m, [Supplicant(MeshGroupRemove)]) else Crash
       case Some(g) =>
         Pass(m.(group := None), [Supplicant(MeshGroupRemove), Supplicant(DisableNetwork(g.netId)), Supplicant(SaveConfig)]))
    case MeshGroupStopped => Done(m, [StartService("leave_mesh")], Some(Inactive), false)
    case MeshPeerConnected(a) => Handled(m, [PeerConnected(a)])
    case MeshPeerDisconnected(a) => Handled(m, [PeerDisconnected(a)])
    case PostDhcpAction(_) => Handled(m, [])
    case _ => Pass(m, [])
  }

  function ProcessIn(s: StateName, m: Mesh, msg: Message, env: Env, guarded: bool): (v: Verdict)
    requires UniqueIds(m.configs)
    ensures Sound(m, msg, v)
    ensures (v.Done? || v.Pass?) ==> UniqueIds(v.m.configs)
    ensures (v.Done? || v.Pass?) && s != Enabled && s != Inactive ==> v.m.configs == m.configs
    ensures (v.Done? || v.Pass?) && s != Joined && !(v.Done? && v.target == Some(Joined)) ==> v.m.group == m.group
  {
    match s
    case Default => DefaultProcess(m, msg)
    case NotSupported => NotSupportedProcess(m, msg)
    case Disabling => DisablingProcess(m, msg)
    case Disabled => DisabledProcess(m, msg, env)
    case Enabling => EnablingProcess(m, msg)
    case Enabled => EnabledProcess(m, msg, env)
    case Inactive => InactiveProcess(m, msg, env)
    case Joined => JoinedProcess(m, msg, guarded)
  }

  /** Offer `msg` to `s` and, while unhandled, to its ancestors; a message
      no state handles is dropped. */
  function Dispatch(s: StateName, m: Mesh, msg: Message, env: Env, guarded: bool): (v: Verdict)
    requires UniqueIds(m.configs)
    ensures !v.Pass?
    ensures Sound(m, msg, v)
    ensures v.Done? ==> UniqueIds(v.m.configs)
    ensures v.Done? && s != Enabled && s != Inactive && s != Joined ==> v.m.configs == m.configs
    ensures v.Done? && s != Joined && v.target != Some(Joined) ==> v.m.group == m.group
    decreases Depth(s)
  {
    match ProcessIn(s, m, msg, env, guarded)
    case Pass(m1, e1) =>
      if s == Default then Done(m1, e1, None, false)
      else
        assert UniqueIds(m1.configs);
        (match Dispatch(Parent(s), m1, msg, env, guarded)
         case Done(m2, e2, t, d) =>
           RepliesToAppend(msg, e1, e2);
           Done(m2, e1 + e2, t, d)
         case _ => Crash)
    case other => other
  }

  // ---------------------------------------------------------------------
  // Transitions

  /** The states a transition to `dest` enters, outermost first: `dest`
      and its ancestors up to the first one already active. */
  function ToEnter(dest: StateName, current: StateName): (r: seq<StateName>)
    requires dest != Default
    ensures r != [] && r[|r| - 1] == dest
    ensures Parent(dest) == Default ==> r == [dest]
    decreases Depth(dest)
  {
    if Parent(dest) in Chain(current) then [dest] else ToEnter(Parent(dest), current) + [dest]
  }

  /** The active ancestor a transition from `current` to `dest` stops at. */
  function Common(dest: StateName, current: StateName): (c: StateName)
    requires dest != Default
    ensures c in Chain(current)
    ensures c == Default || c == Enabled
    ensures Parent(dest) == Default ==> c == Default
    decreases Depth(dest)
  {
    if Parent(dest) in Chain(current) then Parent(dest) else Common(Parent(dest), current)
  }

  /** The states a transition leaves, innermost first: `current` and its
      ancestors below `common`. */
  function ToExit(current: StateName, common: StateName): (r: seq<StateName>)
    requires common in Chain(current)
    ensures common != Joined ==> (Joined in r <==> current == Joined)
    ensures common == Default ==> (Enabled in r <==> Enabled in Chain(current))
    decreases Depth(current)
  {
    if current == common then [] else [current] + ToExit(Parent(current), common)
  }

  /** A state's exit action. */
  function Exit(s: StateName, m: Mesh): (r: (Mesh, seq<Effect>))
    ensures r.0 == m.(group := r.0.group, configs := r.0.configs)
    ensures NoReplies(r.1)
    ensures r.0.deferred == m.deferred && r.0.queue == m.queue && r.0.state == m.state
    ensures s == Joined ==> r.0.group.None?
    ensures s != Joined ==> r.0.group == m.group
    ensures s == Enabled ==> r.0.configs == []
    ensures s != Enabled ==> r.0.configs == m.configs
  {
    match s
    case Joined =>
      var disable := if m.group.Some? then [Supplicant(DisableNetwork(m.group.value.netId)), Supplicant(SaveConfig)] else [];
      (m.(group := None), [StopDhcp, ClearAddresses] + disable + [ConnectionChanged(None)])
    case Enabled => (m.(configs := []), [])
    case _ => (m, [])
  }

  /** A state's enter action; entering Enabled reloads the saved groups,
      which raises on a malformed frequency. */
  function Enter(s: StateName, m: Mesh, env: Env): (r: Option<(Mesh, seq<Effect>)>)
    requires UniqueIds(m.configs)
    ensures r.Some? ==> r.value.0 == m.(configs := r.value.0.configs, queue := r.value.0.queue)
    ensures r.Some? ==> NoReplies(r.value.1) && r.value.0.deferred == m.deferred && r.value.0.group == m.group
    ensures r.Some? ==> r.value.0.state == m.state
    ensures r.Some? ==> UniqueIds(r.value.0.configs) && (s != Enabled ==> r.value.0.configs == m.configs)
    ensures r.Some? && s != Disabling ==> r.value.0.queue == m.queue
    ensures r.Some? && s == Disabling ==> r.value.0.queue == m.queue + [Internal(SupDisconnectionEvent)]
    ensures s != Enabled ==> r.Some?
  {
    match s
    case NotSupported => Some((m, [Broadcast(StateFailed)]))
    case Disabling => Some((m.(queue := m.queue + [Internal(SupDisconnectionEvent)]), [Broadcast(StateDisabling)]))
    case Disabled => Some((m, [Broadcast(StateDisabled)]))
    case Enabling => Some((m, [Broadcast(StateEnabling)]))
    case Enabled =>
      var u := UpdateConfigurations(m.configs, env.table, true, env.vars);
      if u.thrown then None
      else Some((m.(configs := u.configs), [Broadcast(StateEnabled), Supplicant(ListNetworks)] + SaveEffects(u)))
    case Joined => Some((m, [StartDhcp]))
    case _ => Some((m, []))
  }

  function ExitAll(m: Mesh, states: seq<StateName>): (r: (Mesh, seq<Effect>))
    ensures r.0 == m.(group := r.0.group, configs := r.0.configs)
    ensures NoReplies(r.1)
    ensures r.0.deferred == m.deferred && r.0.queue == m.queue && r.0.state == m.state
    ensures Joined in states ==> r.0.group.None?
    ensures Joined !in states ==> r.0.group == m.group
    ensures Enabled in states ==> r.0.configs == []
    ensures Enabled !in states ==> r.0.configs == m.configs
    decreases |states|
  {
    if states == [] then (m, [])
    else
      var first := Exit(states[0], m);
      var rest := ExitAll(first.0, states[1..]);
      assert forall x :: x in states <==> x == states[0] || x in states[1..];
      NoRepliesAppend(first.1, rest.1);
      (rest.0, first.1 + rest.1)
  }

  function EnterAll(m: Mesh, states: seq<StateName>, env: Env): (r: Option<(Mesh, seq<Effect>)>)
    requires UniqueIds(m.configs)
    ensures r.Some? ==> r.value.0 == m.(configs := r.value.0.configs, queue := r.value.0.queue)
    ensures r.Some? ==> NoReplies(r.value.1) && r.value.0.deferred == m.deferred && r.value.0.group == m.group
    ensures r.Some? ==> r.value.0.state == m.state
    ensures r.Some? ==> UniqueIds(r.value.0.configs) && (Enabled !in states ==> r.value.0.configs == m.configs)
    ensures r.Some? ==> m.queue <= r.value.0.queue
    ensures r.Some? && Disabling !in states ==> r.value.0.queue == m.queue
    ensures Enabled !in states ==> r.Some?
    decreases |states|
  {
    if states == [] then Some((m, []))
    else
      assert forall x :: x in states <==> x == states[0] || x in states[1..];
      match Enter(states[0], m, env)
      case None => None
      case Some(first) =>
        match EnterAll(first.0, states[1..], env)
        case None => None
        case Some(rest) =>
          NoRepliesAppend(first.1, rest.1);
          Some((rest.0, first.1 + rest.1))
  }

  /** A transition to `dest`: the exits, innermost first, then the
      enters, outermost first. Leaving Joined forgets the group; leaving
      Enabled forgets the saved groups. */
  function Transition(m: Mesh, dest: StateName, env: Env): (r: Option<(Mesh, seq<Effect>)>)
    requires IsLeaf(dest) && IsLeaf(m.state) && UniqueIds(m.configs)
    ensures r.Some? ==> r.value.0 == m.(state := dest, group := r.value.0.group, configs := r.value.0.configs, queue := r.value.0.queue)
    ensures r.Some? ==> r.value.0.state == dest && NoReplies(r.value.1) && r.value.0.deferred == m.deferred
    ensures r.Some? ==> UniqueIds(r.value.0.configs) && m.queue <= r.value.0.queue
    ensures r.Some? && dest != Joined ==> r.value.0.group == (if m.state == Joined then None else m.group)
    ensures r.Some? && Parent(dest) != Enabled ==>
      r.value.0.configs == (if Parent(m.state) == Enabled then [] else m.configs)
    ensures Parent(dest) != Enabled ==> r.Some?
  {
    var common := Common(dest, m.state);
    var exits := ExitAll(m, ToExit(m.state, common));
    assert UniqueIds(exits.0.configs);
    match EnterAll(exits.0.(state := dest), ToEnter(dest, m.state), env)
    case None => None
    case Some(e) =>
      NoRepliesAppend(exits.1, e.1);
      Some((e.0, exits.1 + e.1))
  }

  // ---------------------------------------------------------------------
  // Processing one message

  /** One message: offered to the current state and its ancestors; a
      deferred message is set aside; a transition runs the exit and enter
      actions and then puts the deferred messages back at the front of the
      queue. */
  function StepWith(m: Mesh, msg: Message, env: Env, guarded: bool): (r: Option<(Mesh, seq<Effect>)>)
    requires Valid(m)
    ensures r.Some? ==> RepliesTo(msg, r.value.1)
    ensures r.Some? ==> Valid(r.value.0)
  {
    var v := Dispatch(m.state, m, msg, env, guarded);
    if v.Crash? then None
    else
      var m2 := if v.defer then v.m.(deferred := v.m.deferred + [msg]) else v.m;
      assert forall i :: 0 <= i < |m2.deferred| ==> Deferrable(m2.deferred[i].what) by {
        if v.defer {
          assert forall i :: 0 <= i < |v.m.deferred| ==> m2.deferred[i] == v.m.deferred[i];
        }
      }
      if v.target.None? then Some((m2, v.effects))
      else
        var t := Transition(m2, v.target.value, env);
        if t.None? then None
        else
          var after := t.value.0.(queue := t.value.0.deferred + t.value.0.queue, deferred := []);
          NoRepliesAnswer(msg, t.value.1);
          RepliesToAppend(msg, v.effects, t.value.1);
          Some((after, v.effects + t.value.1))
  }

  /** One message processed by the machine as written. */
  function StepAsWritten(m: Mesh, msg: Message, env: Env): (r: Option<(Mesh, seq<Effect>)>)
    requires Valid(m)
    ensures r.Some? ==> RepliesTo(msg, r.value.1)
    ensures r.Some? ==> Valid(r.value.0)
  {
    StepWith(m, msg, env, false)
  }

  /** One message processed, with the Joined state tolerating a forgotten
      group. */
  function Step(m: Mesh, msg: Message, env: Env): (r: Option<(Mesh, seq<Effect>)>)
    requires Valid(m)
    ensures r.Some? ==> RepliesTo(msg, r.value.1)
    ensures r.Some? ==> Valid(r.value.0)
  {
    StepWith(m, msg, env, true)
  }

  /** Only the Joined state reads the guard, and only for a forget or a
      disable request while no group is held. */
  lemma {:induction false} DispatchGuardIrrelevant(s: StateName, m: Mesh, msg: Message, env: Env)
    requires UniqueIds(m.configs)
    requires s == Joined ==> m.group.Some? || !(msg.what.ForgetNetwork? || msg.what.DisableMeshReq?)
    ensures Dispatch(s, m, msg, env, true) == Dispatch(s, m, msg, env, false)
    decreases Depth(s)
  {
    var v := ProcessIn(s, m, msg, env, true);
    assert v == ProcessIn(s, m, msg, env, false);
    if v.Pass? && s != Default {
      DispatchGuardIrrelevant(Parent(s), v.m, msg, env);
    }
  }

  /** The corrected machine differs from the machine as written only where
      the latter crashes: in Joined without a group, on a forget or a
      disable request. */
  lemma StepAgreesAsWritten(m: Mesh, msg: Message, env: Env)
    requires Valid(m)
    requires m.state == Joined && m.group.None? ==> !(msg.what.ForgetNetwork? || msg.what.DisableMeshReq?)
    ensures Step(m, msg, env) == StepAsWritten(m, msg, env)
  {
    DispatchGuardIrrelevant(m.state, m, msg, env);
  }

  /** The machine after `start()`: the initial state is Disabled when mesh
      is supported and NotSupported otherwise, and entering it broadcasts
      its state. */
  function Start(supported: bool): (r: (Mesh, seq<Effect>))
    ensures Valid(r.0)
    ensures r.0.state == (if supported then Disabled else NotSupported)
    ensures r.1 == [Broadcast(if supported then StateDisabled else StateFailed)]
  {
    var m := Mesh(if supported then Disabled else NotSupported, false, None, [], [], [], []);
    (m, [Broadcast(if supported then StateDisabled else StateFailed)])
  }

  /** The service constructs its machine with mesh support hard-wired on. */
  const MESH_SUPPORTED := true

  // ---------------------------------------------------------------------
  // Properties

  /** Without mesh support every scan, connect or forget is refused with
      `MESH_UNSUPPORTED`, and nothing else changes. */
  lemma NotSupportedRefuses(m: Mesh, msg: Message, env: Env)
    requires Valid(m) && m.state == NotSupported
    ensures msg.what.ScanRequest? ==> Step(m, msg, env) == Some((m, ReplyTo(msg, ScanFailed, Because(MeshUnsupported))))
    ensures msg.what.ConnectNetwork? ==> Step(m, msg, env) == Some((m, ReplyTo(msg, ConnectNetworkFailed, Because(MeshUnsupported))))
    ensures msg.what.ForgetNetwork? ==> Step(m, msg, env) == Some((m, ReplyTo(msg, ForgetNetworkFailed, Because(MeshUnsupported))))
  {
  }

  /** While the supplicant starts or stops, enable and disable requests
      are put off unchanged. */
  lemma RequestsDeferredWhileChanging(m: Mesh, msg: Message, env: Env)
    requires Valid(m) && (m.state == Disabling || m.state == Enabling)
    requires msg.what.EnableMeshReq? || msg.what.DisableMeshReq?
    ensures Step(m, msg, env) == Some((m.(deferred := m.deferred + [msg]), []))
  {
  }

  /** The message at the head of the queue processed. */
  function Next(m: Mesh, env: Env): (r: Option<(Mesh, seq<Effect>)>)
    requires Valid(m) && m.queue != []
    ensures r.Some? ==> RepliesTo(m.queue[0], r.value.1) && Valid(r.value.0)
  {
    Step(m.(queue := m.queue[1..]), m.queue[0], env)
  }

  /** Forgetting the joined group's network is passed on to Enabled,
      which removes it; the machine stays in Joined without a group. The
      check on the group does not change this first step. */
  lemma ForgetJoinedGroup(m: Mesh, msg: Message, env: Env)
    requires Valid(m) && m.state == Joined && m.group.Some?
    requires msg.what == ForgetNetwork(m.group.value.netId)
    requires env.removeOk && env.table.None?
    ensures Step(m, msg, env) == StepAsWritten(m, msg, env)
    ensures Step(m, msg, env).Some?
    ensures Step(m, msg, env).value.0.state == Joined && Step(m, msg, env).value.0.group.None?
  {
    var m0 := m.(group := None);
    var e0 := [Supplicant(MeshGroupRemove)];
    assert ProcessIn(Joined, m, msg, env, false) == Pass(m0, e0);
    assert ProcessIn(Joined, m, msg, env, true) == Pass(m0, e0);
    var v := ProcessIn(Enabled, m0, msg, env, true);
    assert v == ProcessIn(Enabled, m0, msg, env, false);
    assert v.Done? && v.target.None? && !v.defer && v.m.group.None?;
    assert Dispatch(Joined, m, msg, env, false) == Dispatch(Joined, m, msg, env, true);
  }

  /** As written, the Joined state reads the group of a forget or disable
      request without checking that there is one. */
  lemma MissingGroupCrashesAsWritten(m: Mesh, later: Message, env: Env)
    requires Valid(m) && m.state == Joined && m.group.None?
    requires later.what.ForgetNetwork? || later.what.DisableMeshReq?
    ensures StepAsWritten(m, later, env).None?
  {
    assert ProcessIn(Joined, m, later, env, false) == Crash;
    assert Dispatch(Joined, m, later, env, false) == Crash;
  }

  /** As written, forgetting the joined group leaves the machine in Joined
      with no group, and the next forget or disable request dereferences
      the missing group. */
  lemma ForgottenGroupCrashesAsWritten(m: Mesh, msg: Message, env: Env, later: Message, env2: Env)
    requires Valid(m) && m.state == Joined && m.group.Some?
    requires msg.what == ForgetNetwork(m.group.value.netId)
    requires env.removeOk && env.table.None?
    requires later.what.ForgetNetwork? || later.what.DisableMeshReq?
    ensures StepAsWritten(m, msg, env).Some?
    ensures var m1 := StepAsWritten(m, msg, env).value.0;
      m1.state == Joined && m1.group.None? && StepAsWritten(m1, later, env2).None?
  {
    ForgetJoinedGroup(m, msg, env);
    MissingGroupCrashesAsWritten(StepAsWritten(m, msg, env).value.0, later, env2);
  }

  /** ... and a later forget request without a group reaches the Enabled
      state instead of raising. */
  lemma ForgetWithoutGroupHandled(m: Mesh, later: Message, env: Env)
    requires Valid(m) && m.state == Joined && m.group.None?
    requires later.what.ForgetNetwork? && env.table.None?
    ensures Step(m, later, env).Some? && Step(m, later, env).value.0.state == Joined
  {
    assert ProcessIn(Joined, m, later, env, true) == Pass(m, []);
    var v := ProcessIn(Enabled, m, later, env, true);
    assert v.Done? && v.target.None? && !v.defer;
    assert [] + v.effects == v.effects;
    assert Dispatch(Joined, m, later, env, true) == v;
  }

  /** ... and a later disable request without a group still leaves for
      Disabling. */
  lemma DisableWithoutGroupHandled(m: Mesh, later: Message, env: Env)
    requires Valid(m) && m.state == Joined && m.group.None?
    requires later.what.DisableMeshReq?
    ensures Step(m, later, env).Some? && Step(m, later, env).value.0.state == Disabling
  {
    assert ProcessIn(Joined, m, later, env, true) == Pass(m, [Supplicant(MeshGroupRemove)]);
    var v := ProcessIn(Enabled, m, later, env, true);
    assert v == Done(m, [Supplicant(KillSupplicant)], Some(Disabling), false);
  }

  /** Once enabled, an enable request is answered as already enabled and
      changes nothing. */
  lemma AlreadyEnabled(m: Mesh, req: Message, env: Env)
    requires Valid(m) && (m.state == Inactive || m.state == Joined) && m.channel
    requires req.what.EnableMeshReq?
    ensures Step(m, req, env) == Some((m, [EnableRsp(None)]))
  {
    assert ProcessIn(m.state, m, req, env, true) == Pass(m, []);
    assert ProcessIn(Enabled, m, req, env, true) == Done(m, [EnableRsp(None)], None, false);
    assert [] + [EnableRsp(None)] == [EnableRsp(None)];
  }

  /** The supplicant's connection ends Enabling: the machine enters
      Enabled (reloading the saved groups) and Inactive, answers the Wi-Fi
      state machine with success, and puts the deferred requests back at
      the head of the queue. */
  lemma EnablingCompletes(m: Mesh, env: Env)
    requires Valid(m) && m.state == Enabling && m.channel && env.table.None?
    ensures var a := Step(m, Internal(SupConnectionEvent), env);
      a == Some((m.(state := Inactive, queue := m.deferred + m.queue, deferred := []),
        [EnableRsp(Some(0)), Broadcast(StateEnabled), Supplicant(ListNetworks)]))
  {
    var sup := Internal(SupConnectionEvent);
    assert Dispatch(Enabling, m, sup, env, true) == Done(m, [EnableRsp(Some(0))], Some(Inactive), false);
    EnablingToInactivePath();
    var mi := m.(state := Inactive);
    EnabledAndInactiveEntered(mi, env);
    ExitOne(m, Enabling);
    var none: seq<Effect> := [];
    var e := [Broadcast(StateEnabled), Supplicant(ListNetworks)];
    assert none + e == e;
    assert Transition(m, Inactive, env) == Some((mi, e));
    StepMoves(m, sup, env, m, [EnableRsp(Some(0))], Inactive, mi, e);
    assert [EnableRsp(Some(0))] + e == [EnableRsp(Some(0)), Broadcast(StateEnabled), Supplicant(ListNetworks)];
  }

  lemma EnablingToInactivePath()
    ensures Common(Inactive, Enabling) == Default
    ensures ToExit(Enabling, Default) == [Enabling]
    ensures ToEnter(Inactive, Enabling) == [Enabled, Inactive]
  {
  }

  lemma EnabledAndInactiveEntered(mi: Mesh, env: Env)
    requires mi.configs == [] && env.table.None?
    ensures EnterAll(mi, [Enabled, Inactive], env) ==
      Some((mi, [Broadcast(StateEnabled), Supplicant(ListNetworks)]))
  {
    var e := [Broadcast(StateEnabled), Supplicant(ListNetworks)];
    assert [Enabled, Inactive][1..] == [Inactive];
    assert UpdateConfigurations(mi.configs, env.table, true, env.vars) == Update(mi.configs, false, false);
    assert SaveEffects(Update(mi.configs, false, false)) == [];
    assert e + [] == e;
    assert mi.(configs := mi.configs) == mi;
    assert Enter(Enabled, mi, env) == Some((mi, e));
    EnterOne(mi, Inactive, env);
  }

  /** An enable request that arrives while the supplicant starts waits,
      and is the first message handled once the machine is enabled, where
      it is answered as already enabled. */
  lemma EnableDeferredUntilEnabled(m: Mesh, req: Message, env: Env)
    requires Valid(m) && m.state == Enabling && m.channel && m.deferred == []
    requires req.what.EnableMeshReq? && env.table.None?
    ensures Step(m, req, env) == Some((m.(deferred := [req]), []))
    ensures var a := Step(m.(deferred := [req]), Internal(SupConnectionEvent), env);
      a.Some? && a.value.0.state == Inactive && a.value.0.queue == [req] + m.queue &&
      Next(a.value.0, env) == Some((a.value.0.(queue := m.queue), [EnableRsp(None)]))
  {
    assert m.deferred + [req] == [req];
    assert Dispatch(Enabling, m, req, env, true) == Done(m, [], None, true);
    var m1 := m.(deferred := [req]);
    EnablingCompletes(m1, env);
    var after := m1.(state := Inactive, queue := [req] + m.queue, deferred := []);
    assert after.queue[1..] == m.queue;
    AlreadyEnabled(after.(queue := m.queue), req, env);
  }

  /** A disable request while joined removes and disables the group, stops
      the supplicant and leaves for Disabling, which queues its own
      disconnection event. */
  lemma DisableWhileJoined(m: Mesh, req: Message, env: Env)
    requires Valid(m) && m.state == Joined && m.group.Some? && m.queue == [] && m.deferred == []
    requires req.what.DisableMeshReq?
    ensures Step(m, req, env) == Some((m.(state := Disabling, group := None, configs := [], queue := [Internal(SupDisconnectionEvent)]),
      [Supplicant(MeshGroupRemove), Supplicant(DisableNetwork(m.group.value.netId)), Supplicant(SaveConfig),
       Supplicant(KillSupplicant), StopDhcp, ClearAddresses, ConnectionChanged(None), Broadcast(StateDisabling)]))
  {
    var mn := m.(group := None);
    var e0 := [Supplicant(MeshGroupRemove), Supplicant(DisableNetwork(m.group.value.netId)), Supplicant(SaveConfig),
      Supplicant(KillSupplicant)];
    var mq := mn.(configs := [], state := Disabling, queue := [Internal(SupDisconnectionEvent)]);
    var e1 := [StopDhcp, ClearAddresses, ConnectionChanged(None), Broadcast(StateDisabling)];
    JoinedDisableDispatch(m, req, env);
    JoinedToDisablingTransition(mn, env);
    StepMoves(m, req, env, mn, e0, Disabling, mq, e1);
    assert mq.deferred + mq.queue == [Internal(SupDisconnectionEvent)];
    assert e0 + e1 == [Supplicant(MeshGroupRemove), Supplicant(DisableNetwork(m.group.value.netId)), Supplicant(SaveConfig),
       Supplicant(KillSupplicant), StopDhcp, ClearAddresses, ConnectionChanged(None), Broadcast(StateDisabling)];
  }

  /** Leaving Joined for Disabling runs the exits of Joined and Enabled, then the entry of Disabling. */
  lemma JoinedToDisablingTransition(mn: Mesh, env: Env)
    requires mn.state == Joined && mn.group.None? && mn.queue == [] && UniqueIds(mn.configs)
    ensures Transition(mn, Disabling, env) ==
      Some((mn.(configs := [], state := Disabling, queue := [Internal(SupDisconnectionEvent)]),
        [StopDhcp, ClearAddresses, ConnectionChanged(None), Broadcast(StateDisabling)]))
  {
    JoinedToDisablingPath();
    JoinedAndEnabledExit(mn);
    var md := mn.(configs := [], state := Disabling);
    DisablingEntered(md, env);
    var e1 := [StopDhcp, ClearAddresses, ConnectionChanged(None)];
    assert e1 + [Broadcast(StateDisabling)] == [StopDhcp, ClearAddresses, ConnectionChanged(None), Broadcast(StateDisabling)];
  }

  /** A handler that finishes with a transition: the step's effects are the
      handler's followed by the transition's, and the deferred messages move
      back to the queue. */
  lemma StepMoves(m: Mesh, msg: Message, env: Env, m1: Mesh, e1: seq<Effect>, dest: StateName, m2: Mesh, e2: seq<Effect>)
    requires Valid(m) && IsLeaf(dest) && IsLeaf(m1.state) && UniqueIds(m1.configs)
    requires Dispatch(m.state, m, msg, env, true) == Done(m1, e1, Some(dest), false)
    requires Transition(m1, dest, env) == Some((m2, e2))
    ensures Step(m, msg, env) == Some((m2.(queue := m2.deferred + m2.queue, deferred := []), e1 + e2))
  {
  }

  /** A disable request while joined leaves the group, then the enabled state stops the supplicant. */
  lemma JoinedDisableDispatch(m: Mesh, req: Message, env: Env)
    requires Valid(m) && m.state == Joined && m.group.Some?
    requires req.what.DisableMeshReq?
    ensures Dispatch(Joined, m, req, env, true) ==
      Done(m.(group := None), [Supplicant(MeshGroupRemove), Supplicant(DisableNetwork(m.group.value.netId)),
        Supplicant(SaveConfig), Supplicant(KillSupplicant)], Some(Disabling), false)
  {
    var mn := m.(group := None);
    var e0 := [Supplicant(MeshGroupRemove), Supplicant(DisableNetwork(m.group.value.netId)), Supplicant(SaveConfig)];
    assert ProcessIn(Joined, m, req, env, true) == Pass(mn, e0);
    assert ProcessIn(Enabled, mn, req, env, true) == Done(mn, [Supplicant(KillSupplicant)], Some(Disabling), false);
    assert e0 + [Supplicant(KillSupplicant)] == [Supplicant(MeshGroupRemove), Supplicant(DisableNetwork(m.group.value.netId)),
        Supplicant(SaveConfig), Supplicant(KillSupplicant)];
  }

  lemma JoinedToDisablingPath()
    ensures Common(Disabling, Joined) == Default
    ensures ToExit(Joined, Default) == [Joined, Enabled]
    ensures ToEnter(Disabling, Joined) == [Disabling]
  {
  }

  lemma JoinedAndEnabledExit(mn: Mesh)
    requires mn.group.None?
    ensures ExitAll(mn, [Joined, Enabled]) == (mn.(configs := []), [StopDhcp, ClearAddresses, ConnectionChanged(None)])
  {
    var e1 := [StopDhcp, ClearAddresses, ConnectionChanged(None)];
    assert [Joined, Enabled][1..] == [Enabled];
    assert [Enabled][1..] == [];
    assert [StopDhcp, ClearAddresses] + [] + [ConnectionChanged(None)] == e1;
    assert Exit(Joined, mn) == (mn, e1);
    assert Exit(Enabled, mn) == (mn.(configs := []), []);
    assert ExitAll(mn.(configs := []), []) == (mn.(configs := []), []);
    var none: seq<Effect> := [];
    assert none + none == none;
    assert ExitAll(mn, [Enabled]) == (mn.(configs := []), none);
    assert e1 + none == e1;
  }

  lemma DisablingEntered(md: Mesh, env: Env)
    requires md.queue == [] && UniqueIds(md.configs)
    ensures EnterAll(md, [Disabling], env) == Some((md.(queue := [Internal(SupDisconnectionEvent)]), [Broadcast(StateDisabling)]))
  {
    assert [Disabling][1..] == [];
    var mq := md.(queue := [Internal(SupDisconnectionEvent)]);
    assert md.queue + [Internal(SupDisconnectionEvent)] == [Internal(SupDisconnectionEvent)];
    assert Enter(Disabling, md, env) == Some((mq, [Broadcast(StateDisabling)]));
    assert EnterAll(mq, [], env) == Some((mq, []));
    assert [Broadcast(StateDisabling)] + [] == [Broadcast(StateDisabling)];
  }

  /** Disabling ends at its queued disconnection event: the supplicant
      connection is closed, the Wi-Fi state machine told, and Disabled
      entered. */
  lemma DisablingCompletes(m: Mesh, env: Env)
    requires Valid(m) && m.state == Disabling && m.channel && m.queue == [Internal(SupDisconnectionEvent)]
    ensures Next(m, env) == Some((m.(state := Disabled, queue := m.deferred, deferred := []),
      [Supplicant(CloseSupplicantConnection), DisableRsp, Broadcast(StateDisabled)]))
  {
    var m2 := m.(queue := []);
    assert m.queue[1..] == [];
    DisablingDisconnects(m2, env);
    DisablingToDisabled(m2, env);
    StepMoves(m2, Internal(SupDisconnectionEvent), env, m2, [Supplicant(CloseSupplicantConnection), DisableRsp],
      Disabled, m2.(state := Disabled), [Broadcast(StateDisabled)]);
    assert m.deferred + [] == m.deferred;
    assert [Supplicant(CloseSupplicantConnection), DisableRsp] + [Broadcast(StateDisabled)] ==
      [Supplicant(CloseSupplicantConnection), DisableRsp, Broadcast(StateDisabled)];
  }

  lemma DisablingDisconnects(m2: Mesh, env: Env)
    requires Valid(m2) && m2.state == Disabling && m2.channel
    ensures Dispatch(Disabling, m2, Internal(SupDisconnectionEvent), env, true) ==
      Done(m2, [Supplicant(CloseSupplicantConnection), DisableRsp], Some(Disabled), false)
  {
    assert ProcessIn(Disabling, m2, Internal(SupDisconnectionEvent), env, true) ==
      Done(m2, [Supplicant(CloseSupplicantConnection)] + [DisableRsp], Some(Disabled), false);
  }

  lemma DisablingToDisabled(m2: Mesh, env: Env)
    requires Valid(m2) && m2.state == Disabling && m2.queue == []
    ensures Transition(m2, Disabled, env) == Some((m2.(state := Disabled), [Broadcast(StateDisabled)]))
  {
    DisablingToDisabledPath();
    ExitOne(m2, Disabling);
    var mdis := m2.(state := Disabled);
    EnterOne(mdis, Disabled, env);
    var none: seq<Effect> := [];
    assert none + [Broadcast(StateDisabled)] == [Broadcast(StateDisabled)];
  }

  lemma DisablingToDisabledPath()
    ensures Common(Disabled, Disabling) == Default
    ensures ToExit(Disabling, Default) == [Disabling]
    ensures ToEnter(Disabled, Disabling) == [Disabled]
  {
  }

  /** Leaving a single state is its exit action. */
  lemma ExitOne(m: Mesh, s: StateName)
    ensures ExitAll(m, [s]) == Exit(s, m)
  {
    var first := Exit(s, m);
    assert [s][1..] == [];
    assert ExitAll(first.0, []) == (first.0, []);
    assert first.1 + [] == first.1;
  }

  /** Entering a single state is its enter action. */
  lemma EnterOne(m: Mesh, s: StateName, env: Env)
    requires UniqueIds(m.configs)
    ensures EnterAll(m, [s], env) == Enter(s, m, env)
  {
    assert [s][1..] == [];
    match Enter(s, m, env)
    case None =>
    case Some(first) =>
      assert EnterAll(first.0, [], env) == Some((first.0, []));
      assert first.1 + [] == first.1;
  }
}

=== FILE: mode_managers.dfy ===
/** The Idle/Started machines of the scan-only and client mode managers
    (service/java/com/android/server/wifi/ScanOnlyModeManager.java and
    service/java/com/android/server/wifi/ClientModeManager.java).

    Both bring up the supplicant on a wificond client interface, watch the
    interface's link state through a network observer, and wait in Idle for
    the supplicant's connection event before moving to Started. The client
    manager also reports ENABLING/ENABLED/DISABLING to its listener and
    configures the supplicant on entering Started; `Kind` says which
    manager runs. Network observers are told apart by the number they were
    created with; the binder calls are oracle answers in `StartEnv`. */
module ModeManagers {
  import opened Wrappers
  import opened JavaStrings

  /** `WifiManager.WIFI_STATE_*`. */
  const WIFI_STATE_DISABLING: int := 0
  const WIFI_STATE_DISABLED: int := 1
  const WIFI_STATE_ENABLING: int := 2
  const WIFI_STATE_ENABLED: int := 3
  const WIFI_STATE_UNKNOWN: int := 4

  /** The OUI used for randomised scanning MAC addresses when none is
      configured. */
  const GOOGLE_OUI: string := "DA-A1-19"

  datatype Kind = ScanOnly | Client

  datatype Phase = Idle | Started

  /** The machine's fields: its state, the Idle state's start flag, the
      last link state heard, the current network observer, the number the
      next observer gets, and whether the death recipient is linked. */
  datatype Manager = Manager(
    phase: Phase,
    startCalled: bool,
    ifaceUp: bool,
    observer: Option<nat>,
    nextObserver: nat,
    linked: bool)

  datatype Msg =
    | CmdStart
    | CmdStop
    | CmdClientInterfaceBinderDeath
    | CmdInterfaceStatusChanged(up: bool, from: nat)
    | SupConnectionEvent
    | SupDisconnectionEvent

  /** A binder call's outcome: it answers true, answers false, or throws a
      `RemoteException`. */
  datatype Call = Accepted | Refused | Throws

  /** The answers a start gets: the death link, the observer registration
      (false when it throws), the optional HAL start, and the supplicant
      start together with the monitor registration. */
  datatype StartEnv = StartEnv(linkToDeath: bool, registerObserver: bool, startHal: bool, enableSupplicant: Call)

  /** What the machine reports or asks for. */
  datatype Effect =
    | WifiState(state: int)
    | ScanAvailable(available: bool)
    | SupplicantConnected(connected: bool)
    | PostStop
    | UnlinkToDeath
    | RegisterObserver(id: nat)
    | UnregisterObserver(id: nat)
    | StartHal
    | StartMonitoring
    | ConfigureInterface
    | ConfigureSupplicant(oui: Option<seq<byte>>)
    | StopSupplicant

  /** The manager as constructed, after its Idle state's entry. */
  function Initial(): (m: Manager)
    ensures m.phase == Idle && !m.startCalled && !m.ifaceUp && m.observer.None? && !m.linked
  {
    Manager(Idle, false, false, None, 0, false)
  }

  // ---------------------------------------------------------------------
  // The random MAC OUI

  /** `setRandomMacOui`'s parsing of an OUI: split on '-', each of the
      first three groups parsed as hex and masked to a byte. A missing
      group or a group that does not parse raises, here `None`. */
  function ParseOui(oui: string): (r: Option<seq<byte>>)
    ensures r.Some? <==> OuiGroupsParse(Split(oui, '-'))
    ensures r.Some? ==> (var parts := Split(oui, '-');
      r.value == [LowByte(ParseInt16(parts[0]).value), LowByte(ParseInt16(parts[1]).value), LowByte(ParseInt16(parts[2]).value)])
  {
    var parts := Split(oui, '-');
    if !OuiGroupsParse(parts) then None
    else Some([LowByte(ParseInt16(parts[0]).value), LowByte(ParseInt16(parts[1]).value), LowByte(ParseInt16(parts[2]).value)])
  }

  /** There are at least three groups and the first three parse as hex. */
  predicate OuiGroupsParse(parts: seq<string>) {
    |parts| >= 3 && ParseInt16(parts[0]).Some? && ParseInt16(parts[1]).Some? && ParseInt16(parts[2]).Some?
  }

  /** Three groups joined by '-' split back into those groups when the
      last is not empty. */
  lemma {:induction false} SplitThreeGroups(x: string, y: string, z: string)
    requires '-' !in x && '-' !in y && '-' !in z && z != ""
    ensures Split(x + ['-'] + y + ['-'] + z, '-') == [x, y, z]
  {
    assert x + ['-'] + y + ['-'] + z == x + ['-'] + (y + ['-'] + z);
    PiecesOfJoin(x, y + ['-'] + z, '-');
    PiecesOfJoin(y, z, '-');
    PiecesOfPlain(z, '-');
    assert Pieces(x + ['-'] + y + ['-'] + z, '-') == [x, y, z];
  }

  /** An OUI whose '-'-separated groups are three two-digit hex numbers
      parses to the bytes the groups spell. */
  lemma OuiOfParts(oui: string, a: char, b: char, c: char, d: char, e: char, f: char)
    requires IsHexDigit(a) && IsHexDigit(b) && IsHexDigit(c) && IsHexDigit(d) && IsHexDigit(e) && IsHexDigit(f)
    requires Split(oui, '-') == [[a, b], [c, d], [e, f]]
    ensures ParseOui(oui) ==
      Some([16 * DigitValue(a) + DigitValue(b), 16 * DigitValue(c) + DigitValue(d), 16 * DigitValue(e) + DigitValue(f)])
  {
    ParseTwoDigits(a, b);
    ParseTwoDigits(c, d);
    ParseTwoDigits(e, f);
  }

  /** An OUI written as three two-digit hex groups parses to the bytes the
      groups spell. */
  lemma {:induction false} OuiOfGroups(a: char, b: char, c: char, d: char, e: char, f: char)
    requires IsHexDigit(a) && IsHexDigit(b) && IsHexDigit(c) && IsHexDigit(d) && IsHexDigit(e) && IsHexDigit(f)
    ensures ParseOui([a, b, '-', c, d, '-', e, f]) ==
      Some([16 * DigitValue(a) + DigitValue(b), 16 * DigitValue(c) + DigitValue(d), 16 * DigitValue(e) + DigitValue(f)])
  {
    var s := [a, b, '-', c, d, '-', e, f];
    assert s == [a, b] + ['-'] + [c, d] + ['-'] + [e, f];
    SplitThreeGroups([a, b], [c, d], [e, f]);
    OuiOfParts(s, a, b, c, d, e, f);
  }

  /** The OUI `setRandomMacOui` hands the supplicant: the configured one,
      or DA:A1:19 when none is configured. */
  function RandomMacOui(configured: string): (r: Option<seq<byte>>)
    ensures configured == "" ==> r == Some([0xDA, 0xA1, 0x19])
    ensures configured != "" ==> r == ParseOui(configured)
  {
    if configured != "" then ParseOui(configured)
    else
      OuiOfGroups('D', 'A', 'A', '1', '1', '9');
      assert GOOGLE_OUI == ['D', 'A', '-', 'A', '1', '-', '1', '9'];
      ParseOui(GOOGLE_OUI)
  }

  // ---------------------------------------------------------------------
  // State entries and exits

  /** `unregisterObserver`. */
  function UnregisterObserverOf(m: Manager): (r: (Manager, seq<Effect>))
    ensures r.0 == m.(observer := None)
    ensures m.observer.None? ==> r.1 == []
    ensures m.observer.Some? ==> r.1 == [UnregisterObserver(m.observer.value)]
  {
    match m.observer
    case None => (m, [])
    case Some(id) => (m.(observer := None), [UnregisterObserver(id)])
  }

  /** The Idle state's entry: unlink, drop the observer, and for the client
      manager clear the interface's addresses and IPv6 settings. */
  function EnterIdle(kind: Kind, m: Manager): (r: (Manager, seq<Effect>))
    ensures r.0 == m.(phase := Idle, linked := false, observer := None)
  {
    var u := UnregisterObserverOf(m.(phase := Idle, linked := false));
    (u.0, [UnlinkToDeath] + u.1 + (if kind == Client then [ConfigureInterface] else []))
  }

  /** The Started state's entry: the client manager configures the
      supplicant (including the scanning MAC OUI); both announce the
      supplicant connection, and scanning if the interface is already up
      (the client manager reporting ENABLED first). */
  function EnterStarted(kind: Kind, m: Manager, macOui: Option<seq<byte>>): (r: (Manager, seq<Effect>))
    ensures r.0 == m.(phase := Started) && |r.1| >= 1
    ensures ScanAvailable(true) in r.1 <==> m.ifaceUp
    ensures WifiState(WIFI_STATE_ENABLED) in r.1 <==> m.ifaceUp && kind == Client
    ensures r.1[|r.1| - 1] == (if m.ifaceUp then ScanAvailable(true) else SupplicantConnected(true))
  {
    var setup: seq<Effect> := if kind == Client then [ConfigureSupplicant(macOui)] else [];
    var enabled: seq<Effect> := if kind == Client then [WifiState(WIFI_STATE_ENABLED)] else [];
    var up: seq<Effect> := if !m.ifaceUp then [] else enabled + [ScanAvailable(true)];
    (m.(phase := Started), setup + [SupplicantConnected(true)] + up)
  }

  /** The Started state's exit: the client manager reports DISABLING; both
      withdraw scanning, unlink, drop the observer, stop the supplicant and
      announce the disconnection. */
  function ExitStarted(kind: Kind, m: Manager): (r: (Manager, seq<Effect>))
    ensures r.0 == m.(linked := false, observer := None) && |r.1| >= 4
    ensures kind == Client ==> r.1[0] == WifiState(WIFI_STATE_DISABLING) && r.1[1] == ScanAvailable(false)
    ensures kind == ScanOnly ==> r.1[0] == ScanAvailable(false) && WifiState(WIFI_STATE_DISABLING) !in r.1
    ensures StopSupplicant in r.1 && r.1[|r.1| - 1] == SupplicantConnected(false)
  {
    var u := UnregisterObserverOf(m.(linked := false));
    var report := if kind == Client then [WifiState(WIFI_STATE_DISABLING)] else [];
    (u.0, report + [ScanAvailable(false), UnlinkToDeath] + u.1 + [StopSupplicant, SupplicantConnected(false)])
  }

  // ---------------------------------------------------------------------
  // Message handling

  /** Idle's `CMD_START`: link to the interface's death, register a fresh
      observer, start the HAL (its failure is only logged), then the
      supplicant. Each failure unlinks, drops the observer and reports
      UNKNOWN; success sets the start flag and waits for the supplicant. */
  function IdleStart(kind: Kind, m: Manager, env: StartEnv): (r: (Manager, seq<Effect>))
    ensures r.0.phase == m.phase && r.0.ifaceUp == m.ifaceUp && |r.1| >= 1
    ensures env.linkToDeath && env.registerObserver && env.enableSupplicant == Accepted ==>
      r.0 == m.(startCalled := true, linked := true, observer := Some(m.nextObserver), nextObserver := m.nextObserver + 1) &&
      WifiState(WIFI_STATE_UNKNOWN) !in r.1
    ensures !(env.linkToDeath && env.registerObserver && env.enableSupplicant == Accepted) ==>
      !r.0.linked && r.1[|r.1| - 1] == WifiState(WIFI_STATE_UNKNOWN) && r.0.startCalled == m.startCalled &&
      (env.linkToDeath ==> r.0.observer.None?) && (!env.linkToDeath ==> r.0.observer == m.observer)
    ensures kind == Client <==> r.1[0] == WifiState(WIFI_STATE_ENABLING)
    ensures r.0.nextObserver >= m.nextObserver
  {
    var enabling := if kind == Client then [WifiState(WIFI_STATE_ENABLING)] else [];
    if !env.linkToDeath then
      (m.(linked := false), enabling + [UnlinkToDeath, WifiState(WIFI_STATE_UNKNOWN)])
    else
      var id := m.nextObserver;
      var m1 := m.(linked := true, observer := Some(id), nextObserver := id + 1);
      if !env.registerObserver then
        var u := UnregisterObserverOf(m1.(linked := false));
        (u.0, enabling + [UnlinkToDeath] + u.1 + [WifiState(WIFI_STATE_UNKNOWN)])
      else
        var hal := [RegisterObserver(id), StartHal];
        if env.enableSupplicant != Accepted then
          var u := UnregisterObserverOf(m1.(linked := false));
          (u.0, enabling + hal + [UnlinkToDeath] + u.1 + [WifiState(WIFI_STATE_UNKNOWN)])
        else (m1.(startCalled := true), enabling + hal + [StartMonitoring])
  }

  /** Started's `onUpChanged`: nothing if unchanged; up announces
      scanning (the client manager reporting ENABLED first); down posts a
      stop. */
  function OnUpChanged(kind: Kind, m: Manager, isUp: bool): (r: (Manager, seq<Effect>))
    ensures isUp == m.ifaceUp ==> r == (m, [])
    ensures isUp != m.ifaceUp ==> r.0 == m.(ifaceUp := isUp) && |r.1| >= 1
    ensures isUp != m.ifaceUp && !isUp ==> r.1 == [PostStop]
    ensures isUp != m.ifaceUp && isUp ==> r.1[|r.1| - 1] == ScanAvailable(true) && PostStop !in r.1
  {
    if isUp == m.ifaceUp then (m, [])
    else if isUp then
      (m.(ifaceUp := true), (if kind == Client then [WifiState(WIFI_STATE_ENABLED)] else []) + [ScanAvailable(true)])
    else (m.(ifaceUp := false), [PostStop])
  }

  /** The machine handling one message; `oui` is the configured random MAC
      OUI, read when Started is entered. */
  function Handle(kind: Kind, m: Manager, msg: Msg, env: StartEnv, oui: string): (r: (Manager, seq<Effect>))
    // the start flag gates the move to Started, and is cleared by it
    ensures m.phase == Idle && msg.SupConnectionEvent? ==>
      (r.0.phase == Started <==> m.startCalled) && !r.0.startCalled
    // a stop is ignored in Idle, a start in Started
    ensures m.phase == Idle && msg.CmdStop? ==> r == (m, [])
    ensures m.phase == Started && msg.CmdStart? ==> r == (m, [])
    // link-state messages from any observer but the current one are ignored
    ensures msg.CmdInterfaceStatusChanged? && m.observer != Some(msg.from) ==> r == (m, [])
    // stop and binder death in Started report UNKNOWN and return to Idle
    ensures m.phase == Started && (msg.CmdStop? || msg.CmdClientInterfaceBinderDeath?) ==>
      r.0.phase == Idle && |r.1| >= 1 && r.1[0] == WifiState(WIFI_STATE_UNKNOWN) && !r.0.linked && r.0.observer.None?
    // a start in Idle succeeds exactly when every required call does
    ensures m.phase == Idle && msg.CmdStart? ==>
      r.0.phase == Idle &&
      (WifiState(WIFI_STATE_UNKNOWN) in r.1 <==>
        !(env.linkToDeath && env.registerObserver && env.enableSupplicant == Accepted))
    // the only observer that can become current is a newly numbered one
    ensures r.0.observer == m.observer || r.0.observer.None? || r.0.observer == Some(m.nextObserver)
    ensures r.0.nextObserver >= m.nextObserver
  {
    match m.phase
    case Idle =>
      (match msg
       case CmdStart => IdleStart(kind, m, env)
       case CmdInterfaceStatusChanged(up, from) =>
         if m.observer != Some(from) then (m, []) else (m.(ifaceUp := up), [])
       case SupConnectionEvent =>
         if !m.startCalled then (m, [])
         else EnterStarted(kind, m.(startCalled := false), RandomMacOui(oui))
       case _ => (m, []))
    case Started =>
      (match msg
       case CmdInterfaceStatusChanged(up, from) =>
         if m.observer != Some(from) then (m, []) else OnUpChanged(kind, m, up)
       case CmdStart => (m, [])
       case CmdStop => Leave(kind, m)
       case CmdClientInterfaceBinderDeath => Leave(kind, m)
       case _ => (m, []))
  }

  /** Started handling a stop or a binder death: report UNKNOWN, then leave
      Started for Idle. */
  function Leave(kind: Kind, m: Manager): (r: (Manager, seq<Effect>))
    ensures r.0 == m.(phase := Idle, linked := false, observer := None) && |r.1| >= 5
    ensures r.1[0] == WifiState(WIFI_STATE_UNKNOWN)
    ensures kind == Client ==> r.1[1] == WifiState(WIFI_STATE_DISABLING)
  {
    var exit := ExitStarted(kind, m);
    var idle := EnterIdle(kind, exit.0);
    (idle.0, [WifiState(WIFI_STATE_UNKNOWN)] + exit.1 + idle.1)
  }

  /** `stop()`: the current state's exit run directly, without a
      transition. In Idle that does nothing; in Started the supplicant is
      torn down while the machine stays Started. */
  function Stop(kind: Kind, m: Manager): (r: (Manager, seq<Effect>))
    ensures m.phase == Idle ==> r == (m, [])
    ensures r.0.phase == m.phase
    ensures m.phase == Started ==> !r.0.linked && r.0.observer.None? && StopSupplicant in r.1
  {
    if m.phase == Idle then (m, []) else ExitStarted(kind, m)
  }

  // ---------------------------------------------------------------------
  // Properties

  /** The machine's invariant: observers are numbered freshly, and in Idle
      the death link and an observer are held only while a start awaits
      the supplicant. */
  ghost predicate Valid(m: Manager) {
    (m.observer.Some? ==> m.observer.value < m.nextObserver) &&
    (m.phase == Idle && (m.linked || m.observer.Some?) ==> m.startCalled)
  }

  lemma HandlePreservesValid(kind: Kind, m: Manager, msg: Msg, env: StartEnv, oui: string)
    requires Valid(m)
    ensures Valid(Handle(kind, m, msg, env, oui).0)
  {
  }

  /** A HAL that fails to start changes nothing about a start: the state
      reached and the reports are those of a HAL that starts. */
  lemma HalFailureNotFatal(kind: Kind, m: Manager, env: StartEnv, oui: string)
    ensures Handle(kind, m, CmdStart, env.(startHal := false), oui) == Handle(kind, m, CmdStart, env.(startHal := true), oui)
  {
  }

  /** A run of messages, one start answer and one configured OUI each. */
  function Run(kind: Kind, m: Manager, msgs: seq<Msg>, envs: seq<StartEnv>, oui: string): (r: Manager)
    requires |envs| == |msgs|
    requires Valid(m)
    ensures Valid(r)
    ensures r.nextObserver >= m.nextObserver
    decreases |msgs|
  {
    if msgs == [] then m
    else
      var next := Handle(kind, m, msgs[0], envs[0], oui).0;
      HandlePreservesValid(kind, m, msgs[0], envs[0], oui);
      Run(kind, next, msgs[1..], envs[1..], oui)
  }

  /** An observer once replaced never becomes current again, whatever
      the run. */
  lemma {:induction false} OldObserverNeverCurrent(kind: Kind, m: Manager, msgs: seq<Msg>, envs: seq<StartEnv>, oui: string, id: nat)
    requires |envs| == |msgs| && Valid(m)
    requires id < m.nextObserver && m.observer != Some(id)
    ensures Run(kind, m, msgs, envs, oui).observer != Some(id)
    decreases |msgs|
  {
    if msgs != [] {
      var next := Handle(kind, m, msgs[0], envs[0], oui).0;
      HandlePreservesValid(kind, m, msgs[0], envs[0], oui);
      OldObserverNeverCurrent(kind, next, msgs[1..], envs[1..], oui, id);
    }
  }

  /** So the link-state messages a replaced observer still sends are
      ignored after any run. */
  lemma OldObserversIgnored(kind: Kind, m: Manager, msgs: seq<Msg>, envs: seq<StartEnv>, oui: string,
                            up: bool, id: nat, env: StartEnv)
    requires |envs| == |msgs| && Valid(m)
    requires id < m.nextObserver && m.observer != Some(id)
    ensures var r := Run(kind, m, msgs, envs, oui);
      Handle(kind, r, CmdInterfaceStatusChanged(up, id), env, oui) == (r, [])
  {
    OldObserverNeverCurrent(kind, m, msgs, envs, oui, id);
  }

  /** A full client cycle from a fresh manager with the interface already
      up: ENABLING on start, ENABLED once the supplicant connects, then
      UNKNOWN and DISABLING on stop, ending Idle. */
  lemma {:induction false} ClientCycle(env: StartEnv, oui: string)
    requires env.linkToDeath && env.registerObserver && env.enableSupplicant == Accepted
    ensures var a := Handle(Client, Initial(), CmdStart, env, oui);
            var b := Handle(Client, a.0, CmdInterfaceStatusChanged(true, 0), env, oui);
            var c := Handle(Client, b.0, SupConnectionEvent, env, oui);
            var d := Handle(Client, c.0, CmdStop, env, oui);
            a.1[0] == WifiState(WIFI_STATE_ENABLING) &&
            c.0.phase == Started && WifiState(WIFI_STATE_ENABLED) in c.1 && ScanAvailable(true) in c.1 &&
            d.0.phase == Idle && d.1[0] == WifiState(WIFI_STATE_UNKNOWN) && d.1[1] == WifiState(WIFI_STATE_DISABLING)
  {
    var a := Handle(Client, Initial(), CmdStart, env, oui);
    assert a.0.observer == Some(0) && a.0.startCalled;
    var b := Handle(Client, a.0, CmdInterfaceStatusChanged(true, 0), env, oui);
    assert b.0.ifaceUp && b.0.startCalled;
    var c := Handle(Client, b.0, SupConnectionEvent, env, oui);
    assert c.0.phase == Started && c.0.ifaceUp;
  }
}

=== FILE: nai_realm_data.dfy ===
/** The NAI Realm Data ANQP sub-element of IEEE 802.11-2012 section
    8.4.4.10 (figure 8-418): its parser and the credential matcher
    (service/java/com/android/server/wifi/hotspot2/anqp/NAIRealmData.java).

    The payload is the buffer's remaining bytes. Character decoding, the EAP
    method sub-parser, realm-domain matching and EAP-method matching are
    parameters; the `AuthMatch` codes are those of the Hotspot 2.0 code
    base: a three-bit set (`Param` 1, `Method` 2, `Realm` 4) or `None`,
    which is -1, all bits set. */
module NaiRealmData {
  import opened Wrappers
  import opened JavaStrings

  /** An `AuthMatch` code. */
  type AuthCode = x: int | -1 <= x <= 7

  const AUTH_NONE: AuthCode := -1
  const AUTH_INDETERMINATE: AuthCode := 0
  const AUTH_PARAM: AuthCode := 1
  const AUTH_METHOD: AuthCode := 2
  const AUTH_REALM: AuthCode := 4
  const AUTH_EXACT: AuthCode := 7

  datatype ParseError = ProtocolException | BufferUnderflow

  /** An EAP method sub-element, opaque here. */
  datatype EapMethod = EapMethod(id: nat)

  datatype NaiRealm = NaiRealm(realms: seq<string>, eapMethods: seq<EapMethod>)

  /** The parameters of the parser: `decode(bytes, utf8)` decodes realm text
      as UTF-8 or US-ASCII; `parseEap(rest)` parses one EAP method off the
      front of `rest` and says how many bytes it consumed. */
  datatype Decoders = Decoders(
    decode: (seq<byte>, bool) -> string,
    parseEap: seq<byte> -> Result<(EapMethod, nat), ParseError>)

  // ---------------------------------------------------------------------
  // Realm list

  /** The non-empty strings of `r`, in order. */
  function NonEmpty(r: seq<string>): (n: seq<string>)
    ensures forall x :: x in n <==> x in r && x != ""
  {
    if r == [] then []
    else if r[0] == "" then NonEmpty(r[1..])
    else [r[0]] + NonEmpty(r[1..])
  }

  /** `split(";")` followed by dropping the empty pieces. */
  function SplitRealms(s: string): (r: seq<string>)
    ensures forall x :: x in r ==> x != "" && ';' !in x
  {
    NonEmpty(Pieces(s, ';'))
  }

  /** The realms joined with ';', as an AP would list them. */
  function Join(r: seq<string>): string {
    if |r| == 0 then ""
    else if |r| == 1 then r[0]
    else r[0] + ";" + Join(r[1..])
  }

  /** Splitting inverts joining for any list of non-empty realms free of
      separators. */
  lemma {:induction false} SplitJoinRoundTrip(r: seq<string>)
    requires forall i :: 0 <= i < |r| ==> r[i] != "" && ';' !in r[i]
    ensures SplitRealms(Join(r)) == r
  {
    if |r| == 0 {
    } else if |r| == 1 {
      PiecesOfPlain(r[0], ';');
      assert NonEmpty([r[0]]) == [r[0]] + NonEmpty([]);
    } else {
      PiecesOfJoin(r[0], Join(r[1..]), ';');
      SplitJoinRoundTrip(r[1..]);
      assert Pieces(Join(r), ';') == [r[0]] + Pieces(Join(r[1..]), ';');
    }
  }

  // ---------------------------------------------------------------------
  // Parser

  /** Reads `count` EAP methods off the front of `p`. */
  function ParseEapMethods(p: seq<byte>, count: nat, dec: Decoders): (r: Result<seq<EapMethod>, ParseError>)
    ensures r.Success? ==> |r.value| == count
    decreases count
  {
    if count == 0 then Success([])
    else
      match dec.parseEap(p)
      case Failure(e) => Failure(e)
      case Success((m, used)) =>
        if used > |p| then Failure(BufferUnderflow)
        else
          match ParseEapMethods(p[used..], count - 1, dec)
          case Failure(e) => Failure(e)
          case Success(ms) => Success([m] + ms)
  }

  /** The parsing constructor. */
  function Parse(p: seq<byte>, dec: Decoders): (r: Result<NaiRealm, ParseError>)
    ensures |p| < 5 ==> r == Failure(ProtocolException)
    ensures |p| >= 5 && p[0] as int + 256 * p[1] as int > |p| - 2 ==> r == Failure(ProtocolException)
    ensures |p| >= 5 && 4 + p[3] >= |p| ==> r.Failure?
    // on success the realms are the non-empty pieces of the decoded string,
    // in the encoding bit 0 of the third byte selects, and the methods number the count byte
    ensures r.Success? ==>
      |p| >= 5 && 4 + p[3] < |p| &&
      r.value.realms == SplitRealms(dec.decode(p[4..4 + p[3]], p[2] % 2 == 1)) &&
      |r.value.eapMethods| == p[4 + p[3]]
  {
    if |p| < 5 then Failure(ProtocolException)
    else
      var length := p[0] as int + 256 * p[1] as int;
      if length > |p| - 2 then Failure(ProtocolException)
      else
        var utf8 := p[2] % 2 == 1;
        var realmLength := p[3];
        if 4 + realmLength > |p| then Failure(BufferUnderflow)
        else
          var realm := dec.decode(p[4..4 + realmLength], utf8);
          if 4 + realmLength == |p| then Failure(BufferUnderflow)
          else
            var methodCount := p[4 + realmLength];
            match ParseEapMethods(p[5 + realmLength..], methodCount, dec)
            case Failure(e) => Failure(e)
            case Success(methods) => Success(NaiRealm(SplitRealms(realm), methods))
  }

  /** A well-formed element with an empty method list parses to the realms
      of its realm string. */
  lemma ParseNoMethods(p: seq<byte>, n: nat, dec: Decoders)
    requires |p| == 5 + n && p[3] == n && p[4 + n] == 0
    requires p[0] as int + 256 * p[1] as int <= |p| - 2
    ensures Parse(p, dec) == Success(NaiRealm(SplitRealms(dec.decode(p[4..4 + n], p[2] % 2 == 1)), []))
  {
    assert ParseEapMethods(p[5 + n..], 0, dec) == Success([]);
  }

  /** The element an AP sends for a realm string and no EAP methods: the
      little-endian length, the encoding byte, the length-prefixed string and
      a zero method count. */
  function EncodeRealmsOnly(realmBytes: seq<byte>, utf8: bool): (p: seq<byte>)
    requires |realmBytes| < 256
    ensures |p| == 5 + |realmBytes| && p[3] == |realmBytes| && p[4 + |realmBytes|] == 0
    ensures p[0] as int + 256 * p[1] as int == 2 + |realmBytes|
    ensures (p[2] % 2 == 1 <==> utf8) && p[4..4 + |realmBytes|] == realmBytes
  {
    var len := 2 + |realmBytes|;
    [len % 256, len / 256, if utf8 then 1 else 0, |realmBytes|] + realmBytes + [0]
  }

  /** An element listing realms and no EAP methods parses back to those
      realms, whatever the decoder does with the bytes it is given. */
  lemma ParseRealmsOnly(realmBytes: seq<byte>, realms: seq<string>, utf8: bool, dec: Decoders)
    requires |realmBytes| < 256
    requires dec.decode(realmBytes, utf8) == Join(realms)
    requires forall i :: 0 <= i < |realms| ==> realms[i] != "" && ';' !in realms[i]
    ensures Parse(EncodeRealmsOnly(realmBytes, utf8), dec) == Success(NaiRealm(realms, []))
  {
    ParseNoMethods(EncodeRealmsOnly(realmBytes, utf8), |realmBytes|, dec);
    SplitJoinRoundTrip(realms);
  }

  // ---------------------------------------------------------------------
  // Matcher

  /** Whether bit `k` (0, 1 or 2) is set in a non-negative code. */
  predicate Bit(a: AuthCode, k: nat)
    requires a >= 0 && k < 3
  {
    (if k == 0 then a else if k == 1 then a / 2 else a / 4) % 2 == 1
  }

  /** Java `|` on two codes: `None` absorbs everything, otherwise the
      union of the bits. */
  function Or(a: AuthCode, b: AuthCode): (r: AuthCode)
    ensures a == AUTH_NONE || b == AUTH_NONE ==> r == AUTH_NONE
    ensures a >= 0 && b >= 0 ==> r >= 0 && forall k :: 0 <= k < 3 ==> (Bit(r, k) <==> Bit(a, k) || Bit(b, k))
  {
    if a == AUTH_NONE || b == AUTH_NONE then AUTH_NONE
    else
      (if Bit(a, 2) || Bit(b, 2) then 4 else 0) + (if Bit(a, 1) || Bit(b, 1) then 2 else 0) +
      (if Bit(a, 0) || Bit(b, 0) then 1 else 0)
  }

  /** The method loop: the best of `eapMatch(m) | realmMatch`, starting from
      `best` and stopping as soon as `Exact` is reached. */
  function BestMethodMatch(methods: seq<EapMethod>, realmMatch: AuthCode, eapMatch: EapMethod -> AuthCode, best: AuthCode)
    : (r: AuthCode)
    ensures r >= best
    ensures r == best || exists i :: 0 <= i < |methods| && r == Or(eapMatch(methods[i]), realmMatch)
    ensures r != AUTH_EXACT ==> forall i :: 0 <= i < |methods| ==> Or(eapMatch(methods[i]), realmMatch) <= r
  {
    if methods == [] then best
    else
      var m := Or(eapMatch(methods[0]), realmMatch);
      if m > best then
        if m == AUTH_EXACT then m
        else
          var r := BestMethodMatch(methods[1..], realmMatch, eapMatch, m);
          assert r != m ==> exists i :: 0 <= i < |methods| && r == Or(eapMatch(methods[i]), realmMatch) by {
            if r != m {
              var j :| 0 <= j < |methods[1..]| && r == Or(eapMatch(methods[1..][j]), realmMatch);
              assert methods[1..][j] == methods[j + 1];
            }
          }
          r
      else
        var r := BestMethodMatch(methods[1..], realmMatch, eapMatch, best);
        assert r != best ==> exists i :: 0 <= i < |methods| && r == Or(eapMatch(methods[i]), realmMatch) by {
          if r != best {
            var j :| 0 <= j < |methods[1..]| && r == Or(eapMatch(methods[1..][j]), realmMatch);
            assert methods[1..][j] == methods[j + 1];
          }
        }
        r
  }

  /** Whether some listed realm has `realmToMatch` as a subdomain. */
  predicate RealmMatches(d: NaiRealm, realmToMatch: string, isSubdomain: (string, string) -> bool) {
    exists i :: 0 <= i < |d.realms| && isSubdomain(realmToMatch, d.realms[i])
  }

  /** `match` as written. `isSubdomain(a, b)` is `arg2SubdomainOfArg1(a, b)`
      and `eapMatch(m)` is `m.match(credMethod)`. */
  function MatchAsWritten(d: NaiRealm, realmToMatch: string, isSubdomain: (string, string) -> bool,
                          eapMatch: EapMethod -> AuthCode): (r: AuthCode)
    ensures d.realms == [] && d.eapMethods == [] ==> r == AUTH_INDETERMINATE
    ensures d.realms != [] && !RealmMatches(d, realmToMatch, isSubdomain) ==> r == AUTH_NONE
    ensures d.realms != [] && RealmMatches(d, realmToMatch, isSubdomain) && d.eapMethods == [] ==> r == AUTH_REALM
    ensures d.realms != [] && RealmMatches(d, realmToMatch, isSubdomain) && d.eapMethods != [] ==>
      r == BestMethodMatch(d.eapMethods, AUTH_REALM, eapMatch, AUTH_NONE)
    ensures d.realms == [] && d.eapMethods != [] ==>
      r == BestMethodMatch(d.eapMethods, AUTH_NONE, eapMatch, AUTH_NONE)
  {
    if d.realms != [] then
      var realmMatch := if RealmMatches(d, realmToMatch, isSubdomain) then AUTH_REALM else AUTH_NONE;
      if realmMatch == AUTH_NONE || d.eapMethods == [] then realmMatch
      else BestMethodMatch(d.eapMethods, realmMatch, eapMatch, AUTH_NONE)
    else if d.eapMethods == [] then AUTH_INDETERMINATE
    else BestMethodMatch(d.eapMethods, AUTH_NONE, eapMatch, AUTH_NONE)
  }

  /** With no realms listed the realm result stays `None`, and `None | x` is
      `None` for every `x`: the EAP methods can then never match, even
      exactly. */
  lemma {:induction false} NoRealmsNeverMatchesAsWritten(d: NaiRealm, realmToMatch: string,
                                                          isSubdomain: (string, string) -> bool,
                                                          eapMatch: EapMethod -> AuthCode)
    requires d.realms == [] && d.eapMethods != []
    ensures MatchAsWritten(d, realmToMatch, isSubdomain, eapMatch) == AUTH_NONE
  {
  }

  /** `match` with the realm result `Indeterminate` when no realm is
      listed, so the methods alone decide. */
  function Match(d: NaiRealm, realmToMatch: string, isSubdomain: (string, string) -> bool,
                 eapMatch: EapMethod -> AuthCode): (r: AuthCode)
    ensures d.realms == [] && d.eapMethods == [] ==> r == AUTH_INDETERMINATE
    ensures d.realms != [] && !RealmMatches(d, realmToMatch, isSubdomain) ==> r == AUTH_NONE
    ensures d.realms != [] && RealmMatches(d, realmToMatch, isSubdomain) && d.eapMethods == [] ==> r == AUTH_REALM
    ensures d.realms != [] ==> r == MatchAsWritten(d, realmToMatch, isSubdomain, eapMatch)
    // with no realms, any exactly matching method gives an exact match
    ensures d.realms == [] && (exists i :: 0 <= i < |d.eapMethods| && eapMatch(d.eapMethods[i]) == AUTH_EXACT) ==>
      r == AUTH_EXACT || forall i :: 0 <= i < |d.eapMethods| ==> eapMatch(d.eapMethods[i]) <= r
  {
    if d.realms != [] then MatchAsWritten(d, realmToMatch, isSubdomain, eapMatch)
    else if d.eapMethods == [] then AUTH_INDETERMINATE
    else
      var r := BestMethodMatch(d.eapMethods, AUTH_INDETERMINATE, eapMatch, AUTH_NONE);
      assert forall x: AuthCode :: Or(x, AUTH_INDETERMINATE) == x;
      r
  }
}

=== FILE: nan_native.dfy ===
/** The NAN (Neighbour Awareness Networking) JNI shim
    (service/java/com/android/server/wifi/nan/WifiNanNative.java): the
    lazy initialisation of the native handlers, the operation wrappers
    that gate every native call on it, the translation of HAL status codes
    into the reasons the NAN callbacks carry, and the dispatch of native
    responses and events to the NAN state manager.

    The HAL's started flag and the native calls' return codes are
    parameters; the state manager calls are the `Notify` records produced.
    The callback reasons are named here rather than numbered, since their
    values belong to the framework's callback classes. */
module NanNative {
  import opened Wrappers

  const WIFI_SUCCESS: int := 0

  // NanResponseType
  const NAN_RESPONSE_ENABLED: int := 0
  const NAN_RESPONSE_PUBLISH: int := 2
  const NAN_RESPONSE_PUBLISH_CANCEL: int := 3
  const NAN_RESPONSE_TRANSMIT_FOLLOWUP: int := 4
  const NAN_RESPONSE_SUBSCRIBE: int := 5
  const NAN_RESPONSE_SUBSCRIBE_CANCEL: int := 6
  const NAN_RESPONSE_CONFIG: int := 8
  const NAN_RESPONSE_GET_CAPABILITIES: int := 12
  const NAN_RESPONSE_DP_INTERFACE_CREATE: int := 13
  const NAN_RESPONSE_DP_INTERFACE_DELETE: int := 14
  const NAN_RESPONSE_DP_INITIATOR_RESPONSE: int := 15
  const NAN_RESPONSE_DP_RESPONDER_RESPONSE: int := 16
  const NAN_RESPONSE_DP_END: int := 17

  // NanStatusType
  const NAN_STATUS_SUCCESS: int := 0
  const NAN_STATUS_TIMEOUT: int := 1
  const NAN_STATUS_DE_FAILURE: int := 2
  const NAN_STATUS_INVALID_MSG_VERSION: int := 3
  const NAN_STATUS_INVALID_MSG_LEN: int := 4
  const NAN_STATUS_INVALID_MSG_ID: int := 5
  const NAN_STATUS_INVALID_HANDLE: int := 6
  const NAN_STATUS_NO_SPACE_AVAILABLE: int := 7
  const NAN_STATUS_INVALID_PUBLISH_TYPE: int := 8
  const NAN_STATUS_INVALID_TX_TYPE: int := 9
  const NAN_STATUS_INVALID_MATCH_ALGORITHM: int := 10
  const NAN_STATUS_DISABLE_IN_PROGRESS: int := 11
  const NAN_STATUS_INVALID_TLV_LEN: int := 12
  const NAN_STATUS_INVALID_TLV_TYPE: int := 13
  const NAN_STATUS_MISSING_TLV_TYPE: int := 14
  const NAN_STATUS_INVALID_TOTAL_TLVS_LEN: int := 15
  const NAN_STATUS_INVALID_MATCH_HANDLE: int := 16
  const NAN_STATUS_INVALID_TLV_VALUE: int := 17
  const NAN_STATUS_INVALID_TX_PRIORITY: int := 18
  const NAN_STATUS_INVALID_CONNECTION_MAP: int := 19
  const NAN_STATUS_INVALID_TCA_ID: int := 20
  const NAN_STATUS_INVALID_STATS_ID: int := 21
  const NAN_STATUS_NAN_NOT_ALLOWED: int := 22
  const NAN_STATUS_NO_OTA_ACK: int := 23
  const NAN_STATUS_TX_FAIL: int := 24
  const NAN_STATUS_ALREADY_ENABLED: int := 25

  /** The configuration errors run from INVALID_RSSI_CLOSE_VALUE (4096)
      to INVALID_DB_INTERVAL_VALUE (4121). */
  const NAN_STATUS_INVALID_RSSI_CLOSE_VALUE: int := 4096
  const NAN_STATUS_INVALID_DB_INTERVAL_VALUE: int := 4121

  // NanTerminatedReason
  const NAN_TERMINATED_REASON_INVALID: int := 8192
  const NAN_TERMINATED_REASON_TIMEOUT: int := 8193
  const NAN_TERMINATED_REASON_USER_REQUEST: int := 8194
  const NAN_TERMINATED_REASON_FAILURE: int := 8195
  const NAN_TERMINATED_REASON_COUNT_REACHED: int := 8196
  const NAN_TERMINATED_REASON_DE_SHUTDOWN: int := 8197
  const NAN_TERMINATED_REASON_DISABLE_IN_PROGRESS: int := 8198
  const NAN_TERMINATED_REASON_POST_DISC_ATTR_EXPIRED: int := 8199
  const NAN_TERMINATED_REASON_POST_DISC_LEN_EXCEEDED: int := 8200
  const NAN_TERMINATED_REASON_FURTHER_AVAIL_MAP_EMPTY: int := 8201

  // discovery engine events
  const NAN_EVENT_ID_DISC_MAC_ADDR: int := 0
  const NAN_EVENT_ID_STARTED_CLUSTER: int := 1
  const NAN_EVENT_ID_JOINED_CLUSTER: int := 2

  /** `WifiNanEventCallback` reasons. */
  datatype EventReason = EventInvalidArgs | EventOther

  /** `WifiNanDiscoverySessionCallback` termination reasons. */
  datatype TerminateReason = TerminateDone | TerminateFail

  /** `WifiNanDiscoverySessionCallback` failure reasons. */
  datatype SessionReason = SessionNoResources | SessionInvalidArgs | SessionTxFail | SessionOther

  // ---------------------------------------------------------------------
  // Status translation

  /** The configuration error codes, listed one by one as the switch lists
      them. */
  predicate IsConfigError(status: int) {
    status in {4096, 4097, 4098, 4099, 4100, 4101, 4102, 4103, 4104, 4105, 4106, 4107, 4108,
               4109, 4110, 4111, 4112, 4113, 4114, 4115, 4116, 4117, 4118, 4119, 4120, 4121}
  }

  /** `translateHalStatusToNanEventCallbackReason`. */
  function EventCallbackReason(status: int): (r: EventReason)
    ensures r == EventInvalidArgs <==>
      NAN_STATUS_INVALID_RSSI_CLOSE_VALUE <= status <= NAN_STATUS_INVALID_DB_INTERVAL_VALUE
    ensures status == NAN_STATUS_SUCCESS ==> r == EventOther
  {
    if status == NAN_STATUS_SUCCESS then EventOther
    else if IsConfigError(status) then EventInvalidArgs
    else EventOther
  }

  /** `translateHalStatusToNanSessionCallbackTerminate`. */
  function SessionTerminateReason(status: int): (r: TerminateReason)
    ensures r == TerminateDone <==>
      status == NAN_TERMINATED_REASON_TIMEOUT || status == NAN_TERMINATED_REASON_USER_REQUEST ||
      status == NAN_TERMINATED_REASON_COUNT_REACHED
  {
    if status in {NAN_TERMINATED_REASON_TIMEOUT, NAN_TERMINATED_REASON_USER_REQUEST, NAN_TERMINATED_REASON_COUNT_REACHED} then
      TerminateDone
    else if status in {NAN_TERMINATED_REASON_INVALID, NAN_TERMINATED_REASON_FAILURE, NAN_TERMINATED_REASON_DE_SHUTDOWN,
                       NAN_TERMINATED_REASON_DISABLE_IN_PROGRESS, NAN_TERMINATED_REASON_POST_DISC_ATTR_EXPIRED,
                       NAN_TERMINATED_REASON_POST_DISC_LEN_EXCEEDED, NAN_TERMINATED_REASON_FURTHER_AVAIL_MAP_EMPTY} then
      TerminateFail
    else TerminateFail
  }

  /** `translateHalStatusToNanSessionCallbackReason`. */
  function SessionCallbackReason(status: int): (r: SessionReason)
    ensures r == SessionNoResources <==> status == NAN_STATUS_NO_SPACE_AVAILABLE
    ensures r == SessionInvalidArgs <==>
      status in {NAN_STATUS_INVALID_PUBLISH_TYPE, NAN_STATUS_INVALID_TX_TYPE, NAN_STATUS_INVALID_MATCH_ALGORITHM}
    ensures r == SessionTxFail <==> status == NAN_STATUS_NO_OTA_ACK || status == NAN_STATUS_TX_FAIL
    ensures r == SessionOther <==> !(7 <= status <= 10) && status != 23 && status != 24
  {
    if status in {NAN_STATUS_TIMEOUT, NAN_STATUS_DE_FAILURE, NAN_STATUS_INVALID_MSG_VERSION, NAN_STATUS_INVALID_MSG_LEN,
                  NAN_STATUS_INVALID_MSG_ID, NAN_STATUS_INVALID_HANDLE} then SessionOther
    else if status == NAN_STATUS_NO_SPACE_AVAILABLE then SessionNoResources
    else if status in {NAN_STATUS_INVALID_PUBLISH_TYPE, NAN_STATUS_INVALID_TX_TYPE, NAN_STATUS_INVALID_MATCH_ALGORITHM} then
      SessionInvalidArgs
    else if status in {NAN_STATUS_DISABLE_IN_PROGRESS, NAN_STATUS_INVALID_TLV_LEN, NAN_STATUS_INVALID_TLV_TYPE,
                       NAN_STATUS_MISSING_TLV_TYPE, NAN_STATUS_INVALID_TOTAL_TLVS_LEN, NAN_STATUS_INVALID_MATCH_HANDLE,
                       NAN_STATUS_INVALID_TLV_VALUE, NAN_STATUS_INVALID_TX_PRIORITY, NAN_STATUS_INVALID_CONNECTION_MAP,
                       NAN_STATUS_INVALID_TCA_ID, NAN_STATUS_INVALID_STATS_ID, NAN_STATUS_NAN_NOT_ALLOWED} then SessionOther
    else if status in {NAN_STATUS_NO_OTA_ACK, NAN_STATUS_TX_FAIL} then SessionTxFail
    else SessionOther
  }

  // ---------------------------------------------------------------------
  // Initialisation and the operation wrappers

  /** Whether the native handlers are initialised. */
  datatype Nan = Nan(initialized: bool)

  /** `isNanInit` given the HAL's started flag and what the native
      initialisation would return: the new flag, the answer, and whether
      the native initialisation was called. */
  function IsNanInit(nan: Nan, halStarted: bool, initRet: int): (r: (Nan, bool, bool))
    ensures !halStarted ==> r == (Nan(false), false, false)
    ensures halStarted && nan.initialized ==> r == (nan, true, false)
    ensures halStarted && !nan.initialized ==> r.2 && r.1 == (initRet == WIFI_SUCCESS)
    ensures r.1 <==> r.0.initialized
  {
    if !halStarted then (Nan(false), false, false)
    else if !nan.initialized then
      var ok := initRet == WIFI_SUCCESS;
      (Nan(ok), ok, true)
    else (nan, true, false)
  }

  /** `deInitNan`. */
  function DeInitNan(nan: Nan): (r: Nan)
    ensures !r.initialized
  {
    Nan(false)
  }

  /** The public operations. */
  datatype Op =
    | GetCapabilities
    | EnableAndConfigure(initialConfiguration: bool)
    | Disable
    | Publish
    | Subscribe
    | SendMessage
    | StopPublish
    | StopSubscribe
    | CreateNanNetworkInterface
    | DeleteNanNetworkInterface
    | InitiateDataPath
    | RespondToDataPathRequest
    | EndDataPath

  /** The native primitives behind them. */
  datatype Native =
    | GetCapabilitiesNative
    | EnableAndConfigureNative
    | UpdateConfigurationNative
    | DisableNative
    | PublishNative
    | SubscribeNative
    | SendMessageNative
    | StopPublishNative
    | StopSubscribeNative
    | CreateNanNetworkInterfaceNative
    | DeleteNanNetworkInterfaceNative
    | InitiateDataPathNative
    | RespondToDataPathRequestNative
    | EndDataPathNative

  /** The primitive `op` calls: an initial configuration enables, a later
      one updates. */
  function NativeOf(op: Op): (n: Native)
    ensures op.EnableAndConfigure? ==>
      (n == EnableAndConfigureNative <==> op.initialConfiguration) &&
      (n == UpdateConfigurationNative <==> !op.initialConfiguration)
    ensures !op.EnableAndConfigure? ==> n != EnableAndConfigureNative && n != UpdateConfigurationNative
  {
    match op
    case GetCapabilities => GetCapabilitiesNative
    case EnableAndConfigure(initial) => if initial then EnableAndConfigureNative else UpdateConfigurationNative
    case Disable => DisableNative
    case Publish => PublishNative
    case Subscribe => SubscribeNative
    case SendMessage => SendMessageNative
    case StopPublish => StopPublishNative
    case StopSubscribe => StopSubscribeNative
    case CreateNanNetworkInterface => CreateNanNetworkInterfaceNative
    case DeleteNanNetworkInterface => DeleteNanNetworkInterfaceNative
    case InitiateDataPath => InitiateDataPathNative
    case RespondToDataPathRequest => RespondToDataPathRequestNative
    case EndDataPath => EndDataPathNative
  }

  /** One operation: initialise if needed; if that fails answer false
      without a native call, otherwise call the primitive and answer
      whether it returned success. The result carries the new state, the
      answer and the primitive called. */
  function Operation(nan: Nan, op: Op, halStarted: bool, initRet: int, nativeRet: int): (r: (Nan, bool, Option<Native>))
    ensures r.0 == IsNanInit(nan, halStarted, initRet).0
    ensures r.2.Some? <==> IsNanInit(nan, halStarted, initRet).1
    ensures r.2.Some? ==> r.2.value == NativeOf(op)
    ensures r.1 <==> r.2.Some? && nativeRet == WIFI_SUCCESS
  {
    var init := IsNanInit(nan, halStarted, initRet);
    if !init.1 then (init.0, false, None)
    else (init.0, nativeRet == WIFI_SUCCESS, Some(NativeOf(op)))
  }

  /** Once initialised on a started HAL, an operation leaves the state
      alone and answers with the primitive's result. */
  lemma InitialisedOperation(op: Op, initRet: int, nativeRet: int)
    ensures Operation(Nan(true), op, true, initRet, nativeRet) ==
      (Nan(true), nativeRet == WIFI_SUCCESS, Some(NativeOf(op)))
  {
  }

  /** After `deInitNan`, the next operation initialises again. */
  lemma DeInitForcesReinit(nan: Nan, initRet: int)
    ensures IsNanInit(DeInitNan(nan), true, initRet).2
  {
  }

  // ---------------------------------------------------------------------
  // Responses and events

  /** What the NAN state manager is told. */
  datatype Notify =
    | ConfigSuccess(tid: int)
    | ConfigFailed(tid: int, eventReason: EventReason)
    | MessageSendQueuedSuccess(tid: int)
    | MessageSendQueuedFail(tid: int, sessionReason: SessionReason)
    | CreateDataPathInterfaceResponse(tid: int, success: bool, status: int)
    | DeleteDataPathInterfaceResponse(tid: int, success: bool, status: int)
    | RespondToDataPathSetupRequestResponse(tid: int, success: bool, status: int)
    | EndDataPathResponse(tid: int, success: bool, status: int)
    | SessionConfigSuccess(tid: int, isPublish: bool, pubSubId: int)
    | SessionConfigFail(tid: int, isPublish: bool, sessionReason: SessionReason)
    | CapabilitiesUpdate(tid: int)
    | InitiateDataPathSuccess(tid: int, ndpId: int)
    | InitiateDataPathFail(tid: int, status: int)
    | InterfaceAddressChange
    | ClusterChange(started: bool)
    | SessionTerminated(sessionId: int, terminateReason: TerminateReason, isPublish: bool)
    | NanDown(eventReason: EventReason)
    | MessageSendSuccess(tid: int)
    | MessageSendFail(tid: int, sessionReason: SessionReason)

  /** `onNanNotifyResponse`: cancellations and unknown types are only
      logged. */
  function OnNotifyResponse(tid: int, responseType: int, status: int): (r: Option<Notify>)
    ensures responseType in {NAN_RESPONSE_ENABLED, NAN_RESPONSE_CONFIG} ==>
      r == Some(if status == NAN_STATUS_SUCCESS then ConfigSuccess(tid) else ConfigFailed(tid, EventCallbackReason(status)))
    ensures responseType in {NAN_RESPONSE_PUBLISH_CANCEL, NAN_RESPONSE_SUBSCRIBE_CANCEL} ==> r.None?
    ensures r.Some? <==> responseType in {NAN_RESPONSE_ENABLED, NAN_RESPONSE_CONFIG, NAN_RESPONSE_TRANSMIT_FOLLOWUP,
      NAN_RESPONSE_DP_INTERFACE_CREATE, NAN_RESPONSE_DP_INTERFACE_DELETE, NAN_RESPONSE_DP_RESPONDER_RESPONSE, NAN_RESPONSE_DP_END}
    // the data-path responses carry whether the status is success, and the status itself
    ensures responseType == NAN_RESPONSE_DP_INTERFACE_CREATE ==> r.Some? && r.value.CreateDataPathInterfaceResponse?
    ensures responseType == NAN_RESPONSE_DP_INTERFACE_DELETE ==> r.Some? && r.value.DeleteDataPathInterfaceResponse?
    ensures responseType == NAN_RESPONSE_DP_RESPONDER_RESPONSE ==> r.Some? && r.value.RespondToDataPathSetupRequestResponse?
    ensures responseType == NAN_RESPONSE_DP_END ==> r.Some? && r.value.EndDataPathResponse?
    ensures r.Some? && (r.value.CreateDataPathInterfaceResponse? || r.value.DeleteDataPathInterfaceResponse? ||
                        r.value.RespondToDataPathSetupRequestResponse? || r.value.EndDataPathResponse?) ==>
      r.value.tid == tid && r.value.status == status && (r.value.success <==> status == NAN_STATUS_SUCCESS)
  {
    if responseType == NAN_RESPONSE_ENABLED || responseType == NAN_RESPONSE_CONFIG then
      Some(if status == NAN_STATUS_SUCCESS then ConfigSuccess(tid) else ConfigFailed(tid, EventCallbackReason(status)))
    else if responseType == NAN_RESPONSE_TRANSMIT_FOLLOWUP then
      Some(if status == NAN_STATUS_SUCCESS then MessageSendQueuedSuccess(tid)
           else MessageSendQueuedFail(tid, SessionCallbackReason(status)))
    else if responseType == NAN_RESPONSE_DP_INTERFACE_CREATE then
      Some(CreateDataPathInterfaceResponse(tid, status == NAN_STATUS_SUCCESS, status))
    else if responseType == NAN_RESPONSE_DP_INTERFACE_DELETE then
      Some(DeleteDataPathInterfaceResponse(tid, status == NAN_STATUS_SUCCESS, status))
    else if responseType == NAN_RESPONSE_DP_RESPONDER_RESPONSE then
      Some(RespondToDataPathSetupRequestResponse(tid, status == NAN_STATUS_SUCCESS, status))
    else if responseType == NAN_RESPONSE_DP_END then
      Some(EndDataPathResponse(tid, status == NAN_STATUS_SUCCESS, status))
    else None
  }

  /** `onNanNotifyResponsePublishSubscribe`. */
  function OnNotifyResponsePublishSubscribe(tid: int, responseType: int, status: int, pubSubId: int): (r: Option<Notify>)
    ensures r.Some? <==> responseType == NAN_RESPONSE_PUBLISH || responseType == NAN_RESPONSE_SUBSCRIBE
    ensures r.Some? ==> (r.value.SessionConfigSuccess? <==> status == NAN_STATUS_SUCCESS)
    ensures r.Some? ==> ((r.value.SessionConfigSuccess? || r.value.SessionConfigFail?) &&
      r.value.isPublish == (responseType == NAN_RESPONSE_PUBLISH))
  {
    if responseType == NAN_RESPONSE_PUBLISH || responseType == NAN_RESPONSE_SUBSCRIBE then
      var isPublish := responseType == NAN_RESPONSE_PUBLISH;
      Some(if status == NAN_STATUS_SUCCESS then SessionConfigSuccess(tid, isPublish, pubSubId)
           else SessionConfigFail(tid, isPublish, SessionCallbackReason(status)))
    else None
  }

  /** `onNanNotifyResponseCapabilities`: a failure is only logged. */
  function OnNotifyResponseCapabilities(tid: int, status: int): (r: Option<Notify>)
    ensures r.Some? <==> status == NAN_STATUS_SUCCESS
  {
    if status == NAN_STATUS_SUCCESS then Some(CapabilitiesUpdate(tid)) else None
  }

  /** `onNanNotifyResponseDataPathInitiate`: the raw status, untranslated,
      on failure. */
  function OnNotifyResponseDataPathInitiate(tid: int, status: int, ndpId: int): (r: Notify)
    ensures r.InitiateDataPathSuccess? <==> status == NAN_STATUS_SUCCESS
    ensures r.InitiateDataPathFail? ==> r.status == status
  {
    if status == NAN_STATUS_SUCCESS then InitiateDataPathSuccess(tid, ndpId) else InitiateDataPathFail(tid, status)
  }

  /** `onDiscoveryEngineEvent`: unknown event types are only logged. */
  function OnDiscoveryEngineEvent(eventType: int): (r: Option<Notify>)
    ensures r.Some? <==> 0 <= eventType <= 2
    ensures eventType == NAN_EVENT_ID_STARTED_CLUSTER ==> r == Some(ClusterChange(true))
    ensures eventType == NAN_EVENT_ID_JOINED_CLUSTER ==> r == Some(ClusterChange(false))
  {
    if eventType == NAN_EVENT_ID_DISC_MAC_ADDR then Some(InterfaceAddressChange)
    else if eventType == NAN_EVENT_ID_STARTED_CLUSTER then Some(ClusterChange(true))
    else if eventType == NAN_EVENT_ID_JOINED_CLUSTER then Some(ClusterChange(false))
    else None
  }

  /** `onPublishTerminated` and `onSubscribeTerminated`. */
  function OnSessionTerminated(sessionId: int, status: int, isPublish: bool): (r: Notify)
    ensures r.SessionTerminated? && r.sessionId == sessionId && r.isPublish == isPublish
    ensures r.terminateReason == TerminateDone <==> status in {8193, 8194, 8196}
  {
    SessionTerminated(sessionId, SessionTerminateReason(status), isPublish)
  }

  /** `onDisabledEvent`. */
  function OnDisabledEvent(status: int): (r: Notify)
    ensures r.NanDown? && (r.eventReason == EventInvalidArgs <==> 4096 <= status <= 4121)
  {
    NanDown(EventCallbackReason(status))
  }

  /** `onTransmitFollowupEvent`. */
  function OnTransmitFollowupEvent(tid: int, reason: int): (r: Notify)
    ensures r.MessageSendSuccess? <==> reason == NAN_STATUS_SUCCESS
    ensures r.MessageSendFail? ==> (r.sessionReason == SessionTxFail <==> reason in {23, 24})
  {
    if reason == NAN_STATUS_SUCCESS then MessageSendSuccess(tid) else MessageSendFail(tid, SessionCallbackReason(reason))
  }
}

=== FILE: native_new.dfy ===
/** `WifiNativeNew`: bring-up of the HIDL vendor HAL in station mode, and
    the background-scan capability query
    (service/java/com/android/server/wifi/WifiNativeNew.java).

    Every HIDL call is answered by a field of `Vendor`. HIDL interface
    objects are opaque handles (`int`); a null reference is `None`. The
    object's fields survive between calls, so the model threads them
    through as `Native`. */
module NativeNew {
  import opened Wrappers

  /** `IfaceType.STA` of `android.hardware.wifi@1.0`. */
  const STA: int := 0

  /** `IWifiChip.ChipIfaceCombinationLimit`: the interface types one slot
      of a combination admits. */
  datatype Limit = Limit(types: seq<int>)

  /** `IWifiChip.ChipIfaceCombination`. */
  datatype Combination = Combination(limits: seq<Limit>)

  /** `IWifiChip.ChipMode`. */
  datatype ChipMode = ChipMode(id: int, availableCombinations: seq<Combination>)

  /** The answer of `IWifi.getService`: an object, null, or the
      `NoSuchElementException` of an unregistered service. */
  datatype ServiceAnswer = Service(handle: int) | NullService | NotRegistered

  /** The vendor HAL's answers, one per call `startHidlHal` can make. A
      callback with a failure status is `None`; `startOk` and `configureOk`
      say whether the returned status is `SUCCESS`. */
  datatype Vendor = Vendor(
    service: ServiceAnswer,
    startOk: bool,
    chipIds: Option<seq<int>>,
    chip: Option<int>,
    modes: Option<seq<ChipMode>>,
    configureOk: bool,
    staIface: Option<int>)

  /** The object's fields: `mHidlWifi`, `mHidlWifiChip`,
      `mHidlWifiChipAvailableModes` and `mIWifiStaIface`. */
  datatype Native = Native(
    wifi: Option<int>,
    chip: Option<int>,
    modes: Option<seq<ChipMode>>,
    staIface: Option<int>)

  /** The freshly constructed object: every field null. */
  const Fresh := Native(None, None, None, None)

  /** The HAL calls made, in order. */
  datatype Call =
    | GetService
    | Start
    | GetChipIds
    | GetChip(chipId: int)
    | GetAvailableModes
    | ConfigureChip(modeId: int)
    | CreateStaIface

  // --- The STA mode search -------------------------------------------------

  /** How often `STA` occurs in `types`. */
  function TypeHits(types: seq<int>): (r: nat)
    ensures r == 0 <==> STA !in types
    ensures r <= |types|
  {
    if types == [] then 0
    else TypeHits(types[..|types| - 1]) + (if types[|types| - 1] == STA then 1 else 0)
  }

  /** How often `STA` occurs across the slots `limits`. */
  function LimitHits(limits: seq<Limit>): nat {
    if limits == [] then 0
    else LimitHits(limits[..|limits| - 1]) + TypeHits(limits[|limits| - 1].types)
  }

  /** How often `STA` occurs across the combinations `combs`. */
  function CombinationHits(combs: seq<Combination>): nat {
    if combs == [] then 0
    else CombinationHits(combs[..|combs| - 1]) + LimitHits(combs[|combs| - 1].limits)
  }

  /** Whether `mode` offers a station interface in some combination. */
  predicate OffersSta(mode: ChipMode) {
    CombinationHits(mode.availableCombinations) > 0
  }

  /** How often `STA` occurs across every mode, combination and slot. */
  function ModeHits(modes: seq<ChipMode>): nat {
    if modes == [] then 0
    else ModeHits(modes[..|modes| - 1]) + CombinationHits(modes[|modes| - 1].availableCombinations)
  }

  /** The mode the search settles on: the id of the last mode offering a
      station interface, or -1 when none does. */
  function Picked(modes: seq<ChipMode>): int {
    if modes == [] then -1
    else if OffersSta(modes[|modes| - 1]) then modes[|modes| - 1].id
    else Picked(modes[..|modes| - 1])
  }

  /** No hit in a slot list means no slot admits a station. */
  lemma {:induction false} LimitHitsZero(limits: seq<Limit>)
    ensures LimitHits(limits) == 0 <==> forall k :: 0 <= k < |limits| ==> STA !in limits[k].types
  {
    if limits != [] {
      var init := limits[..|limits| - 1];
      LimitHitsZero(init);
      assert forall k :: 0 <= k < |init| ==> init[k] == limits[k];
    }
  }

  /** No hit in a combination list means no combination has a hit. */
  lemma {:induction false} CombinationHitsZero(combs: seq<Combination>)
    ensures CombinationHits(combs) == 0 <==> forall j :: 0 <= j < |combs| ==> LimitHits(combs[j].limits) == 0
  {
    if combs != [] {
      var init := combs[..|combs| - 1];
      CombinationHitsZero(init);
      assert forall j :: 0 <= j < |init| ==> init[j] == combs[j];
    }
  }

  /** No hit overall means no mode offers a station interface. */
  lemma {:induction false} ModeHitsZero(modes: seq<ChipMode>)
    ensures ModeHits(modes) == 0 <==> forall i :: 0 <= i < |modes| ==> !OffersSta(modes[i])
  {
    if modes != [] {
      var init := modes[..|modes| - 1];
      ModeHitsZero(init);
      assert forall i :: 0 <= i < |init| ==> init[i] == modes[i];
    }
  }

  /** Mode `i` offers a station interface and no later mode does. */
  predicate IsLastStaMode(modes: seq<ChipMode>, i: int) {
    0 <= i < |modes| && OffersSta(modes[i]) && forall j :: i < j < |modes| ==> !OffersSta(modes[j])
  }

  /** With no hit the search reports -1; otherwise it reports the id of the
      last mode offering a station interface. */
  lemma {:induction false} PickedIsLastStaMode(modes: seq<ChipMode>)
    ensures ModeHits(modes) == 0 ==> Picked(modes) == -1
    ensures ModeHits(modes) > 0 ==> exists i :: IsLastStaMode(modes, i) && modes[i].id == Picked(modes)
  {
    if modes != [] {
      var last := |modes| - 1;
      var init := modes[..last];
      PickedIsLastStaMode(init);
      if OffersSta(modes[last]) {
        assert IsLastStaMode(modes, last);
      } else if ModeHits(modes) > 0 {
        assert ModeHits(init) > 0;
        var i :| IsLastStaMode(init, i) && init[i].id == Picked(init);
        assert modes[i] == init[i];
        assert forall j :: i < j < last ==> modes[j] == init[j];
        assert IsLastStaMode(modes, i);
      }
    }
  }

  /** `TypeHits` counts exactly the occurrences of `STA`. */
  lemma {:induction false} TypeHitsCountsSta(types: seq<int>)
    ensures TypeHits(types) == multiset(types)[STA]
  {
    if types != [] {
      var init := types[..|types| - 1];
      TypeHitsCountsSta(init);
      assert types == init + [types[|types| - 1]];
    }
  }

  /** The innermost loop of the search: the hits among one slot's types. */
  method CountTypes(types: seq<int>) returns (hits: nat)
    ensures hits == TypeHits(types)
  {
    hits := 0;
    for t := 0 to |types|
      invariant hits == TypeHits(types[..t])
    {
      if types[t] == STA {
        hits := hits + 1;
      }
      assert types[..t + 1][..t] == types[..t];
    }
    assert types[..|types|] == types;
  }

  /** The loop over the slots of one combination. */
  method CountLimits(limits: seq<Limit>) returns (hits: nat)
    ensures hits == LimitHits(limits)
  {
    hits := 0;
    for k := 0 to |limits|
      invariant hits == LimitHits(limits[..k])
    {
      var h := CountTypes(limits[k].types);
      hits := hits + h;
      assert limits[..k + 1][..k] == limits[..k];
    }
    assert limits[..|limits|] == limits;
  }

  /** The loop over the combinations of one mode. */
  method CountCombinations(combs: seq<Combination>) returns (hits: nat)
    ensures hits == CombinationHits(combs)
  {
    hits := 0;
    for j := 0 to |combs|
      invariant hits == CombinationHits(combs[..j])
    {
      var h := CountLimits(combs[j].limits);
      hits := hits + h;
      assert combs[..j + 1][..j] == combs[..j];
    }
    assert combs[..|combs|] == combs;
  }

  /** The nested loops of `startHidlHal`: every occurrence of `STA` in
      every slot of every combination of every mode is a hit, and each hit
      sets the mode id to its mode's, so the last matching mode wins. All
      hits inside one mode set the same id, so the model sets it once per
      mode with at least one hit. */
  method FindStaMode(modes: seq<ChipMode>) returns (modeId: int, hits: nat)
    ensures hits == ModeHits(modes)
    ensures modeId == Picked(modes)
  {
    modeId := -1;
    hits := 0;
    for i := 0 to |modes|
      invariant hits == ModeHits(modes[..i])
      invariant modeId == Picked(modes[..i])
    {
      var h := CountCombinations(modes[i].availableCombinations);
      if h > 0 {
        modeId := modes[i].id;
      }
      hits := hits + h;
      assert modes[..i + 1][..i] == modes[..i];
    }
    assert modes[..|modes|] == modes;
  }

  // --- startHidlHal --------------------------------------------------------

  /** The outcome of `startHidlHal`: its return value, the fields it leaves
      behind and the HAL calls it made. */
  datatype Outcome = Outcome(ok: bool, native: Native, calls: seq<Call>)

  /** `startHidlHal`. A HIDL callback reporting failure leaves its field as
      it was, so an object from an earlier bring-up can be reused; the chip
      id list is local and so starts empty every time. */
  function StartHidlHal(n: Native, v: Vendor): (r: Outcome)
    // An unregistered service keeps the earlier `mHidlWifi`; null clears it.
    ensures r.native.wifi ==
      match v.service
      case Service(h) => Some(h)
      case NullService => None
      case NotRegistered => n.wifi
    ensures r.native.wifi == None ==> !r.ok && r.calls == [GetService]
    // Exactly one chip id, or nothing past `getChipIds`.
    ensures (v.chipIds.None? || |v.chipIds.value| != 1) ==> !r.ok && GetAvailableModes !in r.calls
    ensures r.ok ==> v.startOk && v.chipIds.Some? && |v.chipIds.value| == 1
    // Success: the whole sequence ran, configuring the last STA mode.
    ensures r.ok ==>
      r.native.modes.Some? && ModeHits(r.native.modes.value) > 0
      && r.calls == [GetService, Start, GetChipIds, GetChip(v.chipIds.value[0]), GetAvailableModes,
                     ConfigureChip(Picked(r.native.modes.value)), CreateStaIface]
    ensures r.ok <==> r.native.staIface.Some? && CreateStaIface in r.calls
  {
    var wifi :=
      match v.service
      case Service(h) => Some(h)
      case NullService => None
      case NotRegistered => n.wifi;
    var n1 := n.(wifi := wifi);
    if wifi.None? then Outcome(false, n1, [GetService])
    else if !v.startOk then Outcome(false, n1, [GetService, Start])
    else
      var ids := v.chipIds.GetOr([]);
      if |ids| != 1 then Outcome(false, n1, [GetService, Start, GetChipIds])
      else
        var before := [GetService, Start, GetChipIds, GetChip(ids[0])];
        var n2 := if v.chip.Some? then n1.(chip := v.chip) else n1;
        if n2.chip.None? then Outcome(false, n2, before)
        else
          var n3 := if v.modes.Some? then n2.(modes := v.modes) else n2;
          if n3.modes.None? then Outcome(false, n3, before + [GetAvailableModes])
          else if ModeHits(n3.modes.value) == 0 then Outcome(false, n3, before + [GetAvailableModes])
          else
            // `configureOk` is only logged.
            var n4 := if v.staIface.Some? then n3.(staIface := v.staIface) else n3;
            var calls := before + [GetAvailableModes, ConfigureChip(Picked(n3.modes.value)), CreateStaIface];
            Outcome(n4.staIface.Some?, n4, calls)
  }

  /** Zero STA hits: bring-up fails before the chip is configured. */
  lemma NoStaModeNoConfigure(n: Native, v: Vendor)
    requires StartHidlHal(n, v).native.modes.Some?
    requires ModeHits(StartHidlHal(n, v).native.modes.value) == 0
    ensures !StartHidlHal(n, v).ok
    ensures forall c :: c in StartHidlHal(n, v).calls ==> !c.ConfigureChip?
  {
  }

  /** `isHalStarted`. */
  predicate IsHalStarted(n: Native): (b: bool)
    ensures b <==> n.staIface.Some?
  {
    n.staIface.Some?
  }

  /** A failing `configureChip` changes nothing: interface creation goes
      ahead and the result is the same. */
  lemma ConfigureFailureOnlyLogged(n: Native, v: Vendor)
    ensures StartHidlHal(n, v.(configureOk := false)) == StartHidlHal(n, v.(configureOk := true))
  {
  }

  /** A successful bring-up leaves the HAL started, and from a fresh object
      the HAL counts as started exactly when bring-up succeeded. */
  lemma StartedIffBroughtUp(v: Vendor)
    ensures IsHalStarted(StartHidlHal(Fresh, v).native) <==> StartHidlHal(Fresh, v).ok
  {
  }

  /** On an object that was brought up before, a failing bring-up still
      leaves `isHalStarted` true: the old station interface is kept. */
  lemma FailedRestartKeepsOldIface(n: Native, v: Vendor)
    requires IsHalStarted(n)
    requires !v.startOk
    ensures !StartHidlHal(n, v).ok
    ensures IsHalStarted(StartHidlHal(n, v).native)
  {
  }

  // --- getScanCapabilities -------------------------------------------------

  /** `WifiNativeNew.ScanCapabilities`. */
  datatype ScanCapabilities = ScanCapabilities(
    maxScanCacheSize: int,
    maxScanBuckets: int,
    maxApCachePerScan: int,
    maxRssiSampleSize: int,
    maxScanReportingThreshold: int,
    maxHotlistBssids: int,
    maxSignificantWifiChangeAps: int,
    maxBssidHistoryEntries: int,
    maxNumberEpnoNetworks: int,
    maxNumberEpnoNetworksBySsid: int,
    maxNumberOfWhiteListedSsid: int)

  /** `StaBackgroundScanCapabilities` as reported by the interface. */
  datatype BackgroundCapabilities = BackgroundCapabilities(
    maxCacheSize: int,
    maxBuckets: int,
    maxApCachePerScan: int,
    maxReportingThreshold: int)

  /** `getScanCapabilities`: the caller's object after the call and the
      return value. `answer` is `None` when the interface reports failure. */
  function GetScanCapabilities(n: Native, caps: ScanCapabilities, answer: Option<BackgroundCapabilities>)
    : (r: (bool, ScanCapabilities))
    ensures r.0 <==> IsHalStarted(n) && answer.Some?
    ensures !r.0 ==> r.1 == caps
    ensures r.0 ==>
      var a := answer.value;
      r.1.maxScanCacheSize == a.maxCacheSize
      && r.1.maxScanBuckets == a.maxBuckets
      && r.1.maxApCachePerScan == a.maxApCachePerScan
      && r.1.maxScanReportingThreshold == a.maxReportingThreshold
      && r.1.maxRssiSampleSize == 0 && r.1.maxHotlistBssids == 0
      && r.1.maxSignificantWifiChangeAps == 0 && r.1.maxBssidHistoryEntries == 0
      && r.1.maxNumberEpnoNetworks == 0 && r.1.maxNumberEpnoNetworksBySsid == 0
      && r.1.maxNumberOfWhiteListedSsid == 0
  {
    if !IsHalStarted(n) then (false, caps)
    else
      match answer
      case None => (false, caps)
      case Some(a) =>
        (true, ScanCapabilities(a.maxCacheSize, a.maxBuckets, a.maxApCachePerScan, 0,
                                a.maxReportingThreshold, 0, 0, 0, 0, 0, 0))
  }

  /** The result of a successful query does not depend on what the caller
      passed in: every field is overwritten. */
  lemma CapabilitiesOverwriteAll(n: Native, c1: ScanCapabilities, c2: ScanCapabilities, a: BackgroundCapabilities)
    requires IsHalStarted(n)
    ensures GetScanCapabilities(n, c1, Some(a)).1 == GetScanCapabilities(n, c2, Some(a)).1
  {
  }
}

=== FILE: network_selector.dfy ===
/** `WifiNetworkSelector`: the BSSID blacklist, the evaluator priority
    registry, scan-result filtering, the "is selection needed" gate and the
    selection loop over evaluators
    (service/java/com/android/server/wifi/WifiNetworkSelector.java).

    Evaluators are uninterpreted: `evaluate(id, request)` is what evaluator
    `id` returns when handed the arguments in `request`. */
module NetworkSelector {
  import opened Wrappers
  import opened WifiTypes

  const MINIMUM_NETWORK_SELECTION_INTERVAL_MS: int := 10 * 1000
  const BSSID_BLACKLIST_THRESHOLD: int := 3
  const BSSID_BLACKLIST_EXPIRE_TIME_MS: int := 5 * 60 * 1000
  const EVALUATOR_MIN_PRIORITY: int := 6
  /** `Long.MIN_VALUE`, the "never" timestamp. */
  const INVALID_TIME_STAMP: int := -0x8000_0000_0000_0000

  /** Evaluators are compared by identity. */
  type EvaluatorId = nat

  datatype BssidStatus = BssidStatus(counter: int, isBlacklisted: bool, blacklistedTimeStamp: int)

  type Blacklist = map<string, BssidStatus>

  /** What the selector reads from `WifiInfo` about the current connection. */
  datatype WifiInfo = WifiInfo(networkId: int, bssid: Option<string>, band: Band, rssi: int)

  datatype Thresholds = Thresholds(qualifiedRssi24: int, qualifiedRssi5: int, minimumRssi24: int, minimumRssi5: int)

  /** What one evaluator answers: its choice and the pairs it appended to the
      shared connectable list. */
  datatype EvaluatorAnswer = EvaluatorAnswer(selected: Option<WifiConfig>, added: seq<Candidate>)

  /** The arguments `evaluateNetworks` receives besides the shared lists. */
  datatype EvaluationRequest = EvaluationRequest(
    details: seq<ScanDetail>,
    currentNetwork: Option<WifiConfig>,
    currentBssid: Option<string>,
    connected: bool,
    untrustedNetworkAllowed: bool)

  datatype Selector = Selector(
    evaluators: seq<Option<EvaluatorId>>,
    blacklist: Blacklist,
    currentNetwork: Option<WifiConfig>,
    currentBssid: Option<string>,
    lastNetworkSelectionTimeStamp: int,
    connectableNetworks: seq<Candidate>)

  /** Everything the selector reads from collaborators during one call. */
  datatype Environment = Environment(
    now: int,
    wifiInfo: WifiInfo,
    configOfWifiInfo: Option<WifiConfig>,
    thresholds: Thresholds,
    enableAutoJoinWhenAssociated: bool,
    scoreCachePresent: bool,
    scoreManagerPresent: bool,
    isScored: ScanDetail -> bool,
    keyValid: ScanDetail -> bool,
    evaluate: (EvaluatorId, EvaluationRequest) -> EvaluatorAnswer)

  function NewSelector(): (s: Selector)
    ensures |s.evaluators| == EVALUATOR_MIN_PRIORITY && s.blacklist == map[]
    ensures forall i :: 0 <= i < |s.evaluators| ==> s.evaluators[i] == None
  {
    Selector(seq(EVALUATOR_MIN_PRIORITY, _ => None), map[], None, None, INVALID_TIME_STAMP, [])
  }

  // ---------------------------------------------------------------------
  // Evaluator registry

  /** `registerNetworkEvaluator`: fills exactly the requested free slot. */
  function RegisterNetworkEvaluator(evaluators: seq<Option<EvaluatorId>>, e: EvaluatorId, priority: int)
    : (r: (seq<Option<EvaluatorId>>, bool))
    requires |evaluators| == EVALUATOR_MIN_PRIORITY
    ensures r.1 <==> 0 <= priority < EVALUATOR_MIN_PRIORITY && evaluators[priority] == None
    ensures !r.1 ==> r.0 == evaluators
    ensures r.1 ==> r.0 == evaluators[priority := Some(e)]
  {
    if priority < 0 || priority >= EVALUATOR_MIN_PRIORITY then (evaluators, false)
    else if evaluators[priority].Some? then (evaluators, false)
    else (evaluators[priority := Some(e)], true)
  }

  /** `unregisterNetworkEvaluator`: reports presence; it never frees a slot. */
  function UnregisterNetworkEvaluator(evaluators: seq<Option<EvaluatorId>>, e: EvaluatorId)
    : (r: (seq<Option<EvaluatorId>>, bool))
    ensures r.0 == evaluators
    ensures r.1 <==> Some(e) in evaluators
  {
    (evaluators, Some(e) in evaluators)
  }

  // ---------------------------------------------------------------------
  // BSSID blacklist

  /** Shape of every entry the selector can create: below the threshold an
      entry is a counter, at the threshold it is blacklisted with a time. */
  predicate WellFormedBlacklist(bl: Blacklist) {
    forall b :: b in bl ==>
      (if bl[b].isBlacklisted then bl[b].counter >= BSSID_BLACKLIST_THRESHOLD
       else 1 <= bl[b].counter < BSSID_BLACKLIST_THRESHOLD && bl[b].blacklistedTimeStamp == INVALID_TIME_STAMP)
  }

  /** `enableBssidForNetworkSelection(bssid, enable)` at time `now`. */
  function EnableBssidForNetworkSelection(bl: Blacklist, bssid: Option<string>, enable: bool, now: int)
    : (r: (Blacklist, bool))
    // enabling removes the entry and reports whether there was one
    ensures enable ==> r.0 == (if bssid.Some? then bl - {bssid.value} else bl)
    ensures enable ==> (r.1 <==> bssid.Some? && bssid.value in bl)
    // disabling a null BSSID or an already blacklisted one changes nothing
    ensures !enable && (bssid.None? || (bssid.value in bl && bl[bssid.value].isBlacklisted)) ==> r == (bl, false)
    // disabling a new BSSID starts its counter at one
    ensures !enable && bssid.Some? && bssid.value !in bl ==>
      r == (bl[bssid.value := BssidStatus(1, false, INVALID_TIME_STAMP)], false)
    // disabling a counted BSSID increments; reaching the threshold blacklists it now
    ensures !enable && bssid.Some? && bssid.value in bl && !bl[bssid.value].isBlacklisted ==>
      var c := bl[bssid.value].counter + 1;
      (r.1 <==> c >= BSSID_BLACKLIST_THRESHOLD) &&
      r.0 == bl[bssid.value := if c >= BSSID_BLACKLIST_THRESHOLD then BssidStatus(c, true, now)
                              else bl[bssid.value].(counter := c)]
    ensures WellFormedBlacklist(bl) ==> WellFormedBlacklist(r.0)
  {
    if enable then
      if bssid.Some? then (bl - {bssid.value}, bssid.value in bl) else (bl, false)
    else if bssid.None? then (bl, false)
    else
      var b := bssid.value;
      if b !in bl then (bl[b := BssidStatus(1, false, INVALID_TIME_STAMP)], false)
      else if !bl[b].isBlacklisted then
        var status := bl[b].(counter := bl[b].counter + 1);
        if status.counter >= BSSID_BLACKLIST_THRESHOLD then
          (bl[b := status.(isBlacklisted := true, blacklistedTimeStamp := now)], true)
        else (bl[b := status], false)
      else (bl, false)
  }

  /** Three disable reports in a row blacklist a fresh BSSID on the third,
      stamped with the time of that report. */
  lemma ThirdFailureBlacklists(bl: Blacklist, b: string, t1: int, t2: int, t3: int)
    requires b !in bl
    ensures var (bl1, r1) := EnableBssidForNetworkSelection(bl, Some(b), false, t1);
            var (bl2, r2) := EnableBssidForNetworkSelection(bl1, Some(b), false, t2);
            var (bl3, r3) := EnableBssidForNetworkSelection(bl2, Some(b), false, t3);
            !r1 && !r2 && r3 && bl3[b] == BssidStatus(3, true, t3)
  {
  }

  /** An entry is expired when blacklisted for at least the expiry time. */
  predicate Expired(s: BssidStatus, now: int) {
    s.isBlacklisted && now - s.blacklistedTimeStamp >= BSSID_BLACKLIST_EXPIRE_TIME_MS
  }

  /** `updateBssidBlacklist`: drops exactly the expired entries. */
  function UpdateBssidBlacklist(bl: Blacklist, now: int): (r: Blacklist)
    ensures forall b :: b in r <==> b in bl && !Expired(bl[b], now)
    ensures forall b :: b in r ==> r[b] == bl[b]
    ensures WellFormedBlacklist(bl) ==> WellFormedBlacklist(r)
  {
    map b | b in bl && !Expired(bl[b], now) :: bl[b]
  }

  /** Counters that have not reached the threshold survive an update. */
  lemma UpdateKeepsCounters(bl: Blacklist, now: int, b: string)
    requires b in bl && !bl[b].isBlacklisted
    ensures b in UpdateBssidBlacklist(bl, now) && UpdateBssidBlacklist(bl, now)[b] == bl[b]
  {
  }

  /** `isBssidDisabled`. */
  function IsBssidDisabled(bl: Blacklist, bssid: string): (d: bool)
    ensures d <==> bssid in bl && bl[bssid].isBlacklisted
  {
    bssid in bl && bl[bssid].isBlacklisted
  }

  // ---------------------------------------------------------------------
  // Scan filtering

  predicate LowRssi(d: ScanDetail, t: Thresholds) {
    (d.band == Band24GHz && d.level < t.minimumRssi24) || (d.band == Band5GHz && d.level < t.minimumRssi5)
  }

  /** Whether `filterScanResults` keeps a scan result. */
  predicate KeepScanResult(d: ScanDetail, bl: Blacklist, t: Thresholds) {
    d.ssid != "" && !IsBssidDisabled(bl, d.bssid) && !LowRssi(d, t)
  }

  /** `filterScanResults`: keeps, in order, the results with an SSID, a
      BSSID not blacklisted and enough signal for their band. */
  function FilterScanResults(details: seq<ScanDetail>, bl: Blacklist, t: Thresholds): (r: seq<ScanDetail>)
    ensures |r| <= |details|
    ensures forall d :: d in r <==> d in details && KeepScanResult(d, bl, t)
  {
    if details == [] then []
    else if KeepScanResult(details[0], bl, t) then [details[0]] + FilterScanResults(details[1..], bl, t)
    else FilterScanResults(details[1..], bl, t)
  }

  /** Filtering distributes over concatenation, which is to say it keeps the
      relative order of the results it retains. */
  lemma {:induction false} FilterPreservesOrder(a: seq<ScanDetail>, b: seq<ScanDetail>, bl: Blacklist, t: Thresholds)
    ensures FilterScanResults(a + b, bl, t) == FilterScanResults(a, bl, t) + FilterScanResults(b, bl, t)
  {
    if a == [] {
      assert a + b == b;
    } else {
      assert (a + b)[1..] == a[1..] + b;
      FilterPreservesOrder(a[1..], b, bl, t);
    }
  }

  // ---------------------------------------------------------------------
  // Selection gate

  /** `isCurrentNetworkSufficient`. The 2.4 GHz test makes the 2.4 GHz RSSI
      comparison that follows it unreachable. */
  function IsCurrentNetworkSufficient(network: Option<WifiConfig>, info: WifiInfo, t: Thresholds): (ok: bool)
    ensures ok <==> network.Some? && !network.value.ephemeral && !network.value.open &&
                    info.band != Band24GHz && !(info.band == Band5GHz && info.rssi < t.qualifiedRssi5)
  {
    if network.None? then false
    else if network.value.ephemeral then false
    else if network.value.open then false
    else if info.band == Band24GHz then false
    else if (info.band == Band24GHz && info.rssi < t.qualifiedRssi24)
         || (info.band == Band5GHz && info.rssi < t.qualifiedRssi5) then false
    else true
  }

  /** `isNetworkSelectionNeeded`; also returns the selector, whose current
      network and BSSID it clears when disconnected. */
  function IsNetworkSelectionNeeded(s: Selector, details: seq<ScanDetail>, connected: bool,
                                    disconnected: bool, env: Environment): (r: (bool, Selector))
    ensures details == [] ==> r == (false, s)
    ensures details != [] && connected ==> r.1 == s
    ensures details != [] && connected ==>
      (r.0 <==> env.enableAutoJoinWhenAssociated &&
                (s.lastNetworkSelectionTimeStamp == INVALID_TIME_STAMP ||
                 env.now - s.lastNetworkSelectionTimeStamp >= MINIMUM_NETWORK_SELECTION_INTERVAL_MS) &&
                !IsCurrentNetworkSufficient(s.currentNetwork, env.wifiInfo, env.thresholds))
    ensures details != [] && !connected && disconnected ==>
      r == (true, s.(currentNetwork := None, currentBssid := None))
    ensures details != [] && !connected && !disconnected ==> r == (false, s)
  {
    if |details| == 0 then (false, s)
    else if connected then
      if !env.enableAutoJoinWhenAssociated then (false, s)
      else if s.lastNetworkSelectionTimeStamp != INVALID_TIME_STAMP &&
              env.now - s.lastNetworkSelectionTimeStamp < MINIMUM_NETWORK_SELECTION_INTERVAL_MS then (false, s)
      else if IsCurrentNetworkSufficient(s.currentNetwork, env.wifiInfo, env.thresholds) then (false, s)
      else (true, s)
    else if disconnected then (true, s.(currentNetwork := None, currentBssid := None))
    else (false, s)
  }

  // ---------------------------------------------------------------------
  // Evaluator loop

  /** The evaluators consulted from slot `from` onwards, in priority order,
      until one selects a network. Returns the winning slot (if any), the
      winner's choice and the pairs appended by every consulted evaluator. */
  function ConsultEvaluators(evaluators: seq<Option<EvaluatorId>>, from: nat, request: EvaluationRequest,
                             evaluate: (EvaluatorId, EvaluationRequest) -> EvaluatorAnswer)
    : (r: (Option<nat>, Option<WifiConfig>, seq<Candidate>))
    requires from <= |evaluators|
    decreases |evaluators| - from
    ensures r.0.None? <==> r.1.None?
    ensures r.0.None? ==> forall j :: from <= j < |evaluators| && evaluators[j].Some? ==>
      evaluate(evaluators[j].value, request).selected.None?
    ensures r.0.Some? ==> var k := r.0.value;
      from <= k < |evaluators| && evaluators[k].Some? &&
      r.1 == evaluate(evaluators[k].value, request).selected &&
      (forall j :: from <= j < k && evaluators[j].Some? ==> evaluate(evaluators[j].value, request).selected.None?)
  {
    if from == |evaluators| then (None, None, [])
    else if evaluators[from].None? then ConsultEvaluators(evaluators, from + 1, request, evaluate)
    else
      var answer := evaluate(evaluators[from].value, request);
      if answer.selected.Some? then (Some(from), answer.selected, answer.added)
      else
        var rest := ConsultEvaluators(evaluators, from + 1, request, evaluate);
        (rest.0, rest.1, answer.added + rest.2)
  }

  /** The result of `selectNetwork`: the new selector, the chosen network,
      the score request sent (if any) and the list handed to evaluators. */
  datatype Selection = Selection(
    selector: Selector,
    chosen: Option<WifiConfig>,
    scoreRequest: Option<seq<NetworkKey>>,
    evaluatedDetails: Option<seq<ScanDetail>>)

  /** `updateNetworkScoreCache`: the keys sent to the score manager, if any. */
  function ScoreRequest(details: seq<ScanDetail>, env: Environment): (r: Option<seq<NetworkKey>>)
    ensures r.Some? ==> env.scoreCachePresent && env.scoreManagerPresent && r.value != []
    ensures r.Some? ==> r.value == UnscoredKeys(details, env.isScored, env.keyValid)
    ensures r.None? ==> !env.scoreCachePresent || !env.scoreManagerPresent ||
                        UnscoredKeys(details, env.isScored, env.keyValid) == []
  {
    if !env.scoreCachePresent then None
    else
      var keys := UnscoredKeys(details, env.isScored, env.keyValid);
      if env.scoreManagerPresent && |keys| != 0 then Some(keys) else None
  }

  /** The steps of `selectNetwork` up to and including filtering, shared by
      the as-written and the corrected selection. Returns the selector after
      those steps, and the filtered list when selection goes ahead. */
  function PrepareSelection(s: Selector, details: seq<ScanDetail>, connected: bool, disconnected: bool,
                            env: Environment): (r: (Selector, Option<seq<ScanDetail>>))
    ensures r.0.connectableNetworks == [] && r.0.evaluators == s.evaluators
    ensures r.1.Some? ==> r.1.value != [] && r.1.value == FilterScanResults(details, r.0.blacklist, env.thresholds)
    ensures details == [] ==> r.1.None? && r.0 == s.(connectableNetworks := [])
  {
    var s0 := s.(connectableNetworks := []);
    if |details| == 0 then (s0, None)
    else
      var s1 := if s0.currentNetwork.None? then s0.(currentNetwork := env.configOfWifiInfo) else s0;
      var s2 := s1.(currentBssid := env.wifiInfo.bssid);
      var (needed, s3) := IsNetworkSelectionNeeded(s2, details, connected, disconnected, env);
      if !needed then (s3, None)
      else
        var s4 := s3.(blacklist := UpdateBssidBlacklist(s3.blacklist, env.now));
        var filtered := FilterScanResults(details, s4.blacklist, env.thresholds);
        if |filtered| == 0 then (s4, None) else (s4, Some(filtered))
  }

  /** The request every evaluator receives during one selection. */
  function RequestOf(s: Selector, handed: seq<ScanDetail>, connected: bool, untrustedNetworkAllowed: bool)
    : EvaluationRequest
  {
    EvaluationRequest(handed, s.currentNetwork, s.currentBssid, connected, untrustedNetworkAllowed)
  }

  /** Runs the evaluators on `handed` and records a selection. `None` is
      the null dereference of a selected network whose selection status
      holds no candidate. */
  function FinishSelection(s: Selector, handed: seq<ScanDetail>, filtered: seq<ScanDetail>,
                           connected: bool, untrustedNetworkAllowed: bool, env: Environment): (r: Option<Selection>)
    // the first registered evaluator that selects a network decides, and
    // every consulted evaluator's pairs are appended
    ensures var c := ConsultEvaluators(s.evaluators, 0, RequestOf(s, handed, connected, untrustedNetworkAllowed), env.evaluate);
            (r.None? <==> c.1.Some? && c.1.value.candidateBssid.None?) &&
            (r.Some? ==> r.value.chosen == c.1 && r.value.selector.connectableNetworks == s.connectableNetworks + c.2)
    ensures r.Some? ==> r.value.evaluatedDetails == Some(handed)
    ensures r.Some? ==> r.value.scoreRequest == ScoreRequest(filtered, env)
    ensures r.Some? && r.value.chosen.None? ==>
      r.value.selector == s.(connectableNetworks := r.value.selector.connectableNetworks)
    ensures r.Some? && r.value.chosen.Some? ==>
      r.value.selector.currentNetwork == r.value.chosen && r.value.selector.lastNetworkSelectionTimeStamp == env.now &&
      r.value.selector.currentBssid == r.value.chosen.value.candidateBssid && r.value.selector.currentBssid.Some?
    ensures r.Some? ==> r.value.selector.evaluators == s.evaluators && r.value.selector.blacklist == s.blacklist
  {
    var request := RequestOf(s, handed, connected, untrustedNetworkAllowed);
    var c := ConsultEvaluators(s.evaluators, 0, request, env.evaluate);
    var chosen := c.1;
    var s1 := s.(connectableNetworks := s.connectableNetworks + c.2);
    if chosen.Some? && chosen.value.candidateBssid.None? then None
    else
      var s2 := if chosen.Some? then
                  s1.(currentNetwork := chosen, currentBssid := chosen.value.candidateBssid,
                      lastNetworkSelectionTimeStamp := env.now)
                else s1;
      Some(Selection(s2, chosen, ScoreRequest(filtered, env), Some(handed)))
  }

  /** `selectNetwork` as written: the evaluators are handed the original,
      unfiltered scan list. */
  function SelectNetworkAsWritten(s: Selector, details: seq<ScanDetail>, connected: bool, disconnected: bool,
                                  untrustedNetworkAllowed: bool, env: Environment): (r: Option<Selection>)
    ensures r.Some? && r.value.evaluatedDetails.Some? ==> r.value.evaluatedDetails.value == details
    ensures details == [] ==> r.Some? && r.value.chosen.None? && r.value.selector.connectableNetworks == []
    // the evaluators are consulted exactly when a non-empty filtered list exists,
    // and they are handed the unfiltered one
    ensures var p := PrepareSelection(s, details, connected, disconnected, env);
            p.1.Some? ==>
              var c := ConsultEvaluators(s.evaluators, 0, RequestOf(p.0, details, connected, untrustedNetworkAllowed), env.evaluate);
              (r.None? <==> c.1.Some? && c.1.value.candidateBssid.None?) &&
              (r.Some? ==> r.value.chosen == c.1 && r.value.selector.connectableNetworks == c.2)
    ensures var p := PrepareSelection(s, details, connected, disconnected, env);
            p.1.None? ==> r.Some? && r.value.chosen.None? && r.value.evaluatedDetails.None?
  {
    var p := PrepareSelection(s, details, connected, disconnected, env);
    if p.1.None? then Some(Selection(p.0, None, None, None))
    else FinishSelection(p.0, details, p.1.value, connected, untrustedNetworkAllowed, env)
  }

  /** The as-written selection hands a blacklisted BSSID to the evaluators:
      the blacklist filter only decides whether evaluation happens at all. */
  lemma BlacklistedResultReachesEvaluators(env: Environment)
    requires env.now == 0 && env.thresholds == Thresholds(0, 0, 0, 0)
    requires forall id, q :: env.evaluate(id, q).selected.None?
    ensures var good := ScanDetail("a", "11", 0, Band5GHz, "", false);
            var bad := ScanDetail("b", "22", 0, Band5GHz, "", false);
            var s := NewSelector().(blacklist := map["22" := BssidStatus(3, true, 0)]);
            var r := SelectNetworkAsWritten(s, [good, bad], false, true, false, env);
            r.Some? && r.value.evaluatedDetails.Some? && bad in r.value.evaluatedDetails.value &&
            IsBssidDisabled(r.value.selector.blacklist, bad.bssid)
  {
    var good := ScanDetail("a", "11", 0, Band5GHz, "", false);
    var bad := ScanDetail("b", "22", 0, Band5GHz, "", false);
    var s := NewSelector().(blacklist := map["22" := BssidStatus(3, true, 0)]);
    var p := PrepareSelection(s, [good, bad], false, true, env);
    assert UpdateBssidBlacklist(s.blacklist, 0) == s.blacklist;
    assert KeepScanResult(good, s.blacklist, env.thresholds);
    assert good in FilterScanResults([good, bad], s.blacklist, env.thresholds);
    assert p.1.Some?;
    var c := ConsultEvaluators(s.evaluators, 0, RequestOf(p.0, [good, bad], false, false), env.evaluate);
    assert c.1.None?;
  }

  /** `selectNetwork` with the evaluators handed the filtered list, as the
      filtering step evidently intends. */
  function SelectNetwork(s: Selector, details: seq<ScanDetail>, connected: bool, disconnected: bool,
                         untrustedNetworkAllowed: bool, env: Environment): (r: Option<Selection>)
    // every result an evaluator sees passes the filter against the updated blacklist
    ensures r.Some? && r.value.evaluatedDetails.Some? ==> forall d :: d in r.value.evaluatedDetails.value ==>
      d in details && KeepScanResult(d, r.value.selector.blacklist, env.thresholds)
    ensures details == [] ==> r.Some? && r.value.chosen.None? && r.value.selector.connectableNetworks == []
    // the evaluators run on the filtered list and the selector as prepared;
    // the first that selects decides, and the connectable list holds what
    // every consulted evaluator appended
    ensures var p := PrepareSelection(s, details, connected, disconnected, env);
            p.1.Some? ==>
              var c := ConsultEvaluators(s.evaluators, 0, RequestOf(p.0, p.1.value, connected, untrustedNetworkAllowed), env.evaluate);
              (r.None? <==> c.1.Some? && c.1.value.candidateBssid.None?) &&
              (r.Some? ==> r.value.chosen == c.1 && r.value.selector.connectableNetworks == c.2)
    // no filtered list: nothing is evaluated or selected
    ensures var p := PrepareSelection(s, details, connected, disconnected, env);
            p.1.None? ==> r.Some? && r.value.chosen.None? && r.value.evaluatedDetails.None?
    // not needed: nothing is selected and the selection time is unchanged
    ensures r.Some? && r.value.chosen.None? ==>
      r.value.selector.lastNetworkSelectionTimeStamp == s.lastNetworkSelectionTimeStamp
    ensures r.Some? && r.value.chosen.Some? ==>
      r.value.selector.currentNetwork == r.value.chosen && r.value.selector.lastNetworkSelectionTimeStamp == env.now
  {
    var p := PrepareSelection(s, details, connected, disconnected, env);
    if p.1.None? then Some(Selection(p.0, None, None, None))
    else FinishSelection(p.0, p.1.value, p.1.value, connected, untrustedNetworkAllowed, env)
  }

  /** The first registered evaluator that selects a network wins, so an
      evaluator registered at a higher priority pre-empts lower ones. */
  lemma HigherPriorityWins(evaluators: seq<Option<EvaluatorId>>, request: EvaluationRequest,
                           evaluate: (EvaluatorId, EvaluationRequest) -> EvaluatorAnswer, k: nat)
    requires k < |evaluators| && evaluators[k].Some? && evaluate(evaluators[k].value, request).selected.Some?
    ensures var r := ConsultEvaluators(evaluators, 0, request, evaluate);
            r.0.Some? && r.0.value <= k
  {
  }
}

=== FILE: notification_controller.dfy ===
/** `WifiNotificationController`: the "open networks available"
    notification (service/java/com/android/server/wifi/WifiNotificationController.java).

    The controller is a record of its fields and each broadcast, settings
    change or delayed task is a pure step returning the next record and the
    requests it made (notifications, the score manager, a connection). The
    clock and the score manager's recommendation are parameters. */
module NotificationController {
  import opened Wrappers
  import opened WifiTypes

  /** `WifiManager.WIFI_STATE_ENABLED` / `WIFI_STATE_UNKNOWN`. */
  const WIFI_STATE_ENABLED: int := 3
  const WIFI_STATE_UNKNOWN: int := 4
  /** Scans with an open network in a row before the notification shows. */
  const NUM_SCANS_BEFORE_ACTUALLY_SCANNING: int := 3
  /** Delay of the delayed reset after a connection notification, in ms. */
  const RESET_DELAY_MS: int := 3000

  /** `NetworkInfo.State`. */
  datatype NetState = Connecting | Connected | Suspended | Disconnecting | Disconnected | Unknown

  /** `NetworkInfo.DetailedState`. */
  datatype DetailedState =
    | Idle | Scanning | DConnecting | Authenticating | ObtainingIpAddr | DConnected | DSuspended
    | DDisconnecting | DDisconnected | Failed | Blocked | VerifyingPoorLink | CaptivePortalCheck

  datatype NetworkInfo = NetworkInfo(state: NetState, detailedState: DetailedState)

  datatype Controller = Controller(
    notificationEnabled: bool,
    repeatDelayMs: int,
    repeatTime: int,
    shown: bool,
    numScans: int,
    networkInfo: Option<NetworkInfo>,
    detailedState: DetailedState,
    wifiState: int,
    recommended: Option<WifiConfig>)

  /** What the controller asks of the framework. */
  datatype Request =
    | ShowAvailable(ssid: Option<string>)
    | ShowConnecting(ssid: Option<string>)
    | ShowConnected(ssid: Option<string>)
    | Cancel
    | Connect(config: WifiConfig)
    | PostDelayedReset(delayMs: int)
    | RequestRecommendation(openNetworks: seq<ScanDetail>)

  /** The broadcasts the receiver handles, the settings observer, and the
      delayed reset firing. A network-state broadcast without its extra is
      `None`. */
  datatype Event =
    | WifiStateChanged(state: Option<int>)
    | NetworkStateChanged(info: Option<NetworkInfo>)
    | ScanResultsAvailable(scanResults: Option<seq<ScanDetail>>)
    | ConnectToWifi
    | NotificationSettingChanged(on: bool)
    | DelayedReset

  /** The one failure: a network-state broadcast without network info
      dereferences null. */
  datatype Crash = NullNetworkInfo

  /** Once shown, the notification has a network to name. */
  ghost predicate Valid(c: Controller) {
    c.shown ==> c.recommended.Some?
  }

  /** The controller after construction: Wi-Fi state unknown, detailed
      state IDLE, nothing shown, the setting read once; the repeat delay is
      the setting in seconds (900 by default) times 1000. */
  function Initial(enabled: bool, repeatDelaySeconds: int): (c: Controller)
    ensures Valid(c) && !c.shown && c.numScans == 0 && c.repeatDelayMs == repeatDelaySeconds * 1000
  {
    Controller(enabled, repeatDelaySeconds * 1000, 0, false, 0, None, Idle, WIFI_STATE_UNKNOWN, None)
  }

  /** `removeNotification`. */
  function Remove(c: Controller): (r: (Controller, seq<Request>))
    ensures !r.0.shown && r.1 == [Cancel] && r.0 == c.(shown := false)
  {
    (c.(shown := false), [Cancel])
  }

  /** `resetNotification`: the repeat timer and the scan counter go back to
      zero; the notification is cancelled only if shown. */
  function Reset(c: Controller): (r: (Controller, seq<Request>))
    ensures r.0.repeatTime == 0 && r.0.numScans == 0 && !r.0.shown
    ensures r.1 == (if c.shown then [Cancel] else [])
    ensures r.0 == c.(repeatTime := 0, numScans := 0, shown := false)
  {
    var c1 := c.(repeatTime := 0, numScans := 0);
    if c.shown then Remove(c1) else (c1, [])
  }

  /** `displayNotification`: suppressed before the repeat time; otherwise
      shown, with the next repeat `repeatDelayMs` from now. */
  function Display(c: Controller, now: int): (r: (Controller, seq<Request>))
    requires c.recommended.Some?
    ensures now < c.repeatTime ==> r == (c, [])
    ensures now >= c.repeatTime ==>
      r.0 == c.(repeatTime := now + c.repeatDelayMs, shown := true) &&
      r.1 == [ShowAvailable(c.recommended.value.ssid)]
  {
    if now < c.repeatTime then (c, [])
    else (c.(repeatTime := now + c.repeatDelayMs, shown := true), [ShowAvailable(c.recommended.value.ssid)])
  }

  /** The open networks of a scan: capabilities exactly "[ESS]". */
  function OpenNetworks(scanResults: seq<ScanDetail>): (open: seq<ScanDetail>)
    ensures |open| <= |scanResults|
    ensures forall d :: d in open <==> d in scanResults && d.capabilities == "[ESS]"
  {
    if scanResults == [] then []
    else
      var rest := OpenNetworks(scanResults[1..]);
      assert forall d :: d in scanResults <==> d == scanResults[0] || d in scanResults[1..];
      if scanResults[0].capabilities == "[ESS]" then [scanResults[0]] + rest else rest
  }

  /** `checkGoodOpenNetwork`: no request for a missing or empty scan;
      otherwise the score manager is asked about the open networks. The
      result is `None` when it recommends nothing or a result without a
      configuration. */
  function CheckGoodOpenNetwork(scanResults: Option<seq<ScanDetail>>,
                                recommend: seq<ScanDetail> -> Option<WifiConfig>)
    : (r: (Option<WifiConfig>, seq<Request>))
    ensures scanResults.None? || scanResults.value == [] ==> r == (None, [])
    ensures scanResults.Some? && scanResults.value != [] ==>
      var open := OpenNetworks(scanResults.value);
      r == (recommend(open), [RequestRecommendation(open)])
  {
    if scanResults.None? || scanResults.value == [] then (None, [])
    else
      var open := OpenNetworks(scanResults.value);
      (recommend(open), [RequestRecommendation(open)])
  }

  /** `checkAndSetNotification`. Nothing unless the setting is on and
      Wi-Fi is enabled. Disconnected (a missing network info counts as
      such) or unknown with a recommended network: remember it, count the
      scan, and display from the third scan on. Otherwise remove. */
  function CheckAndSetNotification(c: Controller, scanResults: Option<seq<ScanDetail>>,
                                   recommend: seq<ScanDetail> -> Option<WifiConfig>, now: int)
    : (r: (Controller, seq<Request>))
    ensures !c.notificationEnabled || c.wifiState != WIFI_STATE_ENABLED ==> r == (c, [])
    ensures c.notificationEnabled && c.wifiState == WIFI_STATE_ENABLED ==>
      var state := if c.networkInfo.None? then Disconnected else c.networkInfo.value.state;
      var ask := state in {Disconnected, Unknown} && scanResults.Some?;
      var found := if ask then CheckGoodOpenNetwork(scanResults, recommend).0 else None;
      (found.Some? ==>
        r.0.recommended == found && r.0.numScans == c.numScans + 1 &&
        (r.0.numScans < NUM_SCANS_BEFORE_ACTUALLY_SCANNING || now < c.repeatTime ==>
           r.0.shown == c.shown && r.0.repeatTime == c.repeatTime) &&
        (r.0.numScans >= NUM_SCANS_BEFORE_ACTUALLY_SCANNING && now >= c.repeatTime ==>
           r.0.shown && r.0.repeatTime == now + c.repeatDelayMs) &&
        Cancel !in r.1) &&
      (found.None? ==> r.0 == c.(shown := false) && |r.1| > 0 && r.1[|r.1| - 1] == Cancel)
  {
    if !c.notificationEnabled || c.wifiState != WIFI_STATE_ENABLED then (c, [])
    else
      var state := if c.networkInfo.None? then Disconnected else c.networkInfo.value.state;
      var (found, asked) :=
        if state in {Disconnected, Unknown} && scanResults.Some? then CheckGoodOpenNetwork(scanResults, recommend)
        else (None, []);
      if found.Some? then
        var c1 := c.(recommended := found, numScans := c.numScans + 1);
        if c1.numScans >= NUM_SCANS_BEFORE_ACTUALLY_SCANNING then
          var (c2, shown) := Display(c1, now);
          (c2, asked + shown)
        else (c1, asked)
      else
        var (c1, removed) := Remove(c);
        (c1, asked + removed)
  }

  /** `connectToRecommendedNetwork`: with a recommended network, connect
      to it, show "connecting" and schedule a reset. */
  function ConnectToRecommended(c: Controller): (r: (Controller, seq<Request>))
    ensures c.recommended.None? ==> r == (c, [])
    ensures c.recommended.Some? ==>
      r == (c, [Connect(c.recommended.value), ShowConnecting(c.recommended.value.ssid), PostDelayedReset(RESET_DELAY_MS)])
  {
    match c.recommended
    case None => (c, [])
    case Some(config) => (c, [Connect(config), ShowConnecting(config.ssid), PostDelayedReset(RESET_DELAY_MS)])
  }

  /** `updateNotificationOnConnect`: reset at once unless the notification
      is shown; if shown, show "connected" and schedule a reset. */
  function OnConnect(c: Controller): (r: (Controller, seq<Request>))
    requires Valid(c)
    ensures !c.shown ==> r == Reset(c)
    ensures c.shown ==> r == (c, [ShowConnected(c.recommended.value.ssid), PostDelayedReset(RESET_DELAY_MS)])
  {
    if !c.shown then Reset(c)
    else (c, [ShowConnected(c.recommended.value.ssid), PostDelayedReset(RESET_DELAY_MS)])
  }

  /** The network-state branch: SCANNING and an unchanged detailed state
      are ignored; CONNECTED takes the on-connect path; DISCONNECTED and
      CAPTIVE_PORTAL_CHECK reset; other states are only recorded. */
  function OnNetworkState(c: Controller, info: NetworkInfo): (r: (Controller, seq<Request>))
    requires Valid(c)
    ensures r.0.networkInfo == Some(info)
    ensures info.detailedState == Scanning || info.detailedState == c.detailedState ==>
      r == (c.(networkInfo := Some(info)), [])
    ensures info.detailedState != Scanning && info.detailedState != c.detailedState ==>
      r.0.detailedState == info.detailedState &&
      (info.detailedState in {DDisconnected, CaptivePortalCheck} ==>
        r == Reset(c.(networkInfo := Some(info), detailedState := info.detailedState))) &&
      (info.detailedState !in {DConnected, DDisconnected, CaptivePortalCheck} ==>
        r == (c.(networkInfo := Some(info), detailedState := info.detailedState), []))
  {
    var c1 := c.(networkInfo := Some(info));
    var d := info.detailedState;
    if d == Scanning || d == c.detailedState then (c1, [])
    else
      var c2 := c1.(detailedState := d);
      if d == DConnected then OnConnect(c2)
      else if d == DDisconnected || d == CaptivePortalCheck then Reset(c2)
      else (c2, [])
  }

  /** Some request shows the "networks available" notification. */
  predicate ShowsAvailable(requests: seq<Request>) {
    exists i :: 0 <= i < |requests| && requests[i].ShowAvailable?
  }

  /** The receiver, the settings observer and the delayed reset. Only a
      scan can show the "networks available" notification. */
  function Step(c: Controller, e: Event, recommend: seq<ScanDetail> -> Option<WifiConfig>, now: int)
    : (r: Result<(Controller, seq<Request>), Crash>)
    requires Valid(c)
    ensures r.Failure? <==> e.NetworkStateChanged? && e.info.None?
    ensures r.Success? ==> Valid(r.value.0)
    ensures r.Success? && ShowsAvailable(r.value.1) ==> e.ScanResultsAvailable?
  {
    match e
    case WifiStateChanged(s) => Success(Reset(c.(wifiState := s.GetOr(WIFI_STATE_UNKNOWN))))
    case NetworkStateChanged(info) =>
      if info.None? then Failure(NullNetworkInfo) else Success(OnNetworkState(c, info.value))
    case ScanResultsAvailable(results) => Success(CheckAndSetNotification(c, results, recommend, now))
    case ConnectToWifi => Success(ConnectToRecommended(c))
    case NotificationSettingChanged(on) => Success(Reset(c.(notificationEnabled := on)))
    case DelayedReset => Success(Reset(c))
  }

  /** The controller's scan count after a scan that found an open network,
      with everything else left aside. */
  function ScanWithOpenNetwork(c: Controller, scan: seq<ScanDetail>, recommend: seq<ScanDetail> -> Option<WifiConfig>,
                               now: int): (c': Controller)
  {
    CheckAndSetNotification(c, Some(scan), recommend, now).0
  }

  /** After a reset, with Wi-Fi enabled, the setting on and no connection,
      the first two scans that find an open network do not show the
      notification and the third one does. */
  lemma {:induction false} ThirdScanShows(c: Controller, scan: seq<ScanDetail>,
                                         recommend: seq<ScanDetail> -> Option<WifiConfig>, now: int)
    requires Valid(c) && c.numScans == 0 && c.repeatTime == 0 && !c.shown
    requires c.notificationEnabled && c.wifiState == WIFI_STATE_ENABLED && c.networkInfo.None?
    requires scan != [] && recommend(OpenNetworks(scan)).Some? && now >= 0
    ensures var c1 := ScanWithOpenNetwork(c, scan, recommend, now);
            var c2 := ScanWithOpenNetwork(c1, scan, recommend, now);
            var c3 := ScanWithOpenNetwork(c2, scan, recommend, now);
            !c1.shown && !c2.shown && c3.shown && c3.repeatTime == now + c.repeatDelayMs
  {
    var c1 := ScanWithOpenNetwork(c, scan, recommend, now);
    assert c1 == c.(recommended := recommend(OpenNetworks(scan)), numScans := 1);
    var c2 := ScanWithOpenNetwork(c1, scan, recommend, now);
    assert c2 == c1.(numScans := 2);
    var c3 := ScanWithOpenNetwork(c2, scan, recommend, now);
    assert c3 == c2.(numScans := 3, repeatTime := now + c.repeatDelayMs, shown := true);
  }
}

=== FILE: parcel.dfy ===
/** The wificond parcelables (service/java/com/android/server/wifi/wificond):
    `ChannelSettings`, `HiddenNetwork`, `PnoNetwork`, `PnoSettings` and
    `SingleScanSettings`, with their `writeToParcel` encoders, their
    `CREATOR.createFromParcel` decoders and their copy constructors.

    A parcel is a sequence of tokens: `writeInt` appends an `Int`,
    `writeByteArray` appends one `Bytes`. A decoder consumes a prefix and
    returns what is left; `None` is an exception while decoding (a
    malformed parcel, a negative array size, an array of the wrong length).
    A nullable list is an `Option`. */
module Parcels {
  import opened Wrappers
  import opened JavaStrings

  datatype Token = Int(i: int) | Bytes(b: seq<byte>)

  type Parcel = seq<Token>

  /** `ChannelSettings`. */
  datatype ChannelSettings = ChannelSettings(frequency: int)

  /** `HiddenNetwork` and `PnoNetwork`: both hold only an SSID and share
      one wire format. */
  datatype SsidNetwork = SsidNetwork(ssid: seq<byte>)

  /** `PnoSettings`. */
  datatype PnoSettings = PnoSettings(
    intervalMs: int,
    min2gRssi: int,
    min5gRssi: int,
    pnoNetworks: Option<seq<SsidNetwork>>)

  /** `SingleScanSettings`. */
  datatype SingleScanSettings = SingleScanSettings(
    isFullScan: bool,
    channelSettings: Option<seq<ChannelSettings>>,
    hiddenNetworks: Option<seq<SsidNetwork>>)

  // --- Reading primitives --------------------------------------------------

  /** `Parcel.readInt`. */
  function ReadInt(p: Parcel): (r: Option<(int, Parcel)>)
    ensures r.Some? <==> p != [] && p[0].Int?
    ensures r.Some? ==> [Int(r.value.0)] + r.value.1 == p
  {
    if p != [] && p[0].Int? then Some((p[0].i, p[1..])) else None
  }

  /** `Parcel.readByteArray` into a fresh array of `n` bytes: the next
      array must have exactly that length. */
  function ReadByteArray(n: int, p: Parcel): (r: Option<(seq<byte>, Parcel)>)
    ensures r.Some? ==> |r.value.0| == n && [Bytes(r.value.0)] + r.value.1 == p
  {
    if p != [] && p[0].Bytes? && |p[0].b| == n then Some((p[0].b, p[1..])) else None
  }

  // --- ChannelSettings -----------------------------------------------------

  /** `ChannelSettings.writeToParcel`. */
  function EncodeChannel(c: ChannelSettings): (r: Parcel)
    ensures |r| == 1 && r[0].Int?
    ensures r[0].i == c.frequency
  {
    [Int(c.frequency)]
  }

  /** `ChannelSettings.CREATOR.createFromParcel`. */
  function DecodeChannel(p: Parcel): (r: Option<(ChannelSettings, Parcel)>)
    ensures r.Some? <==> ReadInt(p).Some?
  {
    match ReadInt(p)
    case None => None
    case Some((f, rest)) => Some((ChannelSettings(f), rest))
  }

  /** Decoding an encoded channel gives back its frequency and leaves the
      rest of the parcel. */
  lemma ChannelRoundTrip(c: ChannelSettings, rest: Parcel)
    ensures DecodeChannel(EncodeChannel(c) + rest) == Some((c, rest))
  {
    assert (EncodeChannel(c) + rest)[1..] == rest;
  }

  // --- HiddenNetwork / PnoNetwork ------------------------------------------

  /** `writeToParcel`: the length, then the bytes. */
  function EncodeNetwork(n: SsidNetwork): (r: Parcel)
    ensures |r| == 2 && r[0].Int? && r[1].Bytes?
    ensures r[0].i == |r[1].b| && r[1].b == n.ssid
  {
    [Int(|n.ssid|), Bytes(n.ssid)]
  }

  /** `CREATOR.createFromParcel`: an array of the length read, filled by
      `readByteArray`. A negative length throws. */
  function DecodeNetwork(p: Parcel): (r: Option<(SsidNetwork, Parcel)>)
    ensures r.Some? ==> |p| >= 2 && p[0] == Int(|r.value.0.ssid|) && p[1] == Bytes(r.value.0.ssid)
                        && r.value.1 == p[2..]
    ensures (p != [] && p[0].Int? && p[0].i < 0) ==> r.None?
  {
    match ReadInt(p)
    case None => None
    case Some((n, rest)) =>
      if n < 0 then None
      else
        match ReadByteArray(n, rest)
        case None => None
        case Some((ssid, rest2)) => Some((SsidNetwork(ssid), rest2))
  }

  /** Decoding an encoded network gives byte-equal SSID contents. */
  lemma NetworkRoundTrip(n: SsidNetwork, rest: Parcel)
    ensures DecodeNetwork(EncodeNetwork(n) + rest) == Some((n, rest))
  {
    var p := EncodeNetwork(n) + rest;
    assert p[1..][1..] == rest;
  }

  // --- Lists ---------------------------------------------------------------

  /** The element encodings of a channel list, concatenated in order. */
  function EncodeChannels(cs: seq<ChannelSettings>): (r: Parcel)
    ensures |r| == |cs|
  {
    if cs == [] then [] else EncodeChannel(cs[0]) + EncodeChannels(cs[1..])
  }

  /** The element encodings of a network list, concatenated in order. */
  function EncodeNetworks(ns: seq<SsidNetwork>): (r: Parcel)
    ensures |r| == 2 * |ns|
  {
    if ns == [] then [] else EncodeNetwork(ns[0]) + EncodeNetworks(ns[1..])
  }

  /** A nullable list's count: a null list is written as count 0. */
  function Count<T>(xs: Option<seq<T>>): (r: nat)
    ensures r == 0 <==> xs.None? || xs.value == []
  {
    match xs
    case None => 0
    case Some(s) => |s|
  }

  /** The `for (i = 0; i < count; i++)` loop reading `count` channels. */
  function DecodeChannels(count: int, p: Parcel): (r: Option<(seq<ChannelSettings>, Parcel)>)
    ensures r.Some? ==> |r.value.0| == if count < 0 then 0 else count
    decreases count
  {
    if count <= 0 then Some(([], p))
    else
      match DecodeChannel(p)
      case None => None
      case Some((c, rest)) =>
        match DecodeChannels(count - 1, rest)
        case None => None
        case Some((cs, rest2)) => Some(([c] + cs, rest2))
  }

  /** The same loop reading `count` networks. */
  function DecodeNetworks(count: int, p: Parcel): (r: Option<(seq<SsidNetwork>, Parcel)>)
    ensures r.Some? ==> |r.value.0| == if count < 0 then 0 else count
    decreases count
  {
    if count <= 0 then Some(([], p))
    else
      match DecodeNetwork(p)
      case None => None
      case Some((n, rest)) =>
        match DecodeNetworks(count - 1, rest)
        case None => None
        case Some((ns, rest2)) => Some(([n] + ns, rest2))
  }

  lemma {:induction false} ChannelsRoundTrip(cs: seq<ChannelSettings>, rest: Parcel)
    ensures DecodeChannels(|cs|, EncodeChannels(cs) + rest) == Some((cs, rest))
    decreases |cs|
  {
    if cs != [] {
      var tail := EncodeChannels(cs[1..]) + rest;
      assert EncodeChannels(cs) + rest == EncodeChannel(cs[0]) + tail;
      ChannelRoundTrip(cs[0], tail);
      ChannelsRoundTrip(cs[1..], rest);
      assert [cs[0]] + cs[1..] == cs;
    } else {
      assert EncodeChannels(cs) + rest == rest;
    }
  }

  lemma {:induction false} NetworksRoundTrip(ns: seq<SsidNetwork>, rest: Parcel)
    ensures DecodeNetworks(|ns|, EncodeNetworks(ns) + rest) == Some((ns, rest))
    decreases |ns|
  {
    if ns != [] {
      var tail := EncodeNetworks(ns[1..]) + rest;
      assert EncodeNetworks(ns) + rest == EncodeNetwork(ns[0]) + tail;
      NetworkRoundTrip(ns[0], tail);
      NetworksRoundTrip(ns[1..], rest);
      assert [ns[0]] + ns[1..] == ns;
    } else {
      assert EncodeNetworks(ns) + rest == rest;
    }
  }

  /** What a list looks like after a round trip: the decoder only creates
      the list for a non-zero count, so an empty list comes back null. */
  function Decoded<T>(xs: Option<seq<T>>): (r: Option<seq<T>>)
    ensures r == xs <==> xs != Some([])
    ensures r.Some? ==> r == xs
  {
    if xs == Some([]) then None else xs
  }

  // --- SingleScanSettings --------------------------------------------------

  /** `SingleScanSettings.writeToParcel`. */
  function EncodeSingleScan(s: SingleScanSettings): (r: Parcel)
    ensures |r| == 3 + Count(s.channelSettings) + 2 * Count(s.hiddenNetworks)
    ensures r[0] == Int(if s.isFullScan then 1 else 0)
    ensures r[1] == Int(Count(s.channelSettings))
    ensures r[2 + Count(s.channelSettings)] == Int(Count(s.hiddenNetworks))
  {
    var channels := EncodeChannels(s.channelSettings.GetOr([]));
    [Int(if s.isFullScan then 1 else 0), Int(Count(s.channelSettings))] + channels
      + [Int(Count(s.hiddenNetworks))] + EncodeNetworks(s.hiddenNetworks.GetOr([]))
  }

  /** `SingleScanSettings.CREATOR.createFromParcel`. Any non-zero flag is
      a full scan; a count of 0 leaves a list null, any other count
      creates it (a negative count, an empty one). */
  function DecodeSingleScan(p: Parcel): (r: Option<(SingleScanSettings, Parcel)>)
    ensures r.Some? ==> |p| >= 3 && p[0].Int? && (r.value.0.isFullScan <==> p[0].i != 0)
    ensures r.Some? ==> p[1].Int? && (r.value.0.channelSettings.None? <==> p[1].i == 0)
  {
    match ReadInt(p)
    case None => None
    case Some((flag, p1)) =>
      match ReadInt(p1)
      case None => None
      case Some((nc, p2)) =>
        match DecodeChannels(nc, p2)
        case None => None
        case Some((cs, p3)) =>
          match ReadInt(p3)
          case None => None
          case Some((nh, p4)) =>
            match DecodeNetworks(nh, p4)
            case None => None
            case Some((hs, p5)) =>
              Some((SingleScanSettings(flag != 0, if nc != 0 then Some(cs) else None,
                                       if nh != 0 then Some(hs) else None), p5))
  }

  /** Decoding an encoding keeps the flag and every non-empty list element
      by element; an empty list comes back null. */
  lemma SingleScanRoundTrip(s: SingleScanSettings, rest: Parcel)
    ensures DecodeSingleScan(EncodeSingleScan(s) + rest)
         == Some((s.(channelSettings := Decoded(s.channelSettings),
                     hiddenNetworks := Decoded(s.hiddenNetworks)), rest))
  {
    var cs := s.channelSettings.GetOr([]);
    var hs := s.hiddenNetworks.GetOr([]);
    var p4 := EncodeNetworks(hs) + rest;
    var p3 := [Int(Count(s.hiddenNetworks))] + p4;
    var p2 := EncodeChannels(cs) + p3;
    var p1 := [Int(Count(s.channelSettings))] + p2;
    var p := [Int(if s.isFullScan then 1 else 0)] + p1;
    SingleScanLayout(s, rest, p1, p2, p3, p4);
    ReadIntCons(if s.isFullScan then 1 else 0, p1);
    ReadIntCons(Count(s.channelSettings), p2);
    ReadIntCons(Count(s.hiddenNetworks), p4);
    ChannelsRoundTrip(cs, p3);
    NetworksRoundTrip(hs, rest);
    DecodeSingleScanFields(p, if s.isFullScan then 1 else 0, p1, |cs|, p2, cs, p3, |hs|, p4, hs, rest);
  }

  /** Where the reads of `DecodeSingleScan` land in an encoded setting. */
  lemma SingleScanLayout(s: SingleScanSettings, rest: Parcel, p1: Parcel, p2: Parcel, p3: Parcel, p4: Parcel)
    requires p4 == EncodeNetworks(s.hiddenNetworks.GetOr([])) + rest
    requires p3 == [Int(Count(s.hiddenNetworks))] + p4
    requires p2 == EncodeChannels(s.channelSettings.GetOr([])) + p3
    requires p1 == [Int(Count(s.channelSettings))] + p2
    ensures EncodeSingleScan(s) + rest == [Int(if s.isFullScan then 1 else 0)] + p1
  {
  }

  lemma ReadIntCons(x: int, q: Parcel)
    ensures ReadInt([Int(x)] + q) == Some((x, q))
  {
    assert ([Int(x)] + q)[1..] == q;
  }

  /** `DecodeSingleScan` from the results of its reads. */
  lemma DecodeSingleScanFields(p: Parcel, flag: int, p1: Parcel, nc: int, p2: Parcel, cs: seq<ChannelSettings>,
                               p3: Parcel, nh: int, p4: Parcel, hs: seq<SsidNetwork>, rest: Parcel)
    requires ReadInt(p) == Some((flag, p1)) && ReadInt(p1) == Some((nc, p2))
    requires DecodeChannels(nc, p2) == Some((cs, p3))
    requires ReadInt(p3) == Some((nh, p4)) && DecodeNetworks(nh, p4) == Some((hs, rest))
    ensures DecodeSingleScan(p) == Some((SingleScanSettings(flag != 0, if nc != 0 then Some(cs) else None,
                                       if nh != 0 then Some(hs) else None), rest))
  {
  }

  /** A negative count still creates the list, which stays empty: the
      only way to decode an empty rather than a null list. */
  lemma NegativeCountGivesEmptyList(flag: int, count: int, rest: Parcel)
    requires count < 0
    ensures DecodeSingleScan([Int(flag), Int(count), Int(0)] + rest)
         == Some((SingleScanSettings(flag != 0, Some([]), None), rest))
  {
    var p := [Int(flag), Int(count), Int(0)] + rest;
    assert p[1..][1..][1..] == rest;
  }

  /** An empty list and a null one have the same encoding. */
  lemma EmptyAndNullListsEncodeAlike(s: SingleScanSettings)
    ensures EncodeSingleScan(s.(channelSettings := Some([]))) == EncodeSingleScan(s.(channelSettings := None))
    ensures EncodeSingleScan(s.(hiddenNetworks := Some([]))) == EncodeSingleScan(s.(hiddenNetworks := None))
  {
  }

  /** The copy constructor: the flag and both lists, which must not be
      null (`new ArrayList<>(null)` throws). */
  function CopySingleScan(s: SingleScanSettings): (r: Option<SingleScanSettings>)
    ensures r.Some? <==> s.channelSettings.Some? && s.hiddenNetworks.Some?
    ensures r.Some? ==> EncodeSingleScan(r.value) == EncodeSingleScan(s)
  {
    if s.channelSettings.None? || s.hiddenNetworks.None? then None
    else Some(SingleScanSettings(s.isFullScan, Some(s.channelSettings.value), Some(s.hiddenNetworks.value)))
  }

  // --- PnoSettings ---------------------------------------------------------

  /** `PnoSettings.writeToParcel`. */
  function EncodePno(s: PnoSettings): (r: Parcel)
    ensures |r| == 4 + 2 * Count(s.pnoNetworks)
    ensures r[..4] == [Int(s.intervalMs), Int(s.min2gRssi), Int(s.min5gRssi), Int(Count(s.pnoNetworks))]
  {
    [Int(s.intervalMs), Int(s.min2gRssi), Int(s.min5gRssi), Int(Count(s.pnoNetworks))]
      + EncodeNetworks(s.pnoNetworks.GetOr([]))
  }

  /** `PnoSettings.CREATOR.createFromParcel`: the interval, the two RSSI
      thresholds and the network count, then the networks; a count of 0
      leaves the list null. */
  function DecodePno(p: Parcel): (r: Option<(PnoSettings, Parcel)>)
    ensures r.Some? ==> |p| >= 4 && p[3].Int? && (r.value.0.pnoNetworks.None? <==> p[3].i == 0)
    ensures r.Some? ==> p[..3] == [Int(r.value.0.intervalMs), Int(r.value.0.min2gRssi), Int(r.value.0.min5gRssi)]
  {
    match ReadInt(p)
    case None => None
    case Some((interval, p1)) =>
      match ReadInt(p1)
      case None => None
      case Some((min2g, p2)) =>
        match ReadInt(p2)
        case None => None
        case Some((min5g, p3)) =>
          match ReadInt(p3)
          case None => None
          case Some((count, p4)) =>
            match DecodeNetworks(count, p4)
            case None => None
            case Some((ns, p5)) =>
              var networks := if count != 0 then Some(ns) else None;
              Some((PnoSettings(interval, min2g, min5g, networks), p5))
  }

  /** The network list survives a round trip element by element. */
  lemma {:induction false} PnoNetworksRoundTrip(s: PnoSettings, rest: Parcel)
    ensures DecodePno(EncodePno(s) + rest).Some?
    ensures DecodePno(EncodePno(s) + rest).value.0.pnoNetworks == Decoded(s.pnoNetworks)
    ensures DecodePno(EncodePno(s) + rest).value.1 == rest
  {
    var ns := s.pnoNetworks.GetOr([]);
    var p4 := EncodeNetworks(ns) + rest;
    var p := [Int(s.intervalMs), Int(s.min2gRssi), Int(s.min5gRssi), Int(Count(s.pnoNetworks))] + p4;
    assert EncodePno(s) + rest == p;
    var p1, p2, p3 := p[1..], p[2..], p[3..];
    assert ReadInt(p) == Some((s.intervalMs, p1));
    assert p1[1..] == p2 && ReadInt(p1) == Some((s.min2gRssi, p2));
    assert p2[1..] == p3 && ReadInt(p2) == Some((s.min5gRssi, p3));
    assert p3[1..] == p4 && ReadInt(p3) == Some((Count(s.pnoNetworks), p4));
    NetworksRoundTrip(ns, rest);
  }

  /** Decoding an encoding gives the settings back, except that an empty
      network list comes back null. */
  lemma PnoRoundTrip(s: PnoSettings, rest: Parcel)
    ensures DecodePno(EncodePno(s) + rest) == Some((s.(pnoNetworks := Decoded(s.pnoNetworks)), rest))
  {
    PnoNetworksRoundTrip(s, rest);
    var r := DecodePno(EncodePno(s) + rest).value;
    assert (EncodePno(s) + rest)[..3] == EncodePno(s)[..4][..3];
  }

  /** The copy constructor: only the network list is copied (and must not
      be null); the interval and thresholds are left 0. */
  function CopyPno(s: PnoSettings): (r: Option<PnoSettings>)
    ensures r.Some? <==> s.pnoNetworks.Some?
    ensures r.Some? ==> r.value.pnoNetworks == s.pnoNetworks
    ensures r.Some? ==> r.value.intervalMs == 0 && r.value.min2gRssi == 0 && r.value.min5gRssi == 0
  {
    match s.pnoNetworks
    case None => None
    case Some(ns) => Some(PnoSettings(0, 0, 0, Some(ns)))
  }
}

=== FILE: passpoint_evaluator.dfy ===
/** `PasspointNetworkEvaluator`: picks the best-scoring (scan result,
    Passpoint provider) pair and turns the provider into an ephemeral saved
    network (service/java/com/android/server/wifi/hotspot2/PasspointNetworkEvaluator.java).
    Provider matching, the provider's template configuration and the config
    manager are parameters; a `PasspointMatchInfo` is reduced to its score,
    so `a.compareTo(b) < 0` reads `a.score < b.score`. */
module PasspointEvaluator {
  import opened Wrappers
  import opened WifiTypes

  type ProviderId = nat

  /** One provider matched against one scan result, with its match score. */
  datatype ProviderMatch = ProviderMatch(provider: ProviderId, score: int)

  /** A scan result with the best provider found for it. */
  datatype DetailMatch = DetailMatch(detail: ScanDetail, best: ProviderMatch)

  /** The config manager as the evaluator sees it. */
  datatype ConfigStore = ConfigStore(
    providerConfig: ProviderId -> WifiConfig,
    addOrUpdate: WifiConfig -> Option<int>,
    configuredNetwork: int -> Option<WifiConfig>)

  /** What one `evaluateNetworks` call does. `added` is what it appends to the
      shared connectable list; `stored` the configuration it asked the config
      manager to add; `candidateUpdate` the `(networkId, BSSID, score)` it
      recorded as candidate. */
  datatype Evaluation = Evaluation(
    selected: Option<WifiConfig>,
    added: seq<Candidate>,
    stored: Option<WifiConfig>,
    candidateUpdate: Option<(int, string, int)>)

  function Scores(ms: seq<ProviderMatch>): (r: seq<int>)
    ensures |r| == |ms| && forall i :: 0 <= i < |ms| ==> r[i] == ms[i].score
  {
    seq(|ms|, i requires 0 <= i < |ms| => ms[i].score)
  }

  /** The position a left-to-right "replace when strictly better" scan ends
      on: the first maximal score. */
  function BestIndex(scores: seq<int>): (k: nat)
    requires scores != []
    ensures k < |scores|
    ensures forall j :: 0 <= j < |scores| ==> scores[j] <= scores[k]
    ensures forall j :: 0 <= j < k ==> scores[j] < scores[k]
  {
    if |scores| == 1 then 0
    else
      var k := BestIndex(scores[..|scores| - 1]);
      if scores[k] < scores[|scores| - 1] then |scores| - 1 else k
  }

  /** `getBestMatch`: the first best-scoring provider, or none when no
      provider matched. */
  function GetBestMatch(matches: seq<ProviderMatch>): (r: Option<ProviderMatch>)
    ensures r.None? <==> matches == []
    ensures r.Some? ==> r.value in matches && forall m :: m in matches ==> m.score <= r.value.score
    // a later provider replaces the best only when strictly better, so the
    // first of equally good providers wins
    ensures r.Some? ==>
      exists k :: 0 <= k < |matches| && r.value == matches[k] &&
        forall j :: 0 <= j < k ==> matches[j].score < matches[k].score
  {
    if matches == [] then None
    else
      var k := BestIndex(Scores(matches));
      assert forall m :: m in matches ==> exists j :: 0 <= j < |matches| && matches[j] == m;
      assert forall j :: 0 <= j < k ==> Scores(matches)[j] < Scores(matches)[k];
      Some(matches[k])
  }

  /** The first loop: every interworking scan result with at least one
      matching provider, paired with its best provider, in scan order. */
  function MatchDetails(details: seq<ScanDetail>, matchProvider: ScanDetail -> seq<ProviderMatch>)
    : (r: seq<DetailMatch>)
    ensures |r| <= |details|
    ensures forall e :: e in r ==>
      e.detail in details && e.detail.isInterworking && GetBestMatch(matchProvider(e.detail)) == Some(e.best)
    ensures forall d :: d in details && d.isInterworking && matchProvider(d) != [] ==>
      exists e :: e in r && e.detail == d
  {
    if details == [] then []
    else
      var d := details[0];
      var rest := MatchDetails(details[1..], matchProvider);
      if !d.isInterworking then rest
      else match GetBestMatch(matchProvider(d))
        case None => rest
        case Some(best) =>
          assert DetailMatch(d, best) in [DetailMatch(d, best)] + rest;
          [DetailMatch(d, best)] + rest
  }

  function MatchScores(ms: seq<DetailMatch>): (r: seq<int>)
    ensures |r| == |ms| && forall i :: 0 <= i < |ms| ==> r[i] == ms[i].best.score
  {
    seq(|ms|, i requires 0 <= i < |ms| => ms[i].best.score)
  }

  /** The strict-replace scan over matched results ends on a result that
      beats every earlier one. */
  lemma FirstBestMatch(ms: seq<DetailMatch>)
    requires ms != []
    ensures var k := BestIndex(MatchScores(ms));
            k < |ms| && forall j :: 0 <= j < k ==> ms[j].best.score < ms[k].best.score
  {
    var k := BestIndex(MatchScores(ms));
    assert forall j :: 0 <= j < k ==> MatchScores(ms)[j] < MatchScores(ms)[k];
  }

  /** The best matched result beats or ties every provider matched by
      every interworking result. */
  lemma BestMatchBeatsAll(details: seq<ScanDetail>, matchProvider: ScanDetail -> seq<ProviderMatch>)
    requires MatchDetails(details, matchProvider) != []
    ensures var ms := MatchDetails(details, matchProvider);
            var best := ms[BestIndex(MatchScores(ms))];
            best in ms &&
            forall d', m' :: d' in details && d'.isInterworking && m' in matchProvider(d') ==> m'.score <= best.best.score
  {
    var matched := MatchDetails(details, matchProvider);
    var k := BestIndex(MatchScores(matched));
    forall d', m' | d' in details && d'.isInterworking && m' in matchProvider(d')
      ensures m'.score <= matched[k].best.score
    {
      var e :| e in matched && e.detail == d';
      var j :| 0 <= j < |matched| && matched[j] == e;
      assert MatchScores(matched)[j] <= MatchScores(matched)[k];
    }
  }

  /** `createWifiConfigForProvider`: the provider's template made ephemeral
      with the quoted SSID of the scan result, stored, and read back. */
  function CreateWifiConfigForProvider(provider: ProviderId, detail: ScanDetail, store: ConfigStore)
    : (r: (Option<WifiConfig>, WifiConfig, Option<(int, string, int)>))
    ensures r.1 == store.providerConfig(provider).(ephemeral := true, ssid := Some(Quote(detail.ssid)))
    ensures store.addOrUpdate(r.1).None? ==> r.0.None? && r.2.None?
    ensures store.addOrUpdate(r.1).Some? ==>
      var id := store.addOrUpdate(r.1).value;
      r.0 == store.configuredNetwork(id) && r.2 == Some((id, detail.bssid, 0))
  {
    var config := store.providerConfig(provider).(ephemeral := true, ssid := Some(Quote(detail.ssid)));
    match store.addOrUpdate(config)
    case None => (None, config, None)
    case Some(id) => (store.configuredNetwork(id), config, Some((id, detail.bssid, 0)))
  }

  /** `evaluateNetworks`. */
  function EvaluateNetworks(details: seq<ScanDetail>, matchProvider: ScanDetail -> seq<ProviderMatch>,
                            store: ConfigStore): (r: Evaluation)
    // nothing happens when no interworking result matched a provider
    ensures (forall d :: d in details && d.isInterworking ==> matchProvider(d) == []) ==>
      r == Evaluation(None, [], None, None)
    // otherwise exactly one pair is appended, even when storing the network failed
    ensures r.stored.Some? <==> exists d :: d in details && d.isInterworking && matchProvider(d) != []
    ensures r.stored.Some? ==> |r.added| == 1 && r.added[0].config == r.selected
    ensures r.stored.Some? ==> r.stored.value.ephemeral && r.stored.value.ssid == Some(Quote(r.added[0].detail.ssid))
    // the chosen pair beats or ties every provider matched by every interworking result
    ensures r.stored.Some? ==>
      var d := r.added[0].detail;
      d in details && d.isInterworking &&
      exists m :: m in matchProvider(d) && r.stored.value == store.providerConfig(m.provider).(ephemeral := true, ssid := Some(Quote(d.ssid))) &&
        forall d', m' :: d' in details && d'.isInterworking && m' in matchProvider(d') ==> m'.score <= m.score
    // among matched results the first with the best score wins
    ensures r.stored.Some? ==>
      var ms := MatchDetails(details, matchProvider);
      exists k :: 0 <= k < |ms| && ms[k].detail == r.added[0].detail &&
        r.stored.value == store.providerConfig(ms[k].best.provider).(ephemeral := true, ssid := Some(Quote(ms[k].detail.ssid))) &&
        forall j :: 0 <= j < k ==> ms[j].best.score < ms[k].best.score
  {
    var matched := MatchDetails(details, matchProvider);
    if matched == [] then
      Evaluation(None, [], None, None)
    else
      var k := BestIndex(MatchScores(matched));
      var best := matched[k];
      var created := CreateWifiConfigForProvider(best.best.provider, best.detail, store);
      FirstBestMatch(matched);
      BestMatchBeatsAll(details, matchProvider);
      assert 0 <= k < |matched| && matched[k].detail == best.detail;
      Evaluation(created.0, [Candidate(best.detail, created.0)], Some(created.1), created.2)
  }

  /** Among equally good providers for one scan result the first listed
      wins, so the choice is deterministic for a given match order. */
  lemma TiesKeepFirst(a: ProviderMatch, b: ProviderMatch)
    requires a.score == b.score
    ensures GetBestMatch([a, b]) == Some(a)
  {
    assert BestIndex(Scores([a, b])) == 0;
  }
}

=== FILE: permissions.dfy ===
/** `WifiPermissionsUtil.canAccessScanResults`: whether a caller may read
    scan results (service/java/com/android/server/wifi/util/WifiPermissionsUtil.java).

    The framework's answers (granted permissions, the app-op service, the
    package manager, the user manager, settings) are fields of `Caller` and
    `Framework`. Noting an app-op is the only call with an effect, so the
    model also returns the app-ops noted, in order. */
module Permissions {
  import opened Wrappers

  /** `AppOpsManager.MODE_ALLOWED`. */
  const MODE_ALLOWED: int := 0
  /** `Settings.Secure.LOCATION_MODE_OFF`. */
  const LOCATION_MODE_OFF: int := 0
  /** `Build.VERSION_CODES.M`. */
  const VERSION_M: int := 23

  datatype AppOp = OpFineLocation | OpCoarseLocation | OpWifiScan

  /** The calling app: its package, uid and user, and the permissions it
      holds. */
  datatype Caller = Caller(
    pkgName: string,
    uid: int,
    userId: int,
    peersMacAddress: bool,
    activeNetworkScorer: bool,
    fineLocation: bool,
    coarseLocation: bool,
    interactAcrossUsersFull: bool)

  /** The framework state consulted: the current user and its profiles,
      the package of the top activity, each package's target SDK (`None`
      for an unknown package), the location mode, and the app-op service's
      answer to `noteOp`. */
  datatype Framework = Framework(
    currentUser: int,
    profiles: int -> seq<int>,
    topPkgName: string,
    targetSdk: string -> Option<int>,
    locationMode: int,
    noteOp: (AppOp, int, string) -> int)

  /** The verdict and the app-ops noted while reaching it. */
  datatype Access = Access(granted: bool, noted: seq<AppOp>)

  /** `isMapp` as written: an unknown package leaves the status false,
      so it is treated as a legacy (pre-M) app. */
  function IsMAppAsWritten(targetSdk: Option<int>): (m: bool)
    ensures targetSdk.None? ==> !m
    ensures targetSdk.Some? ==> (m <==> targetSdk.value >= VERSION_M)
  {
    match targetSdk
    case None => false
    case Some(v) => v >= VERSION_M
  }

  /** `isMapp` as its comment intends: an unknown package is assumed to be
      an M app, the stricter reading. */
  function IsMApp(targetSdk: Option<int>): (m: bool)
    ensures targetSdk.None? ==> m
    ensures targetSdk.Some? ==> (m <==> targetSdk.value >= VERSION_M)
  {
    match targetSdk
    case None => true
    case Some(v) => v >= VERSION_M
  }

  /** A pre-M app in the foreground. */
  function LegacyForeground(c: Caller, f: Framework, asWritten: bool): (b: bool)
    ensures b ==> c.pkgName == f.topPkgName
    ensures b <==> c.pkgName == f.topPkgName &&
                   !(if asWritten then IsMAppAsWritten(f.targetSdk(c.pkgName)) else IsMApp(f.targetSdk(c.pkgName)))
  {
    var m := if asWritten then IsMAppAsWritten(f.targetSdk(c.pkgName)) else IsMApp(f.targetSdk(c.pkgName));
    !m && c.pkgName == f.topPkgName
  }

  /** An app-op check: `noteOp` answers `MODE_ALLOWED`. */
  predicate AppOpAllowed(op: AppOp, c: Caller, f: Framework) {
    f.noteOp(op, c.uid, c.pkgName) == MODE_ALLOWED
  }

  /** `isLocationModeEnabled`. */
  function LocationModeEnabled(c: Caller, f: Framework, asWritten: bool): (b: bool)
    ensures b <==> LegacyForeground(c, f, asWritten) || f.locationMode != LOCATION_MODE_OFF
  {
    LegacyForeground(c, f, asWritten) || f.locationMode != LOCATION_MODE_OFF
  }

  /** `checkCallersLocationPermission`: fine location with its app-op, or
      coarse location with its app-op, or a legacy foreground app. Each
      app-op is noted exactly when its permission is held; both checks are
      always made. */
  function CallersLocationPermission(c: Caller, f: Framework, asWritten: bool): (r: Access)
    ensures r.granted <==>
      (c.fineLocation && AppOpAllowed(OpFineLocation, c, f)) ||
      (c.coarseLocation && AppOpAllowed(OpCoarseLocation, c, f)) ||
      LegacyForeground(c, f, asWritten)
    ensures OpFineLocation in r.noted <==> c.fineLocation
    ensures OpCoarseLocation in r.noted <==> c.coarseLocation
    ensures OpWifiScan !in r.noted
  {
    var fine := c.fineLocation && AppOpAllowed(OpFineLocation, c, f);
    var coarse := c.coarseLocation && AppOpAllowed(OpCoarseLocation, c, f);
    var noted := (if c.fineLocation then [OpFineLocation] else []) + (if c.coarseLocation then [OpCoarseLocation] else []);
    Access(fine || coarse || LegacyForeground(c, f, asWritten), noted)
  }

  /** `isCurrentProfile`: the caller's user is the current user or one of
      its profiles. */
  method IsCurrentProfile(c: Caller, f: Framework) returns (stat: bool)
    ensures stat <==> c.userId == f.currentUser || c.userId in f.profiles(f.currentUser)
  {
    stat := false;
    if c.userId == f.currentUser {
      stat := true;
    } else {
      var userProfiles := f.profiles(f.currentUser);
      var i := 0;
      while i < |userProfiles|
        invariant 0 <= i <= |userProfiles|
        invariant stat <==> c.userId in userProfiles[..i]
      {
        if userProfiles[i] == c.userId {
          stat := true;
        }
        assert userProfiles[..i + 1] == userProfiles[..i] + [userProfiles[i]];
        i := i + 1;
      }
      assert userProfiles[..i] == userProfiles;
    }
  }

  /** `canAccessScanResults`, evaluated as the source does with
      short-circuiting `||` and `&&`. */
  method CanAccessScanResults(c: Caller, f: Framework, asWritten: bool) returns (r: Access)
    // the verdict in closed form
    ensures r.granted <==>
      (c.peersMacAddress || c.activeNetworkScorer || LegacyForeground(c, f, asWritten) ||
       (f.locationMode != LOCATION_MODE_OFF &&
        ((c.fineLocation && AppOpAllowed(OpFineLocation, c, f)) ||
         (c.coarseLocation && AppOpAllowed(OpCoarseLocation, c, f))))) &&
      AppOpAllowed(OpWifiScan, c, f) &&
      (c.userId == f.currentUser || c.userId in f.profiles(f.currentUser)) &&
      c.interactAcrossUsersFull
    // location app-ops are noted only for a caller that is neither a
    // peers-MAC holder nor the active scorer
    ensures (c.peersMacAddress || c.activeNetworkScorer) ==> OpFineLocation !in r.noted && OpCoarseLocation !in r.noted
    // the scan app-op is noted iff some route to location access is open
    ensures OpWifiScan in r.noted <==>
      c.peersMacAddress || c.activeNetworkScorer ||
      (LocationModeEnabled(c, f, asWritten) && CallersLocationPermission(c, f, asWritten).granted)
    ensures r.granted ==> OpWifiScan in r.noted
  {
    var noted: seq<AppOp> := [];
    var route := c.peersMacAddress || c.activeNetworkScorer;
    if !route && LocationModeEnabled(c, f, asWritten) {
      var location := CallersLocationPermission(c, f, asWritten);
      noted := location.noted;
      route := location.granted;
    }
    var granted := false;
    if route {
      noted := noted + [OpWifiScan];
      if AppOpAllowed(OpWifiScan, c, f) {
        var current := IsCurrentProfile(c, f);
        granted := current && c.interactAcrossUsersFull;
      }
    }
    r := Access(granted, noted);
  }

  /** With the source's `isMapp`, an unknown package that is in the
      foreground counts as a legacy app: it needs no location permission,
      and location may even be off. */
  lemma UnknownPackageIsLegacyAsWritten(c: Caller, f: Framework)
    requires f.targetSdk(c.pkgName).None? && c.pkgName == f.topPkgName
    ensures LegacyForeground(c, f, true)
    ensures CallersLocationPermission(c, f, true).granted && LocationModeEnabled(c, f, true)
  {
  }

  /** With the intended `isMapp`, an unknown package never counts as a
      legacy app, so location access needs location on and a held
      permission whose app-op is allowed. */
  lemma UnknownPackageNeedsLocation(c: Caller, f: Framework)
    requires f.targetSdk(c.pkgName).None?
    ensures !LegacyForeground(c, f, false)
    ensures LocationModeEnabled(c, f, false) && CallersLocationPermission(c, f, false).granted <==>
      f.locationMode != LOCATION_MODE_OFF &&
      ((c.fineLocation && AppOpAllowed(OpFineLocation, c, f)) ||
       (c.coarseLocation && AppOpAllowed(OpCoarseLocation, c, f)))
  {
  }

  /** The two readings of `isMapp` differ only on unknown packages. */
  lemma KnownPackagesAgree(c: Caller, f: Framework)
    requires f.targetSdk(c.pkgName).Some?
    ensures LegacyForeground(c, f, true) == LegacyForeground(c, f, false)
  {
  }
}

=== FILE: recommended_evaluator.dfy ===
/** `RecommendedNetworkEvaluator`: an evaluator that delegates the choice to
    the network-recommendation provider
    (service/java/com/android/server/wifi/RecommendedNetworkEvaluator.java).
    The config manager's "deleted ephemeral network" memory and the provider's
    answer are parameters. */
module RecommendedEvaluator {
  import opened Wrappers
  import opened WifiTypes

  /** The request built for the recommendation provider. */
  datatype RecommendationRequest = RecommendationRequest(scanResults: seq<ScanDetail>, trustedRequired: bool)

  /** What one `evaluateNetworks` call does: the network it returns, the
      request it sent (if any) and the candidate it records with the config
      manager as `(networkId, candidate BSSID, score)`. */
  datatype Evaluation = Evaluation(
    selected: Option<WifiConfig>,
    request: Option<RecommendationRequest>,
    candidateUpdate: Option<(int, Option<string>, int)>)

  /** `update`: the score request sent, if any. Unlike the selector's own
      cache update it asks whenever some key is missing. */
  function Update(details: seq<ScanDetail>, isScored: ScanDetail -> bool, keyValid: ScanDetail -> bool)
    : (r: Option<seq<NetworkKey>>)
    ensures r.Some? <==> UnscoredKeys(details, isScored, keyValid) != []
    ensures r.Some? ==> r.value == UnscoredKeys(details, isScored, keyValid)
  {
    var keys := UnscoredKeys(details, isScored, keyValid);
    if keys == [] then None else Some(keys)
  }

  /** The scan results whose quoted SSID the user has not deleted as an
      ephemeral network, in scan order. */
  function NotDeleted(details: seq<ScanDetail>, wasDeleted: string -> bool): (r: seq<ScanDetail>)
    ensures |r| <= |details|
    ensures forall d :: d in r <==> d in details && !wasDeleted(Quote(d.ssid))
  {
    if details == [] then []
    else
      var rest := NotDeleted(details[1..], wasDeleted);
      if !wasDeleted(Quote(details[0].ssid)) then [details[0]] + rest else rest
  }

  /** `evaluateNetworks`. `recommend` is the provider's answer, `None` when
      either the result or its configuration is null. */
  function EvaluateNetworks(details: seq<ScanDetail>, untrustedNetworkAllowed: bool,
                            wasDeleted: string -> bool,
                            recommend: RecommendationRequest -> Option<WifiConfig>): (r: Evaluation)
    // the provider is asked exactly when some result survives, about exactly those results
    ensures r.request.Some? <==> exists d :: d in details && !wasDeleted(Quote(d.ssid))
    ensures r.request.Some? ==> r.request.value.scanResults == NotDeleted(details, wasDeleted) &&
                                (r.request.value.trustedRequired <==> !untrustedNetworkAllowed)
    // the returned network is the provider's answer, and only it is recorded as candidate, with score 0
    ensures r.selected.Some? ==> r.request.Some? && r.selected == recommend(r.request.value)
    ensures r.request.Some? ==> r.selected == recommend(r.request.value)
    ensures r.candidateUpdate.Some? <==> r.selected.Some?
    ensures r.selected.Some? ==>
      r.candidateUpdate == Some((r.selected.value.networkId, r.selected.value.candidateBssid, 0))
  {
    var results := NotDeleted(details, wasDeleted);
    if results == [] then
      Evaluation(None, None, None)
    else
      assert results[0] in results;
      var request := RecommendationRequest(results, !untrustedNetworkAllowed);
      match recommend(request)
      case None => Evaluation(None, Some(request), None)
      case Some(config) =>
        Evaluation(Some(config), Some(request), Some((config.networkId, config.candidateBssid, 0)))
  }

  /** When the user deleted none of the scanned SSIDs the provider sees the
      whole scan list, in order. */
  lemma {:induction false} NothingDeletedKeepsAll(details: seq<ScanDetail>, wasDeleted: string -> bool)
    requires forall i :: 0 <= i < |details| ==> !wasDeleted(Quote(details[i].ssid))
    ensures NotDeleted(details, wasDeleted) == details
  {
    if details != [] {
      NothingDeletedKeepsAll(details[1..], wasDeleted);
    }
  }
}

=== FILE: soft_ap_manager.dfy ===
/** `SoftApManager`: the Idle/Started machine that brings a soft AP up
    through wificond's AP interface and reports every AP state change to
    its listener and as a broadcast
    (service/java/com/android/server/wifi/SoftApManager.java).

    The channel selection, the country-code call, the AP interface's
    binder calls and the death link are oracle answers in `Env`. */
module SoftApManager {
  import opened Wrappers

  /** `WifiManager.WIFI_AP_STATE_*`. */
  const WIFI_AP_STATE_DISABLING: int := 10
  const WIFI_AP_STATE_DISABLED: int := 11
  const WIFI_AP_STATE_ENABLING: int := 12
  const WIFI_AP_STATE_ENABLED: int := 13
  const WIFI_AP_STATE_FAILED: int := 14

  /** `WifiManager.SAP_START_FAILURE_*`. */
  const SAP_START_FAILURE_GENERAL: int := 0
  const SAP_START_FAILURE_NO_CHANNEL: int := 1

  /** `ApConfigUtil` result codes. */
  const SUCCESS: int := 0
  const ERROR_NO_CHANNEL: int := 1
  const ERROR_GENERIC: int := 2

  /** `WifiConfiguration.AP_BAND_5GHZ`. */
  const AP_BAND_5GHZ: int := 1

  /** `WifiConfiguration.KeyMgmt` values. */
  const KEY_MGMT_NONE: int := 0
  const KEY_MGMT_WPA_PSK: int := 1
  const KEY_MGMT_WPA2_PSK: int := 4

  /** `IApInterface.ENCRYPTION_TYPE_*`. */
  const ENCRYPTION_TYPE_NONE: int := 0
  const ENCRYPTION_TYPE_WPA: int := 1
  const ENCRYPTION_TYPE_WPA2: int := 2

  /** The fields of a `WifiConfiguration` the soft AP uses; `authType` is
      `getAuthType()`. */
  datatype ApConfig = ApConfig(ssid: Option<string>, apBand: int, authType: int, preSharedKey: Option<string>)

  /** A binder call's outcome: it answers true, answers false, or throws a
      `RemoteException`. */
  datatype Call = Accepted | Refused | Throws

  /** The oracle answers for one start: the death link, the channel
      update's result code and chosen channel, the country-code call, and
      the two hostapd calls. */
  datatype Env = Env(
    linkToDeath: bool,
    channelResult: int,
    channel: int,
    countryCodeSet: bool,
    writeConfig: Call,
    startHostapd: Call)

  /** The configuration handed to hostapd. */
  datatype HostapdConfig = HostapdConfig(ssid: string, channel: int, encryption: int, preSharedKey: string)

  /** `getIApInterfaceEncryptionType`: the two PSK key managements map to
      their encryption types; everything else, including unknown values,
      to none. */
  function EncryptionType(authType: int): (e: int)
    ensures e == ENCRYPTION_TYPE_WPA <==> authType == KEY_MGMT_WPA_PSK
    ensures e == ENCRYPTION_TYPE_WPA2 <==> authType == KEY_MGMT_WPA2_PSK
    ensures e == ENCRYPTION_TYPE_NONE <==> authType != KEY_MGMT_WPA_PSK && authType != KEY_MGMT_WPA2_PSK
  {
    if authType == KEY_MGMT_WPA_PSK then ENCRYPTION_TYPE_WPA
    else if authType == KEY_MGMT_WPA2_PSK then ENCRYPTION_TYPE_WPA2
    else ENCRYPTION_TYPE_NONE
  }

  /** `startSoftAp`: the result code and the configuration written to
      hostapd, if the start got that far. A missing configuration or SSID
      is a generic error; a failed channel update returns its own code; a
      failed country code is an error only on the 5 GHz band. A
      `RemoteException` from either hostapd call is caught and the start
      falls through to success. */
  function StartSoftAp(config: Option<ApConfig>, countryCode: Option<string>, env: Env): (r: (int, Option<HostapdConfig>))
    ensures (config.None? || config.value.ssid.None?) ==> r == (ERROR_GENERIC, None)
    ensures config.Some? && config.value.ssid.Some? && env.channelResult != SUCCESS ==> r == (env.channelResult, None)
    ensures r.1.Some? <==>
      config.Some? && config.value.ssid.Some? && env.channelResult == SUCCESS &&
      !(countryCode.Some? && !env.countryCodeSet && config.value.apBand == AP_BAND_5GHZ)
    ensures r.1.Some? ==>
      r.1.value.ssid == config.value.ssid.value && r.1.value.channel == env.channel &&
      r.1.value.encryption == EncryptionType(config.value.authType) &&
      r.1.value.preSharedKey == config.value.preSharedKey.GetOr("")
    ensures r.1.Some? ==>
      (r.0 == SUCCESS <==> env.writeConfig != Refused && (env.writeConfig == Throws || env.startHostapd != Refused))
    ensures r.0 == SUCCESS ==> r.1.Some?
  {
    if config.None? || config.value.ssid.None? then (ERROR_GENERIC, None)
    else
      var c := config.value;
      if env.channelResult != SUCCESS then (env.channelResult, None)
      else if countryCode.Some? && !env.countryCodeSet && c.apBand == AP_BAND_5GHZ then (ERROR_GENERIC, None)
      else
        var hostapd := HostapdConfig(c.ssid.value, env.channel, EncryptionType(c.authType), c.preSharedKey.GetOr(""));
        var code :=
          match env.writeConfig
          case Refused => ERROR_GENERIC
          case Throws => SUCCESS
          case Accepted => if env.startHostapd == Refused then ERROR_GENERIC else SUCCESS;
        (code, Some(hostapd))
  }

  /** `getApStateName`: total, with a fixed text for unknown values. */
  function ApStateName(state: int): (name: string)
    ensures name != "[invalid state]" <==> WIFI_AP_STATE_DISABLING <= state <= WIFI_AP_STATE_FAILED
  {
    if state == WIFI_AP_STATE_DISABLING then "disabling"
    else if state == WIFI_AP_STATE_DISABLED then "disabled"
    else if state == WIFI_AP_STATE_ENABLING then "enabling"
    else if state == WIFI_AP_STATE_ENABLED then "enabled"
    else if state == WIFI_AP_STATE_FAILED then "failed"
    else "[invalid state]"
  }

  /** The names of the five AP states are pairwise distinct. */
  lemma ApStateNamesDistinct(a: int, b: int)
    requires WIFI_AP_STATE_DISABLING <= a <= WIFI_AP_STATE_FAILED
    requires WIFI_AP_STATE_DISABLING <= b <= WIFI_AP_STATE_FAILED
    ensures ApStateName(a) == ApStateName(b) <==> a == b
  {
  }

  datatype Phase = Idle | Started

  /** The manager: its machine's state, `mCurrentState`, and whether the
      death recipient is linked. */
  datatype Manager = Manager(phase: Phase, currentState: int, linked: bool)

  datatype Msg = CmdStart(config: Option<ApConfig>) | CmdStop | CmdApInterfaceBinderDeath

  /** One `updateApState`: the listener hears the state and reason; the
      broadcast carries the state, the previous state, and the reason only
      for FAILED. */
  datatype Report = Report(state: int, previous: int, listenerReason: int, broadcastReason: Option<int>)

  /** The other effects of handling a message. */
  datatype Request = UnlinkToDeath | WriteHostapd(config: HostapdConfig) | StopHostapd

  /** The manager as constructed, after its Idle state's entry. */
  function Initial(): (m: Manager)
    ensures m.phase == Idle && m.currentState == WIFI_AP_STATE_DISABLED && !m.linked
  {
    Manager(Idle, WIFI_AP_STATE_DISABLED, false)
  }

  /** `updateApState`. */
  function UpdateApState(m: Manager, state: int, reason: int): (r: (Manager, Report))
    ensures r.0 == m.(currentState := state)
    ensures r.1.state == state && r.1.previous == m.currentState && r.1.listenerReason == reason
    ensures r.1.broadcastReason.Some? <==> state == WIFI_AP_STATE_FAILED
    ensures r.1.broadcastReason.Some? ==> r.1.broadcastReason.value == reason
  {
    (m.(currentState := state),
     Report(state, m.currentState, reason, if state == WIFI_AP_STATE_FAILED then Some(reason) else None))
  }

  /** Each report's previous state is the state reported before it,
      starting from `from`. */
  predicate Chained(from: int, reports: seq<Report>) {
    (|reports| > 0 ==> reports[0].previous == from) &&
    forall i :: 0 < i < |reports| ==> reports[i].previous == reports[i - 1].state
  }

  /** The states reported, in order. */
  function States(reports: seq<Report>): (s: seq<int>)
    ensures |s| == |reports| && forall i :: 0 <= i < |s| ==> s[i] == reports[i].state
  {
    if reports == [] then [] else [reports[0].state] + States(reports[1..])
  }

  /** Three `updateApState` calls in a row, the state changes a message
      handler makes; `Report`s for the ones made. */
  function Update(m: Manager, states: seq<(int, int)>): (r: (Manager, seq<Report>))
    ensures |r.1| == |states|
    ensures forall i :: 0 <= i < |states| ==> r.1[i].state == states[i].0 && r.1[i].listenerReason == states[i].1
    ensures Chained(m.currentState, r.1)
    ensures r.0 == (if states == [] then m else m.(currentState := states[|states| - 1].0))
    decreases |states|
  {
    if states == [] then (m, [])
    else
      var first := UpdateApState(m, states[0].0, states[0].1);
      var rest := Update(first.0, states[1..]);
      (rest.0, [first.1] + rest.1)
  }

  /** The manager's invariant: it is Started exactly when it last reported
      ENABLED, and the death recipient is linked exactly while Started. */
  ghost predicate Valid(m: Manager) {
    (m.phase == Started <==> m.currentState == WIFI_AP_STATE_ENABLED) && (m.linked <==> m.phase == Started)
  }

  /** The machine handling one message. */
  function Handle(m: Manager, msg: Msg, countryCode: Option<string>, env: Env): (r: (Manager, seq<Report>, seq<Request>))
    // a start from Idle reports ENABLING first, then ENABLED and Started,
    // or FAILED and Idle
    ensures m.phase == Idle && msg.CmdStart? ==>
      |r.1| == 2 && r.1[0].state == WIFI_AP_STATE_ENABLING &&
      (r.0.phase == Started <==> r.1[1].state == WIFI_AP_STATE_ENABLED) &&
      (r.0.phase == Idle <==> r.1[1].state == WIFI_AP_STATE_FAILED)
    // a start fails for the missing channel with its own reason
    ensures m.phase == Idle && msg.CmdStart? && env.linkToDeath && r.0.phase == Idle ==>
      (r.1[1].listenerReason == SAP_START_FAILURE_NO_CHANNEL <==>
       StartSoftAp(msg.config, countryCode, env).0 == ERROR_NO_CHANNEL)
    ensures m.phase == Idle && msg.CmdStart? ==>
      (r.0.phase == Started <==> env.linkToDeath && StartSoftAp(msg.config, countryCode, env).0 == SUCCESS)
    // every other message in Idle is ignored, and so is a start in Started
    ensures (m.phase == Idle && !msg.CmdStart?) || (m.phase == Started && msg.CmdStart?) ==> r == (m, [], [])
    // stop and binder death in Started report DISABLING then DISABLED or
    // FAILED, and return to Idle
    ensures m.phase == Started && !msg.CmdStart? ==>
      r.0.phase == Idle && States(r.1) ==
        [WIFI_AP_STATE_DISABLING, if msg.CmdStop? then WIFI_AP_STATE_DISABLED else WIFI_AP_STATE_FAILED]
    ensures Chained(m.currentState, r.1)
    ensures Valid(m) ==> Valid(r.0)
  {
    match m.phase
    case Idle =>
      (match msg
       case CmdStart(config) =>
         if !env.linkToDeath then
           var u := Update(m, [(WIFI_AP_STATE_ENABLING, 0), (WIFI_AP_STATE_FAILED, SAP_START_FAILURE_GENERAL)]);
           (u.0.(linked := false), u.1, [UnlinkToDeath])
         else
           var start := StartSoftAp(config, countryCode, env);
           var written := if start.1.Some? then [WriteHostapd(start.1.value)] else [];
           if start.0 != SUCCESS then
             var reason := if start.0 == ERROR_NO_CHANNEL then SAP_START_FAILURE_NO_CHANNEL else SAP_START_FAILURE_GENERAL;
             var u := Update(m, [(WIFI_AP_STATE_ENABLING, 0), (WIFI_AP_STATE_FAILED, reason)]);
             (u.0.(linked := false), u.1, written + [UnlinkToDeath])
           else
             var u := Update(m, [(WIFI_AP_STATE_ENABLING, 0), (WIFI_AP_STATE_ENABLED, 0)]);
             (u.0.(phase := Started, linked := true), u.1, written)
       case _ => (m, [], []))
    case Started =>
      if msg.CmdStart? then (m, [], [])
      else
        var last := if msg.CmdStop? then (WIFI_AP_STATE_DISABLED, 0) else (WIFI_AP_STATE_FAILED, SAP_START_FAILURE_GENERAL);
        var u := Update(m, [(WIFI_AP_STATE_DISABLING, 0), last]);
        // the Idle state's entry unlinks the death recipient
        (u.0.(phase := Idle, linked := false), u.1, [StopHostapd, UnlinkToDeath])
  }

  /** A full cycle from a fresh manager: a successful start followed by a
      stop reports ENABLING, ENABLED, DISABLING, DISABLED, each naming the
      one before it as previous, and ends Idle. */
  lemma {:induction false} StartThenStop(config: ApConfig, countryCode: Option<string>, env: Env)
    requires env.linkToDeath && StartSoftAp(Some(config), countryCode, env).0 == SUCCESS
    ensures var a := Handle(Initial(), CmdStart(Some(config)), countryCode, env);
            var b := Handle(a.0, CmdStop, countryCode, env);
            b.0 == Initial() &&
            States(a.1 + b.1) == [WIFI_AP_STATE_ENABLING, WIFI_AP_STATE_ENABLED, WIFI_AP_STATE_DISABLING, WIFI_AP_STATE_DISABLED] &&
            Chained(WIFI_AP_STATE_DISABLED, a.1 + b.1)
  {
    var a := Handle(Initial(), CmdStart(Some(config)), countryCode, env);
    assert a.0.phase == Started;
    var b := Handle(a.0, CmdStop, countryCode, env);
    assert a.0.currentState == WIFI_AP_STATE_ENABLED;
    assert Chained(WIFI_AP_STATE_ENABLED, b.1);
    ChainedAppend(WIFI_AP_STATE_DISABLED, a.1, b.1);
  }

  /** Chains compose: a chain from the last state of the first part. */
  lemma ChainedAppend(from: int, xs: seq<Report>, ys: seq<Report>)
    requires |xs| > 0 && Chained(from, xs) && Chained(xs[|xs| - 1].state, ys)
    ensures Chained(from, xs + ys)
  {
    var zs := xs + ys;
    assert zs[0] == xs[0];
    forall i | 0 < i < |zs|
      ensures zs[i].previous == zs[i - 1].state
    {
      if i > |xs| {
        assert zs[i] == ys[i - |xs|] && zs[i - 1] == ys[i - |xs| - 1];
      } else if i == |xs| {
        assert zs[i] == ys[0] && zs[i - 1] == xs[|xs| - 1];
      } else {
        assert zs[i] == xs[i] && zs[i - 1] == xs[i - 1];
      }
    }
  }
}

=== FILE: state_machine_prime.dfy ===
/** `WifiStateMachinePrime`: the mode switch between client, scan-only,
    soft-AP and disabled, run by a hierarchical state machine whose active
    modes sit under their inactive base modes
    (service/java/com/android/server/wifi/WifiStateMachinePrime.java).

    The framework's hierarchical state machine is written out: a message is
    offered to the current state and, unhandled, to its parent; a
    transition requested while handling runs after the handler, exiting the
    states below the common ancestor and entering those above it, and a
    transition requested by an `enter` is performed next. wificond and the
    mode-manager factory are parameters; their effects are returned as
    requests. */
module StateMachinePrime {
  import opened Wrappers

  /** `WifiManager.WIFI_STATE_DISABLED` / `WIFI_STATE_UNKNOWN`. */
  const WIFI_STATE_DISABLED: int := 1
  const WIFI_STATE_UNKNOWN: int := 4
  /** `WifiManager.WIFI_AP_STATE_DISABLED` / `WIFI_AP_STATE_FAILED`. */
  const WIFI_AP_STATE_DISABLED: int := 11
  const WIFI_AP_STATE_FAILED: int := 14

  /** The seven states: four base modes, three of them with an active
      child. */
  datatype Mode =
    | WifiDisabled
    | ClientMode | ClientModeActive
    | ScanOnlyMode | ScanOnlyModeActive
    | SoftApMode | SoftApModeActive

  /** The mode commands and the wifi/AP messages the states handle. */
  datatype Msg =
    | CmdStartClientMode | CmdStartScanOnlyMode | CmdStartSoftApMode | CmdDisableWifi
    | CmdStartAp | CmdStartApFailure | CmdStopAp | CmdApStopped
    | CmdStartWifi | CmdStartWifiFailure | CmdStopWifi | CmdWifiStopped

  /** A soft-AP configuration; only whether its SSID is null matters here. */
  datatype ApConfig = ApConfig(ssid: Option<string>)

  /** A fresh `WifiConfiguration`: its SSID is null. */
  const FRESH_CONFIG: ApConfig := ApConfig(None)

  datatype ManagerKind = ClientManager | ScanOnlyManager | SoftApManager

  /** What the machine asks of wificond, the mode managers and the
      broadcast service. */
  datatype Request =
    | MakeWificond
    | TearDownInterfaces
    | CreateClientInterface
    | CreateApInterface
    | MakeManager(kind: ManagerKind, config: Option<ApConfig>)
    | StartManager
    | StopManager
    | SaveApConfig(saved: ApConfig)
    | BroadcastApStartFailure

  /** wificond's answers during one step: whether `makeWificond` returns
      an instance and whether the interface creation returns one. */
  datatype Env = Env(wificondAvailable: bool, interfaceCreated: bool)

  /** The owner's fields and the machine (absent until the first mode
      command other than disable). `hasManager` is the active state's
      manager reference. */
  datatype Prime = Prime(
    started: bool,
    mode: Mode,
    queue: seq<Msg>,
    apConfigQueue: seq<ApConfig>,
    wificond: bool,
    hasManager: bool)

  /** The calls made on the owner: the four mode changes, the mode
      managers' listener callbacks, and the machine's looper taking the next
      message. */
  datatype Event =
    | EnterClientMode
    | EnterScanOnlyMode
    | EnterSoftApMode(config: Option<ApConfig>)
    | DisableWifi
    | WifiListener(state: int)
    | SoftApListener(state: int)
    | ProcessNextMessage

  function Parent(m: Mode): Option<Mode> {
    match m
    case ClientModeActive => Some(ClientMode)
    case ScanOnlyModeActive => Some(ScanOnlyMode)
    case SoftApModeActive => Some(SoftApMode)
    case _ => None
  }

  predicate IsActiveMode(m: Mode) {
    m == ClientModeActive || m == ScanOnlyModeActive || m == SoftApModeActive
  }

  /** `State.getName()` of each state. */
  function ModeName(m: Mode): string {
    match m
    case WifiDisabled => "WifiDisabledState"
    case ClientMode => "ClientModeState"
    case ClientModeActive => "ClientModeActiveState"
    case ScanOnlyMode => "ScanOnlyModeState"
    case ScanOnlyModeActive => "ScanOnlyModeActiveState"
    case SoftApMode => "SoftAPModeState"
    case SoftApModeActive => "SoftAPModeActiveState"
  }

  /** The owner before any mode command: no machine, and wificond's
      interfaces torn down at construction (if it answered). */
  function Initial(wificondAtBoot: bool): (p: Prime)
    ensures !p.started && p.apConfigQueue == [] && p.queue == []
  {
    Prime(false, WifiDisabled, [], [], wificondAtBoot, false)
  }

  /** `getCurrentMode`. */
  function CurrentMode(p: Prime): (name: string)
    ensures !p.started ==> name == "WifiDisabledState"
    ensures p.started ==> name == ModeName(p.mode)
  {
    if p.started then ModeName(p.mode) else "WifiDisabledState"
  }

  /** Once the machine runs, the reported name identifies the current
      state; the active soft-AP state reports its class name
      `SoftAPModeActiveState`. */
  lemma CurrentModeIdentifiesState(p: Prime, q: Prime)
    requires p.started && q.started
    ensures CurrentMode(p) == CurrentMode(q) <==> p.mode == q.mode
    ensures p.mode == SoftApModeActive ==> CurrentMode(p) == "SoftAPModeActiveState"
  {
  }

  // ---------------------------------------------------------------------
  // Message handling

  /** The destination of a mode command (`checkForAndHandleModeChange`). */
  function ModeChange(m: Msg): (dest: Option<Mode>)
    ensures dest.Some? <==> m in {CmdStartClientMode, CmdStartScanOnlyMode, CmdStartSoftApMode, CmdDisableWifi}
    ensures dest.Some? ==> Parent(dest.value).None?
  {
    match m
    case CmdStartClientMode => Some(ClientMode)
    case CmdStartScanOnlyMode => Some(ScanOnlyMode)
    case CmdStartSoftApMode => Some(SoftApMode)
    case CmdDisableWifi => Some(WifiDisabled)
    case _ => None
  }

  /** What a state's `processMessage` did: whether it handled the message,
      the transition it asked for, and its effects. */
  datatype Handling = Handling(handled: bool, dest: Option<Mode>, p: Prime, requests: seq<Request>)

  /** One state's `processMessage`, without passing the message on. */
  function ProcessIn(s: Mode, p: Prime, m: Msg): (h: Handling)
    ensures !h.handled ==> h.dest.None? && h.p == p && h.requests == []
    ensures ModeChange(m).Some? && !IsActiveMode(s) ==> h == Handling(true, ModeChange(m), p, [])
    ensures IsActiveMode(s) && ModeChange(m).Some? ==> !h.handled
    ensures h.dest != Some(ClientModeActive) && |h.p.apConfigQueue| <= |p.apConfigQueue|
    ensures h.p.mode == p.mode
  {
    if IsActiveMode(s) then
      match s
      case ScanOnlyModeActive =>
        if m == CmdStartWifi then Handling(true, None, p, [])
        else if m == CmdStartWifiFailure || m == CmdWifiStopped then Handling(true, Some(ScanOnlyMode), p, [])
        else Handling(false, None, p, [])
      case SoftApModeActive =>
        if m == CmdStartAp then Handling(true, None, p, [])
        else if m == CmdStopAp then Handling(true, None, p, [StopManager])
        else if m == CmdStartApFailure then Handling(true, Some(SoftApMode), p, [])
        else if m == CmdApStopped then Handling(true, Some(SoftApMode), p.(hasManager := false), [])
        else Handling(false, None, p, [])
      case _ => Handling(false, None, p, [])
    else if ModeChange(m).Some? then Handling(true, ModeChange(m), p, [])
    else if s == ScanOnlyMode && (m == CmdStartWifi || m == CmdStartWifiFailure) then Handling(true, None, p, [])
    else if s == SoftApMode && (m == CmdStartAp || m == CmdStopAp || m == CmdApStopped) then Handling(true, None, p, [])
    else if s == SoftApMode && m == CmdStartApFailure then
      // the unused configuration is dropped; a named one is kept for later
      if p.apConfigQueue == [] then Handling(true, None, p, [BroadcastApStartFailure])
      else
        var config := p.apConfigQueue[0];
        var saved := if config.ssid.Some? then [SaveApConfig(config)] else [];
        Handling(true, None, p.(apConfigQueue := p.apConfigQueue[1..]), saved + [BroadcastApStartFailure])
    else Handling(false, None, p, [])
  }

  /** The message offered to the current state and, if unhandled, to its
      parent; a message nobody handles is dropped. */
  function Dispatch(p: Prime, m: Msg): (h: Handling)
    ensures ModeChange(m).Some? ==> h == Handling(true, ModeChange(m), p, [])
    ensures h.dest.Some? ==> h.handled
    ensures h.dest != Some(ClientModeActive) && |h.p.apConfigQueue| <= |p.apConfigQueue|
    ensures h.p.mode == p.mode
  {
    var own := ProcessIn(p.mode, p, m);
    if own.handled then own
    else match Parent(p.mode)
      case None => own
      case Some(parent) => ProcessIn(parent, p, m)
  }

  // ---------------------------------------------------------------------
  // Transitions

  /** The states to enter for a transition to `dest`, outermost first, and
      the common ancestor left standing: `dest`, preceded by its parent when
      the parent is not already active. A transition to the current state
      or to its own parent exits and re-enters it. */
  function StatesToEnter(cur: Mode, dest: Mode): (r: (seq<Mode>, Option<Mode>))
    ensures |r.0| > 0 && r.0[|r.0| - 1] == dest
    ensures r.1.Some? ==> Parent(dest) == r.1 && (r.1.value == cur || Parent(cur) == r.1)
  {
    match Parent(dest)
    case None => ([dest], None)
    case Some(parent) =>
      if parent == cur || Parent(cur) == Some(parent) then ([dest], Some(parent)) else ([parent, dest], None)
  }

  /** The states to exit, innermost first: the active states below the
      common ancestor. */
  function StatesToExit(cur: Mode, common: Option<Mode>): (r: seq<Mode>)
    ensures common.None? ==> r == [cur] + (if Parent(cur).Some? then [Parent(cur).value] else [])
    ensures common == Some(cur) ==> r == []
  {
    if common == Some(cur) then []
    else if common.Some? && Parent(cur) == common then [cur]
    else [cur] + (if Parent(cur).Some? then [Parent(cur).value] else [])
  }

  /** A state's `exit`: the base scan-only and soft-AP modes tear down
      wificond's interfaces and drop it; an active mode stops its manager
      if it still has one. */
  function Exit(s: Mode, p: Prime): (r: (Prime, seq<Request>))
    ensures s in {ScanOnlyMode, SoftApMode} ==> !r.0.wificond
    ensures r.0.mode == p.mode && r.0.queue == p.queue && r.0.apConfigQueue == p.apConfigQueue
  {
    if s == ScanOnlyMode || s == SoftApMode then
      (p.(wificond := false), if p.wificond then [TearDownInterfaces] else [])
    else if IsActiveMode(s) && p.hasManager then (p, [StopManager])
    else (p, [])
  }

  /** A state's `enter`, with `m` the message being handled. The base
      scan-only and soft-AP modes set up an interface only when `m` is
      their own start command, and post a failure or move on to the active
      mode; the active soft-AP mode takes one queued configuration and hands
      it on only if its SSID is set. */
  function Enter(s: Mode, p: Prime, m: Msg, env: Env): (r: (Prime, seq<Request>, Option<Mode>))
    ensures r.2.Some? ==> Parent(r.2.value) == Some(s)
    ensures IsActiveMode(s) ==> r.2.None? && r.0.hasManager
    ensures r.0.mode == p.mode
    ensures s == ScanOnlyMode && m != CmdStartScanOnlyMode ==> r == (p, [], None)
    ensures s == SoftApMode && m != CmdStartSoftApMode ==> r == (p, [], None)
    ensures s == SoftApModeActive ==>
      r.0.apConfigQueue == (if p.apConfigQueue == [] then [] else p.apConfigQueue[1..]) &&
      MakeManager(SoftApManager,
        if p.apConfigQueue != [] && p.apConfigQueue[0].ssid.Some? then Some(p.apConfigQueue[0]) else None) in r.1
    ensures r.2 != Some(ClientModeActive) && |r.0.apConfigQueue| <= |p.apConfigQueue|
  {
    match s
    case WifiDisabled => (p, [], None)
    case ClientMode => (p.(wificond := env.wificondAvailable), [MakeWificond], None)
    case ScanOnlyMode =>
      if m != CmdStartScanOnlyMode then (p, [], None)
      else if !env.wificondAvailable then
        (p.(wificond := false, queue := p.queue + [CmdStartWifiFailure]), [MakeWificond], None)
      else if !env.interfaceCreated then
        (p.(wificond := true, queue := p.queue + [CmdStartWifiFailure]),
         [MakeWificond, TearDownInterfaces, CreateClientInterface], None)
      else (p.(wificond := true), [MakeWificond, TearDownInterfaces, CreateClientInterface], Some(ScanOnlyModeActive))
    case SoftApMode =>
      if m != CmdStartSoftApMode then (p, [], None)
      else if !env.wificondAvailable then
        (p.(wificond := false, queue := p.queue + [CmdStartApFailure]), [MakeWificond], None)
      else if !env.interfaceCreated then
        (p.(wificond := true, queue := p.queue + [CmdStartApFailure]),
         [MakeWificond, TearDownInterfaces, CreateApInterface], None)
      else (p.(wificond := true), [MakeWificond, TearDownInterfaces, CreateApInterface], Some(SoftApModeActive))
    case ClientModeActive => (p.(hasManager := true), [MakeManager(ClientManager, None)], None)
    case ScanOnlyModeActive => (p.(hasManager := true), [MakeManager(ScanOnlyManager, None), StartManager], None)
    case SoftApModeActive =>
      var config := if p.apConfigQueue != [] && p.apConfigQueue[0].ssid.Some? then Some(p.apConfigQueue[0]) else None;
      var rest := if p.apConfigQueue == [] then [] else p.apConfigQueue[1..];
      (p.(apConfigQueue := rest, hasManager := true), [MakeManager(SoftApManager, config), StartManager], None)
  }

  function ExitAll(states: seq<Mode>, p: Prime): (r: (Prime, seq<Request>))
    ensures r.0.mode == p.mode && r.0.queue == p.queue && r.0.apConfigQueue == p.apConfigQueue
  {
    if states == [] then (p, [])
    else
      var first := Exit(states[0], p);
      var rest := ExitAll(states[1..], first.0);
      (rest.0, first.1 + rest.1)
  }

  /** Entering `states` in order; the last transition an `enter` asks for
      wins. */
  function EnterAll(states: seq<Mode>, p: Prime, m: Msg, env: Env): (r: (Prime, seq<Request>, Option<Mode>))
    ensures r.0.mode == p.mode
    ensures |states| > 0 && IsActiveMode(states[|states| - 1]) ==> r.2.None? && r.0.hasManager
    ensures |states| > 0 && !IsActiveMode(states[|states| - 1]) && r.2.Some? ==>
      Parent(r.2.value) == Some(states[|states| - 1])
    ensures r.2 != Some(ClientModeActive) && |r.0.apConfigQueue| <= |p.apConfigQueue|
  {
    if states == [] then (p, [], None)
    else
      var first := Enter(states[0], p, m, env);
      if |states| == 1 then first
      else
        var rest := EnterAll(states[1..], first.0, m, env);
        assert states[1..][|states[1..]| - 1] == states[|states| - 1];
        (rest.0, first.1 + rest.1, rest.2)
  }

  /** One round of `performTransitions`: exit up to the common ancestor,
      make `dest` current, enter down to it. */
  function TransitionOnce(p: Prime, dest: Mode, m: Msg, env: Env): (r: (Prime, seq<Request>, Option<Mode>))
    ensures r.0.mode == dest
    ensures IsActiveMode(dest) ==> r.2.None? && r.0.hasManager
    ensures r.2.Some? ==> Parent(r.2.value) == Some(dest)
    ensures r.2 != Some(ClientModeActive) && |r.0.apConfigQueue| <= |p.apConfigQueue|
  {
    var path := StatesToEnter(p.mode, dest);
    var exits := ExitAll(StatesToExit(p.mode, path.1), p);
    var enters := EnterAll(path.0, exits.0.(mode := dest), m, env);
    (enters.0, exits.1 + enters.1, enters.2)
  }

  /** `performTransitions`: a transition an `enter` asked for is made in a
      second round; that round enters an active mode, which asks for none. */
  function PerformTransitions(p: Prime, dest: Mode, m: Msg, env: Env): (r: (Prime, seq<Request>))
    ensures r.0.mode == dest || Parent(r.0.mode) == Some(dest)
    ensures IsActiveMode(r.0.mode) ==> r.0.hasManager
    ensures dest != ClientModeActive ==> r.0.mode != ClientModeActive
    ensures |r.0.apConfigQueue| <= |p.apConfigQueue|
  {
    var first := TransitionOnce(p, dest, m, env);
    match first.2
    case None => (first.0, first.1)
    case Some(d) =>
      var second := TransitionOnce(first.0, d, m, env);
      (second.0, first.1 + second.1)
  }

  /** The machine handling message `m`: dispatch, then transitions. */
  function HandleMessage(p: Prime, m: Msg, env: Env): (r: (Prime, seq<Request>))
    ensures ModeChange(m).Some? ==> r.0.mode == ModeChange(m).value || Parent(r.0.mode) == ModeChange(m)
    ensures (IsActiveMode(p.mode) ==> p.hasManager) ==> (IsActiveMode(r.0.mode) ==> r.0.hasManager)
    ensures p.mode != ClientModeActive ==> r.0.mode != ClientModeActive
    ensures |r.0.apConfigQueue| <= |p.apConfigQueue|
  {
    var h := Dispatch(p, m);
    match h.dest
    case None => (h.p, h.requests)
    case Some(d) =>
      var (p1, t) := PerformTransitions(h.p, d, m, env);
      (p1, h.requests + t)
  }

  // ---------------------------------------------------------------------
  // The owner

  /** `changeMode`: a disable before the machine exists does nothing;
      otherwise the machine is created (in the disabled state) if needed
      and the command is queued. */
  function ChangeMode(p: Prime, cmd: Msg): (p': Prime)
    requires ModeChange(cmd).Some?
    ensures !p.started && cmd == CmdDisableWifi ==> p' == p
    ensures !(!p.started && cmd == CmdDisableWifi) ==>
      p'.started && p'.queue == (if p.started then p.queue else []) + [cmd] &&
      p'.mode == (if p.started then p.mode else WifiDisabled) && p'.apConfigQueue == p.apConfigQueue
  {
    if !p.started then
      if cmd == CmdDisableWifi then p else p.(started := true, mode := WifiDisabled, queue := [cmd], hasManager := false)
    else p.(queue := p.queue + [cmd])
  }

  /** The message a mode manager's listener posts for a state report:
      the client and scan-only listeners report a failure on UNKNOWN and a
      stop on DISABLED; the soft-AP listener on FAILED and DISABLED. */
  function ListenerMessage(e: Event): (m: Option<Msg>)
    requires e.WifiListener? || e.SoftApListener?
  {
    match e
    case WifiListener(s) =>
      if s == WIFI_STATE_UNKNOWN then Some(CmdStartWifiFailure)
      else if s == WIFI_STATE_DISABLED then Some(CmdWifiStopped) else None
    case SoftApListener(s) =>
      if s == WIFI_AP_STATE_DISABLED then Some(CmdApStopped)
      else if s == WIFI_AP_STATE_FAILED then Some(CmdStartApFailure) else None
  }

  function ListenerPosts(e: Event): (ms: seq<Msg>)
    requires e.WifiListener? || e.SoftApListener?
    ensures |ms| <= 1
  {
    match ListenerMessage(e)
    case None => []
    case Some(m) => [m]
  }

  function Step(p: Prime, e: Event, env: Env): (r: (Prime, seq<Request>))
    ensures e == DisableWifi && !p.started ==> r == (p, [])
    ensures e.EnterSoftApMode? ==>
      r.0.apConfigQueue == p.apConfigQueue + [e.config.GetOr(FRESH_CONFIG)] && r.0.started
    ensures e.ProcessNextMessage? && p.started && p.queue != [] ==> r == HandleMessage(p.(queue := p.queue[1..]), p.queue[0], env)
    ensures Valid(p) ==> Valid(r.0)
    ensures |r.0.apConfigQueue| <= |p.apConfigQueue| + (if e.EnterSoftApMode? then 1 else 0)
  {
    match e
    case EnterClientMode => (ChangeMode(p, CmdStartClientMode), [])
    case EnterScanOnlyMode => (ChangeMode(p, CmdStartScanOnlyMode), [])
    case EnterSoftApMode(config) =>
      (ChangeMode(p.(apConfigQueue := p.apConfigQueue + [config.GetOr(FRESH_CONFIG)]), CmdStartSoftApMode), [])
    case DisableWifi => (ChangeMode(p, CmdDisableWifi), [])
    case WifiListener(_) => (p.(queue := p.queue + ListenerPosts(e)), [])
    case SoftApListener(_) => (p.(queue := p.queue + ListenerPosts(e)), [])
    case ProcessNextMessage =>
      if !p.started || p.queue == [] then (p, [])
      else HandleMessage(p.(queue := p.queue[1..]), p.queue[0], env)
  }

  // ---------------------------------------------------------------------
  // Properties

  /** An active mode always has its manager, and the active client mode
      is never reached: no state transitions to it. */
  ghost predicate Valid(p: Prime) {
    (IsActiveMode(p.mode) ==> p.hasManager) && p.mode != ClientModeActive
  }

  /** A run of events from a valid owner (one `Env` per event) ends
      valid, and only soft-AP requests add configurations: the queue grows
      by at most one per event. */
  function Run(p: Prime, events: seq<Event>, envs: seq<Env>): (r: Prime)
    requires |envs| == |events|
    requires Valid(p)
    ensures Valid(r)
    ensures |r.apConfigQueue| <= |p.apConfigQueue| + |events|
    decreases |events|
  {
    if events == [] then p
    else Run(Step(p, events[0], envs[0]).0, events[1..], envs[1..])
  }

  /** A scan-only start command from any mode ends in scan-only mode,
      active exactly when wificond answered and created the interface. */
  lemma {:induction false} ScanOnlyStart(p: Prime, env: Env)
    ensures var r := HandleMessage(p, CmdStartScanOnlyMode, env).0;
      (r.mode == ScanOnlyModeActive <==> env.wificondAvailable && env.interfaceCreated) &&
      (r.mode == ScanOnlyMode <==> !(env.wificondAvailable && env.interfaceCreated)) &&
      (r.mode == ScanOnlyMode ==> r.queue == p.queue + [CmdStartWifiFailure])
  {
    var (toEnter, common) := StatesToEnter(p.mode, ScanOnlyMode);
    assert toEnter == [ScanOnlyMode] && common.None?;
    var (p1, exits) := ExitAll(StatesToExit(p.mode, common), p);
    var p1m := p1.(mode := ScanOnlyMode);
    var (p2, enters, next) := EnterAll(toEnter, p1m, CmdStartScanOnlyMode, env);
    assert (p2, enters, next) == Enter(ScanOnlyMode, p1m, CmdStartScanOnlyMode, env);
    if next.Some? {
      var (toEnter2, common2) := StatesToEnter(ScanOnlyMode, ScanOnlyModeActive);
      assert toEnter2 == [ScanOnlyModeActive] && common2 == Some(ScanOnlyMode);
    }
  }

  /** A failure or stop reported to the active scan-only mode returns to
      the inactive mode without setting up again: the manager is stopped,
      the interfaces torn down, and nothing else is requested. */
  lemma ScanOnlyActiveFailureReturns(p: Prime, m: Msg, env: Env)
    requires p.mode == ScanOnlyModeActive && p.hasManager && p.wificond
    requires m == CmdStartWifiFailure || m == CmdWifiStopped
    ensures HandleMessage(p, m, env) == (p.(mode := ScanOnlyMode, wificond := false), [StopManager, TearDownInterfaces])
  {
    var q := p.(wificond := false, mode := ScanOnlyMode);
    var t := TransitionOnce(p, ScanOnlyMode, m, env);
    ScanOnlyActiveLeaves(p, m, env);
    assert Dispatch(p, m) == Handling(true, Some(ScanOnlyMode), p, []);
    var pt := PerformTransitions(p, ScanOnlyMode, m, env);
    assert pt.0 == q && pt.1 == t.1;
    var h := HandleMessage(p, m, env);
    assert h.0 == q && h.1 == [] + t.1;
    assert [] + t.1 == t.1;
    assert h == (h.0, h.1);
  }

  /** Leaving the active scan-only state for its parent stops the manager
      and tears the interfaces down. */
  lemma ScanOnlyActiveLeaves(p: Prime, m: Msg, env: Env)
    requires p.mode == ScanOnlyModeActive && p.hasManager && p.wificond && m != CmdStartScanOnlyMode
    ensures TransitionOnce(p, ScanOnlyMode, m, env) ==
      (p.(wificond := false, mode := ScanOnlyMode), [StopManager, TearDownInterfaces], None)
  {
    assert StatesToEnter(ScanOnlyModeActive, ScanOnlyMode) == ([ScanOnlyMode], None);
    assert StatesToExit(ScanOnlyModeActive, None) == [ScanOnlyModeActive, ScanOnlyMode];
    var s := [ScanOnlyModeActive, ScanOnlyMode];
    assert s[1..] == [ScanOnlyMode] && s[1..][1..] == [];
    var p2 := p.(wificond := false);
    assert ExitAll(s[1..], p).0 == p2 && ExitAll(s[1..], p).1 == [TearDownInterfaces];
    assert ExitAll(s, p).0 == p2 && ExitAll(s, p).1 == [StopManager, TearDownInterfaces];
    var q := p2.(mode := ScanOnlyMode);
    assert Enter(ScanOnlyMode, q, m, env).0 == q && Enter(ScanOnlyMode, q, m, env).1 == [];
    assert EnterAll([ScanOnlyMode], q, m, env) == (q, [], None);
    assert [StopManager, TearDownInterfaces] + [] == [StopManager, TearDownInterfaces];
  }

  /** A failure reported to the active soft-AP mode returns to the inactive
      mode: the manager is stopped and the interfaces torn down. A stop
      report means the manager is already gone, so only the teardown is
      left. Nothing else is requested in either case. */
  lemma SoftApActiveFailureReturns(p: Prime, env: Env)
    requires p.mode == SoftApModeActive && p.hasManager && p.wificond
    ensures HandleMessage(p, CmdStartApFailure, env) ==
      (p.(mode := SoftApMode, wificond := false), [StopManager, TearDownInterfaces])
    ensures HandleMessage(p, CmdApStopped, env) ==
      (p.(mode := SoftApMode, wificond := false, hasManager := false), [TearDownInterfaces])
  {
    SoftApActiveReturns(p, CmdStartApFailure, env);
    assert [StopManager] + [TearDownInterfaces] == [StopManager, TearDownInterfaces];
    SoftApActiveReturns(p, CmdApStopped, env);
    var q := p.(hasManager := false);
    assert !q.hasManager && [] + [TearDownInterfaces] == [TearDownInterfaces];
    assert q.(mode := SoftApMode, wificond := false) == p.(mode := SoftApMode, wificond := false, hasManager := false);
  }

  /** Either report is handled by the active soft-AP state itself, which
      asks for its parent; the stop report drops the manager first. */
  lemma SoftApActiveReturns(p: Prime, m: Msg, env: Env)
    requires p.mode == SoftApModeActive && p.wificond
    requires m == CmdStartApFailure || m == CmdApStopped
    ensures var q := if m == CmdApStopped then p.(hasManager := false) else p;
      HandleMessage(p, m, env) ==
        (q.(mode := SoftApMode, wificond := false),
         (if q.hasManager then [StopManager] else []) + [TearDownInterfaces])
  {
    var q := if m == CmdApStopped then p.(hasManager := false) else p;
    SoftApActiveLeaves(q, m, env);
    assert Dispatch(p, m) == Handling(true, Some(SoftApMode), q, []);
    var t := TransitionOnce(q, SoftApMode, m, env);
    var pt := PerformTransitions(q, SoftApMode, m, env);
    assert pt.0 == t.0 && pt.1 == t.1;
    var h := HandleMessage(p, m, env);
    assert h.0 == t.0 && h.1 == [] + t.1;
    assert [] + t.1 == t.1;
  }

  /** Leaving the active soft-AP state for its parent stops the manager if
      there still is one and tears the interfaces down. */
  lemma SoftApActiveLeaves(p: Prime, m: Msg, env: Env)
    requires p.mode == SoftApModeActive && p.wificond && m != CmdStartSoftApMode
    ensures TransitionOnce(p, SoftApMode, m, env) ==
      (p.(wificond := false, mode := SoftApMode),
       (if p.hasManager then [StopManager] else []) + [TearDownInterfaces], None)
  {
    assert StatesToEnter(SoftApModeActive, SoftApMode) == ([SoftApMode], None);
    assert StatesToExit(SoftApModeActive, None) == [SoftApModeActive, SoftApMode];
    var s := [SoftApModeActive, SoftApMode];
    assert s[1..] == [SoftApMode] && s[1..][1..] == [];
    var p2 := p.(wificond := false);
    assert ExitAll(s[1..], p).0 == p2 && ExitAll(s[1..], p).1 == [TearDownInterfaces];
    var stop := if p.hasManager then [StopManager] else [];
    assert ExitAll(s, p).0 == p2 && ExitAll(s, p).1 == stop + [TearDownInterfaces];
    var q := p2.(mode := SoftApMode);
    assert Enter(SoftApMode, q, m, env).0 == q && Enter(SoftApMode, q, m, env).1 == [];
    assert EnterAll([SoftApMode], q, m, env) == (q, [], None);
    assert stop + [TearDownInterfaces] + [] == stop + [TearDownInterfaces];
  }

  /** Entering the active soft-AP mode consumes one queued configuration,
      and the manager receives it only when its SSID is set. */
  lemma {:induction false} SoftApStartConsumesOneConfig(p: Prime, env: Env, c: ApConfig)
    requires p.mode == WifiDisabled && p.apConfigQueue == [c]
    requires env.wificondAvailable && env.interfaceCreated
    ensures var r := HandleMessage(p, CmdStartSoftApMode, env);
      r.0.mode == SoftApModeActive && r.0.apConfigQueue == [] &&
      MakeManager(SoftApManager, if c.ssid.Some? then Some(c) else None) in r.1
  {
    var p1 := p.(mode := SoftApMode);
    assert StatesToEnter(WifiDisabled, SoftApMode) == ([SoftApMode], None);
    var s := StatesToExit(WifiDisabled, None);
    assert s == [WifiDisabled] && s[1..] == [];
    assert ExitAll(s, p).0 == p && ExitAll(s, p).1 == [];
    var e1 := Enter(SoftApMode, p1, CmdStartSoftApMode, env);
    assert EnterAll([SoftApMode], p1, CmdStartSoftApMode, env) == e1;
    assert StatesToEnter(SoftApMode, SoftApModeActive) == ([SoftApModeActive], Some(SoftApMode));
    var p2 := e1.0.(mode := SoftApModeActive);
    assert ExitAll(StatesToExit(SoftApMode, Some(SoftApMode)), e1.0) == (e1.0, []);
    var e2 := Enter(SoftApModeActive, p2, CmdStartSoftApMode, env);
    assert EnterAll([SoftApModeActive], p2, CmdStartSoftApMode, env) == e2;
  }

  /** A start failure reported to the inactive soft-AP mode consumes one
      queued configuration and keeps it only when its SSID is set. */
  lemma StartApFailureInactive(p: Prime, env: Env)
    requires p.mode == SoftApMode && p.apConfigQueue != []
    ensures var r := HandleMessage(p, CmdStartApFailure, env);
      r.0 == p.(apConfigQueue := p.apConfigQueue[1..]) &&
      (SaveApConfig(p.apConfigQueue[0]) in r.1 <==> p.apConfigQueue[0].ssid.Some?) &&
      r.1[|r.1| - 1] == BroadcastApStartFailure
  {
  }
}

=== FILE: telephony_util.dfy ===
/** `TelephonyUtil`: the permanent EAP-SIM/AKA identity, the hex codec it
    uses for SIM challenges and the decoding of the 3G authentication answer
    (service/java/com/android/server/wifi/util/TelephonyUtil.java).

    Bytes are written unsigned (0..255); where the source reads a byte as a
    signed Java `byte`, `Signed` says so. Base64 and the SIM card are
    parameters. */
module TelephonyUtil {
  import opened Wrappers
  import opened JavaStrings

  /** `WifiEnterpriseConfig.Eap` codes of the SIM-based methods. */
  const EAP_SIM: int := 4
  const EAP_AKA: int := 5
  const EAP_AKA_PRIME: int := 6

  /** The Java exceptions the modelled code can raise. */
  datatype Exception = NumberFormatException | IndexOutOfBounds

  // ---------------------------------------------------------------------
  // Permanent identity

  predicate IsSimEapMethod(eapMethod: int): (b: bool)
    ensures b <==> 4 <= eapMethod <= 6
  {
    eapMethod == EAP_SIM || eapMethod == EAP_AKA || eapMethod == EAP_AKA_PRIME
  }

  /** The identity prefix of each SIM-based method: "1" for SIM, "0" for
      AKA, "6" for AKA'. */
  function IdentityPrefix(eapMethod: int): (p: string)
    requires IsSimEapMethod(eapMethod)
    ensures |p| == 1
    ensures p == "1" <==> eapMethod == EAP_SIM
    ensures p == "0" <==> eapMethod == EAP_AKA
    ensures p == "6" <==> eapMethod == EAP_AKA_PRIME
  {
    if eapMethod == EAP_SIM then "1" else if eapMethod == EAP_AKA then "0" else "6"
  }

  /** The home network's country and network codes: taken from the SIM
      operator when it reports one (a two-digit network code padded to
      three), otherwise from the IMSI assuming a three-digit network code.
      A string too short for `substring` raises. */
  function MccMnc(imsi: string, mccMnc: Option<string>): (r: Result<(string, string), Exception>)
    ensures mccMnc.Some? && mccMnc.value != "" ==>
      (r.Success? <==> |mccMnc.value| >= 3) &&
      (r.Success? ==> r.value.0 == mccMnc.value[..3] &&
                      r.value.1 == (if |mccMnc.value| == 5 then "0" + mccMnc.value[3..] else mccMnc.value[3..]))
    ensures !(mccMnc.Some? && mccMnc.value != "") ==>
      (r.Success? <==> |imsi| >= 6) && (r.Success? ==> r.value == (imsi[..3], imsi[3..6]))
  {
    if mccMnc.Some? && mccMnc.value != "" then
      var s := mccMnc.value;
      if |s| < 3 then Failure(IndexOutOfBounds)
      else
        var mnc := s[3..];
        Success((s[..3], if |mnc| == 2 then "0" + mnc else mnc))
    else if |imsi| < 6 then Failure(IndexOutOfBounds)
    else Success((imsi[..3], imsi[3..6]))
  }

  /** `buildIdentity`: `None` for a missing IMSI or a method that is not
      SIM-based; the username is the prefix and the IMSI, the realm is built
      from the country and network codes. */
  function BuildIdentity(eapMethod: int, imsi: Option<string>, mccMnc: Option<string>)
    : (r: Result<Option<string>, Exception>)
    ensures imsi.None? || imsi.value == "" || !IsSimEapMethod(eapMethod) ==> r == Success(None)
    ensures imsi.Some? && imsi.value != "" && IsSimEapMethod(eapMethod) ==>
      match MccMnc(imsi.value, mccMnc)
      case Failure(e) => r == Failure(e)
      case Success((mcc, mnc)) =>
        r == Success(Some(IdentityPrefix(eapMethod) + imsi.value + "@wlan.mnc" + mnc + ".mcc" + mcc + ".3gppnetwork.org"))
  {
    if imsi.None? || imsi.value == "" then Success(None)
    else if !IsSimEapMethod(eapMethod) then Success(None)
    else
      var codes :- MccMnc(imsi.value, mccMnc);
      Success(Some(IdentityPrefix(eapMethod) + imsi.value + "@wlan.mnc" + codes.1 + ".mcc" + codes.0 + ".3gppnetwork.org"))
  }

  /** `getSimIdentity`: no identity without a telephony manager; the SIM
      operator is consulted only when the SIM is ready, otherwise the
      country and network codes come from the IMSI. */
  function SimIdentity(present: bool, imsi: Option<string>, simReady: bool, simOperator: Option<string>,
                       eapMethod: int): (r: Result<Option<string>, Exception>)
    ensures !present ==> r == Success(None)
    ensures present && !simReady ==> r == BuildIdentity(eapMethod, imsi, Some(""))
    ensures present && simReady ==> r == BuildIdentity(eapMethod, imsi, simOperator)
  {
    if !present then Success(None)
    else BuildIdentity(eapMethod, imsi, if simReady then simOperator else Some(""))
  }

  /** The characters before the first `c`, or all of `s`. */
  function Before(s: string, c: char): (r: string)
    ensures |r| <= |s| && r == s[..|r|] && c !in r
    ensures |r| < |s| ==> s[|r|] == c
  {
    if s == [] || s[0] == c then [] else [s[0]] + Before(s[1..], c)
  }

  lemma {:induction false} BeforeAppend(a: string, b: string, c: char)
    requires c !in a && |b| > 0 && b[0] == c
    ensures Before(a + b, c) == a
  {
    if a == [] {
      assert a + b == b;
    } else {
      assert (a + b)[1..] == a[1..] + b;
      BeforeAppend(a[1..], b, c);
    }
  }

  /** The IMSI is recoverable from the identity: it is what lies between the
      one-character prefix and the '@'. So distinct IMSIs give distinct
      identities. */
  lemma IdentityNamesImsi(eapMethod: int, imsi: string, mccMnc: Option<string>)
    requires '@' !in imsi
    requires BuildIdentity(eapMethod, Some(imsi), mccMnc).Success?
    requires BuildIdentity(eapMethod, Some(imsi), mccMnc).value.Some?
    ensures var id := BuildIdentity(eapMethod, Some(imsi), mccMnc).value.value;
            Before(id[1..], '@') == imsi && id[0] == IdentityPrefix(eapMethod)[0]
  {
    var codes := MccMnc(imsi, mccMnc).value;
    SplitIdentity(IdentityPrefix(eapMethod), imsi, codes.1, codes.0);
  }

  /** The identity's parts can be read back from the whole. */
  lemma SplitIdentity(prefix: string, imsi: string, mnc: string, mcc: string)
    requires |prefix| == 1 && '@' !in imsi
    ensures var id := prefix + imsi + "@wlan.mnc" + mnc + ".mcc" + mcc + ".3gppnetwork.org";
      Before(id[1..], '@') == imsi && id[0] == prefix[0]
  {
    var realm := "@wlan.mnc" + mnc + ".mcc" + mcc + ".3gppnetwork.org";
    var id := prefix + imsi + "@wlan.mnc" + mnc + ".mcc" + mcc + ".3gppnetwork.org";
    assert id == prefix + (imsi + realm);
    assert id[1..] == imsi + realm;
    assert realm[0] == '@';
    BeforeAppend(imsi, realm, '@');
  }

  // ---------------------------------------------------------------------
  // Hex codec

  /** `parseHex(char)`: a non-digit raises. */
  function ParseHexDigit(c: char): (r: Result<nat, Exception>)
    ensures r.Success? <==> IsHexDigit(c)
    ensures r.Success? ==> r.value == DigitValue(c)
  {
    if IsHexDigit(c) then Success(DigitValue(c)) else Failure(NumberFormatException)
  }

  predicate IsHexString(s: string) {
    |s| % 2 == 0 && forall i :: 0 <= i < |s| ==> IsHexDigit(s[i])
  }

  /** The bytes of a string of digits, two digits per byte; a digit left
      over or a non-digit raises. */
  function DecodePairs(s: string): (r: Result<seq<byte>, Exception>)
    ensures r.Success? <==> IsHexString(s)
    ensures r.Success? ==> 2 * |r.value| == |s|
  {
    if s == [] then Success([])
    else if |s| == 1 || !IsHexDigit(s[0]) || !IsHexDigit(s[1]) then Failure(NumberFormatException)
    else
      assert IsHexString(s) ==> IsHexString(s[2..]) by {
        if IsHexString(s) {
          forall i | 0 <= i < |s[2..]| ensures IsHexDigit(s[2..][i]) { assert s[2..][i] == s[i + 2]; }
        }
      }
      match DecodePairs(s[2..])
      case Failure(e) => Failure(e)
      case Success(rest) => Success([16 * DigitValue(s[0]) + DigitValue(s[1])] + rest)
  }

  /** `parseHex(hex, needLength)`: a missing string gives no bytes; an odd
      length or a non-hex character raises. With `needLength` the decoded
      bytes are preceded by their count, truncated to a byte. */
  function ParseHex(hex: Option<string>, needLength: bool): (r: Result<seq<byte>, Exception>)
    ensures hex.None? ==> r == Success([])
    ensures hex.Some? ==> (r.Success? <==> IsHexString(hex.value))
    ensures hex.Some? && r.Success? && !needLength ==> r == DecodePairs(hex.value)
    ensures hex.Some? && r.Success? && needLength ==>
      r.value == [(|hex.value| / 2) % 256] + DecodePairs(hex.value).value
  {
    if hex.None? then Success([])
    else if |hex.value| % 2 != 0 then Failure(NumberFormatException)
    else
      var bytes :- DecodePairs(hex.value);
      if needLength then Success([(|hex.value| / 2) % 256] + bytes) else Success(bytes)
  }

  const HEX_DIGITS: string := "0123456789abcdef"

  /** `String.format("%02x", b)`. */
  function HexByte(b: byte): (s: string)
    ensures |s| == 2
  {
    [HEX_DIGITS[b / 16], HEX_DIGITS[b % 16]]
  }

  /** `makeHex(bytes)`: two lowercase digits per byte. */
  function MakeHex(bytes: seq<byte>): (s: string)
    ensures |s| == 2 * |bytes|
  {
    if bytes == [] then "" else HexByte(bytes[0]) + MakeHex(bytes[1..])
  }

  /** `makeHex(bytes, from, len)`: a negative length gives the empty string,
      a range outside the array raises. */
  function MakeHexRange(bytes: seq<byte>, from: int, len: int): (r: Result<string, Exception>)
    ensures len <= 0 ==> r == Success("")
    ensures len > 0 ==> (r.Success? <==> 0 <= from && from + len <= |bytes|)
    ensures len > 0 && r.Success? ==> r.value == MakeHex(bytes[from..from + len])
  {
    if len <= 0 then Success("")
    else if from < 0 || from + len > |bytes| then Failure(IndexOutOfBounds)
    else Success(MakeHex(bytes[from..from + len]))
  }

  lemma HexDigitValue(d: nat)
    requires d < 16
    ensures IsHexDigit(HEX_DIGITS[d]) && DigitValue(HEX_DIGITS[d]) == d
  {
  }

  /** Decoding two digits in front of a digit string. */
  lemma DecodePairsCons(a: char, c: char, t: string)
    requires IsHexDigit(a) && IsHexDigit(c)
    ensures DecodePairs(t).Success? ==>
      DecodePairs([a, c] + t) == Success([16 * DigitValue(a) + DigitValue(c)] + DecodePairs(t).value)
    ensures DecodePairs(t).Failure? ==> DecodePairs([a, c] + t) == DecodePairs(t)
  {
    var s := [a, c] + t;
    assert s[0] == a && s[1] == c && s[2..] == t;
  }

  /** Decoding one written byte in front of decodable digits. */
  lemma DecodeHexByte(b: byte, t: string, rest: seq<byte>)
    requires DecodePairs(t) == Success(rest)
    ensures DecodePairs(HexByte(b) + t) == Success([b] + rest)
  {
    HexDigitValue(b / 16);
    HexDigitValue(b % 16);
    var h := HexByte(b);
    assert h == [h[0], h[1]];
    DecodePairsCons(h[0], h[1], t);
  }

  /** Decoding what `makeHex` wrote gives the bytes back. */
  lemma {:induction false} ParseMakeHex(bytes: seq<byte>)
    ensures DecodePairs(MakeHex(bytes)) == Success(bytes)
  {
    if bytes != [] {
      ParseMakeHex(bytes[1..]);
      DecodeHexByte(bytes[0], MakeHex(bytes[1..]), bytes[1..]);
      assert bytes == [bytes[0]] + bytes[1..];
    }
  }

  /** A digit written in lower case. */
  function LowerDigit(c: char): char {
    if 'A' <= c <= 'F' then (c as int - 'A' as int + 'a' as int) as char else c
  }

  /** A digit string written in lower case. */
  function Lower(s: string): (r: string)
    ensures |r| == |s|
  {
    if s == [] then [] else [LowerDigit(s[0])] + Lower(s[1..])
  }

  lemma LowerDigitIsCanonical(c: char)
    requires IsHexDigit(c)
    ensures HEX_DIGITS[DigitValue(c)] == LowerDigit(c)
  {
  }

  lemma SplitByte(b: int, hi: nat, lo: nat)
    requires hi < 16 && lo < 16 && b == 16 * hi + lo
    ensures b / 16 == hi && b % 16 == lo
  {
  }

  /** A pair of digits, decoded and written again, comes back in lower
      case. */
  lemma HexByteOfPair(a: char, c: char)
    requires IsHexDigit(a) && IsHexDigit(c)
    ensures HexByte(16 * DigitValue(a) + DigitValue(c)) == [LowerDigit(a), LowerDigit(c)]
  {
    var v: byte := 16 * DigitValue(a) + DigitValue(c);
    SplitByte(v, DigitValue(a), DigitValue(c));
    LowerDigitIsCanonical(a);
    LowerDigitIsCanonical(c);
    assert HexByte(v) == [LowerDigit(a), LowerDigit(c)];
  }

  lemma LowerPair(a: char, c: char, t: string)
    ensures Lower([a, c] + t) == [LowerDigit(a), LowerDigit(c)] + Lower(t)
  {
    var s := [a, c] + t;
    assert s[1..][1..] == t;
    assert Lower(s) == [LowerDigit(a)] + Lower(s[1..]);
    assert Lower(s[1..]) == [LowerDigit(c)] + Lower(t);
  }

  lemma MakeHexCons(v: byte, rest: seq<byte>)
    ensures MakeHex([v] + rest) == HexByte(v) + MakeHex(rest)
  {
    assert ([v] + rest)[1..] == rest;
  }

  /** Writing back one decoded pair in front of digits that already
      write back in lower case. */
  lemma WriteHexPair(a: char, c: char, t: string, rest: seq<byte>)
    requires IsHexDigit(a) && IsHexDigit(c)
    requires DecodePairs(t) == Success(rest)
    requires MakeHex(rest) == Lower(t)
    ensures DecodePairs([a, c] + t) == Success([16 * DigitValue(a) + DigitValue(c)] + rest)
    ensures MakeHex([16 * DigitValue(a) + DigitValue(c)] + rest) == Lower([a, c] + t)
  {
    DecodePairsCons(a, c, t);
    HexByteOfPair(a, c);
    LowerPair(a, c, t);
    MakeHexCons(16 * DigitValue(a) + DigitValue(c), rest);
  }

  /** Writing decoded bytes gives back the digits, in lower case. */
  lemma {:induction false} MakeParseHex(s: string)
    requires IsHexString(s)
    ensures MakeHex(DecodePairs(s).value) == Lower(s)
  {
    if s != [] {
      var a, c, t := s[0], s[1], s[2..];
      assert s == [a, c] + t;
      assert IsHexString(t) by {
        forall i | 0 <= i < |t| ensures IsHexDigit(t[i]) { assert t[i] == s[i + 2]; }
      }
      MakeParseHex(t);
      WriteHexPair(a, c, t, DecodePairs(t).value);
    }
  }

  /** `concatHex`: `a`'s bytes followed by `b`'s. */
  function ConcatHex(a: seq<byte>, b: seq<byte>): (r: seq<byte>)
    ensures |r| == |a| + |b|
    ensures r[..|a|] == a && r[|a|..] == b
  {
    a + b
  }

  // ---------------------------------------------------------------------
  // 3G authentication answer

  /** A byte read as a signed Java `byte`. */
  function Signed(b: byte): (v: int)
    ensures -128 <= v < 128 && (v == b || v == b - 256)
  {
    if b >= 128 then b - 256 else b
  }

  /** The request data and the answers of the SIM card and of Base64. */
  datatype SimAuthRequest = SimAuthRequest(data: seq<Option<string>>)

  datatype SimAuthResponse = SimAuthResponse(resType: string, response: string)

  /** The card application and the authentication type of an ICC request. */
  datatype AppType = AppUsim | AppSim

  datatype AuthType = AuthEapSim | AuthEapAka

  /** The telephony manager (`present` is false for a null manager), its
      answer to an authentication request, and Base64. */
  datatype Card = Card(
    present: bool,
    iccAuthentication: (AppType, AuthType, string) -> Option<string>,
    base64Encode: seq<byte> -> string,
    base64Decode: string -> seq<byte>)

  /** The card's raw answer: `""` when the challenge could not be parsed or
      there is no telephony manager. */
  function TmResponse(request: SimAuthRequest, card: Card): (r: Option<string>)
    ensures (|request.data| != 2 || ParseHex(request.data[0], true).Failure? ||
             ParseHex(request.data[1], true).Failure? || !card.present) ==> r == Some("")
  {
    if |request.data| != 2 then Some("")
    else match (ParseHex(request.data[0], true), ParseHex(request.data[1], true))
      case (Success(rand), Success(authn)) =>
        if card.present then card.iccAuthentication(AppUsim, AuthEapAka, card.base64Encode(ConcatHex(rand, authn)))
        else Some("")
      case _ => Some("")
  }

  /** The fields of a successful answer (tag 0xdb): RES, CK and IK, each
      after a length byte read as a signed Java `byte`; nothing checks the
      lengths against the answer's size. */
  function DecodeUmtsAuth(result: seq<byte>): (r: Result<SimAuthResponse, Exception>)
    requires |result| > 0
    ensures r.Success? ==> |result| > 1 && r.value.resType == "UMTS-AUTH"
  {
    match ReadField(result, 1)
    case Failure(e) => Failure(e)
    case Success(res) =>
      match ReadField(result, res.next)
      case Failure(e) => Failure(e)
      case Success(ck) =>
        match ReadField(result, ck.next)
        case Failure(e) => Failure(e)
        case Success(ik) => Success(SimAuthResponse("UMTS-AUTH", ":" + ik.hex + ":" + ck.hex + ":" + res.hex))
  }

  /** One field of the answer written in hex, and where the length byte
      of the field after it sits: `resLen + 2` after RES and
      `resLen + ckLen + 3` after CK. */
  datatype Field = Field(hex: string, next: int)

  /** The field whose signed length byte sits at `at`: reading the length
      outside the answer raises, and so does a positive length that runs
      past its end; a negative length gives an empty field and moves the
      next position backwards. */
  function ReadField(result: seq<byte>, at: int): (r: Result<Field, Exception>)
  {
    if !(0 <= at < |result|) then Failure(IndexOutOfBounds)
    else
      var len := Signed(result[at]);
      var hex :- MakeHexRange(result, at + 1, len);
      Success(Field(hex, at + 1 + len))
  }

  /** `makeHex` over a range that lies inside the array. */
  lemma MakeHexRangeInside(bytes: seq<byte>, from: int, len: int, to: int)
    requires 0 <= from && 0 < len && to == from + len <= |bytes|
    ensures MakeHexRange(bytes, from, len) == Success(MakeHex(bytes[from..to]))
  {
  }

  /** Reading a field laid out at `at`, whose successor starts at
      `next`. */
  lemma ReadFieldAt(r: seq<byte>, at: nat, f: seq<byte>, next: int)
    requires |f| < 128 && next == at + 1 + |f| <= |r| && r[at] == |f| && r[at + 1..next] == f
    ensures ReadField(r, at) == Success(Field(MakeHex(f), next))
  {
    var len := Signed(r[at]);
    assert len == |f|;
    var hex := MakeHex(f);
    var from := at + 1;
    if len == 0 {
      assert f == [];
      assert MakeHexRange(r, from, len) == Success(hex);
    } else {
      MakeHexRangeInside(r, from, len, next);
    }
    assert ReadField(r, at) == Success(Field(hex, from + len));
  }

  /** The success decoder chains the three fields. */
  lemma AuthFromFields(r: seq<byte>, h1: string, h2: string, h3: string, p2: int, p3: int, p4: int)
    requires |r| > 0
    requires ReadField(r, 1) == Success(Field(h1, p2))
    requires ReadField(r, p2) == Success(Field(h2, p3))
    requires ReadField(r, p3) == Success(Field(h3, p4))
    ensures DecodeUmtsAuth(r) == Success(SimAuthResponse("UMTS-AUTH", ":" + h3 + ":" + h2 + ":" + h1))
  {
  }

  /** The field of a synchronisation failure (tag 0xdc): AUTS after its
      signed length byte. */
  function DecodeUmtsAuts(result: seq<byte>): (r: Result<SimAuthResponse, Exception>)
    requires |result| > 0
    ensures r.Success? ==> |result| > 1 && r.value.resType == "UMTS-AUTS"
  {
    if |result| < 2 then Failure(IndexOutOfBounds)
    else
      var auts :- MakeHexRange(result, 2, Signed(result[1]));
      Success(SimAuthResponse("UMTS-AUTS", ":" + auts))
  }

  /** The decoding half of `get3GAuthResponse`: from the card's decoded
      answer to the supplicant response; an unknown tag gives none. */
  function Decode3GAuthResult(result: seq<byte>): (r: Result<Option<SimAuthResponse>, Exception>)
    ensures |result| == 0 ==> r.Failure?
    ensures |result| > 0 && result[0] != 0xdb && result[0] != 0xdc ==> r == Success(None)
    ensures r.Success? && r.value.Some? ==>
      |result| > 1 && result[0] in {0xdb, 0xdc} &&
      r.value.value.resType == (if result[0] == 0xdb then "UMTS-AUTH" else "UMTS-AUTS")
  {
    if |result| == 0 then Failure(IndexOutOfBounds)
    else if result[0] == 0xdb then
      var response :- DecodeUmtsAuth(result);
      Success(Some(response))
    else if result[0] == 0xdc then
      var response :- DecodeUmtsAuts(result);
      Success(Some(response))
    else Success(None)
  }

  /** `get3GAuthResponse`. */
  function Get3GAuthResponse(request: SimAuthRequest, card: Card): (r: Result<Option<SimAuthResponse>, Exception>)
    // a missing or short answer gives no response
    ensures var tm := TmResponse(request, card); tm.None? || |tm.value| <= 4 ==> r == Success(None)
    ensures var tm := TmResponse(request, card);
      tm.Some? && |tm.value| > 4 ==> r == Decode3GAuthResult(card.base64Decode(tm.value))
  {
    var tm := TmResponse(request, card);
    if tm.None? || |tm.value| <= 4 then Success(None)
    else Decode3GAuthResult(card.base64Decode(tm.value))
  }

  /** The successful answer of 3GPP TS 31.102: tag 0xdb, then RES, CK and
      IK, each preceded by its length. */
  function EncodeAuthSuccess(res: seq<byte>, ck: seq<byte>, ik: seq<byte>): (r: seq<byte>)
    requires |res| < 128 && |ck| < 128 && |ik| < 128
    ensures |r| == 4 + |res| + |ck| + |ik| && r[0] == 0xdb
  {
    [0xdb, |res|] + res + [|ck|] + ck + [|ik|] + ik
  }

  /** The synchronisation-failure answer: tag 0xdc, then AUTS with its
      length. */
  function EncodeSyncFailure(auts: seq<byte>): (r: seq<byte>)
    requires |auts| < 128
  {
    [0xdc, |auts|] + auts
  }

  /** Where the fields of an encoded success answer lie: RES's length at
      1, CK's at `p2`, IK's at `p3`, and the answer ends at `p4`. */
  lemma AuthSuccessLayout(res: seq<byte>, ck: seq<byte>, ik: seq<byte>, p2: int, p3: int, p4: int)
    requires |res| < 128 && |ck| < 128 && |ik| < 128
    requires p2 == |res| + 2 && p3 == p2 + 1 + |ck| && p4 == p3 + 1 + |ik|
    ensures var r := EncodeAuthSuccess(res, ck, ik);
      |r| == p4 && r[1] == |res| && r[2..p2] == res && r[p2] == |ck| && r[p2 + 1..p3] == ck &&
      r[p3] == |ik| && r[p3 + 1..p4] == ik
  {
    var r := EncodeAuthSuccess(res, ck, ik);
    assert r == [0xdb, |res|] + res + [|ck|] + ck + [|ik|] + ik;
    assert r[2..p2] == res;
    assert r[p2 + 1..p3] == ck;
    assert r[p3 + 1..p4] == ik;
  }

  /** Where the field of an encoded synchronisation failure lies. */
  lemma SyncFailureLayout(auts: seq<byte>)
    requires |auts| < 128
    ensures var r := EncodeSyncFailure(auts); r[0] == 0xdc && r[1] == |auts| && r[2..] == auts
  {
  }

  /** The synchronisation-failure decoder on tag 0xdc followed by one
      length-prefixed field that exactly fills the answer. */
  lemma DecodeSyncLayout(r: seq<byte>, a: nat)
    requires a < 128 && |r| == 2 + a && r[0] == 0xdc && r[1] == a
    ensures Decode3GAuthResult(r) == Success(Some(SimAuthResponse("UMTS-AUTS", ":" + MakeHex(r[2..]))))
  {
    if a == 0 {
      assert r[2..] == [];
    } else {
      assert r[2..2 + a] == r[2..];
      assert MakeHexRange(r, 2, a) == Success(MakeHex(r[2..]));
    }
  }

  /** The success decoder on an answer laid out as tag, RES, CK and IK,
      each field after its length. */
  lemma DecodeAuthLayout(r: seq<byte>, res: seq<byte>, ck: seq<byte>, ik: seq<byte>, p2: int, p3: int, p4: int)
    requires |res| < 128 && |ck| < 128 && |ik| < 128
    requires p2 == |res| + 2 && p3 == p2 + 1 + |ck| && p4 == p3 + 1 + |ik|
    requires |r| == p4 && r[1] == |res| && r[2..p2] == res && r[p2] == |ck| && r[p2 + 1..p3] == ck
    requires r[p3] == |ik| && r[p3 + 1..p4] == ik
    ensures DecodeUmtsAuth(r) == Success(SimAuthResponse("UMTS-AUTH", ":" + MakeHex(ik) + ":" + MakeHex(ck) + ":" + MakeHex(res)))
  {
    ReadFieldAt(r, 1, res, p2);
    ReadFieldAt(r, p2, ck, p3);
    ReadFieldAt(r, p3, ik, p4);
    AuthFromFields(r, MakeHex(res), MakeHex(ck), MakeHex(ik), p2, p3, p4);
  }

  /** A well-formed success answer decodes to ":ik:ck:res" in hex. */
  lemma DecodeAuthSuccess(res: seq<byte>, ck: seq<byte>, ik: seq<byte>)
    requires |res| < 128 && |ck| < 128 && |ik| < 128
    ensures Decode3GAuthResult(EncodeAuthSuccess(res, ck, ik)) ==
      Success(Some(SimAuthResponse("UMTS-AUTH", ":" + MakeHex(ik) + ":" + MakeHex(ck) + ":" + MakeHex(res))))
  {
    var p2 := |res| + 2;
    var p3 := p2 + 1 + |ck|;
    var p4 := p3 + 1 + |ik|;
    AuthSuccessLayout(res, ck, ik, p2, p3, p4);
    DecodeAuthLayout(EncodeAuthSuccess(res, ck, ik), res, ck, ik, p2, p3, p4);
  }

  /** A well-formed synchronisation failure decodes to ":auts" in hex. */
  lemma DecodeSyncFailure(auts: seq<byte>)
    requires |auts| < 128
    ensures Decode3GAuthResult(EncodeSyncFailure(auts)) ==
      Success(Some(SimAuthResponse("UMTS-AUTS", ":" + MakeHex(auts))))
  {
    SyncFailureLayout(auts);
    DecodeSyncLayout(EncodeSyncFailure(auts), |auts|);
  }

  // ---------------------------------------------------------------------
  // GSM authentication answer

  /** What one GSM challenge contributes to the answer: nothing (a missing
      or malformed challenge is skipped), the end of the whole answer (a
      missing, short or malformed card answer makes it null), or a
      ":kc:sres" fragment. */
  datatype GsmOutcome = Skip | Abort | Fragment(text: string)

  /** The card's answer to a GSM challenge with the length byte: SRES
      after its signed length, then Kc after its own. `asWritten` selects
      the source's bound check on Kc, which forgets Kc's length byte; the
      corrected check counts it. */
  function DecodeGsmPrefixed(result: seq<byte>, asWritten: bool): (r: Result<GsmOutcome, Exception>)
    requires |result| > 0
    ensures !asWritten && r.Failure? ==> Signed(result[0]) < -1
  {
    var sresLen := Signed(result[0]);
    if sresLen >= |result| then Success(Abort)
    else
      // below the answer's length, SRES always fits
      var sres := MakeHexRange(result, 1, sresLen).value;
      var kcOffset := 1 + sresLen;
      if kcOffset >= |result| then Success(Abort)
      else if kcOffset < 0 then Failure(IndexOutOfBounds)
      else
        var kcLen := Signed(result[kcOffset]);
        if kcOffset + kcLen + (if asWritten then 0 else 1) > |result| then Success(Abort)
        else
          var kc :- MakeHexRange(result, 1 + kcOffset, kcLen);
          Success(Fragment(":" + kc + ":" + sres))
  }

  /** The answer of a plain SIM to a challenge without the length byte:
      four bytes of SRES, then eight of Kc. */
  function DecodeGsmPlain(result: seq<byte>): (r: Result<GsmOutcome, Exception>)
    ensures r.Success? <==> |result| >= 12
    ensures r.Success? ==> r == Success(Fragment(":" + MakeHex(result[4..12]) + ":" + MakeHex(result[..4])))
  {
    var sres :- MakeHexRange(result, 0, 4);
    var kc :- MakeHexRange(result, 4, 8);
    assert result[0..4] == result[..4];
    Success(Fragment(":" + kc + ":" + sres))
  }

  /** The decoding step of `getGsmSimAuthResponse`, as the source writes
      it: a Kc length that reaches exactly to the end passes the check and
      the read then runs one byte past the answer. */
  function DecodeGsmResultAsWritten(result: seq<byte>, lengthRequired: bool): (r: Result<GsmOutcome, Exception>)
    ensures !lengthRequired ==> r == DecodeGsmPlain(result)
    ensures lengthRequired && |result| == 0 ==> r == Failure(IndexOutOfBounds)
  {
    if !lengthRequired then DecodeGsmPlain(result)
    else if |result| == 0 then Failure(IndexOutOfBounds)
    else DecodeGsmPrefixed(result, true)
  }

  /** The decoding step with Kc's length byte counted: an answer whose
      SRES length is not below -1 never raises. */
  function DecodeGsmResult(result: seq<byte>, lengthRequired: bool): (r: Result<GsmOutcome, Exception>)
    ensures !lengthRequired ==> r == DecodeGsmPlain(result)
    ensures lengthRequired && |result| == 0 ==> r == Failure(IndexOutOfBounds)
    ensures lengthRequired && |result| > 0 && Signed(result[0]) >= -1 ==> r.Success?
  {
    if !lengthRequired then DecodeGsmPlain(result)
    else if |result| == 0 then Failure(IndexOutOfBounds)
    else DecodeGsmPrefixed(result, false)
  }

  /** SRES of one byte, then Kc's length 1 with no Kc byte behind it: the
      source's check lets it through and the read overruns, the corrected
      check ends the answer. */
  lemma GsmKcOverrun()
    ensures DecodeGsmResultAsWritten([1, 0xaa, 1], true) == Failure(IndexOutOfBounds)
    ensures DecodeGsmResult([1, 0xaa, 1], true) == Success(Abort)
  {
    var r: seq<byte> := [1, 0xaa, 1];
    assert Signed(r[0]) == 1 && Signed(r[2]) == 1;
    assert MakeHexRange(r, 1, 1) == Success(MakeHex(r[1..2]));
  }

  /** A length-prefixed GSM answer: SRES and Kc, each after its length. */
  function EncodeGsmPrefixed(sres: seq<byte>, kc: seq<byte>): (r: seq<byte>)
    requires |sres| < 128 && |kc| < 128
    ensures |r| == 2 + |sres| + |kc|
  {
    [|sres|] + sres + [|kc|] + kc
  }

  /** Where the fields of an encoded GSM answer lie. */
  lemma GsmPrefixedLayout(sres: seq<byte>, kc: seq<byte>)
    requires |sres| < 128 && |kc| < 128
    ensures var r, a := EncodeGsmPrefixed(sres, kc), |sres|;
      r[0] == a && r[a + 1] == |kc| && r[1..1 + a] == sres && r[a + 2..] == kc
  {
    var r := EncodeGsmPrefixed(sres, kc);
    var a := |sres|;
    assert r == [a] + sres + [|kc|] + kc;
    assert r[1..1 + a] == sres;
  }

  /** The corrected decoder on an answer laid out as two length-prefixed
      fields that exactly fill it. */
  lemma DecodeGsmLayout(r: seq<byte>, a: nat, b: nat)
    requires a < 128 && b < 128 && |r| == 2 + a + b && r[0] == a && r[a + 1] == b
    ensures DecodeGsmResult(r, true) == Success(Fragment(":" + MakeHex(r[a + 2..]) + ":" + MakeHex(r[1..1 + a])))
  {
    assert r[a + 2..a + 2 + b] == r[a + 2..];
    assert MakeHexRange(r, 1, a) == Success(MakeHex(r[1..1 + a]));
    assert MakeHexRange(r, a + 2, b) == Success(MakeHex(r[a + 2..]));
  }

  /** A well-formed length-prefixed answer decodes to ":kc:sres" in hex. */
  lemma DecodeGsmRoundTrip(sres: seq<byte>, kc: seq<byte>)
    requires |sres| < 128 && |kc| < 128
    ensures DecodeGsmResult(EncodeGsmPrefixed(sres, kc), true) ==
      Success(Fragment(":" + MakeHex(kc) + ":" + MakeHex(sres)))
  {
    GsmPrefixedLayout(sres, kc);
    DecodeGsmLayout(EncodeGsmPrefixed(sres, kc), |sres|, |kc|);
  }

  /** The card's answer to one parsed challenge: the USIM first, then the
      SIM, then the SIM again with the challenge re-read without its length
      byte (and the answer then read without length bytes). `None` if that
      re-reading fails. */
  function GsmCardAnswer(challenge: string, rand: seq<byte>, card: Card): (r: Option<(Option<string>, bool)>)
    ensures r.Some? && r.value.1 ==> r.value.0.Some?
    ensures IsHexString(challenge) ==> r.Some?
  {
    var usim := card.iccAuthentication(AppUsim, AuthEapSim, card.base64Encode(rand));
    if usim.Some? then Some((usim, true))
    else
      var sim := card.iccAuthentication(AppSim, AuthEapSim, card.base64Encode(rand));
      if sim.Some? then Some((sim, true))
      else match ParseHex(Some(challenge), false)
        case Failure(_) => None
        case Success(raw) => Some((card.iccAuthentication(AppSim, AuthEapSim, card.base64Encode(raw)), false))
  }

  /** The contribution of one challenge. */
  function GsmChallenge(challenge: Option<string>, card: Card, asWritten: bool): (r: Result<GsmOutcome, Exception>)
    ensures challenge.None? || challenge.value == "" || !IsHexString(challenge.value) ==> r == Success(Skip)
  {
    if challenge.None? || challenge.value == "" then Success(Skip)
    else match ParseHex(challenge, true)
      case Failure(_) => Success(Skip)
      case Success(rand) =>
        match GsmCardAnswer(challenge.value, rand, card)
        case None => Success(Skip)
        case Some((tm, lengthRequired)) =>
          if tm.None? || |tm.value| <= 4 then Success(Abort)
          else if asWritten then DecodeGsmResultAsWritten(card.base64Decode(tm.value), lengthRequired)
          else DecodeGsmResult(card.base64Decode(tm.value), lengthRequired)
  }

  /** The challenges from `data` on, with the fragments so far in `acc`. */
  function GsmChallenges(data: seq<Option<string>>, card: Card, asWritten: bool, acc: string)
    : (r: Result<Option<string>, Exception>)
    ensures data == [] ==> r == Success(Some(acc))
    ensures r.Success? && r.value.Some? ==> |acc| <= |r.value.value| && r.value.value[..|acc|] == acc
    decreases |data|
  {
    if data == [] then Success(Some(acc))
    else
      var outcome :- GsmChallenge(data[0], card, asWritten);
      match outcome
      case Skip => GsmChallenges(data[1..], card, asWritten, acc)
      case Abort => Success(None)
      case Fragment(t) =>
        var r := GsmChallenges(data[1..], card, asWritten, acc + t);
        assert r.Success? && r.value.Some? ==> r.value.value[..|acc|] == (acc + t)[..|acc|];
        r
  }

  /** `getGsmSimAuthResponse`: null without a telephony manager; otherwise
      the fragments of all challenges in order, or null as soon as one
      challenge ends the answer. */
  function GsmSimAuthResponse(data: seq<Option<string>>, card: Card, asWritten: bool)
    : (r: Result<Option<string>, Exception>)
    ensures !card.present ==> r == Success(None)
    ensures card.present ==> r == GsmChallenges(data, card, asWritten, "")
  {
    if !card.present then Success(None) else GsmChallenges(data, card, asWritten, "")
  }

  /** The challenges can be taken in two runs: once the first run has
      produced an answer, the second continues from it. */
  lemma {:induction false} GsmChallengesAppend(a: seq<Option<string>>, b: seq<Option<string>>, card: Card,
                                               asWritten: bool, acc: string)
    requires GsmChallenges(a, card, asWritten, acc).Success?
    requires GsmChallenges(a, card, asWritten, acc).value.Some?
    ensures GsmChallenges(a + b, card, asWritten, acc) ==
            GsmChallenges(b, card, asWritten, GsmChallenges(a, card, asWritten, acc).value.value)
    decreases |a|
  {
    if a == [] {
      assert a + b == b;
    } else {
      assert (a + b)[0] == a[0] && (a + b)[1..] == a[1..] + b;
      var outcome := GsmChallenge(a[0], card, asWritten).value;
      match outcome
      case Skip => GsmChallengesAppend(a[1..], b, card, asWritten, acc);
      case Fragment(t) => GsmChallengesAppend(a[1..], b, card, asWritten, acc + t);
    }
  }
}

=== FILE: wakeup_controller.dfy ===
/** `WifiWakeupController`: turns Wi-Fi back on when the user comes near a
    saved network, but not while the networks seen when Wi-Fi was turned
    off are still in range
    (service/java/com/android/server/wifi/WifiWakeupController.java).

    The controller is a record of its fields; each broadcast or settings
    change is a pure step that returns the next record and what the
    controller asked of the framework. The network selector is a
    parameter. */
module WakeupController {
  import opened Wrappers
  import opened WifiTypes

  /** `WifiManager.WIFI_STATE_DISABLED` / `WIFI_STATE_ENABLED`. */
  const WIFI_STATE_DISABLED: int := 1
  const WIFI_STATE_ENABLED: int := 3
  /** `WifiManager.WIFI_AP_STATE_DISABLED`. */
  const WIFI_AP_STATE_DISABLED: int := 11

  datatype Controller = Controller(
    savedSsids: set<string>,
    savedSsidsInLastScan: set<string>,
    savedSsidsOnDisable: set<string>,
    wifiState: int,
    wifiApState: int,
    wakeupEnabled: bool,
    recommendationsEnabled: bool,
    airplaneModeEnabled: bool)

  /** What reaches the controller: the four broadcasts it listens to (an
      absent state extra is `None`; a null configured-network list is
      `None`), any other broadcast, and a change of the three global
      settings it observes. */
  datatype Event =
    | WifiApStateChanged(apState: Option<int>)
    | WifiStateChanged(state: Option<int>)
    | ScanResultsAvailable(scanResults: seq<ScanDetail>)
    | ConfiguredNetworksChanged(configs: Option<seq<WifiConfig>>)
    | OtherBroadcast
    | SettingsChanged(wakeup: bool, recommendations: bool, airplane: bool)

  /** What the controller asked of the framework during one step. */
  datatype Effect = Effect(selectorCalled: Option<seq<ScanDetail>>, enableWifi: bool)

  const NO_EFFECT: Effect := Effect(None, false)

  /** The subset invariant: the in-range sets only hold saved SSIDs. */
  ghost predicate Valid(c: Controller) {
    c.savedSsidsInLastScan <= c.savedSsids && c.savedSsidsOnDisable <= c.savedSsids
  }

  /** The controller after construction: empty sets, both state fields at
      Java's default 0, and the settings read once. */
  function Initial(wakeup: bool, recommendations: bool, airplane: bool): (c: Controller)
    ensures Valid(c) && c.savedSsids == {} && c.wifiState != WIFI_STATE_DISABLED
    ensures c.wifiApState != WIFI_AP_STATE_DISABLED
  {
    Controller({}, {}, {}, 0, 0, wakeup, recommendations, airplane)
  }

  /** The SSIDs of the configurations that the controller tracks: scored by
      the platform (not externally) and with a non-empty SSID. */
  function SavedSsidsOf(configs: seq<WifiConfig>): (s: set<string>)
    ensures forall ssid :: ssid in s <==>
      exists i :: 0 <= i < |configs| && !configs[i].useExternalScores &&
                  configs[i].ssid == Some(ssid) && ssid != ""
  {
    if configs == [] then {}
    else
      var c := configs[0];
      var rest := SavedSsidsOf(configs[1..]);
      assert forall i :: 1 <= i < |configs| ==> configs[i] == configs[1..][i - 1];
      if !c.useExternalScores && c.ssid.Some? && c.ssid.value != "" then {c.ssid.value} + rest else rest
  }

  /** The saved SSIDs among the quoted SSIDs of the scan. */
  function SavedInScan(saved: set<string>, scanResults: seq<ScanDetail>): (s: set<string>)
    ensures forall ssid :: ssid in s <==>
      ssid in saved && exists i :: 0 <= i < |scanResults| && Quote(scanResults[i].ssid) == ssid
  {
    if scanResults == [] then {}
    else
      var rest := SavedInScan(saved, scanResults[1..]);
      SavedInScanCons(saved, scanResults, (d: ScanDetail) => Quote(d.ssid), rest);
      var q := Quote(scanResults[0].ssid);
      if q in saved then {q} + rest else rest
  }

  /** Membership in the saved keys of `xs` splits over its first element,
      whatever `key` reads from an element. */
  lemma SavedInScanCons<T>(saved: set<string>, xs: seq<T>, key: T -> string, rest: set<string>)
    requires xs != []
    requires forall ssid :: ssid in rest <==>
      ssid in saved && exists i :: 0 <= i < |xs[1..]| && key(xs[1..][i]) == ssid
    ensures var q := key(xs[0]);
      forall ssid :: ssid in (if q in saved then {q} + rest else rest) <==>
        ssid in saved && exists i :: 0 <= i < |xs| && key(xs[i]) == ssid
  {
    var q := key(xs[0]);
    forall ssid
      ensures ssid in (if q in saved then {q} + rest else rest) <==>
        ssid in saved && exists i :: 0 <= i < |xs| && key(xs[i]) == ssid
    {
      if i :| 0 <= i < |xs| && key(xs[i]) == ssid {
        if i > 0 {
          assert key(xs[1..][i - 1]) == ssid;
        }
      }
      if j :| 0 <= j < |xs[1..]| && key(xs[1..][j]) == ssid {
        assert key(xs[j + 1]) == ssid;
      }
    }
  }

  /** `handleConfiguredNetworksChanged`. */
  function OnConfiguredNetworksChanged(c: Controller, configs: Option<seq<WifiConfig>>): (c': Controller)
    ensures configs.None? ==> c' == c
    ensures configs.Some? ==>
      c'.savedSsids == SavedSsidsOf(configs.value) &&
      c'.savedSsidsInLastScan == c.savedSsidsInLastScan * c'.savedSsids &&
      c'.savedSsidsOnDisable == c.savedSsidsOnDisable * c'.savedSsids &&
      c' == c.(savedSsids := c'.savedSsids, savedSsidsInLastScan := c'.savedSsidsInLastScan,
               savedSsidsOnDisable := c'.savedSsidsOnDisable)
  {
    match configs
    case None => c
    case Some(list) =>
      var saved := SavedSsidsOf(list);
      c.(savedSsids := saved,
         savedSsidsInLastScan := c.savedSsidsInLastScan * saved,
         savedSsidsOnDisable := c.savedSsidsOnDisable * saved)
  }

  /** `handleWifiStateChanged`: ENABLED forgets the networks seen at
      disable time, DISABLED adds those in the last scan. An absent extra
      reads as -1. */
  function OnWifiStateChanged(c: Controller, state: Option<int>): (c': Controller)
    ensures c'.wifiState == state.GetOr(-1)
    ensures c'.wifiState == WIFI_STATE_ENABLED ==> c'.savedSsidsOnDisable == {}
    ensures c'.wifiState == WIFI_STATE_DISABLED ==>
      c'.savedSsidsOnDisable == c.savedSsidsOnDisable + c.savedSsidsInLastScan
    ensures c'.wifiState != WIFI_STATE_ENABLED && c'.wifiState != WIFI_STATE_DISABLED ==>
      c'.savedSsidsOnDisable == c.savedSsidsOnDisable
    ensures c'.savedSsids == c.savedSsids && c'.savedSsidsInLastScan == c.savedSsidsInLastScan
    ensures c'.wifiApState == c.wifiApState && c'.airplaneModeEnabled == c.airplaneModeEnabled
  {
    var s := state.GetOr(-1);
    if s == WIFI_STATE_ENABLED then c.(wifiState := s, savedSsidsOnDisable := {})
    else if s == WIFI_STATE_DISABLED then
      c.(wifiState := s, savedSsidsOnDisable := c.savedSsidsOnDisable + c.savedSsidsInLastScan)
    else c.(wifiState := s)
  }

  /** `handleScanResultsAvailable`. The last-scan set becomes the saved
      SSIDs in range. Then, only with airplane mode off and both Wi-Fi and
      the soft AP disabled: while some network seen at disable time is still
      in range nothing happens; otherwise that set is emptied, the selector
      is asked (disconnected, untrusted networks allowed), and Wi-Fi is
      enabled iff it picks a network. */
  function OnScanResults(c: Controller, scanResults: seq<ScanDetail>,
                         selectNetwork: seq<ScanDetail> -> Option<WifiConfig>): (r: (Controller, Effect))
    ensures r.0.savedSsidsInLastScan == SavedInScan(c.savedSsids, scanResults)
    ensures r.0.savedSsids == c.savedSsids
    ensures c.airplaneModeEnabled || c.wifiState != WIFI_STATE_DISABLED || c.wifiApState != WIFI_AP_STATE_DISABLED ==>
      r.1 == NO_EFFECT && r.0.savedSsidsOnDisable == c.savedSsidsOnDisable
    ensures r.1.selectorCalled.Some? <==>
      !c.airplaneModeEnabled && c.wifiState == WIFI_STATE_DISABLED && c.wifiApState == WIFI_AP_STATE_DISABLED &&
      c.savedSsidsOnDisable * SavedInScan(c.savedSsids, scanResults) == {}
    ensures r.1.selectorCalled.Some? ==>
      r.1.selectorCalled.value == scanResults && r.0.savedSsidsOnDisable == {} &&
      (r.1.enableWifi <==> selectNetwork(scanResults).Some?)
    ensures r.1.selectorCalled.None? ==> !r.1.enableWifi
    ensures r.0.savedSsidsOnDisable <= c.savedSsidsOnDisable
  {
    var inScan := SavedInScan(c.savedSsids, scanResults);
    var c1 := c.(savedSsidsInLastScan := inScan);
    if c.airplaneModeEnabled || c.wifiState != WIFI_STATE_DISABLED || c.wifiApState != WIFI_AP_STATE_DISABLED then
      (c1, NO_EFFECT)
    else
      var stillInRange := c.savedSsidsOnDisable * inScan;
      if stillInRange != {} then (c1.(savedSsidsOnDisable := stillInRange), NO_EFFECT)
      else (c1.(savedSsidsOnDisable := {}), Effect(Some(scanResults), selectNetwork(scanResults).Some?))
  }

  /** The broadcast receiver and the settings observer. Broadcasts are
      ignored unless both the wake-up and the recommendation settings are
      on; an absent AP state extra reads as disabled. */
  function Step(c: Controller, e: Event, selectNetwork: seq<ScanDetail> -> Option<WifiConfig>)
    : (r: (Controller, Effect))
    ensures !e.SettingsChanged? && !(c.wakeupEnabled && c.recommendationsEnabled) ==> r == (c, NO_EFFECT)
    ensures e.SettingsChanged? ==>
      r == (c.(wakeupEnabled := e.wakeup, recommendationsEnabled := e.recommendations,
               airplaneModeEnabled := e.airplane), NO_EFFECT)
    ensures r.1.enableWifi ==> e.ScanResultsAvailable? && c.wifiState == WIFI_STATE_DISABLED
  {
    match e
    case SettingsChanged(w, rec, air) =>
      (c.(wakeupEnabled := w, recommendationsEnabled := rec, airplaneModeEnabled := air), NO_EFFECT)
    case _ =>
      if !c.wakeupEnabled || !c.recommendationsEnabled then (c, NO_EFFECT)
      else match e
        case WifiApStateChanged(s) => (c.(wifiApState := s.GetOr(WIFI_AP_STATE_DISABLED)), NO_EFFECT)
        case WifiStateChanged(s) => (OnWifiStateChanged(c, s), NO_EFFECT)
        case ScanResultsAvailable(results) => OnScanResults(c, results, selectNetwork)
        case ConfiguredNetworksChanged(configs) => (OnConfiguredNetworksChanged(c, configs), NO_EFFECT)
        case OtherBroadcast => (c, NO_EFFECT)
  }

  /** Every step keeps the in-range sets inside the saved set. */
  lemma StepPreservesValid(c: Controller, e: Event, selectNetwork: seq<ScanDetail> -> Option<WifiConfig>)
    requires Valid(c)
    ensures Valid(Step(c, e, selectNetwork).0)
  {
    if e.ScanResultsAvailable? && c.wakeupEnabled && c.recommendationsEnabled {
      var r := OnScanResults(c, e.scanResults, selectNetwork);
      assert r.0.savedSsidsInLastScan <= c.savedSsids;
    }
  }

  /** Whatever the events, the in-range sets stay inside the saved set. */
  function Run(c: Controller, events: seq<Event>, selectNetwork: seq<ScanDetail> -> Option<WifiConfig>)
    : (c': Controller)
    requires Valid(c)
    ensures Valid(c')
    decreases |events|
  {
    if events == [] then c
    else
      StepPreservesValid(c, events[0], selectNetwork);
      Run(Step(c, events[0], selectNetwork).0, events[1..], selectNetwork)
  }

  /** While a network seen when Wi-Fi was turned off is still in range, a
      scan never turns Wi-Fi back on, whatever the selector would say. */
  lemma NoWakeWhileDisabledNetworkInRange(c: Controller, scanResults: seq<ScanDetail>,
                                          selectNetwork: seq<ScanDetail> -> Option<WifiConfig>, ssid: string)
    requires ssid in c.savedSsidsOnDisable && ssid in c.savedSsids
    requires exists i :: 0 <= i < |scanResults| && Quote(scanResults[i].ssid) == ssid
    ensures !Step(c, ScanResultsAvailable(scanResults), selectNetwork).1.enableWifi
    ensures Step(c, ScanResultsAvailable(scanResults), selectNetwork).1.selectorCalled.None?
  {
    assert ssid in c.savedSsidsOnDisable * SavedInScan(c.savedSsids, scanResults);
  }
}

=== FILE: wifi_types.dfy ===
/** Framework records shared by the network-selection, evaluator, wake-up and
    notification models: scan results and saved network configurations,
    reduced to the fields those components read. */
module WifiTypes {
  import opened Wrappers

  /** The band a scan result was seen on (`ScanResult.is24GHz` / `is5GHz`). */
  datatype Band = Band24GHz | Band5GHz | OtherBand

  /** One scan result together with the parsed-IE flag the Passpoint
      evaluator reads (`ScanDetail` / `ScanResult`). */
  datatype ScanDetail = ScanDetail(
    ssid: string,
    bssid: string,
    level: int,
    band: Band,
    capabilities: string,
    isInterworking: bool)

  /** A saved network (`WifiConfiguration`). `open` is what
      `WifiConfigurationUtil.isConfigForOpenNetwork` says of it;
      `candidateBssid` is the BSSID of the candidate scan result an evaluator
      recorded in its selection status. */
  datatype WifiConfig = WifiConfig(
    networkId: int,
    ssid: Option<string>,
    ephemeral: bool,
    open: bool,
    useExternalScores: bool,
    candidateBssid: Option<string>)

  /** A scan result paired with the configuration it matched, if any. */
  datatype Candidate = Candidate(detail: ScanDetail, config: Option<WifiConfig>)

  /** A network-score key (`NetworkKey` wrapping a `WifiKey`). */
  datatype NetworkKey = NetworkKey(quotedSsid: string, bssid: string)

  /** `"\"" + ssid + "\""`. */
  function Quote(ssid: string): (q: string)
    ensures |q| == |ssid| + 2 && q[0] == '"' && q[|q| - 1] == '"' && q[1..|q| - 1] == ssid
  {
    "\"" + ssid + "\""
  }

  /** Quoting is injective: distinct SSIDs stay distinct once quoted. */
  lemma QuoteInjective(a: string, b: string)
    ensures Quote(a) == Quote(b) ==> a == b
  {
    if Quote(a) == Quote(b) {
      assert a == Quote(a)[1..|Quote(a)| - 1];
    }
  }

  /** The keys to ask a score manager for: every detail the cache has no
      score for, in scan order, skipping those whose key construction throws
      (`keyValid` false). Shared by `WifiNetworkSelector` and
      `RecommendedNetworkEvaluator`. */
  function UnscoredKeys(details: seq<ScanDetail>, isScored: ScanDetail -> bool,
                        keyValid: ScanDetail -> bool): (keys: seq<NetworkKey>)
    ensures |keys| <= |details|
    ensures forall k :: k in keys <==>
      exists d :: d in details && !isScored(d) && keyValid(d) && k == NetworkKey(Quote(d.ssid), d.bssid)
  {
    if details == [] then []
    else
      var d := details[0];
      var rest := UnscoredKeys(details[1..], isScored, keyValid);
      if !isScored(d) && keyValid(d) then [NetworkKey(Quote(d.ssid), d.bssid)] + rest else rest
  }

  /** Unscored keys of a concatenation are the keys of each part, in order. */
  lemma {:induction false} UnscoredKeysAppend(a: seq<ScanDetail>, b: seq<ScanDetail>,
                                              isScored: ScanDetail -> bool, keyValid: ScanDetail -> bool)
    ensures UnscoredKeys(a + b, isScored, keyValid) == UnscoredKeys(a, isScored, keyValid) + UnscoredKeys(b, isScored, keyValid)
  {
    if a == [] {
      assert a + b == b;
    } else {
      assert (a + b)[1..] == a[1..] + b;
      UnscoredKeysAppend(a[1..], b, isScored, keyValid);
    }
  }
}

=== FILE: wrappers.dfy ===
/** Failure-compatible wrappers shared by every module of the model.
    `Option` stands for a Java/C++ reference that may be null; `Result`
    stands for a computation that may throw. */
module Wrappers {

  /** A value that may be absent (a null reference in the original). */
  datatype Option<+T> = None | Some(value: T) {

    /** The wrapped value, or `default` when absent. */
    function GetOr(default: T): T {
      match this
      case Some(v) => v
      case None => default
    }
  }

  /** A value, or the exception that prevented computing it. */
  datatype Result<+R, +E> = Success(value: R) | Failure(error: E) {

    predicate IsFailure() {
      Failure?
    }

    function PropagateFailure<U>(): Result<U, E>
      requires Failure?
    {
      Failure(error)
    }

    function Extract(): R
      requires Success?
    {
      value
    }
  }
}
